=== FILE: README.md ===
# archify, modelled in Dafny

archify trims the CPU-architecture slices an app does not need out of the "fat" (multi-architecture)
executables inside macOS application bundles, and can re-sign the result. This project models its core
in three parts.

- **The main application** (`archify/`). It copies a bundle into an output directory and classifies each
  file by the MIME type `file --mime-type` reports for it. It reads the slices with `lipo -info`, picks the
  slice to keep for the target architecture and thins with `lipo -thin`. It re-signs each binary with `ldid`
  when that is enabled, and the whole bundle with `codesign`, keeping entitlements when asked.
  The project also models:
  - the app state that drives this work;
  - the scans that list universal apps and estimate the bytes they would save;
  - the batch processor, the size calculator and the language-pack cleaner;
  - the sort and filter logic of the two list views.
- **The privileged helper tool** (`archify/archifyhelper/`). Its service endpoint takes a listener, and it offers
  duplicate, remove, extract-and-sign, permission and full-disk-access operations. It has its own copy of
  the file operations and of the universal-app scan.
- **The Python script** (`archify.py`). It duplicates a bundle with `rsync`, walks it, classifies each file
  with `file`, thins with `lipo` and re-signs with `ldid`.

The machine the code runs on is a `Host.Machine` object. Its fields are:
- the file tree;
- the trace of launched external tools;
- the number of UUIDs drawn so far.

Its constant oracles stand for what the model cannot see:
- the exit status and output of every external tool;
- the file `lipo -thin` leaves behind;
- directory listings, file attributes and sizes, and FileManager failures;
- the UUIDs.

Each imperative operation is a method on that machine, or on the class that owns the state in the
source. Each method is proved equal to a specification function of the old state. The properties are
lemmas about those functions:
- slice resolution;
- which files are thinned and which are left alone;
- the size sums;
- ranking orders, which are permutations and sorted;
- the bookkeeping of the language cleaner;
- when a batch run ends.

## Model

| member | source | states |
|---|---|---|
| Arch.LastColonPiece | archify/FileOperations.swift:216-219 | the piece kept from `lipo -info` output is the last non-empty one between colons, so it holds no colon |
| Arch.ArchTokens | archify/FileOperations.swift:216-220 | every architecture token is non-empty and holds no space |
| Arch.LipoArchitectures | archify/FileOperations.swift:117-138 | `getArchitectures` gives nil exactly when the output has no non-empty colon piece, and otherwise the same tokens `isUniversal` reads |
| Arch.Resolve | archify/FileOperations.swift:222-247 | the slice chosen is always one the binary has; a one-architecture binary is never thinned; an exact match wins; a target other than arm64/arm64e has no fallback |
| Arch.ResolveIsPreferred | archify/FileOperations.swift:222-247 | the `isUniversal` decision chain equals a priority definition: exact match, then the other arm64 flavour, then x86_64 for an arm target on an i386-carrying binary |
| Arch.X86FallbackConditions | archify/FileOperations.swift:238-245 | x86_64 is kept for another target only for arm64/arm64e when neither arm flavour is present and both i386 and x86_64 are |
| Arch.EmptyTargetNeverResolves | archify/FileOperations.swift:220-247 | an empty target never selects a slice |
| Arch.NoTokensNoChoice | archify/FileOperations.swift:222-247 | output without tokens never selects a slice |
| Arch.TokensOfSummary | archify/FileOperations.swift:216-220 | parsing a `lipo -info` summary line `…: a b c\n` gives back exactly its architecture words |
| Arch.ThinBinaryIsLeftAlone | archify/FileOperations.swift:222-224 | a thin binary's summary names one architecture, so no slice is ever chosen for it |
| Signing.TempPath | archify/archifyhelper/Signer.swift:87-88 | an entitlements file lies in the temporary directory and ends in `.xml` |
| Signing.SaveFiles | archify/archifyhelper/Signer.swift:87-96 | saving leaves the files alone or adds exactly the text file at the next temporary path |
| Signing.ExtractLdidFiles | archify/archifyhelper/Signer.swift:56-97 | `ldid -e` extraction changes no file except, on success, the new entitlements file |
| Signing.ExtractCodesignFiles | archify/archifyhelper/Signer.swift:137-177 | the same for `codesign -d --entitlements` |
| Signing.ExtractLdidLaunches | archify/archifyhelper/Signer.swift:57-65 | extraction launches exactly `ldid -e bin` |
| Signing.ExtractCodesignLaunches | archify/archifyhelper/Signer.swift:138-146 | extraction launches exactly `codesign -d --entitlements - --xml path` |
| Signing.SignStepRestores | archify/archifyhelper/Signer.swift:35-53 | the signing run plus the removal of the entitlements file restores the files it started from |
| Signing.SignStepLaunches | archify/archifyhelper/Signer.swift:35-41 | the signing step launches its one run |
| Signing.SignBinLaunches | archify/archifyhelper/Signer.swift:19-54 | `signBin` launches `ldid -S bin` without entitlements; with them `ldid -e bin`, then `ldid -S<file> bin` only when a file was produced |
| Signing.SignAppLaunches | archify/archifyhelper/Signer.swift:99-135 | `signApp` launches `codesign --force --deep -s - [--entitlements f] app`, skipped when wanted entitlements are unavailable |
| Signing.ExtractedFile | archify/archifyhelper/Signer.swift:74-92 | an extracted file lies in the temp directory, ends in `.xml` and holds the trimmed non-empty output of a run that exited with 0 |
| Signing.SignBinLeavesNoTrace | archify/archifyhelper/Signer.swift:19-54 | when the temp name was free and its removal succeeds, `signBin` leaves the file table as it found it |
| Signing.SignAppLeavesNoTrace | archify/archifyhelper/Signer.swift:99-135 | the same for `signApp` |
| Signing.LdidSuccessMessage | archify/archifyhelper/Signer.swift:42-46 | the success line is logged exactly when `ldid` exits with 0 |
| Signing.CodesignSuccessMessage | archify/archifyhelper/Signer.swift:123-127 | the success line is logged exactly when `codesign` exits with 0 |
| Signing.Signer.constructor | archify/archifyhelper/Signer.swift:14-17 | the signer keeps the app state and the `ldid` path it is given |
| Signing.Signer.Save | archify/archifyhelper/Signer.swift:87-96 | draws one UUID and writes the entitlements file, as `SaveSpec` says; the app state is otherwise unchanged |
| Signing.Signer.ExtractEntitlementsWithLdid | archify/archifyhelper/Signer.swift:56-97 | result, launches, log and files are those of `ExtractLdidSpec` |
| Signing.Signer.ExtractEntitlementsWithCodesign | archify/archifyhelper/Signer.swift:137-177 | result, launches, log and files are those of `ExtractCodesignSpec` |
| Signing.Signer.SignBin | archify/archifyhelper/Signer.swift:19-54 | launches, log and files are those of `SignBinSpec` |
| Signing.Signer.SignApp | archify/archifyhelper/Signer.swift:99-135 | launches, log and files are those of `SignAppSpec` |
| Arch.ArchWordsFree | archify/FileOperations.swift:216-220 | an architecture name holds neither a colon nor a space, so it survives the colon and space splits whole |
| Arch.LastPieceAfterColon | archify/FileOperations.swift:216-219 | the last colon piece of `head:tail` is `tail` for a non-empty, colon-free tail |
| Arch.SummaryTailHasNoColon | archify/FileOperations.swift:216-219 | the architecture list of a `lipo -info` summary holds no colon |
| Arch.TrimSummaryTail | archify/FileOperations.swift:218-220 | trimming the list after the colon leaves the names joined by single spaces |
| Signing.NotThin | archify/archifyhelper/Signer.swift:19-54 | none of the signer's `codesign` or `ldid` runs is a `lipo -thin` request, so none changes a file |
| Sizes.EntrySize | archify/UniversalApps.swift:170-178 | an entry adds something only when its attributes can be read, and then exactly its size |
| Sizes.DirectorySizeAnyOrder | archify/UniversalApps.swift:165-183 | the directory total does not depend on the order the enumerator yields entries |
| Sizes.EntryCounted | archify/UniversalApps.swift:169-175 | every entry is counted in full: the total is at least each entry's size |
| Sizes.UnreadableAddNothing | archify/UniversalApps.swift:171-178 | a directory none of whose entries can be read totals 0 |
| Sizes.CalculateDirectorySize | archify/UniversalApps.swift:165-183 | the total is `DirectorySize`: the sum of the readable entry sizes, 0 for a directory that cannot be enumerated (the same code is at archify/BatchProcessing.swift:160-175 and archify/archifyhelper/UniversalApps.swift:187-205) |
| Sizes.SumEntrySizes | archify/UniversalApps.swift:169-179 | the enumeration loop returns the sum of the entries' terms |
| Sizes.EntrySizeOf | archify/UniversalApps.swift:170-178 | one entry's contribution is its term |
| FileOps.EchoLine | archify/FileOperations.swift:53-60 | a line is echoed only when it ends in a slash, and the echo ends in `/*` |
| FileOps.RsyncEcho | archify/FileOperations.swift:49-63 | the echo has at most one line per output line, each ending in `/*` |
| FileOps.FileOperations.constructor | archify/FileOperations.swift:15-17 | the object keeps the app state it is given; `inHelper` picks the helper's copy |
| FileOps.FileOperations.IsMach | archify/FileOperations.swift:163-202 | result, launches and log are those of `IsMachSpec`: unreadable files, symbolic links and alias names are not Mach-O, otherwise `file --mime-type` must mention `application/x-mach-binary` (helper copy: archify/archifyhelper/FileOperations.swift:133-173) |
| FileOps.FileOperations.IsUniversal | archify/FileOperations.swift:204-252 | runs `lipo -info` and returns the slice `Arch.Resolve` chooses; a launch failure is logged and gives nil |
| FileOps.FileOperations.GetArchitectures | archify/FileOperations.swift:117-138 | launches `/usr/bin/lipo -info path` and returns nil on a launch failure, otherwise `Arch.LipoArchitectures` of its output |
| FileOps.FileOperations.CleanBin | archify/FileOperations.swift:150-161 | launches `lipo bin -thin arch -output bin` and logs only a launch failure |
| FileOps.FileOperations.ProcessBinary | archify/FileOperations.swift:140-148 | thins the binary, then signs it with `ldid` only when signing is wanted, `useLDID` is set and an `ldid` is found |
| FileOps.FileOperations.ProcessEntry | archify/FileOperations.swift:91-97 | an entry is processed only when it is Mach-O and a slice is chosen for it |
| FileOps.FileOperations.CodesignApp | archify/FileOperations.swift:259-262 | the bundle-wide signing is `Signer.signApp` |
| FileOps.FileOperations.ProcessEntries | archify/FileOperations.swift:86-100 | every enumerated entry is processed in turn, as `EntriesSpec` describes, and the shared state is left as it was (helper copy: archify/archifyhelper/FileOperations.swift:81-91) |
| FileOps.FileOperations.ExtractAndSignBinaries | archify/FileOperations.swift:73-115 | state, launches, log and completion are those of `ExtractSpec`: a directory that cannot be enumerated logs a failure (and, in the app's copy only, ends processing), otherwise every entry in turn, then the notify block (helper copy: archify/archifyhelper/FileOperations.swift:69-105) |
| FileOps.FileOperations.Finish | archify/FileOperations.swift:103-114 | logs "All binaries processed.", signs the bundle when `useCodesign` is set, then records the final size |
| FileOps.FileOperations.RecordFinalSize | archify/FileOperations.swift:109-113 | `finalAppSize` becomes the size of the old output directory, which is logged; processing ends and `outputDir` moves up to its parent; nothing else changes |
| FileOps.FileOperations.EchoRsync | archify/FileOperations.swift:49-63 | the log grows by exactly the echo of the rsync output lines |
| FileOps.FileOperations.DuplicateApp | archify/FileOperations.swift:27-71 | result, launches, log and files are those of `DuplicateSpec`: a missing output directory throws, otherwise the copy's directory is created and rsync runs |
| FileOpsFacts.IsMachIff | archify/FileOperations.swift:163-202 | `isMach` answers yes exactly when the file is readable, not a link, not alias-typed, `file` can be launched and its output contains `application/x-mach-binary`; it changes no file |
| FileOpsFacts.Decision | archify/FileOperations.swift:92-93 | the slice the pipeline keeps for a path is decided only for a path that exists |
| FileOpsFacts.IsUniversalFacts | archify/FileOperations.swift:204-252 | `isUniversal` changes no file, answers with one of the reported tokens, and the app's and the helper's copies (archify/archifyhelper/FileOperations.swift:175-223) answer alike |
| FileOpsFacts.DefaultLipoNamed | archify/FileOperations.swift:23-25 | the fallback `/usr/bin/lipo` is recognised as `lipo` |
| FileOpsFacts.CleanBinInPlace | archify/FileOperations.swift:150-161 | `lipo bin -thin arch -output bin` leaves the thinned slice at the binary's own path when it exits with 0, and otherwise changes nothing |
| FileOpsFacts.SearchPathKeys | archify/AppState.swift:101-116 | where `ldid` is found depends only on which paths exist |
| FileOpsFacts.SignsWithKeys | archify/FileOperations.swift:142-146 | whether a binary is signed depends only on which paths exist |
| FileOpsFacts.ProcessBinaryLaunches | archify/FileOperations.swift:140-148 | `processBinary` always thins first, and launches anything more exactly when signing is wanted, `useLDID` is set and an `ldid` is found |
| FileOpsFacts.ThinnedTo | archify/FileOperations.swift:92-96 | thinning only ever happens at a path that exists |
| FileOpsFacts.EntryFiles | archify/FileOperations.swift:91-97 | an entry's task rewrites only that entry's own path, and only when it is Mach-O and a slice is chosen |
| FileOpsFacts.ProcessBinaryFiles | archify/FileOperations.swift:140-148 | on success the thinned slice replaces the binary, and harmless signing leaves the table as thinning left it |
| FileOpsFacts.AppendPathInjective | archify/FileOperations.swift:91 | different entries of one directory have different full paths |
| FileOpsFacts.FreshEntry | archify/FileOperations.swift:87-101 | a new entry's path is not among the paths of the entries already seen |
| FileOpsFacts.ClosedFormStep | archify/FileOperations.swift:87-101 | one more entry's task, on top of the closed form of the earlier ones, gives the closed form with that entry |
| FileOpsFacts.PipelineFilesClosedForm | archify/FileOperations.swift:87-101 | the tasks over a list of distinct entries leave each entry's path holding its thinned slice when it was thinned, and every other path as it was |
| FileOpsFacts.PipelineFilesKeys | archify/FileOperations.swift:87-101 | the pipeline adds and removes no path |
| FileOpsFacts.LastEntryStep | archify/FileOperations.swift:87-101 | the last entry's task only changes that entry's path |
| FileOpsFacts.PipelineOrderIndependent | archify/FileOperations.swift:83-101 | the order in which the concurrent tasks run does not change the resulting file table |
| FileOpsFacts.ExtractCompletion | archify/archifyhelper/FileOperations.swift:69-105 | the helper's completion is `(false, message)` exactly when the directory cannot be enumerated (and then no file changes and nothing runs), `(true, nil)` otherwise, with processing ended |
| FileOpsFacts.FinishFacts | archify/FileOperations.swift:103-114 | the notify block runs codesign once exactly when `useCodesign` is set, records the size of `outputDir`, ends processing and moves `outputDir` to its parent, and changes no other setting |
| FileOpsFacts.EchoOfDirectory | archify/FileOperations.swift:53-61 | a directory line of one to five components is echoed as those components followed by `/*` |
| FileOpsFacts.DuplicateWithoutOutput | archify/FileOperations.swift:30-32 | `duplicateApp` throws "Output directory does not exist" when the output directory is missing, and changes nothing |
| FileOpsFacts.DuplicateSuccess | archify/FileOperations.swift:27-71 | on success the copy's path is the output directory joined with the bundle's last component, and it exists as a directory |
| FileOpsFacts.DuplicateLogsCommand | archify/FileOperations.swift:37-43 | once the copy's directory exists, the first message logged is the rsync command |
| FileOpsFacts.CopyFacts | archify/FileOperations.swift:37-70 | the rsync step keeps the file table and answers the copy's path when rsync can be launched |
| FileOpsFacts.CopyLogsCommand | archify/FileOperations.swift:41-43 | the message logged is `Running <rsync> -r -v -aHz <appDir> <outputDir>` |
| FileOpsFacts.RsyncCommandText | archify/FileOperations.swift:39-42 | the joined argument vector reads `-r -v -aHz <appDir> <outputDir>` |
| FileOpsFacts.ThinnedToLocal | archify/FileOperations.swift:92-96 | whether a path is thinned depends only on what the file table holds at that path |
| FileOpsFacts.NotThinRsync | archify/FileOperations.swift:27-71 | the `rsync` run is never taken for a thinning request, so copying never thins |
| AppStateModel.DecodeEncode | archify/AppState.swift:67-99 | `fromDictionary(toDictionary(s))` gives back all twelve fields, as long as both sizes fit in 64 bits |
| AppStateModel.DecodeEmpty | archify/AppState.swift:84-98 | missing keys decode to the defaults, so `launchSign` comes back false although a fresh `AppState` has it true |
| AppStateModel.FlushesCompose | archify/AppState.swift:54-65 | flushing two batches of messages one after the other gives the same log text as flushing them together |
| AppStateModel.SearchPath | archify/AppState.swift:106-115 | the result is `<dir>/ldid` for the first `PATH` entry where that file exists, and the bundled fallback when there is none |
| AppStateModel.LdidLocation | archify/AppState.swift:101-104 | a non-empty configured `ldidPath` is returned verbatim without searching |
| AppStateModel.AppState.constructor | archify/AppState.swift:13-36 | a fresh object has the declared defaults (`launchSign` true, everything else empty, false or 0) and an empty buffer |
| AppStateModel.AppState.ToDictionary | archify/AppState.swift:67-82 | decoding the dictionary gives every field back; a size beyond 64 bits would come back as 0 |
| AppStateModel.AppState.FromDictionary | archify/AppState.swift:84-99 | the new object's fields are those decoded from the dictionary, with nothing buffered |
| AppStateModel.AppState.AppendLog | archify/AppState.swift:42-46 | the message is added at the end of the buffer and nothing else changes |
| AppStateModel.AppState.FlushLog | archify/AppState.swift:54-65 | the buffer is emptied and its messages, one per line, each followed by a newline, are added to `logMessages` (nothing when it was empty) |
| AppStateModel.AppState.StartProcessing | archify/AppState.swift:118-127 | it proceeds exactly when both directories are set; otherwise it logs the request for both and clears `isProcessing`; when it proceeds it logs "Starting..." |
| AppStateModel.AppState.FindLdid | archify/AppState.swift:101-116 | the result is `LdidLocation`: the configured path, else the `PATH` search, else the bundled copy |
| UniversalAppsModel.IndexOf | archify/UniversalApps.swift:132 | the index found holds the word and no earlier one does; no index means the word is absent |
| UniversalAppsModel.ParseDetailedInfo | archify/UniversalApps.swift:119-139 | the sizes the loop over the non-empty output lines builds are those of the line-by-line parse `ParseLines` |
| UniversalAppsModel.HandleLine | archify/UniversalApps.swift:124-138 | one pass of the loop moves the parser state exactly as the line rules `ParseLine` say |
| UniversalAppsModel.ArchLineRules | archify/UniversalApps.swift:125-129 | a trimmed line starting with `architecture` never gives a size, and names its second word when it has two words |
| UniversalAppsModel.OtherLineRules | archify/UniversalApps.swift:130-137 | any other line names no architecture, and gives the number after the first word `size` exactly when it contains `size` |
| UniversalAppsModel.ArchLineHasNoSize | archify/UniversalApps.swift:125-137 | the two branches are exclusive: a line that opens a section records no size |
| UniversalAppsModel.ParsedCurrent | archify/UniversalApps.swift:120-129 | after any prefix of the output the current architecture is the last one named so far |
| UniversalAppsModel.ParsedSizes | archify/UniversalApps.swift:119-139 | an architecture has a recorded size exactly when some size line followed a line naming it, and the size kept is the last such one |
| UniversalAppsModel.UnneededPlusKept | archify/UniversalApps.swift:141-142 | what is counted as savable plus the size of the kept architecture is the whole recorded size |
| UniversalAppsModel.SumUnneeded | archify/UniversalApps.swift:141-142 | the reduction over the filtered dictionary yields the sum of every architecture's size other than the system's |
| UniversalAppsModel.CountsUpTo | archify/UniversalApps.swift:89-95 | the progress counts reported are 1, 2, ..., n |
| UniversalAppsModel.AppUnneededAnyOrder | archify/UniversalApps.swift:65-101 | the app's estimate is the same in whatever order the concurrent tasks take the enumerated entries |
| UniversalAppsModel.NeverUniversalForEmptyTarget | archify/UniversalApps.swift:30-42 | `isAppUniversal` asks for the empty target, so no entry of any app is ever found universal |
| UniversalAppsModel.NoDecisionForEmptyTarget | archify/FileOperations.swift:204-252 | `isUniversal` chooses no slice for the empty target, whatever the binary |
| UniversalAppsModel.ChosenInListing | archify/archifyhelper/UniversalApps.swift:35-42 | scanning the `Contents/MacOS` listing for a chosen executable finds one exactly when one exists |
| UniversalAppsModel.SelectedFacts | archify/archifyhelper/UniversalApps.swift:30-46 | each reported path is `/Applications/<name>` for a listed, accepted name, in listing order, and distinct names give distinct paths |
| UniversalAppsModel.QualifyingAppsFacts | archify/archifyhelper/UniversalApps.swift:24-49 | every app the helper's search reports is a listed non-default bundle whose path ends in `.app`, and none is reported twice |
| UniversalAppsModel.FetchDefaultMacOSApps | archify/archifyhelper/UniversalApps.swift:51-66 | the set is every name listed in either system application directory, whatever its suffix; an unreadable directory adds nothing |
| UniversalAppsModel.BiggerFirstIsStrict | archify/archifyhelper/UniversalApps.swift:182 | the comparison `$0.1 > $1.1` is a strict weak order, so sorting by it is well defined |
| UniversalAppsModel.KeptIff | archify/archifyhelper/UniversalApps.swift:172-180 | a row is kept exactly when its app was found and its estimate is that app's positive estimate |
| UniversalAppsModel.UniversalApps.CountFilesInApp | archify/UniversalApps.swift:44-52 | the count is the number of entries the enumerator yields, 0 when the app cannot be enumerated |
| UniversalAppsModel.UniversalApps.UnneededForBinary | archify/UniversalApps.swift:104-149 | nil when the bundled `lipo` cannot be launched, otherwise the savable bytes its report lists; exactly one `lipo -detailed_info` launch is recorded and no file changes |
| UniversalAppsModel.UniversalApps.EntryEstimate | archify/UniversalApps.swift:75-87 | an entry adds its binary's savable bytes only when it is Mach-O and a slice would be chosen for the system architecture, nothing otherwise |
| UniversalAppsModel.UniversalApps.CalculateUnneededArchSize | archify/UniversalApps.swift:54-102 | the total is the sum of every enumerated entry's estimate, the progress handler sees 1 to the entry count, and no file changes |
| UniversalAppsModel.UniversalApps.SumEstimates | archify/UniversalApps.swift:65-97 | the enumeration loop adds each entry's estimate once and reports each count once |
| UniversalAppsModel.UniversalApps.EntryTerm | archify/UniversalApps.swift:69-96 | one task yields exactly its entry's estimate |
| UniversalAppsModel.UniversalApps.IsAppUniversal | archify/UniversalApps.swift:30-42 | the answer is whether some entry is Mach-O and has a slice chosen for the empty target, which is never the case |
| UniversalAppsModel.UniversalApps.EntryChoice | archify/UniversalApps.swift:34-35 | the check on one entry is `isMach` followed, for a Mach-O file, by `isUniversal`'s decision |
| UniversalAppsModel.UniversalApps.FindUniversalBinaryApps | archify/UniversalApps.swift:14-28 | the main application's search over `/Applications` always returns the empty list |
| UniversalAppsModel.UniversalApps.ProduceSortedList | archify/UniversalApps.swift:151-163 | with no universal app ever found, the main application's ranked list is empty |
| UniversalAppsModel.UniversalApps.SizeApps | archify/UniversalApps.swift:155-160 | the rows kept are the found apps with a positive estimate, each with that estimate, in search order |
| UniversalAppsModel.UniversalApps.FindUniversalTopLevelApps | archify/archifyhelper/UniversalApps.swift:24-49 | the helper reports, in listing order, the `.app` names of `/Applications` that are not default apps and have an executable with a slice chosen for the host |
| UniversalAppsModel.UniversalApps.SearchApplications | archify/archifyhelper/UniversalApps.swift:30-46 | the loop over the top level reports `/Applications/<name>` for exactly the qualifying names, in order |
| UniversalAppsModel.UniversalApps.AppQualifies | archify/archifyhelper/UniversalApps.swift:32-44 | the body for one name accepts it exactly when it qualifies |
| UniversalAppsModel.UniversalApps.HasUniversalExecutable | archify/archifyhelper/UniversalApps.swift:34-43 | the executable loop stops with a hit exactly when some listed executable has a slice chosen for the host |
| UniversalAppsModel.UniversalApps.FirstChosen | archify/archifyhelper/UniversalApps.swift:36-42 | the loop up to its `break` finds a hit exactly when one of the executables has one |
| UniversalAppsModel.UniversalApps.IsChosen | archify/archifyhelper/UniversalApps.swift:37-38 | one pass asks `isUniversal` about one executable and reports its answer |
| UniversalAppsModel.UniversalApps.ProduceSortedListWithProgress | archify/archifyhelper/UniversalApps.swift:165-185 | the handler is called before and after each found app with the count done and the total; completion receives the apps with a positive estimate, as a permutation of the kept rows sorted larger saving first |
| UniversalAppsModel.UniversalApps.RankApps | archify/archifyhelper/UniversalApps.swift:172-180 | two progress calls per app, with counts k and k+1, and the kept rows in search order |
| UniversalAppsModel.UniversalApps.AppTerm | archify/archifyhelper/UniversalApps.swift:174 | one app's estimate, the per-file progress dropped |
| UniversalAppsModel.UniversalApps.constructor | archify/UniversalApps.swift:10-12 | each copy builds its `FileOperations` over a fresh `AppState`, the helper's copy with the helper's behaviour |
| Common.BundlesIn | archify/Common.swift:19-20 | a name is added from a directory exactly when it is listed there and ends in `.app`; an unreadable directory adds nothing |
| Common.DefaultMacOSApps | archify/Common.swift:10-29 | the set always holds Xcode and Safari, and otherwise exactly the `.app` names listed in either system application directory |
| Common.DefaultAppsWithinHelperSet | archify/Common.swift:18-22 | apart from Xcode and Safari, the main application's default set is the `.app` part of what the helper's `fetchDefaultMacOSApps` collects |
| SizeCalculationModel.Tagged | archify/SizeCalculation.swift:54-81 | one row per chosen path, in the order given, pairing the path with its estimate |
| SizeCalculationModel.TaggedStep | archify/SizeCalculation.swift:79-81 | finishing one more task appends that app's row to the rows of the earlier ones |
| SizeCalculationModel.RankedRows | archify/SizeCalculation.swift:79-96 | after ranking, a row is present exactly when it pairs a chosen app with that app's estimate, and there is one row per chosen app |
| SizeCalculationModel.SizeCalculation.constructor | archify/SizeCalculation.swift:12-25 | a new object keeps the given machine architecture, has no chosen apps and no rows, and is neither calculating nor showing a result |
| SizeCalculationModel.SizeCalculation.CalculateUnneededArchSizes | archify/SizeCalculation.swift:40-98 | when every task is done the rows are a permutation of the chosen apps' estimates sorted larger saving first, calculation is over, the result is shown and no file changed |
| SizeCalculationModel.SizeCalculation.CollectEstimates | archify/SizeCalculation.swift:54-91 | the task loop appends each chosen app with its estimate, in order, and counts every app |
| SizeCalculationModel.SizeCalculation.EstimateOne | archify/SizeCalculation.swift:63-77 | one task yields exactly that app's estimate and changes no file |
| LanguageCleanerModel.Flip | archify/LanguageCleaner.swift:212-216 | the element flips membership and every other element keeps it |
| LanguageCleanerModel.Without | archify/LanguageCleaner.swift:184 | the list keeps exactly the elements different from the one removed and grows no longer |
| LanguageCleanerModel.Selectable | archify/LanguageCleaner.swift:42 | the filtered list holds exactly the languages other than "Base", and keeps a repetition-free list free of repetitions |
| LanguageCleanerModel.GrayedOutCount | archify/LanguageCleaner.swift:59-61 | only "Base" is grayed out: it is never offered, and a list without repetitions loses exactly that one entry when it has it |
| LanguageCleanerModel.IsAllLanguagesSelected | archify/LanguageCleaner.swift:41-44 | with nothing chosen the count test holds exactly when nothing but "Base" is offered, and when it holds no more languages are chosen than offered |
| LanguageCleanerModel.IsAllLanguagesSelectedIn | archify/LanguageCleaner.swift:50-53 | the same for one app: with nothing chosen in it, the test holds exactly when it offers nothing but "Base" |
| LanguageCleanerModel.IsLanguageSelectedInApp | archify/LanguageCleaner.swift:55-57 | a language chosen globally counts in every app; with no global choice only the app's own choice counts |
| LanguageCleanerModel.IsRemoveButtonEnabled | archify/LanguageCleaner.swift:46-48 | any global choice enables the button; a disabled button means no language counts as chosen in any app |
| LanguageCleanerModel.AllSelectedMeansEverySelectable | archify/LanguageCleaner.swift:41-44 | for a choice drawn from the offered languages of a repetition-free list, the count test holds exactly when every language but "Base" is chosen |
| LanguageCleanerModel.AllSelectedComparesCountsOnly | archify/LanguageCleaner.swift:41-44 | the count test can hold while an offered language is not chosen (offered "de", "en"; chosen "de", "fr") |
| LanguageCleanerModel.AppsMatching | archify/LanguageCleaner.swift:37 | an app is kept exactly when its lower-cased name contains the lower-cased search text |
| LanguageCleanerModel.FilteredApps | archify/LanguageCleaner.swift:33-39 | every app for an empty search, otherwise the apps matching the search text ignoring case |
| LanguageCleanerModel.IndexOfId | archify/LanguageCleaner.swift:220 | the index found is the first app with the id; none means no app has it |
| LanguageCleanerModel.ToggleAppSpec | archify/LanguageCleaner.swift:211-217 | the app's membership in the selection flips and nothing else changes |
| LanguageCleanerModel.ToggleAppTwice | archify/LanguageCleaner.swift:211-217 | toggling an app twice restores the state |
| LanguageCleanerModel.ToggleLanguageInAppSpec | archify/LanguageCleaner.swift:219-228 | the language flips in the first app with the id only; an unknown id changes nothing |
| LanguageCleanerModel.SetInEvery | archify/LanguageCleaner.swift:240-246 | every app gains or loses the one language and is otherwise unchanged |
| LanguageCleanerModel.ToggleGlobalLanguageEffect | archify/LanguageCleaner.swift:230-247 | "Base" cannot be toggled; any other language flips globally, every app then agrees with the global choice on it, and no other choice changes |
| LanguageCleanerModel.SelectAllIn | archify/LanguageCleaner.swift:256-262 | each app's choice becomes all its languages but "Base", or empty, and nothing else in it changes |
| LanguageCleanerModel.SelectAllFromPartial | archify/LanguageCleaner.swift:249-263 | from a partial choice, select-all chooses every language but "Base" globally and in every app |
| LanguageCleanerModel.SelectAllFromFull | archify/LanguageCleaner.swift:249-263 | from a full choice with something on offer, select-all clears the global choice and every app's |
| LanguageCleanerModel.ToggleSelectAllLanguagesInEffect | archify/LanguageCleaner.swift:265-274 | the per-app select-all flips that app's count test (unless it offers nothing but "Base") and leaves every other app alone |
| LanguageCleanerModel.LanguageRemovals | archify/LanguageCleaner.swift:154-157 | an entry is produced for a language exactly when it is chosen in the app or globally, once per folder it lists |
| LanguageCleanerModel.AppRemovalsStep | archify/LanguageCleaner.swift:153-159 | one more language appends its entries to those of the earlier languages |
| LanguageCleanerModel.AppRemovalsIff | archify/LanguageCleaner.swift:153-159 | the entries for one app are exactly the folders of its listed languages chosen in it or globally |
| LanguageCleanerModel.RemovalsIff | archify/LanguageCleaner.swift:149-160 | `pathsToRemove` holds exactly the folders of the languages chosen in their app or globally, among the languages each app lists |
| LanguageCleanerModel.RemovalsIffSelectedInApp | archify/LanguageCleaner.swift:55-57 | a folder is collected exactly when `isLanguageSelectedInApp` holds for its language in its app, the app lists the language and the folder is one of its folders |
| LanguageCleanerModel.SomethingToRemoveNeedsChoice | archify/LanguageCleaner.swift:46-48 | there is something to remove only while the remove button is enabled |
| LanguageCleanerModel.BookRemoval | archify/LanguageCleaner.swift:184-189 | the bookkeeping changes only the apps and the offered languages, and keeps the number of apps |
| LanguageCleanerModel.BookRemovalEffect | archify/LanguageCleaner.swift:184-189 | the folder leaves its language's list, the language leaves the app (and, as written, the offered list) when the list empties, and nothing else in any app changes |
| LanguageCleanerModel.BookRemovalKeepsCovered | archify/LanguageCleaner.swift:184-189 | dropping the language from the offered list only when no app still lists it keeps every listed language on offer |
| LanguageCleanerModel.BookRemovalDropsSharedLanguage | archify/LanguageCleaner.swift:185-188 | as written, removing app A's only "fr" folder takes "fr" off the offered list although app B still lists it |
| LanguageCleanerModel.RemovalRunOnlyEntries | archify/LanguageCleaner.swift:176-200 | every path a removal run deletes is a listed folder or lies inside one, every recorded path is gone, earlier records stay, the selection is untouched and no app is added or dropped |
| LanguageCleanerModel.RemovalRunKeepsCovered | archify/LanguageCleaner.swift:176-200 | with the corrected bookkeeping, a whole removal run keeps every listed language on offer |
| LanguageCleanerModel.ScanFolderStep | archify/LanguageCleaner.swift:113-121 | one more entry of the app extends the folder lists and the languages seen by that entry alone |
| LanguageCleanerModel.AddLprojKeys | archify/LanguageCleaner.swift:112-123 | a language has a folder list after an app's scan exactly when it had one before or some entry is a `.lproj` folder for it |
| LanguageCleanerModel.AddLprojPaths | archify/LanguageCleaner.swift:112-123 | a full path is in a language's list exactly when it was before or is one of the app's `.lproj` folders for that language |
| LanguageCleanerModel.ScanItemNames | archify/LanguageCleaner.swift:96-111 | one scanned item keeps the app names in step with the folder map |
| LanguageCleanerModel.ScanItemLanguages | archify/LanguageCleaner.swift:109-123 | one scanned item keeps the languages seen equal to those of the apps |
| LanguageCleanerModel.ScanItemFacts | archify/LanguageCleaner.swift:96-127 | one scanned item keeps the first pass well formed and names the item exactly when it is a non-default folder |
| LanguageCleanerModel.ScanItemsFacts | archify/LanguageCleaner.swift:93-131 | after the first pass the app names are exactly the non-default entries of /Applications recorded as folders, each once, and the languages seen are exactly those of the apps |
| LanguageCleanerModel.BuiltFromStep | archify/LanguageCleaner.swift:133-135 | building the next app keeps the built apps in step with the names |
| LanguageCleanerModel.ScanCovers | archify/LanguageCleaner.swift:133-139 | a scan result offers every language of every app |
| LanguageCleanerModel.AppRemovalsOf | archify/LanguageCleaner.swift:153-159 | the inner collection loop yields the entries `AppRemovals` describes |
| LanguageCleanerModel.ScanFolder | archify/LanguageCleaner.swift:112-123 | the inner scan loop appends each `.lproj` folder to its language's list and records every language seen |
| LanguageCleanerModel.ScanEntry | archify/LanguageCleaner.swift:114-121 | one entry adds its folder and language when it ends in `.lproj` and changes nothing otherwise |
| LanguageCleanerModel.FirstPass | archify/LanguageCleaner.swift:93-131 | the outer scan loop builds the well-formed first-pass result `ScanOf` |
| LanguageCleanerModel.BuildApp | archify/LanguageCleaner.swift:134 | a new app has a fresh UUID, the name, its folders, its languages sorted without repetition, and nothing chosen |
| LanguageCleanerModel.BuildApps | archify/LanguageCleaner.swift:133-135 | one app per name of the first pass, each built as `BuildApp` says, one UUID drawn per app |
| LanguageCleanerModel.LanguageCleaner.constructor | archify/LanguageCleaner.swift:19-31 | a new cleaner has no apps, no languages, no choices, is neither scanning nor removing, with empty search text and log |
| LanguageCleanerModel.LanguageCleaner.ToggleApp | archify/LanguageCleaner.swift:211-217 | the state becomes `ToggleAppSpec` of the old state |
| LanguageCleanerModel.LanguageCleaner.ToggleLanguageInApp | archify/LanguageCleaner.swift:219-228 | the state becomes `ToggleLanguageInAppSpec` of the old state |
| LanguageCleanerModel.LanguageCleaner.ToggleGlobalLanguage | archify/LanguageCleaner.swift:230-247 | the state becomes `ToggleGlobalLanguageSpec` of the old state |
| LanguageCleanerModel.LanguageCleaner.ToggleSelectAllLanguages | archify/LanguageCleaner.swift:249-263 | the state becomes `ToggleSelectAllLanguagesSpec` of the old state |
| LanguageCleanerModel.LanguageCleaner.FollowSelectAll | archify/LanguageCleaner.swift:256-262 | the app loop sets every app's choice by the count test taken on the state it starts from |
| LanguageCleanerModel.LanguageCleaner.ToggleSelectAllLanguagesIn | archify/LanguageCleaner.swift:265-274 | the state becomes `ToggleSelectAllLanguagesInSpec` of the old state |
| LanguageCleanerModel.LanguageCleaner.CollectRemovals | archify/LanguageCleaner.swift:149-160 | the collection loops yield `Removals` of the apps and the global choice |
| LanguageCleanerModel.LanguageCleaner.Book | archify/LanguageCleaner.swift:184-189 | the state becomes the as-written bookkeeping `BookRemoval` of the old state |
| LanguageCleanerModel.LanguageCleaner.RemoveEach | archify/LanguageCleaner.swift:176-200 | the removal loop leaves the state, the files and the removed list `RemovalRun` describes, each folder going with everything inside it |
| LanguageCleanerModel.LanguageCleaner.RemoveOne | archify/LanguageCleaner.swift:181-197 | the folder and everything inside it are removed and booked exactly when the helper reports success; a failure changes nothing |
| LanguageCleanerModel.LanguageCleaner.RemoveSelected | archify/LanguageCleaner.swift:148-209 | nothing happens without a helper; otherwise each collected folder is removed in turn, with everything inside it, and the log joins the removed paths with newlines |
| LanguageCleanerModel.LanguageCleaner.ScanForAppsAndLanguages | archify/LanguageCleaner.swift:81-146 | the non-default entries of /Applications recorded as folders (a symbolic link is not followed) become the apps with sorted languages, the languages seen become the sorted offered list, no app is expanded, every listed language is on offer and earlier choices are kept |
| LanguageCleanerModel.LanguageCleaner.ScanSkipping | archify/LanguageCleaner.swift:92-145 | the same, for a given set of skipped names |
| HelperToolModel.ReplyOf | archify/archifyhelper/HelperTool.swift:41-48 | the reply is `(true, nil)` exactly when the file-manager call did not throw, and otherwise `(false, description)` |
| HelperToolModel.ShouldAcceptNewConnection | archify/archifyhelper/HelperTool.swift:31-37 | every connection is accepted, whoever the caller is |
| HelperToolModel.TildeExpands | archify/archifyhelper/HelperTool.swift:91 | a path written `~/rest` is expanded under the home directory |
| HelperToolModel.AbsoluteStays | archify/archifyhelper/HelperTool.swift:91 | an absolute path is left as written by tilde expansion |
| HelperToolModel.Probes | archify/archifyhelper/HelperTool.swift:81-91 | the four probed paths after expansion: the two Safari files under the home directory, the TCC database and the Time Machine preferences at the root |
| HelperToolModel.FirstDenied | archify/archifyhelper/HelperTool.swift:90-103 | the index found is the first missing or unreadable path and all earlier ones are accessible; none found means all are accessible |
| HelperToolModel.CheckFullDiskAccess | archify/archifyhelper/HelperTool.swift:78-112 | exactly one reply, true exactly when all four expanded paths exist and are readable; the log holds at most one failure line, for the first path that failed, then the verdict |
| HelperToolModel.RemoveFile | archify/archifyhelper/HelperTool.swift:39-49 | any path is removed if the file manager can, a directory together with every path below it, and exactly one reply reports the outcome; nothing else changes |
| HelperToolModel.RemovedFolderTakesContents | archify/archifyhelper/HelperTool.swift:41-43 | removing a folder removes the files inside it and leaves a sibling whose name merely starts with the folder's name |
| HelperToolModel.SetFilePermissions | archify/archifyhelper/HelperTool.swift:66-76 | exactly one reply: failure for a missing file, otherwise as the file manager decides for that mode |
| HelperToolModel.ExtractAndSignBinaries | archify/archifyhelper/HelperTool.swift:51-64 | the settings are decoded from the dictionary, the helper's pipeline runs on them, and its completion becomes the one reply; the files, launches and draws are those of the pipeline |
| HelperToolModel.DuplicateApp | archify/archifyhelper/HelperTool.swift:13-15 | the request does nothing and no reply is ever sent |
| BatchProcessingModel.FirstIndex | archify/BatchProcessing.swift:137 | the index found is the first row of the app, -1 when no row has it |
| BatchProcessingModel.FindApp | archify/BatchProcessing.swift:83 | the row found belongs to the app; none means no row does |
| BatchProcessingModel.RemoveFirst | archify/BatchProcessing.swift:137-139 | without a row nothing changes; otherwise exactly the app's first row is taken out and every other row stays |
| BatchProcessingModel.RemoveRow | archify/BatchProcessing.swift:137-139 | looking up the index and removing at it yields `RemoveFirst` |
| BatchProcessingModel.SelectedTotalAnyOrder | archify/BatchProcessing.swift:82-87 | the setup total does not depend on the order in which the selection set is iterated |
| BatchProcessingModel.WithRow | archify/BatchProcessing.swift:107-112 | the apps of the selection that have a row, each kept exactly when its row exists, never more than the selection |
| BatchProcessingModel.SendAllPending | archify/BatchProcessing.swift:107-157 | the requests in flight are for exactly the selected apps that have a row, one each, in the order visited |
| BatchProcessingModel.SendAllFacts | archify/BatchProcessing.swift:107-157 | every selected app is either counted as skipped or has a request in flight, one request per app in flight goes out without signing or entitlements for the system architecture, the sizes in flight add up to the setup total, and sending books nothing |
| BatchProcessingModel.SendAllCounts | archify/BatchProcessing.swift:107-118 | skipped plus in-flight apps are the whole selection, and the original sizes in flight add up to the setup total |
| BatchProcessingModel.SelectedTotalSnoc | archify/BatchProcessing.swift:82-87 | the setup total of a selection is that of all but its last app plus the last one's total |
| BatchProcessingModel.SendStepSum | archify/BatchProcessing.swift:112-121 | one turn of the sending loop accounts for one app and adds its total to what is in flight |
| BatchProcessingModel.SendAllRequests | archify/BatchProcessing.swift:120-121 | the requests sent are exactly one per app in flight, in order |
| BatchProcessingModel.SendAllKeeps | archify/BatchProcessing.swift:107-121 | sending leaves the rows, the totals and the saving untouched |
| BatchProcessingModel.RequestsFor | archify/BatchProcessing.swift:120-121 | each request names the app, the system architecture, no signing, no entitlements and a fresh settings dictionary |
| BatchProcessingModel.RequestsForAppend | archify/BatchProcessing.swift:120-121 | one more app in flight adds its request at the end |
| BatchProcessingModel.SendAllKeepsProcessing | archify/BatchProcessing.swift:112-116 | as written, the sending loop never fires the completion and never ends processing, whatever it skips |
| BatchProcessingModel.SendAllWithCheck | archify/BatchProcessing.swift:112-116 | with a completion check after a skip, the sending loop completes the run exactly when every app was skipped |
| BatchProcessingModel.ReplyEffects | archify/BatchProcessing.swift:122-154 | a successful reply records the saving for the app, removes it from the selection and its first row from the list, and adds to the total saved; a failed one only logs; either way the app is counted |
| BatchProcessingModel.ReplyStepAccounted | archify/BatchProcessing.swift:123-132 | one reply keeps `initialTotalSize == finalTotalSize + totalSavedSpace`, and traps exactly when the app grew |
| BatchProcessingModel.ReplyAllAccounted | archify/BatchProcessing.swift:121-156 | all the replies keep the books balanced, and the process traps exactly when an app in flight reported success but grew |
| BatchProcessingModel.ReplyAllCompletion | archify/BatchProcessing.swift:147-154 | each reply counts one app, and the completion fires once, at the reply that brings the count to the total, and not before |
| BatchProcessingModel.RunBalances | archify/BatchProcessing.swift:62-158 | whatever the helper replies, a run that does not trap ends with `initialTotalSize == finalTotalSize + totalSavedSpace` |
| BatchProcessingModel.RunCompletesAfterReplies | archify/BatchProcessing.swift:103-158 | when some selected app has a row, a run that does not trap fires the completion once and ends processing |
| BatchProcessingModel.AllSkipped | archify/BatchProcessing.swift:112-121 | an app with a row always puts a request in flight |
| BatchProcessingModel.SkippedRunNeverEnds | archify/BatchProcessing.swift:103-158 | as written, a run in which no selected app has a row never fires its completion and stays processing |
| BatchProcessingModel.SkippedTotal | archify/BatchProcessing.swift:82-87 | apps without a row add nothing to the setup total |
| BatchProcessingModel.NothingInFlight | archify/BatchProcessing.swift:112-116 | when no app has a row, no request is sent |
| BatchProcessingModel.CheckedRunAlwaysEnds | archify/BatchProcessing.swift:103-158 | with the completion check also made after a skip, every run that does not trap fires its completion once and ends processing |
| BatchProcessingModel.Savings | archify/BatchProcessing.swift:50-54 | the rows read back as `(path, savable size)` pairs, one per row |
| BatchProcessingModel.PrefixBelowTotal | archify/BatchProcessing.swift:82-87 | the running total of the setup loop never exceeds the full total, so it traps only when the full total does not fit |
| BatchProcessingModel.BatchProcessing.constructor | archify/BatchProcessing.swift:12-32 | a new object has no rows, no selection, zero totals, an empty log and is neither scanning nor processing |
| BatchProcessingModel.BatchProcessing.SelectAllApps | archify/BatchProcessing.swift:177-179 | exactly the listed paths become selected, nothing else changes |
| BatchProcessingModel.BatchProcessing.DeselectAllApps | archify/BatchProcessing.swift:181-183 | the selection is emptied, nothing else changes |
| BatchProcessingModel.BatchProcessing.StartCalculatingSizes | archify/BatchProcessing.swift:34-60 | the rows become a permutation of the helper search's kept apps sorted larger saving first, each with the total size of its directory; scanning ends and no file changes. It calls `ProduceSortedListWithProgress` because the call at archify/BatchProcessing.swift:43 has the signature of the helper's `produceSortedList` (archify/archifyhelper/UniversalApps.swift:165), not that of the main application's (archify/UniversalApps.swift:151) |
| BatchProcessingModel.BatchProcessing.WithTotalSizes | archify/BatchProcessing.swift:50-54 | each `(app, savable size)` keeps its place and gets its directory's total size |
| BatchProcessingModel.BatchProcessing.StartProcessingSelectedApps | archify/BatchProcessing.swift:62-101 | the state becomes `StartSpec`: nothing for an empty selection, a logged failure without the helper, a trap when the setup total overflows, a stop without full disk access, and otherwise the processing run |
| BatchProcessingModel.BatchProcessing.ResetCounters | archify/BatchProcessing.swift:65-71 | processing starts with an empty log, zero totals and no savings |
| BatchProcessingModel.BatchProcessing.SumSelected | archify/BatchProcessing.swift:82-87 | the setup loop fits exactly when the selection's total fits in 64 bits, and then both totals are that sum; otherwise the process traps |
| BatchProcessingModel.BatchProcessing.ProcessApps | archify/BatchProcessing.swift:103-158 | the state becomes `ProcessSpec` of the old state: the sending loop, then the replies in the order sent |
| BatchProcessingModel.BatchProcessing.SendRequests | archify/BatchProcessing.swift:107-157 | the sending loop leaves the state, the count and the requests in flight `SendAll` describes |
| BatchProcessingModel.BatchProcessing.HandleReplies | archify/BatchProcessing.swift:121-156 | the replies leave the state and the count `ReplyAll` describes |
| BatchProcessingModel.BatchProcessing.SendRequest | archify/BatchProcessing.swift:108-121 | one turn of the sending loop does what `SendStep` describes |
| BatchProcessingModel.BatchProcessing.BookSaving | archify/BatchProcessing.swift:124-142 | the success branch does what `Saved` describes |
| BatchProcessingModel.BatchProcessing.BookSize | archify/BatchProcessing.swift:128-132 | the processed row is appended, the saving recorded for the app, added to the total saved and taken from the final total |
| BatchProcessingModel.BatchProcessing.HandleReply | archify/BatchProcessing.swift:122-155 | one reply does what `ReplyStep` describes |
| BatchProcessingView.SortOrder.Toggle | archify/BatchProcessingView.swift:493-500 | the key stays and the direction flips |
| BatchProcessingView.SortOrder.IsAscending | archify/BatchProcessingView.swift:486-491 | the direction stored in the order, whichever the key |
| BatchProcessingView.ToggleTwice | archify/BatchProcessingView.swift:493-500 | toggling twice gives the order back |
| BatchProcessingView.BeforeIsStrict | archify/BatchProcessingView.swift:295-300 | every comparison the screen can pick is a strict weak order, as `sorted(by:)` requires |
| BatchProcessingView.FilteredAndSortedApps | archify/BatchProcessingView.swift:290-301 | the list holds the rows the search keeps, each as often as in `appSizes`, and none other, sorted by the chosen comparison; rows tied under it (equal savable size, or equal path) keep their order in `appSizes` |
| Sorting.SortByStable | archify/BatchProcessingView.swift:295-300 | the sort is stable: the elements tied with any element come out in the order they had in the input |
| Sorting.InsertKeepsTies | archify/BatchProcessingView.swift:295-300 | an inserted element lands in front of the elements tied with it, and the rest keep their order |
| Sorting.LexLessIsStrict | archify/UniversalAppsView.swift:159-168 | string `<` is irreflexive and transitive, and ties under it are transitive |
| BatchProcessingView.EmptySearchShowsEverything | archify/BatchProcessingView.swift:291-293 | with the search box empty every row is shown, only reordered |
| BatchProcessingView.SizeDescendingRanks | archify/BatchProcessingView.swift:298-299 | ordered by size descending, the savable sizes never grow down the list |
| UniversalAppsView.DescriptionsDistinct | archify/UniversalAppsView.swift:364-376 | the labels are "Name (A-Z)", "Name (Z-A)" and "Type", and no two orders share one |
| UniversalAppsView.BeforeIsStrict | archify/UniversalAppsView.swift:159-168 | each of the three comparisons is a strict weak order |
| UniversalAppsView.FilteredAndSortedApps | archify/UniversalAppsView.swift:154-169 | the list holds the apps passing both the search and the type filter, each as often as loaded, and none other, sorted by the chosen comparison; apps tied under it (the same type, for the type order) keep their order in `apps` |
| Sorting.FilterThenSortStable | archify/UniversalAppsView.swift:154-169 | filtering then sorting keeps the kept elements tied with any element in the order they have in the input |
| UniversalAppsView.RawValue | archify/UniversalAppsView.swift:379-381 | every raw value is a non-empty lower-case word, and only `.all` has "all" |
| UniversalAppsView.TypeFilterIgnoresCase | archify/UniversalAppsView.swift:157 | a type filter other than `.all` keeps an app exactly when its lower-cased type equals the filter's raw value |
| UniversalAppsView.BackgroundColor | archify/UniversalAppsView.swift:210-219 | green exactly for "universal" and blue exactly for "native", ignoring case; grey otherwise |
| UniversalAppsView.BadgeAgreesWithTypeFilter | archify/UniversalAppsView.swift:157 | an app's badge is green exactly when the "universal" filter keeps it, and blue exactly when the "native" filter does |
| UniversalAppsView.LoadOnlyOnce | archify/UniversalAppsView.swift:342-352 | once a load has finished, `loadApps()` starts no search and changes nothing; before that it starts one |
| UniversalAppsView.ReloadAlwaysSearches | archify/UniversalAppsView.swift:354-362 | a reload always starts a search, shows what it found, and never marks the model as loaded |
| UniversalAppsView.UniversalAppsViewModel.constructor | archify/UniversalAppsView.swift:334-340 | a new model has no apps, is loading, has an empty search, sorts by name ascending, shows every type and has not loaded |
| UniversalAppsView.UniversalAppsViewModel.LoadApps | archify/UniversalAppsView.swift:342-345 | the loading state becomes `LoadAppsSpec` of the old one; the search, order and filter are untouched |
| UniversalAppsView.UniversalAppsViewModel.LoadFinished | archify/UniversalAppsView.swift:346-350 | the loading state becomes `LoadFinishedSpec`: the apps found, no longer loading, loaded |
| UniversalAppsView.UniversalAppsViewModel.ReloadApps | archify/UniversalAppsView.swift:354-356 | the loading state becomes `ReloadAppsSpec` of the old one |
| UniversalAppsView.UniversalAppsViewModel.ReloadFinished | archify/UniversalAppsView.swift:357-360 | the loading state becomes `ReloadFinishedSpec`: the apps found and no longer loading |
| PyArchify.PyArchTokens | archify.py:102-104 | the tokens are non-empty and hold no blank: the words after the last colon |
| PyArchify.IsUniversalChoice | archify.py:106-134 | the slice chosen is one of the listed architectures; a single architecture is never thinned; a listed target is chosen as is |
| PyArchify.SameChoiceAsSwift | archify.py:106-134 | the script's decision chain chooses the same slice as the app's `isUniversal` for every token list and target |
| PyArchify.LateFallbacksNeverDecide | archify.py:124-132 | the last two tests of the arm64 block can never succeed: when the chain reaches them neither arm64 flavour is listed |
| PyArchify.PyTokensOfSummary | archify.py:102-104 | on a `lipo -info` summary whose architecture names hold no blanks, the script reads exactly those names |
| PyArchify.SummaryChoiceAsSwift | archify.py:101-134 | on such a summary the script thins exactly when, and to what, the app would |
| PyArchify.TrailingColonGivesNoTokens | archify.py:103-104 | output ending in a colon leaves no tokens at all |
| PyArchify.ShortRunKeepsFiles | archify.py:32-40 | only a `lipo -thin` run changes files; the script's other runs leave them alone |
| PyArchify.IsMachIff | archify.py:90-98 | `is_mach` returns True exactly for an executable entry that is not a link whose `file --mime-type` output ends in the Mach-O type, and runs nothing for the others |
| PyArchify.CleanBinLeavesOneFile | archify.py:13-25 | a `clean_bin` that returns leaves the thinned slice at the original path and no `bin.<arch>` file, every other path as before |
| PyArchify.CleanBinRuns | archify.py:14-23 | `clean_bin` runs `lipo -thin` once and nothing else |
| PyArchify.SignBinEffect | archify.py:28-54 | a `sign_bin` that returns ran `ldid -e` then exactly one signing run, `-S` when the entitlements are empty or unwanted and `-S<tmp>` otherwise, and the temporary file is gone again |
| PyArchify.PlainSignEffect | archify.py:39-43 | the plain branch runs `ldid -S bin` once and changes no file |
| PyArchify.EntitledSignEffect | archify.py:45-54 | the entitlements branch runs `ldid -S<tmp> bin` once, and afterwards only the temporary path can differ |
| PyArchify.CopyInsideOutput | archify.py:57-87 | for an app path and an output directory without trailing slashes the copy is `<output>/<app name>`, and a successful call needs the output directory to exist |
| PyArchify.TrailingSlashWalksOutputDir | archify.py:62-87 | an app path ending in a slash names the whole output directory as the copy |
| PyArchify.Dedup | archify.py:181 | the list keeps each element once and loses none |
| PyArchify.AppDirOrder | archify.py:181 | the directories are visited sorted, each once, exactly those given |
| PyArchify.SortedDistinctUnique | archify.py:181 | two sorted repetition-free lists with the same elements are equal |
| PyArchify.AppDirOrderIgnoresListing | archify.py:181 | the run visits the same directories in the same order however the command line repeats or orders them |
| PyArchify.LdidSpec | archify.py:191-202 | `LDID` keeps its value or becomes an existing path: `--ldid` when given, non-empty and present, otherwise `/usr/local/bin/ldid` when present; no file changes |
| PyArchify.RunsOnlyTrans | archify.py:210-220 | runs of given tools followed by more such runs are runs of those tools |
| PyArchify.LaunchRunsOnly | archify.py:210-220 | launching one of the given tools is a run of those tools |
| PyArchify.IsMachRuns | archify.py:90-98 | `is_mach` runs `file` at most |
| PyArchify.CleanAndSignUnsigned | archify.py:216-220 | without `LDID` or with `--no_sign`, cleaning a binary runs only `file` and `lipo` |
| PyArchify.UnsignedWithoutLdid | archify.py:211-220 | without `LDID` or with `--no_sign`, a file costs at most `file` and `lipo` runs: nothing is signed |
| PyArchify.MissingDirStops | archify.py:184-186 | a missing app directory ends the run after one message, changing nothing |
| PyArchify.StopIsFinal | archify.py:183-220 | once the run has stopped or raised, later directories change nothing |
| PyArchify.Script.constructor | archify.py:10 | `LDID` starts empty and nothing has been printed |
| PyArchify.Script.IsMach | archify.py:90-98 | the result and the new machine state are those `IsMachSpec` gives |
| PyArchify.Script.IsUniversal | archify.py:101-134 | the result and the new machine state are those `IsUniversalSpec` gives |
| PyArchify.Script.CleanBin | archify.py:13-25 | the result and the new machine state are those `CleanBinSpec` gives |
| PyArchify.Script.SignBin | archify.py:28-54 | the result and the new machine state are those `SignBinSpec` gives |
| PyArchify.Script.SignPlain | archify.py:39-43 | the plain signing branch does what `PlainSignSpec` gives |
| PyArchify.Script.SignEntitled | archify.py:45-54 | the entitlements branch does what `EntitledSignSpec` gives |
| PyArchify.Script.DuplicateApp | archify.py:57-87 | the result and the new machine state are those `DuplicateSpec` gives |
| PyArchify.Script.ProcessFile | archify.py:211-220 | one walked file is handled as `FileSpec` describes |
| PyArchify.Script.CleanAndSign | archify.py:216-220 | one universal binary is thinned and signed as `CleanAndSignSpec` describes |
| PyArchify.Script.Walk | archify.py:210-220 | the walk over the copy is `WalkSpec` over its entries, up to the first exception |
| PyArchify.Script.ProcessDir | archify.py:183-220 | one iteration of the directory loop is `DirSpec` |
| PyArchify.Script.ChooseLdid | archify.py:191-202 | `LDID` and the printed lines become those `LdidSpec` gives |
| PyArchify.Script.RunScript | archify.py:137-220 | the whole run is `MainRun` over the sorted, de-duplicated directories |
| PyArchify.LipoIsLipo | archify.py:8 | the script's `LIPO` path names the `lipo` tool |

## Left out

- External tools (`lipo`, `codesign`, `file`, `ldid`, `rsync`, `du`): only their exit status and output are modelled, as oracles. What they do to file contents is not modelled, except that `lipo -thin` leaves the file the oracle names.
- Concurrency: task groups, `DispatchQueue`, `async` work and the helper's semaphore-bounded queue run one task after another here. The order-independence of the per-file step is proved instead.
- UniversalAppsModel.UniversalApps.CalculateUnneededArchSize: the progress handler reads a counter that concurrent tasks share (archify/UniversalApps.swift:89-95). In the program the values it reports can repeat, skip or come out of order. The model runs the tasks one after another, so its ensures `progress == CountsUpTo(n)` (the values 1 to n in order) holds only for that sequential run.
- XPC transport, `NSLog`/`print` logging, process control (`Process`, pipes, `terminate`) and SwiftUI view bodies are not modelled.
- Progress fractions, `currentApp`/`currentlyScanningApp` and the clock are not modelled, and neither is the rsync progress stream of the Python script.
- Floating point and `humanReadableSize` formatting are not modelled. Sizes are natural numbers.
- Dictionary and set iteration order is not modelled: the model uses the order in which the directory listing oracle returns names.
- `Dictionary(uniqueKeysWithValues:)` traps on duplicate keys. Keys are distinct in the model, so that trap is not modelled.
- UInt64 overflow is not modelled. The batch processor's UInt64 subtraction trap is modelled as a `crashed` state.
- `getApplicationFolderCount`, `openApp`, `requestDirectoryAccess`, `openPanel`, `promptForFullDiskAccess`, `isHelperToolInstalled` and `blessHelperTool` are not modelled. Whether the helper is installed and ready is the `helperReady` parameter.
- The search that fills the universal-apps view (`findApps`) is not modelled: its results are a parameter of the view model.
- `AppState.processApp` is modelled up to its entry guard (`AppStateModel.AppState.StartProcessing`). The work after that guard is the same pipeline that `FileOperations` models.
- LanguageCleanerModel.AppsMatching: the search folds case with `Text.Lower`, which lowers ASCII letters only. Swift's `lowercased()` also folds other letters, so an app named "Über" matches the search "über" in the program but not in the model.
- LanguageCleanerModel.FilteredApps: the same ASCII-only case folding as `AppsMatching`.
- BatchProcessingView.FilteredAndSortedApps: the path search folds case with the ASCII-only `Text.Lower`, where the program's `lowercased()` folds every letter. The name order is `Text.LexLess` on characters, where Swift's `String <` compares canonically equivalent strings as equal.
- UniversalAppsView.FilteredAndSortedApps: the name search uses the same ASCII-only case folding, and the name and type orders use `Text.LexLess` on characters rather than Swift's Unicode-aware `String <`.
- LanguageCleanerModel.LanguageCleaner.ScanForAppsAndLanguages: the languages are sorted by `Text.LexLess` on characters rather than Swift's Unicode-aware `String <`.
- Trimming (`Text.Trim`) and whitespace splitting know only the ASCII blanks (space, tab, line feed, carriage return, vertical tab, form feed). Foundation's `.whitespacesAndNewlines` and Python's `str.strip()` also remove Unicode spaces. This affects the parse of tool output in `Arch.ArchTokens`, `Arch.LipoArchitectures`, `Signing.ExtractedFile` and `PyArchify.PyArchTokens`.
- Tool output is a string in the model, so it is always valid UTF-8. The program turns output that is not valid UTF-8 into nil with `String(data:encoding: .utf8)`, and that case is not modelled. This affects FileOps.FileOperations.EchoRsync (archify/FileOperations.swift:51), FileOps.FileOperations.IsMach (archify/FileOperations.swift:197), FileOps.FileOperations.GetArchitectures (archify/FileOperations.swift:130), FileOps.FileOperations.IsUniversal (archify/FileOperations.swift:218), Signing.Signer.ExtractEntitlementsWithLdid (archify/archifyhelper/Signer.swift:80), Signing.Signer.ExtractEntitlementsWithCodesign (archify/archifyhelper/Signer.swift:156), UniversalAppsModel.UniversalApps.UnneededForBinary (archify/UniversalApps.swift:117; the helper's copy of the same code is at archify/archifyhelper/UniversalApps.swift:131), and the script's `.decode()` calls in PyArchify.Script.IsMach (archify.py:98), PyArchify.Script.IsUniversal (archify.py:103) and PyArchify.Script.SignBin (archify.py:33). In the script such output raises `UnicodeDecodeError`, which `except subprocess.CalledProcessError` does not catch, so the script would stop. `PyArchify.IsMachSpec`, `PyArchify.IsUniversalSpec` and `PyArchify.SignBinSpec` never raise it.
- HelperToolModel.SetFilePermissions: the file table records no permission bits, so the requested mode is not stored. A successful call leaves the files unchanged in the model, and the file manager's verdict for the mode is an input.
- LanguageCleanerModel.IsDirectoryIn: the scan's `fileExists(atPath:isDirectory:)` (archify/LanguageCleaner.swift:99) follows symbolic links. The model tests the entry's own kind and does not follow links, because the file table records no link targets. A link in /Applications to a bundle elsewhere is scanned by the program and skipped by the model.
- LanguageCleanerModel.FirstPass: the same as IsDirectoryIn. A linked app folder is not among the names of the first pass.
- LanguageCleanerModel.LanguageCleaner.ScanSkipping: the same as IsDirectoryIn. A linked app folder yields no app and no languages.
- LanguageCleanerModel.LanguageCleaner.ScanForAppsAndLanguages: the same as IsDirectoryIn. A linked app folder yields no app and no languages.
- HelperToolModel.Accessible: `fileExists(atPath:)` (archify/archifyhelper/HelperTool.swift:92) follows symbolic links. The model's test is "the path is in the file table", so a dangling link at a probed path counts as existing, and its `readable` bit decides.
- HelperToolModel.CheckFullDiskAccess: the same as Accessible. With a dangling link at a probed path the program denies access, while the model's answer depends on that entry's `readable` bit.
- FileOps.DuplicateSpec: the output-directory test `fileExists(atPath:)` (archify/FileOperations.swift:30) follows symbolic links. The model's test is "the path is in the file table", so a dangling link at the output directory passes, and the copy proceeds where the program throws "Output directory does not exist".
- FileOps.FileOperations.DuplicateApp: the same as DuplicateSpec.
- AppStateModel.SearchPath: the `PATH` search's `fileExists(atPath:)` (archify/AppState.swift:111) follows symbolic links. The model returns a dangling `ldid` link where the program moves on to the next directory.
- AppStateModel.AppState.FindLdid: the same as SearchPath.
- PyArchify.Script.ProcessDir: `os.path.exists` is modelled as "the path is in the file table". A symbolic link counts as existing whatever it points to, where `os.path.exists` is false for a dangling link; the file table does not record link targets. The same holds for the output-directory test of PyArchify.Script.DuplicateApp.
- HelperToolModel.ShouldAcceptNewConnection: the code accepts every connection. It checks no caller code identity, no minimum version and no path allow-list, so the model has none.
- HelperToolModel.DuplicateApp: the code never calls its reply block, and the model replies nothing.
- HelperToolModel.ExtractAndSignBinaries: when the enumerator cannot be made, the code returns without clearing `isProcessing`, and the model keeps it set.
- FileOps.FileOperations.ExtractAndSignBinaries: the final bundle size is summed over the output directory, as the code does, not over the bundle.
- UniversalAppsModel.UniversalApps.ProduceSortedList: the main application's `isAppUniversal` passes the empty string as the target, so no binary resolves and the list is always empty, as written.
- `isAllLanguagesSelected` compares the number of selected languages with the number of languages and does not check that the two sets are equal. The model keeps that, and `LanguageCleanerModel.AllSelectedComparesCountsOnly` shows the gap.
- LanguageCleanerModel.LanguageCleaner.RemoveSelected models the bookkeeping as written, which drops a language shared with another app (see Findings). The corrected bookkeeping is the same specification function with `keepShared` set, and it is proved separately.
- BatchProcessingModel.BatchProcessing.ProcessApps models the skip path as written, with no completion check (see Findings). The corrected behaviour is the same specification function with the check switched on, and it is proved separately.
- PyArchify.Script.RunScript: after "Output dir does not exist" the script goes on and fails with a `TypeError` in `os.walk(None)`. The model ends the run with a crash status there.
- PyArchify.Script.SignBin runs `ldid -e` even when `no_ent` is set, as the script does.
- PyArchify.Script.RunScript: an app directory given with a trailing slash makes the walk cover the whole output directory, as the script does.
- PyArchify.Script.IsUniversal: output that ends in a colon yields no architecture tokens.
- PyArchify.Script.DuplicateApp does not check the `rsync` exit status, as the script does not.
- PyArchify: the name `mkstemp` picks comes from the UUID oracle. Python's string comparison is modelled as lexicographic order on characters.
- The helper's `fetchDefaultMacOSApps` keeps every listed name, while the main application's `defaultMacOSApps` keeps only `.app` names (`Common.DefaultAppsWithinHelperSet` relates the two).

## Findings

| source | as written | input that shows it | evidently intended | confidence | as-written member | corrected member |
|---|---|---|---|---|---|---|
| archify/BatchProcessing.swift:112-116 | an app with no row in `appSizes` is skipped and `processedApps` is incremented, but only the reply path checks `processedApps == totalApps` | `selectedApps = {"/Applications/A.app"}` with `appSizes` empty: the only app is skipped and `isProcessing` stays true for good | check for completion after a skip as well, so every run ends | not executed | BatchProcessingModel.SkippedRunNeverEnds | BatchProcessingModel.CheckedRunAlwaysEnds |
| archify/LanguageCleaner.swift:185-188 | when an app's last folder for a language is removed, the language leaves `uniqueLanguages` even if another app still has it | apps A and B both list `fr`; remove A's `fr.lproj`: `fr` disappears from `uniqueLanguages` while B still lists it | keep a language in `uniqueLanguages` while any app still lists it | not executed | LanguageCleanerModel.BookRemovalDropsSharedLanguage | LanguageCleanerModel.BookRemovalKeepsCovered |

=== FILE: app_state.dfy ===
/** AppState.swift: the settings object shared by the processing code, its
    dictionary form (the shape it travels in to the helper), the buffered log, and
    the lookup of the `ldid` executable. */
module AppStateModel {
  import opened Wrappers
  import opened Text
  import opened Paths
  import opened Host

  type UInt64 = n: nat | n <= UInt64Max

  /** The values a property-list dictionary can hold, as far as `as? String`,
      `as? Bool` and `as? UInt64` can tell them apart. */
  datatype Value = Str(s: string) | Flag(b: bool) | Number(n: nat) | OtherValue

  /** The twelve keys `toDictionary()` writes; `Name` gives the string used. */
  datatype Key =
    | InputDir | OutputDir | SelectedArch | UseLDID | LdidPath | Entitlements
    | UseCodesign | LaunchSign | IsProcessing | InitialAppSize | FinalAppSize | LogMessages
  {
    function Name(): string {
      match this
      case InputDir => "inputDir"
      case OutputDir => "outputDir"
      case SelectedArch => "selectedArch"
      case UseLDID => "useLDID"
      case LdidPath => "ldidPath"
      case Entitlements => "entitlements"
      case UseCodesign => "useCodesign"
      case LaunchSign => "launchSign"
      case IsProcessing => "isProcessing"
      case InitialAppSize => "initialAppSize"
      case FinalAppSize => "finalAppSize"
      case LogMessages => "logMessages"
    }
  }

  /** A dictionary as `fromDictionary` sees it: what it holds under each key it
      reads (other keys are never looked at). */
  type Dictionary = map<Key, Value>

  /** The twelve published fields of an `AppState`. */
  datatype Settings = Settings(
    inputDir: string,
    outputDir: string,
    selectedArch: string,
    useCodesign: bool,
    useLDID: bool,
    ldidPath: string,
    entitlements: bool,
    launchSign: bool,
    logMessages: string,
    initialAppSize: nat,
    finalAppSize: nat,
    isProcessing: bool)

  /** The field values of a freshly created `AppState`. */
  const Fresh: Settings := Settings("", "", "", false, false, "", false, true, "", 0, 0, false)

  /** The twelve keys, as a set. */
  const AllKeys: set<Key> := {
    InputDir, OutputDir, SelectedArch, UseLDID, LdidPath, Entitlements,
    UseCodesign, LaunchSign, IsProcessing, InitialAppSize, FinalAppSize, LogMessages}

  /** The value `toDictionary()` stores under `key`. */
  function FieldValue(s: Settings, key: Key): Value {
    match key
    case InputDir => Str(s.inputDir)
    case OutputDir => Str(s.outputDir)
    case SelectedArch => Str(s.selectedArch)
    case UseLDID => Flag(s.useLDID)
    case LdidPath => Str(s.ldidPath)
    case Entitlements => Flag(s.entitlements)
    case UseCodesign => Flag(s.useCodesign)
    case LaunchSign => Flag(s.launchSign)
    case IsProcessing => Flag(s.isProcessing)
    case InitialAppSize => Number(s.initialAppSize)
    case FinalAppSize => Number(s.finalAppSize)
    case LogMessages => Str(s.logMessages)
  }

  /** `toDictionary()`: every key, each with its field's value. */
  function Encode(s: Settings): Dictionary {
    map key | key in AllKeys :: FieldValue(s, key)
  }

  /** `dict[key] as? String ?? ""`. */
  function StringAt(d: Dictionary, key: Key): string {
    if key in d && d[key].Str? then d[key].s else ""
  }

  /** `dict[key] as? Bool ?? false`. */
  function FlagAt(d: Dictionary, key: Key): bool {
    key in d && d[key].Flag? && d[key].b
  }

  /** `dict[key] as? UInt64 ?? 0`: the cast fails for numbers beyond 64 bits. */
  function UInt64At(d: Dictionary, key: Key): UInt64 {
    if key in d && d[key].Number? && d[key].n <= UInt64Max then d[key].n else 0
  }

  /** `fromDictionary(_:)`: each field read with its own default. */
  function Decode(d: Dictionary): Settings {
    Settings(
      StringAt(d, InputDir),
      StringAt(d, OutputDir),
      StringAt(d, SelectedArch),
      FlagAt(d, UseCodesign),
      FlagAt(d, UseLDID),
      StringAt(d, LdidPath),
      FlagAt(d, Entitlements),
      FlagAt(d, LaunchSign),
      StringAt(d, LogMessages),
      UInt64At(d, InitialAppSize),
      UInt64At(d, FinalAppSize),
      FlagAt(d, IsProcessing))
  }

  /** Every field survives the trip through the dictionary, as long as the sizes
      fit the 64 bits the `UInt64` cast accepts. */
  lemma DecodeEncode(s: Settings)
    requires s.initialAppSize <= UInt64Max && s.finalAppSize <= UInt64Max
    ensures Decode(Encode(s)) == s
  {
  }

  /** A dictionary missing every key decodes to empty strings, false and zero. That
      includes `launchSign`, which a fresh `AppState` has set: the decoded object is
      not a fresh one. */
  lemma DecodeEmpty()
    ensures Decode(map[]) == Fresh.(launchSign := false)
    ensures Decode(map[]) != Fresh
  {
  }

  /** `updateLogMessages()`: the buffered messages, one per line, each followed by a
      newline; nothing when the buffer is empty. */
  function Flushed(text: string, buffer: seq<string>): string {
    if buffer == [] then text else text + Join(buffer, "\n") + "\n"
  }

  /** However the timer slices the stream of messages, the log text is the same:
      flushing two batches one after the other equals flushing them together. */
  lemma {:induction false} FlushesCompose(text: string, a: seq<string>, b: seq<string>)
    ensures Flushed(Flushed(text, a), b) == Flushed(text, a + b)
  {
    if a == [] {
      assert a + b == b;
    } else if b == [] {
      assert a + b == a;
    } else {
      JoinAppend(a, b, "\n");
      var ja, jb := Join(a, "\n"), Join(b, "\n");
      assert Flushed(Flushed(text, a), b) == text + ja + "\n" + jb + "\n";
      assert Flushed(text, a + b) == text + (ja + "\n" + jb) + "\n";
    }
  }

  /** The first directory of `dirs` holding an `ldid` file, or the bundled copy. */
  function SearchPath(dirs: seq<string>, files: map<string, FileInfo>, fallback: Option<string>): (r: Option<string>)
    ensures (exists k :: 0 <= k < |dirs| && AppendPath(dirs[k], "ldid") in files) ==>
      exists k :: 0 <= k < |dirs| && r == Some(AppendPath(dirs[k], "ldid")) && r.value in files &&
        forall j :: 0 <= j < k ==> AppendPath(dirs[j], "ldid") !in files
    ensures (forall k :: 0 <= k < |dirs| ==> AppendPath(dirs[k], "ldid") !in files) ==> r == fallback
  {
    if dirs == [] then fallback
    else if AppendPath(dirs[0], "ldid") in files then Some(AppendPath(dirs[0], "ldid"))
    else
      var r := SearchPath(dirs[1..], files, fallback);
      assert forall k :: 1 <= k < |dirs| ==> dirs[k] == dirs[1..][k - 1];
      r
  }

  /** What `findLdid()` returns: a configured path verbatim, otherwise the search of
      the colon-separated `PATH` entries. */
  function LdidLocation(ldidPath: string, m: Machine, files: map<string, FileInfo>): (r: Option<string>)
    ensures ldidPath != [] ==> r == Some(ldidPath)
  {
    if ldidPath != [] then Some(ldidPath)
    else SearchPath(Split(m.pathEnv.GetOr(""), {':'}), files, m.bundled("ldid"))
  }

  class AppState {
    var inputDir: string
    var outputDir: string
    var selectedArch: string
    var useCodesign: bool
    var useLDID: bool
    var ldidPath: string
    var entitlements: bool
    var launchSign: bool
    var logMessages: string
    var initialAppSize: nat
    var finalAppSize: nat
    var isProcessing: bool
    /** Messages appended but not yet moved into `logMessages`. */
    var logBuffer: seq<string>

    constructor ()
      ensures Snapshot() == Fresh && logBuffer == []
    {
      inputDir := "";
      outputDir := "";
      selectedArch := "";
      useCodesign := false;
      useLDID := false;
      ldidPath := "";
      entitlements := false;
      launchSign := true;
      logMessages := "";
      initialAppSize := 0;
      finalAppSize := 0;
      isProcessing := false;
      logBuffer := [];
    }

    function Snapshot(): Settings
      reads this
    {
      Settings(inputDir, outputDir, selectedArch, useCodesign, useLDID, ldidPath,
        entitlements, launchSign, logMessages, initialAppSize, finalAppSize, isProcessing)
    }

    /** `toDictionary()`: decoding the dictionary gives every field back; a size
        beyond 64 bits would come back as 0. */
    function ToDictionary(): (d: Dictionary)
      reads this
      ensures initialAppSize <= UInt64Max && finalAppSize <= UInt64Max ==> Decode(d) == Snapshot()
      ensures finalAppSize > UInt64Max ==> Decode(d).finalAppSize == 0
    {
      if initialAppSize <= UInt64Max && finalAppSize <= UInt64Max then
        DecodeEncode(Snapshot());
        Encode(Snapshot())
      else
        Encode(Snapshot())
    }

    /** `AppState.fromDictionary(_:)`: a new object whose fields are read from the
        dictionary, no messages buffered. */
    constructor FromDictionary(d: Dictionary)
      ensures Snapshot() == Decode(d) && logBuffer == []
    {
      inputDir := StringAt(d, InputDir);
      outputDir := StringAt(d, OutputDir);
      selectedArch := StringAt(d, SelectedArch);
      useLDID := FlagAt(d, UseLDID);
      ldidPath := StringAt(d, LdidPath);
      entitlements := FlagAt(d, Entitlements);
      useCodesign := FlagAt(d, UseCodesign);
      launchSign := FlagAt(d, LaunchSign);
      isProcessing := FlagAt(d, IsProcessing);
      initialAppSize := UInt64At(d, InitialAppSize);
      finalAppSize := UInt64At(d, FinalAppSize);
      logMessages := StringAt(d, LogMessages);
      logBuffer := [];
    }

    /** `appendLog(_:)`: the message goes to the end of the buffer. */
    method AppendLog(message: string)
      modifies this
      ensures logBuffer == old(logBuffer) + [message]
      ensures Snapshot() == old(Snapshot())
    {
      logBuffer := logBuffer + [message];
    }

    /** `updateLogMessages()`: the buffer is drained into `logMessages`. */
    method FlushLog()
      modifies this
      ensures logBuffer == []
      ensures Snapshot() == old(Snapshot()).(logMessages := Flushed(old(logMessages), old(logBuffer)))
    {
      var messages := logBuffer;
      logBuffer := [];
      if messages != [] {
        logMessages := logMessages + Join(messages, "\n") + "\n";
      }
    }

    /** The input check at the start of `processApp()`: without both an input and an
        output directory it logs a request for them, ends processing and goes no
        further; otherwise it logs the start and the duplication may begin. */
    method StartProcessing() returns (proceeds: bool)
      modifies this
      ensures proceeds <==> old(inputDir) != [] && old(outputDir) != []
      ensures !proceeds ==> logBuffer == old(logBuffer) + ["Please select both input and output directories."] &&
                            Snapshot() == old(Snapshot()).(isProcessing := false)
      ensures proceeds ==> logBuffer == old(logBuffer) + ["Starting..."] && Snapshot() == old(Snapshot())
    {
      if inputDir == [] || outputDir == [] {
        AppendLog("Please select both input and output directories.");
        isProcessing := false;
        return false;
      }
      AppendLog("Starting...");
      return true;
    }

    /** `findLdid()`: the configured path, or the first `PATH` directory holding an
        `ldid` file, or the bundled resource. */
    method FindLdid(m: Machine) returns (r: Option<string>)
      ensures r == LdidLocation(ldidPath, m, m.files)
    {
      if ldidPath != [] {
        return Some(ldidPath);
      }
      var paths := Split(m.pathEnv.GetOr(""), {':'});
      var i := 0;
      while i < |paths|
        invariant 0 <= i <= |paths|
        invariant SearchPath(paths, m.files, m.bundled("ldid")) == SearchPath(paths[i..], m.files, m.bundled("ldid"))
      {
        var full := AppendPath(paths[i], "ldid");
        if m.Exists(full) {
          return Some(full);
        }
        assert paths[i..][1..] == paths[i + 1..];
        i := i + 1;
      }
      return m.bundled("ldid");
    }
  }
}

=== FILE: arch.dfy ===
/** The slice chooser shared by both Swift targets (`isUniversal` in the app's and
    the helper's FileOperations.swift) and the parse of `lipo -info` output that
    feeds it. */
module Arch {
  import opened Wrappers
  import opened Text

  /** `output.split(separator: ":").last`: the last non-empty colon-separated piece. */
  function LastColonPiece(out: string): (r: Option<string>)
    ensures r.Some? ==> r.value != [] && NoneIn(r.value, {':'})
  {
    var pieces := Split(out, {':'});
    if pieces == [] then None else Some(pieces[|pieces| - 1])
  }

  /** The architecture tokens `isUniversal` reads from `lipo -info`: the text after
      the last colon (or nothing), trimmed of blanks, split on single spaces with
      empty pieces dropped. */
  function ArchTokens(out: string): (r: seq<string>)
    ensures forall i :: 0 <= i < |r| ==> r[i] != [] && NoneIn(r[i], {' '})
  {
    Split(Trim(LastColonPiece(out).GetOr("")), {' '})
  }

  /** `getArchitectures`: the same parse, except that output without any non-empty
      colon-separated piece gives nil rather than an empty list. */
  function LipoArchitectures(out: string): (r: Option<seq<string>>)
    ensures r.None? <==> LastColonPiece(out).None?
    ensures r.Some? ==> r.value == ArchTokens(out)
  {
    match LastColonPiece(out)
    case None => None
    case Some(piece) => Some(Split(Trim(piece), {' '}))
  }

  /** The decision chain of `isUniversal`: which slice to keep for `target`, or none. */
  function Resolve(archs: seq<string>, target: string): (r: Option<string>)
    ensures r.Some? ==> r.value in archs
    ensures |archs| == 1 ==> r == None
    ensures |archs| != 1 && target in archs ==> r == Some(target)
    ensures target !in archs && target != "arm64" && target != "arm64e" ==> r == None
  {
    if |archs| == 1 then None
    else if target in archs then Some(target)
    else if target == "arm64" && "arm64e" in archs then Some("arm64e")
    else if target == "arm64e" && "arm64" in archs then Some("arm64")
    else if target != "i386" && "i386" in archs then
      if target == "x86_64" && "x86_64" in archs then Some("x86_64")
      else if target in ["arm64e", "arm64"] && "x86_64" in archs then Some("x86_64")
      else None
    else None
  }

  /** The preference table the chain implements, written as the fallbacks a reader
      expects: the target itself, then the other arm64 flavour, then, for an arm64
      target on a binary that still carries i386, the x86_64 slice. */
  function Preferred(archs: seq<string>, target: string): Option<string> {
    if |archs| == 1 then None
    else if target in archs then Some(target)
    else if target == "arm64" && "arm64e" in archs then Some("arm64e")
    else if target == "arm64e" && "arm64" in archs then Some("arm64")
    else if (target == "arm64" || target == "arm64e") && "i386" in archs && "x86_64" in archs then Some("x86_64")
    else None
  }

  /** The chain and the table agree on every input. In particular the chain's
      `x86_64`-target test inside the i386 block never decides anything: an
      `x86_64` target present in the list was already returned as an exact match. */
  lemma ResolveIsPreferred(archs: seq<string>, target: string)
    ensures Resolve(archs, target) == Preferred(archs, target)
  {
  }

  /** An x86_64 slice is kept for another target only for an arm64 target, when
      neither arm64 flavour is present and both i386 and x86_64 are. */
  lemma {:induction false} X86FallbackConditions(archs: seq<string>, target: string)
    requires target != "x86_64" && Resolve(archs, target) == Some("x86_64")
    ensures target == "arm64" || target == "arm64e"
    ensures "i386" in archs && "x86_64" in archs
    ensures "arm64" !in archs && "arm64e" !in archs
  {
    ResolveIsPreferred(archs, target);
  }

  /** An empty target never resolves: the tokens are never empty and every fallback
      names a specific target. The same holds for output with no tokens. */
  lemma EmptyTargetNeverResolves(out: string)
    ensures Resolve(ArchTokens(out), "") == None
  {
    var archs := ArchTokens(out);
    assert "" !in archs;
  }

  lemma NoTokensNoChoice(target: string)
    ensures Resolve([], target) == None
  {
  }

  /** A word `lipo -info` prints for an architecture: non-empty, without spaces or
      colons, not starting or ending in whitespace. */
  predicate ArchWord(a: string) {
    a != [] && NoneIn(a, {' ', ':'}) && a[0] !in Whitespace && a[|a| - 1] !in Whitespace
  }

  /** Architecture words hold neither a colon nor a space. */
  lemma ArchWordsFree(archs: seq<string>)
    requires forall i :: 0 <= i < |archs| ==> ArchWord(archs[i])
    ensures forall i :: 0 <= i < |archs| ==> NoneIn(archs[i], {':'}) && NoneIn(archs[i], {' '})
  {
    forall i | 0 <= i < |archs|
      ensures NoneIn(archs[i], {':'}) && NoneIn(archs[i], {' '})
    {
      assert forall k :: 0 <= k < |archs[i]| ==> archs[i][k] !in {' ', ':'};
    }
  }

  /** The list after the colon, with its leading space and final newline, holds no
      colon. */
  lemma SummaryTailHasNoColon(archs: seq<string>)
    requires forall i :: 0 <= i < |archs| ==> ArchWord(archs[i])
    ensures NoneIn(" " + Join(archs, " ") + "\n", {':'})
  {
    var j := Join(archs, " ");
    var tail := " " + j + "\n";
    ArchWordsFree(archs);
    JoinNoneIn(archs, " ", {':'});
    forall k | 0 <= k < |tail|
      ensures tail[k] != ':'
    {
      if 0 < k < |tail| - 1 {
        assert tail[k] == j[k - 1];
      }
    }
  }

  /** Trimming that text leaves the words joined by single spaces: the first word
      does not start, and the last does not end, with whitespace. */
  lemma TrimSummaryTail(archs: seq<string>)
    requires archs != [] ==> ArchWord(archs[0]) && ArchWord(archs[|archs| - 1])
    ensures Trim(" " + Join(archs, " ") + "\n") == Join(archs, " ")
  {
    if archs != [] {
      JoinEndChars(archs, " ", Whitespace);
    }
    TrimPadded(" ", Join(archs, " "), "\n");
  }

  /** The last colon-separated piece of `head:tail` is `tail` when `tail` is
      non-empty and colon-free. */
  lemma LastPieceAfterColon(head: string, tail: string)
    requires tail != [] && NoneIn(tail, {':'})
    ensures LastColonPiece(head + [':'] + tail) == Some(tail)
  {
    SplitAtSeparator(head, ':', tail, {':'});
    SplitOfPiece(tail, {':'});
  }

  /** The tokens of a `lipo -info` summary line: whatever precedes the last colon,
      then the architecture names separated by single spaces, then a newline. */
  lemma {:induction false} TokensOfSummary(head: string, archs: seq<string>)
    requires forall i :: 0 <= i < |archs| ==> ArchWord(archs[i])
    ensures ArchTokens(head + ": " + Join(archs, " ") + "\n") == archs
  {
    var j := Join(archs, " ");
    var tail := " " + j + "\n";
    assert head + ": " + j + "\n" == head + [':'] + tail;
    SummaryTailHasNoColon(archs);
    LastPieceAfterColon(head, tail);
    TrimSummaryTail(archs);
    ArchWordsFree(archs);
    SplitJoinRoundTrip(archs, ' ', {' '});
  }

  /** A thin binary's summary (`Non-fat file: … is architecture: arm64`) names one
      architecture, so nothing is ever thinned out of it. */
  lemma ThinBinaryIsLeftAlone(head: string, arch: string, target: string)
    requires ArchWord(arch)
    ensures Resolve(ArchTokens(head + ": " + arch + "\n"), target) == None
  {
    TokensOfSummary(head, [arch]);
    assert Join([arch], " ") == arch;
  }
}

=== FILE: batch_processing.dfy ===
/** BatchProcessing.swift: the list of apps with their sizes, the selection, and the
    accounting of a batch run in which the helper thins each selected app.

    The helper's replies arrive asynchronously; here the requests are sent in the
    order the selection is iterated and the replies handled in the order the
    requests went out. Swift's `UInt64` arithmetic traps on overflow and
    underflow; a trap ends the process, which the model records as `crashed`,
    after which nothing more is handled. */
module BatchProcessingModel {
  import opened Wrappers
  import opened Text
  import opened Host
  import opened AppStateModel
  import opened Sorting
  import opened Sizes
  import opened UniversalAppsModel

  /** One row of `appSizes`: path, total size, savable size. */
  datatype AppSize = AppSize(path: string, totalSize: nat, savableSize: nat)

  /** One `extractAndSignBinaries` request sent to the helper. */
  datatype Request = Request(dir: string, targetArch: string, noSign: bool, noEntitlements: bool,
                             appStateDict: Dictionary)

  /** What comes back for one request: the helper's reply, and the size of the app
      directory measured when the reply is handled. */
  datatype Outcome = Outcome(success: bool, error: Option<string>, newSize: nat)

  /** A request in flight, with the sizes captured when it was sent. */
  datatype Pending = Pending(app: string, originalSize: nat, expectedSavableSize: nat)

  /** The observable state of a `BatchProcessing` object. `completions` counts the
      calls of the completion block; `requests` lists the helper requests sent. */
  datatype Batch = Batch(
    appSizes: seq<AppSize>,
    processedAppSizes: seq<AppSize>,
    selectedApps: set<string>,
    isProcessing: bool,
    totalSavedSpace: nat,
    logMessages: string,
    initialTotalSize: nat,
    finalTotalSize: nat,
    savedSpaces: map<string, nat>,
    completions: nat,
    requests: seq<Request>,
    crashed: bool)

  // ---------------------------------------------------------------------------
  // Looking apps up in `appSizes`

  /** `appSizes.firstIndex(where: { $0.0 == app })`, or -1. */
  function FirstIndex(appSizes: seq<AppSize>, app: string): (k: int)
    ensures -1 <= k < |appSizes|
    ensures k >= 0 ==> appSizes[k].path == app
    ensures forall j :: 0 <= j < |appSizes| && (k < 0 || j < k) ==> appSizes[j].path != app
  {
    if appSizes == [] then -1
    else if appSizes[0].path == app then 0
    else
      var k := FirstIndex(appSizes[1..], app);
      if k < 0 then -1 else k + 1
  }

  /** `appSizes.first(where: { $0.0 == app })`. */
  function FindApp(appSizes: seq<AppSize>, app: string): (r: Option<AppSize>)
    ensures r.Some? ==> r.value in appSizes && r.value.path == app
    ensures r.None? ==> forall e :: e in appSizes ==> e.path != app
  {
    var k := FirstIndex(appSizes, app);
    if k < 0 then None else Some(appSizes[k])
  }

  /** `appSizes.remove(at:)` at the first row of `app`, when there is one. */
  function RemoveFirst(appSizes: seq<AppSize>, app: string): (r: seq<AppSize>)
    ensures FindApp(appSizes, app).None? ==> r == appSizes
    ensures FindApp(appSizes, app).Some? ==>
      |r| == |appSizes| - 1 && multiset(r) == multiset(appSizes) - multiset{FindApp(appSizes, app).value}
  {
    var k := FirstIndex(appSizes, app);
    if k < 0 then appSizes
    else
      MultisetRemoveAt(appSizes, k);
      appSizes[..k] + appSizes[k + 1..]
  }

  /** `firstIndex(where:)` and `remove(at:)` on the rows. */
  method RemoveRow(appSizes: seq<AppSize>, app: string) returns (remaining: seq<AppSize>)
    ensures remaining == RemoveFirst(appSizes, app)
  {
    var appIndex := FirstIndex(appSizes, app);
    remaining := if appIndex >= 0 then appSizes[..appIndex] + appSizes[appIndex + 1..] else appSizes;
  }

  /** The total size the setup loop adds for one selected app: its row's total, or
      nothing when it has no row. */
  function TotalOf(appSizes: seq<AppSize>, app: string): nat {
    match FindApp(appSizes, app)
    case None => 0
    case Some(e) => e.totalSize
  }

  function TotalTerm(appSizes: seq<AppSize>): string -> nat {
    app => TotalOf(appSizes, app)
  }

  /** The setup total over the selection, visited in `order`. */
  function SelectedTotal(order: seq<string>, appSizes: seq<AppSize>): nat {
    SumOf(order, TotalTerm(appSizes))
  }

  /** The setup total does not depend on the order in which the set is iterated. */
  lemma SelectedTotalAnyOrder(order: seq<string>, order': seq<string>, appSizes: seq<AppSize>)
    requires multiset(order) == multiset(order')
    ensures SelectedTotal(order, appSizes) == SelectedTotal(order', appSizes)
  {
    SumOfPermutation(order, order', TotalTerm(appSizes));
  }

  // ---------------------------------------------------------------------------
  // The run, step by step

  /** The completion block fires and processing ends. */
  function Complete(b: Batch): Batch {
    b.(isProcessing := false, completions := b.completions + 1)
  }

  function ProcessedMessage(app: string, saved: nat, expected: nat, format: nat -> string): string {
    "Processed " + app + " successfully. Saved " + format(saved) + " (Expected: " + format(expected) + ")\n"
  }

  function FailedMessage(app: string, error: Option<string>): string {
    "Failed to process " + app + ": " + error.GetOr("Unknown error") + "\n"
  }

  /** The state of the sending loop: the batch, the apps counted so far, and the
      requests in flight. */
  datatype Sending = Sending(batch: Batch, processed: nat, pending: seq<Pending>)

  /** One turn of the loop of `processApps`: an app without a row is counted and
      skipped; otherwise a request goes to the helper for it, always without
      signing, without entitlements and for the system architecture, carrying the
      dictionary of a fresh `AppState`. As written, a skip does not check whether
      it was the last app; `checkOnSkip` adds that check. */
  function SendStep(s: Sending, app: string, systemArch: string, total: nat, checkOnSkip: bool): Sending {
    match FindApp(s.batch.appSizes, app)
    case None =>
      var n := s.processed + 1;
      Sending(if checkOnSkip && n == total then Complete(s.batch) else s.batch, n, s.pending)
    case Some(e) =>
      Sending(s.batch.(requests := s.batch.requests + [Request(app, systemArch, true, true, Encode(Fresh))]),
              s.processed, s.pending + [Pending(app, e.totalSize, e.savableSize)])
  }

  /** The sending loop over the selection in `order`. */
  function SendAll(b: Batch, order: seq<string>, systemArch: string, total: nat, checkOnSkip: bool): Sending
    decreases |order|
  {
    if order == [] then Sending(b, 0, [])
    else
      var n := |order| - 1;
      SendStep(SendAll(b, order[..n], systemArch, total, checkOnSkip), order[n], systemArch, total, checkOnSkip)
  }

  /** The success branch of the reply handler, for a saving that fits. */
  function Saved(b: Batch, p: Pending, saved: nat, format: nat -> string): Batch
    requires saved <= b.finalTotalSize
  {
    b.(processedAppSizes := b.processedAppSizes + [AppSize(p.app, p.originalSize, saved)],
       savedSpaces := b.savedSpaces[p.app := saved],
       totalSavedSpace := b.totalSavedSpace + saved,
       finalTotalSize := b.finalTotalSize - saved,
       logMessages := b.logMessages + ProcessedMessage(p.app, saved, p.expectedSavableSize, format),
       appSizes := RemoveFirst(b.appSizes, p.app),
       selectedApps := b.selectedApps - {p.app})
  }

  /** Whether the `UInt64` arithmetic of a successful reply traps: the app grew, or
      a counter would leave the 64-bit range. */
  predicate Traps(b: Batch, p: Pending, o: Outcome) {
    o.success &&
    (o.newSize > p.originalSize ||
     b.totalSavedSpace + (p.originalSize - o.newSize) > UInt64Max ||
     b.finalTotalSize < p.originalSize - o.newSize)
  }

  /** The reply handler of `processApps`: on success the saving is booked and the app
      leaves the list and the selection; on failure only the log grows. Then the
      app is counted, and the completion fires when the count reaches the total. */
  function ReplyStep(b: Batch, processed: nat, p: Pending, o: Outcome, total: nat, format: nat -> string): (Batch, nat) {
    if b.crashed then (b, processed)
    else if Traps(b, p, o) then (b.(crashed := true), processed)
    else
      var b1 := if o.success then Saved(b, p, p.originalSize - o.newSize, format)
                else b.(logMessages := b.logMessages + FailedMessage(p.app, o.error));
      var n := processed + 1;
      (if n == total then Complete(b1) else b1, n)
  }

  /** The replies to `pending`, handled in the order the requests were sent. */
  function ReplyAll(b: Batch, processed: nat, pending: seq<Pending>, outcomes: string -> Outcome,
                    total: nat, format: nat -> string): (Batch, nat)
    decreases |pending|
  {
    if pending == [] then (b, processed)
    else
      var n := |pending| - 1;
      var (b', processed') := ReplyAll(b, processed, pending[..n], outcomes, total, format);
      ReplyStep(b', processed', pending[n], outcomes(pending[n].app), total, format)
  }

  /** `processApps(completion:)` over the selection in `order`. */
  function ProcessSpec(b: Batch, order: seq<string>, systemArch: string, outcomes: string -> Outcome,
                       format: nat -> string, checkOnSkip: bool): Batch
  {
    var s := SendAll(b, order, systemArch, |order|, checkOnSkip);
    ReplyAll(s.batch, s.processed, s.pending, outcomes, |order|, format).0
  }

  /** The counters and log cleared at the start of a run. */
  function Reset(b: Batch): Batch {
    b.(isProcessing := true, logMessages := "", totalSavedSpace := 0,
       initialTotalSize := 0, finalTotalSize := 0, savedSpaces := map[])
  }

  /** `startProcessingSelectedApps(completion:)`, with the selection visited in
      `order`, `blessed` the outcome of installing the helper and `hasAccess` its
      full-disk-access answer. */
  function StartSpec(b: Batch, order: seq<string>, blessed: bool, hasAccess: bool, systemArch: string,
                     outcomes: string -> Outcome, format: nat -> string): Batch
  {
    if b.selectedApps == {} then b
    else if !blessed then
      Complete(Reset(b).(logMessages := "Failed to install helper tool.\n"))
    else
      var total := SelectedTotal(order, b.appSizes);
      if total > UInt64Max then Reset(b).(crashed := true)
      else
        var b1 := Reset(b).(initialTotalSize := total, finalTotalSize := total);
        if !hasAccess then Complete(b1)
        else ProcessSpec(b1, order, systemArch, outcomes, format, false)
  }

  // ---------------------------------------------------------------------------
  // What the sending loop does

  function OriginalOf(p: Pending): nat {
    p.originalSize
  }

  /** Every app of the selection is either counted as skipped or has a request in
      flight; the requests that go out are exactly one per pending app, each
      without signing, without entitlements and for the system architecture; and
      the original sizes in flight add up to the setup total. Sending books
      nothing. */
  lemma SendAllFacts(b: Batch, order: seq<string>, systemArch: string, total: nat, checkOnSkip: bool)
    ensures var s := SendAll(b, order, systemArch, total, checkOnSkip);
      s.processed + |s.pending| == |order| &&
      SumOf(s.pending, OriginalOf) == SelectedTotal(order, b.appSizes) &&
      s.batch.requests == b.requests + RequestsFor(s.pending, systemArch) &&
      s.batch.appSizes == b.appSizes && s.batch.crashed == b.crashed &&
      s.batch.initialTotalSize == b.initialTotalSize && s.batch.finalTotalSize == b.finalTotalSize &&
      s.batch.totalSavedSpace == b.totalSavedSpace
  {
    SendAllCounts(b, order, systemArch, total, checkOnSkip);
    SendAllRequests(b, order, systemArch, total, checkOnSkip);
    SendAllKeeps(b, order, systemArch, total, checkOnSkip);
  }

  lemma {:induction false} SendAllCounts(b: Batch, order: seq<string>, systemArch: string, total: nat, checkOnSkip: bool)
    ensures var s := SendAll(b, order, systemArch, total, checkOnSkip);
      s.processed + |s.pending| == |order| &&
      SumOf(s.pending, OriginalOf) == SelectedTotal(order, b.appSizes)
    decreases |order|
  {
    if order != [] {
      var n := |order| - 1;
      SendAllCounts(b, order[..n], systemArch, total, checkOnSkip);
      SendAllKeeps(b, order[..n], systemArch, total, checkOnSkip);
      var s := SendAll(b, order[..n], systemArch, total, checkOnSkip);
      SelectedTotalSnoc(order, b.appSizes);
      SendStepSum(s, order[n], systemArch, total, checkOnSkip);
    }
  }

  /** The setup total of a selection is that of all but its last app, plus the last. */
  lemma SelectedTotalSnoc(order: seq<string>, appSizes: seq<AppSize>)
    requires order != []
    ensures SelectedTotal(order, appSizes) ==
      SelectedTotal(order[..|order| - 1], appSizes) + TotalOf(appSizes, order[|order| - 1])
  {
    var n := |order| - 1;
    SumOfAppend(order[..n], [order[n]], TotalTerm(appSizes));
    assert order[..n] + [order[n]] == order;
  }

  /** One turn of the sending loop adds the app's total to what is in flight. */
  lemma SendStepSum(s: Sending, app: string, systemArch: string, total: nat, checkOnSkip: bool)
    ensures var s' := SendStep(s, app, systemArch, total, checkOnSkip);
      s'.processed + |s'.pending| == s.processed + |s.pending| + 1 &&
      SumOf(s'.pending, OriginalOf) == SumOf(s.pending, OriginalOf) + TotalOf(s.batch.appSizes, app)
  {
    match FindApp(s.batch.appSizes, app)
    case None =>
    case Some(e) =>
      SumOfAppend(s.pending, [Pending(app, e.totalSize, e.savableSize)], OriginalOf);
  }

  lemma {:induction false} SendAllRequests(b: Batch, order: seq<string>, systemArch: string, total: nat, checkOnSkip: bool)
    ensures var s := SendAll(b, order, systemArch, total, checkOnSkip);
      s.batch.requests == b.requests + RequestsFor(s.pending, systemArch)
    decreases |order|
  {
    if order != [] {
      var n := |order| - 1;
      SendAllRequests(b, order[..n], systemArch, total, checkOnSkip);
      SendAllKeeps(b, order[..n], systemArch, total, checkOnSkip);
      var s := SendAll(b, order[..n], systemArch, total, checkOnSkip);
      match FindApp(b.appSizes, order[n])
      case None =>
      case Some(e) =>
        RequestsForAppend(s.pending, Pending(order[n], e.totalSize, e.savableSize), systemArch);
    }
  }

  lemma {:induction false} SendAllKeeps(b: Batch, order: seq<string>, systemArch: string, total: nat, checkOnSkip: bool)
    ensures var s := SendAll(b, order, systemArch, total, checkOnSkip);
      s.batch.appSizes == b.appSizes && s.batch.crashed == b.crashed &&
      s.batch.initialTotalSize == b.initialTotalSize && s.batch.finalTotalSize == b.finalTotalSize &&
      s.batch.totalSavedSpace == b.totalSavedSpace
    decreases |order|
  {
    if order != [] {
      SendAllKeeps(b, order[..|order| - 1], systemArch, total, checkOnSkip);
    }
  }

  /** The requests sent for the apps in flight. */
  function RequestsFor(pending: seq<Pending>, systemArch: string): (r: seq<Request>)
    ensures |r| == |pending|
    ensures forall k :: 0 <= k < |r| ==> r[k] == Request(pending[k].app, systemArch, true, true, Encode(Fresh))
  {
    seq(|pending|, k requires 0 <= k < |pending| => Request(pending[k].app, systemArch, true, true, Encode(Fresh)))
  }

  lemma RequestsForAppend(pending: seq<Pending>, p: Pending, systemArch: string)
    ensures RequestsFor(pending + [p], systemArch) ==
            RequestsFor(pending, systemArch) + [Request(p.app, systemArch, true, true, Encode(Fresh))]
  {
  }

  /** As written, the sending loop never fires the completion block and never ends
      processing, whatever it skips. */
  /** The apps of `order` that have a row, in the order visited. */
  function WithRow(order: seq<string>, rows: seq<AppSize>): (r: seq<string>)
    ensures forall a :: a in r <==> a in order && FindApp(rows, a).Some?
    ensures |r| <= |order|
    decreases |order|
  {
    if order == [] then []
    else
      var n := |order| - 1;
      assert order == order[..n] + [order[n]];
      WithRow(order[..n], rows) + (if FindApp(rows, order[n]).Some? then [order[n]] else [])
  }

  /** The app of each request in flight. */
  function PendingApps(pending: seq<Pending>): (r: seq<string>)
    ensures |r| == |pending| && forall k :: 0 <= k < |pending| ==> r[k] == pending[k].app
  {
    seq(|pending|, k requires 0 <= k < |pending| => pending[k].app)
  }

  /** A request goes out for exactly the apps of the selection that have a row, one
      each, in the order they are visited. */
  lemma {:induction false} SendAllPending(b: Batch, order: seq<string>, systemArch: string, total: nat, checkOnSkip: bool)
    ensures PendingApps(SendAll(b, order, systemArch, total, checkOnSkip).pending) == WithRow(order, b.appSizes)
    decreases |order|
  {
    if order != [] {
      var n := |order| - 1;
      SendAllPending(b, order[..n], systemArch, total, checkOnSkip);
      SendAllKeeps(b, order[..n], systemArch, total, checkOnSkip);
      var s := SendAll(b, order[..n], systemArch, total, checkOnSkip);
      var s' := SendStep(s, order[n], systemArch, total, checkOnSkip);
      if FindApp(b.appSizes, order[n]).Some? {
        assert PendingApps(s'.pending) == PendingApps(s.pending) + [order[n]];
      } else {
        assert s'.pending == s.pending;
      }
    }
  }

  lemma {:induction false} SendAllKeepsProcessing(b: Batch, order: seq<string>, systemArch: string, total: nat)
    ensures var s := SendAll(b, order, systemArch, total, false);
      s.batch.isProcessing == b.isProcessing && s.batch.completions == b.completions
    decreases |order|
  {
    if order != [] {
      SendAllKeepsProcessing(b, order[..|order| - 1], systemArch, total);
    }
  }

  /** With the check after a skip, the sending loop completes the run exactly when
      every app was skipped; otherwise it leaves the completion to the replies. */
  lemma {:induction false} SendAllWithCheck(b: Batch, order: seq<string>, systemArch: string, total: nat)
    requires |order| <= total
    ensures var s := SendAll(b, order, systemArch, total, true);
      s.processed + |s.pending| == |order| &&
      if s.pending == [] && |order| == total && order != [] then
        s.batch.completions == b.completions + 1 && !s.batch.isProcessing
      else
        s.batch.completions == b.completions && s.batch.isProcessing == b.isProcessing
    decreases |order|
  {
    if order != [] {
      var n := |order| - 1;
      SendAllWithCheck(b, order[..n], systemArch, total);
      SendAllFacts(b, order[..n], systemArch, total, true);
    }
  }

  // ---------------------------------------------------------------------------
  // What the replies do

  /** What one reply that does not trap changes. On success the saving is
      recorded for the app, the app leaves the selection and loses its first row
      in `appSizes`; on failure the lists, the selection and the savings are left
      as they were. Either way the app is counted. */
  lemma ReplyEffects(b: Batch, processed: nat, p: Pending, o: Outcome, total: nat, format: nat -> string)
    requires !b.crashed && !Traps(b, p, o)
    ensures var (b', n) := ReplyStep(b, processed, p, o, total, format);
      n == processed + 1 && !b'.crashed &&
      (o.success ==>
        var saved := p.originalSize - o.newSize;
        p.app !in b'.selectedApps && b'.selectedApps == b.selectedApps - {p.app} &&
        b'.processedAppSizes == b.processedAppSizes + [AppSize(p.app, p.originalSize, saved)] &&
        b'.savedSpaces == b.savedSpaces[p.app := saved] &&
        b'.totalSavedSpace == b.totalSavedSpace + saved &&
        (FindApp(b.appSizes, p.app).Some? ==>
          multiset(b'.appSizes) == multiset(b.appSizes) - multiset{FindApp(b.appSizes, p.app).value})) &&
      (!o.success ==>
        b'.appSizes == b.appSizes && b'.selectedApps == b.selectedApps &&
        b'.processedAppSizes == b.processedAppSizes && b'.savedSpaces == b.savedSpaces &&
        b'.totalSavedSpace == b.totalSavedSpace && b'.finalTotalSize == b.finalTotalSize)
  {
    var b1 := if o.success then Saved(b, p, p.originalSize - o.newSize, format)
              else b.(logMessages := b.logMessages + FailedMessage(p.app, o.error));
    assert ReplyStep(b, processed, p, o, total, format) ==
      (if processed + 1 == total then Complete(b1) else b1, processed + 1);
  }

  /** The run's books balance: everything counted at the start is either still in
      `finalTotalSize` or saved, the counters fit in 64 bits, and what is left is
      at least the original sizes of the requests still in flight. A trapped
      process has no books. */
  ghost predicate Accounted(b: Batch, inFlight: seq<Pending>) {
    !b.crashed ==>
      b.initialTotalSize == b.finalTotalSize + b.totalSavedSpace &&
      b.initialTotalSize <= UInt64Max &&
      b.finalTotalSize >= SumOf(inFlight, OriginalOf)
  }

  /** The app did not shrink: `originalSize - newSize` underflows. */
  predicate Grew(p: Pending, o: Outcome) {
    o.success && o.newSize > p.originalSize
  }

  /** Some app in flight reported success but grew. */
  predicate AnyGrew(pending: seq<Pending>, outcomes: string -> Outcome)
    decreases |pending|
  {
    pending != [] &&
    (AnyGrew(pending[..|pending| - 1], outcomes) || Grew(pending[|pending| - 1], outcomes(pending[|pending| - 1].app)))
  }

  /** One reply keeps the books balanced, and it traps exactly when the app grew:
      with balanced books the other two counters cannot leave their range. */
  lemma ReplyStepAccounted(b: Batch, processed: nat, p: Pending, rest: seq<Pending>, o: Outcome,
                           total: nat, format: nat -> string)
    requires Accounted(b, [p] + rest)
    ensures var (b', _) := ReplyStep(b, processed, p, o, total, format);
      Accounted(b', rest) && (b'.crashed <==> b.crashed || Grew(p, o))
  {
    if !b.crashed {
      SumOfAppend([p], rest, OriginalOf);
      assert SumOf([p], OriginalOf) == p.originalSize + SumOf([], OriginalOf);
    }
  }

  /** All the replies keep the books balanced, and the process traps exactly when
      one of the apps in flight reported success but grew. */
  lemma {:induction false} ReplyAllAccounted(b: Batch, processed: nat, pending: seq<Pending>, rest: seq<Pending>,
                                             outcomes: string -> Outcome, total: nat, format: nat -> string)
    requires Accounted(b, pending + rest)
    ensures var (b', _) := ReplyAll(b, processed, pending, outcomes, total, format);
      Accounted(b', rest) && (b'.crashed <==> b.crashed || AnyGrew(pending, outcomes))
    decreases |pending|
  {
    if pending == [] {
      assert pending + rest == rest;
    } else {
      var n := |pending| - 1;
      var x := pending[n];
      assert pending + rest == pending[..n] + ([x] + rest);
      ReplyAllAccounted(b, processed, pending[..n], [x] + rest, outcomes, total, format);
      var r := ReplyAll(b, processed, pending[..n], outcomes, total, format);
      assert ReplyAll(b, processed, pending, outcomes, total, format) == ReplyStep(r.0, r.1, x, outcomes(x.app), total, format);
      assert AnyGrew(pending, outcomes) == (AnyGrew(pending[..n], outcomes) || Grew(x, outcomes(x.app)));
      ReplyStepAccounted(r.0, r.1, x, rest, outcomes(x.app), total, format);
    }
  }

  /** The replies count one app each; as long as the process lives, the completion
      fires once, at the reply that brings the count to the total, and not
      before. */
  lemma {:induction false} ReplyAllCompletion(b: Batch, processed: nat, pending: seq<Pending>,
                                              outcomes: string -> Outcome, total: nat, format: nat -> string)
    requires processed + |pending| <= total && !b.crashed
    ensures var (b', processed') := ReplyAll(b, processed, pending, outcomes, total, format);
      !b'.crashed ==>
        processed' == processed + |pending| &&
        if processed' == total && pending != [] then b'.completions == b.completions + 1 && !b'.isProcessing
        else b'.completions == b.completions && b'.isProcessing == b.isProcessing
    decreases |pending|
  {
    if pending != [] {
      var n := |pending| - 1;
      ReplyAllCompletion(b, processed, pending[..n], outcomes, total, format);
    }
  }

  // ---------------------------------------------------------------------------
  // The whole run

  /** Whatever the helper replies, a run that does not trap ends with balanced
      books, `initialTotalSize == finalTotalSize + totalSavedSpace`, as they were
      before (a run with nothing selected changes nothing). */
  lemma RunBalances(b: Batch, order: seq<string>, blessed: bool, hasAccess: bool, systemArch: string,
                    outcomes: string -> Outcome, format: nat -> string)
    requires !b.crashed ==> b.initialTotalSize == b.finalTotalSize + b.totalSavedSpace
    ensures var r := StartSpec(b, order, blessed, hasAccess, systemArch, outcomes, format);
      !r.crashed ==> r.initialTotalSize == r.finalTotalSize + r.totalSavedSpace
  {
    var total := SelectedTotal(order, b.appSizes);
    if b.selectedApps != {} && blessed && total <= UInt64Max && hasAccess {
      var b1 := Reset(b).(initialTotalSize := total, finalTotalSize := total);
      SendAllFacts(b1, order, systemArch, |order|, false);
      var s := SendAll(b1, order, systemArch, |order|, false);
      assert s.pending + [] == s.pending;
      ReplyAllAccounted(s.batch, s.processed, s.pending, [], outcomes, |order|, format);
    }
  }

  /** A run whose requests all come back (no trap) fires the completion block once
      and ends processing, provided at least one request was sent. */
  lemma RunCompletesAfterReplies(b: Batch, order: seq<string>, systemArch: string,
                                 outcomes: string -> Outcome, format: nat -> string)
    requires !b.crashed
    requires exists i :: 0 <= i < |order| && FindApp(b.appSizes, order[i]).Some?
    ensures var r := ProcessSpec(b, order, systemArch, outcomes, format, false);
      !r.crashed ==> r.completions == b.completions + 1 && !r.isProcessing
  {
    var s := SendAll(b, order, systemArch, |order|, false);
    SendAllFacts(b, order, systemArch, |order|, false);
    SendAllKeepsProcessing(b, order, systemArch, |order|);
    if s.pending == [] {
      var i :| 0 <= i < |order| && FindApp(b.appSizes, order[i]).Some?;
      AllSkipped(b, order, systemArch, |order|, false, i);
    }
    ReplyAllCompletion(s.batch, s.processed, s.pending, outcomes, |order|, format);
  }

  /** An app with a row always puts a request in flight. */
  lemma {:induction false} AllSkipped(b: Batch, order: seq<string>, systemArch: string, total: nat, checkOnSkip: bool, i: nat)
    requires i < |order| && FindApp(b.appSizes, order[i]).Some?
    ensures SendAll(b, order, systemArch, total, checkOnSkip).pending != []
    decreases |order|
  {
    var n := |order| - 1;
    SendAllKeeps(b, order[..n], systemArch, total, checkOnSkip);
    if i < n {
      assert order[..n][i] == order[i];
      AllSkipped(b, order[..n], systemArch, total, checkOnSkip, i);
    }
  }

  /** As written, a run in which no selected app has a row in `appSizes` (a
      selection made before a rescan emptied the list, say) never ends: nothing is
      sent, so no reply arrives to fire the completion, and `isProcessing` stays
      true. */
  lemma SkippedRunNeverEnds(b: Batch, order: seq<string>, systemArch: string,
                            outcomes: string -> Outcome, format: nat -> string)
    requires b.selectedApps != {} && !b.crashed
    requires forall i :: 0 <= i < |order| ==> FindApp(b.appSizes, order[i]).None?
    ensures var r := StartSpec(b, order, true, true, systemArch, outcomes, format);
      r.isProcessing && r.completions == b.completions
  {
    var b1 := Reset(b).(initialTotalSize := SelectedTotal(order, b.appSizes),
                        finalTotalSize := SelectedTotal(order, b.appSizes));
    SkippedTotal(order, b.appSizes);
    var s := SendAll(b1, order, systemArch, |order|, false);
    SendAllFacts(b1, order, systemArch, |order|, false);
    SendAllKeepsProcessing(b1, order, systemArch, |order|);
    if s.pending != [] {
      NothingInFlight(b1, order, systemArch, |order|, false);
    }
  }

  /** Apps without a row add nothing to the setup total. */
  lemma {:induction false} SkippedTotal(order: seq<string>, appSizes: seq<AppSize>)
    requires forall i :: 0 <= i < |order| ==> FindApp(appSizes, order[i]).None?
    ensures SelectedTotal(order, appSizes) == 0
    decreases |order|
  {
    if order != [] {
      assert FindApp(appSizes, order[0]).None?;
      SkippedTotal(order[1..], appSizes);
    }
  }

  /** When no app has a row, nothing is put in flight. */
  lemma {:induction false} NothingInFlight(b: Batch, order: seq<string>, systemArch: string, total: nat, checkOnSkip: bool)
    requires forall i :: 0 <= i < |order| ==> FindApp(b.appSizes, order[i]).None?
    ensures SendAll(b, order, systemArch, total, checkOnSkip).pending == []
    decreases |order|
  {
    if order != [] {
      var n := |order| - 1;
      NothingInFlight(b, order[..n], systemArch, total, checkOnSkip);
      SendAllFacts(b, order[..n], systemArch, total, checkOnSkip);
      assert FindApp(b.appSizes, order[n]).None?;
    }
  }

  /** With the completion check also made after a skip, every run that does not
      trap ends: the completion block fires exactly once and processing stops,
      whether or not anything was sent. */
  lemma CheckedRunAlwaysEnds(b: Batch, order: seq<string>, systemArch: string,
                             outcomes: string -> Outcome, format: nat -> string)
    requires order != [] && !b.crashed
    ensures var r := ProcessSpec(b, order, systemArch, outcomes, format, true);
      !r.crashed ==> r.completions == b.completions + 1 && !r.isProcessing
  {
    SendAllWithCheck(b, order, systemArch, |order|);
    SendAllFacts(b, order, systemArch, |order|, true);
    var s := SendAll(b, order, systemArch, |order|, true);
    ReplyAllCompletion(s.batch, s.processed, s.pending, outcomes, |order|, format);
  }

  // ---------------------------------------------------------------------------
  // The object

  class BatchProcessing {
    var appSizes: seq<AppSize>
    var processedAppSizes: seq<AppSize>
    var selectedApps: set<string>
    var isScanning: bool
    var isProcessing: bool
    var totalSavedSpace: nat
    var logMessages: string
    var initialTotalSize: nat
    var finalTotalSize: nat
    var savedSpaces: map<string, nat>
    var completions: nat
    var requests: seq<Request>
    var crashed: bool
    /** `humanReadableSize()`, a `ByteCountFormatter` rendering. */
    const format: nat -> string

    constructor (format: nat -> string)
      ensures Snapshot() == Batch([], [], {}, false, 0, "", 0, 0, map[], 0, [], false)
      ensures !isScanning && this.format == format
    {
      appSizes := [];
      processedAppSizes := [];
      selectedApps := {};
      isScanning := false;
      isProcessing := false;
      totalSavedSpace := 0;
      logMessages := "";
      initialTotalSize := 0;
      finalTotalSize := 0;
      savedSpaces := map[];
      completions := 0;
      requests := [];
      crashed := false;
      this.format := format;
    }

    function Snapshot(): Batch
      reads this
    {
      Batch(appSizes, processedAppSizes, selectedApps, isProcessing, totalSavedSpace, logMessages,
            initialTotalSize, finalTotalSize, savedSpaces, completions, requests, crashed)
    }

    /** `selectAllApps()`: exactly the listed paths become selected. */
    method SelectAllApps()
      modifies this
      ensures forall p :: p in selectedApps <==> exists e :: e in appSizes && e.path == p
      ensures Snapshot() == old(Snapshot()).(selectedApps := selectedApps) && isScanning == old(isScanning)
    {
      selectedApps := set e | e in appSizes :: e.path;
    }

    /** `deselectAllApps()`. */
    method DeselectAllApps()
      modifies this
      ensures Snapshot() == old(Snapshot()).(selectedApps := {}) && isScanning == old(isScanning)
    {
      selectedApps := {};
    }

    /** `startCalculatingSizes()`, with `systemArch` what `uname -m` prints and
        `hostArch` the machine architecture the search uses: the list is cleared
        and refilled with the apps the helper's `produceSortedList` finds (larger
        savings first), each with the total size of its directory. */
    method StartCalculatingSizes(m: Machine, systemArch: string, hostArch: string)
      modifies this, m
      ensures m.files == old(m.files)
      ensures var apps := QualifyingApps(m, m.Contents("/Applications").GetOr([]),
                  ListedNames(m, "/System/Applications") + ListedNames(m, "/System/Applications/Utilities"),
                  hostArch);
        SortedBy(Savings(appSizes), BiggerFirst) &&
        multiset(Savings(appSizes)) == multiset(KeptBy(apps, AppEstimates(m, m.files, systemArch)))
      ensures forall k :: 0 <= k < |appSizes| ==> appSizes[k].totalSize == DirectorySize(m, m.files, appSizes[k].path)
      ensures Snapshot() == old(Snapshot()).(appSizes := appSizes) && !isScanning
    {
      isScanning := true;
      appSizes := [];
      var universalApps := new UniversalApps(true);
      var progress, sortedAppSizes := universalApps.ProduceSortedListWithProgress(m, systemArch, hostArch);
      appSizes := WithTotalSizes(m, sortedAppSizes);
      isScanning := false;
    }

    /** The completion of `startCalculatingSizes()`: each `(app, savable size)`
        gets the total size of the app's directory. */
    method WithTotalSizes(m: Machine, sortedAppSizes: seq<(string, nat)>) returns (rows: seq<AppSize>)
      ensures |rows| == |sortedAppSizes|
      ensures forall k :: 0 <= k < |rows| ==>
        rows[k] == AppSize(sortedAppSizes[k].0, DirectorySize(m, m.files, sortedAppSizes[k].0), sortedAppSizes[k].1)
      ensures forall k :: 0 <= k < |rows| ==> rows[k].totalSize == DirectorySize(m, m.files, rows[k].path)
      ensures Savings(rows) == sortedAppSizes
    {
      rows := [];
      var i := 0;
      while i < |sortedAppSizes|
        invariant 0 <= i <= |sortedAppSizes| && |rows| == i
        invariant forall k :: 0 <= k < i ==>
          rows[k] == AppSize(sortedAppSizes[k].0, DirectorySize(m, m.files, sortedAppSizes[k].0), sortedAppSizes[k].1)
      {
        var app := sortedAppSizes[i].0;
        var totalSize := CalculateDirectorySize(m, app);
        rows := rows + [AppSize(app, totalSize, sortedAppSizes[i].1)];
        i := i + 1;
      }
      assert Savings(rows) == sortedAppSizes;
    }

    /** `startProcessingSelectedApps(completion:)`, with the selection iterated in
        `order`. */
    method StartProcessingSelectedApps(order: seq<string>, blessed: bool, hasAccess: bool, systemArch: string,
                                       outcomes: string -> Outcome)
      requires multiset(order) == multiset(selectedApps)
      modifies this
      ensures Snapshot() == StartSpec(old(Snapshot()), order, blessed, hasAccess, systemArch, outcomes, format)
      ensures isScanning == old(isScanning)
    {
      if selectedApps == {} {
        return;
      }
      ResetCounters();
      if !blessed {
        logMessages := logMessages + "Failed to install helper tool.\n";
        isProcessing := false;
        completions := completions + 1;
        return;
      }
      var fits := SumSelected(order);
      if !fits {
        return;
      }
      if !hasAccess {
        isProcessing := false;
        completions := completions + 1;
        return;
      }
      ProcessApps(order, systemArch, outcomes);
    }

    /** The fields cleared at the start of a run. */
    method ResetCounters()
      modifies this
      ensures Snapshot() == Reset(old(Snapshot())) && isScanning == old(isScanning)
    {
      isProcessing := true;
      logMessages := "";
      totalSavedSpace := 0;
      initialTotalSize := 0;
      finalTotalSize := 0;
      savedSpaces := map[];
    }

    /** The setup loop: the total size of each selected app with a row is added to
        both `initialTotalSize` and `finalTotalSize`; an addition beyond 64 bits
        traps. */
    method SumSelected(order: seq<string>) returns (fits: bool)
      requires initialTotalSize == 0 && finalTotalSize == 0
      modifies this
      ensures fits <==> SelectedTotal(order, appSizes) <= UInt64Max
      ensures fits ==> Snapshot() == old(Snapshot()).(initialTotalSize := SelectedTotal(order, appSizes),
                                                    finalTotalSize := SelectedTotal(order, appSizes))
      ensures !fits ==> Snapshot() == old(Snapshot()).(crashed := true)
      ensures isScanning == old(isScanning)
    {
      var i := 0;
      while i < |order|
        invariant 0 <= i <= |order|
        invariant initialTotalSize == finalTotalSize == SelectedTotal(order[..i], appSizes) <= UInt64Max
        invariant Snapshot() == old(Snapshot()).(initialTotalSize := initialTotalSize, finalTotalSize := finalTotalSize)
        invariant isScanning == old(isScanning)
      {
        var appInfo := FindApp(appSizes, order[i]);
        SumOfPrefix(order, i, TotalTerm(appSizes));
        if appInfo.Some? {
          if initialTotalSize + appInfo.value.totalSize > UInt64Max {
            PrefixBelowTotal(order, i + 1, appSizes);
            crashed := true;
            initialTotalSize := 0;
            finalTotalSize := 0;
            return false;
          }
          initialTotalSize := initialTotalSize + appInfo.value.totalSize;
          finalTotalSize := finalTotalSize + appInfo.value.totalSize;
        }
        i := i + 1;
      }
      assert order[..i] == order;
      return true;
    }

    /** `processApps(completion:)`: the loop sends a request per app with a row and
        counts the others; then the replies are handled in the order sent. */
    method ProcessApps(order: seq<string>, systemArch: string, outcomes: string -> Outcome)
      modifies this
      ensures Snapshot() == ProcessSpec(old(Snapshot()), order, systemArch, outcomes, format, false)
      ensures isScanning == old(isScanning)
    {
      var processedApps, pending := SendRequests(order, systemArch);
      processedApps := HandleReplies(pending, outcomes, processedApps, |order|);
    }

    /** The sending loop of `processApps(completion:)`. */
    method SendRequests(order: seq<string>, systemArch: string) returns (processedApps: nat, pending: seq<Pending>)
      modifies this
      ensures Sending(Snapshot(), processedApps, pending) == SendAll(old(Snapshot()), order, systemArch, |order|, false)
      ensures isScanning == old(isScanning)
    {
      var totalApps := |order|;
      processedApps := 0;
      pending := [];
      ghost var start := Snapshot();
      var i := 0;
      while i < |order|
        invariant 0 <= i <= |order| && isScanning == old(isScanning)
        invariant Sending(Snapshot(), processedApps, pending) == SendAll(start, order[..i], systemArch, totalApps, false)
      {
        assert order[..i + 1][..i] == order[..i];
        processedApps, pending := SendRequest(order[i], systemArch, totalApps, processedApps, pending);
        i := i + 1;
      }
      assert order[..i] == order;
    }

    /** The replies of `processApps(completion:)`, handled in the order sent. */
    method HandleReplies(pending: seq<Pending>, outcomes: string -> Outcome, counted: nat, totalApps: nat)
      returns (processedApps: nat)
      modifies this
      ensures (Snapshot(), processedApps) == ReplyAll(old(Snapshot()), counted, pending, outcomes, totalApps, format)
      ensures isScanning == old(isScanning)
    {
      processedApps := counted;
      ghost var sent := Snapshot();
      var k := 0;
      while k < |pending|
        invariant 0 <= k <= |pending| && isScanning == old(isScanning)
        invariant (Snapshot(), processedApps) == ReplyAll(sent, counted, pending[..k], outcomes, totalApps, format)
      {
        assert pending[..k + 1][..k] == pending[..k];
        processedApps := HandleReply(pending[k], outcomes(pending[k].app), processedApps, totalApps);
        k := k + 1;
      }
      assert pending[..k] == pending;
    }

    /** One turn of the sending loop. */
    method SendRequest(app: string, systemArch: string, totalApps: nat, processedApps: nat, pending: seq<Pending>)
      returns (processedApps': nat, pending': seq<Pending>)
      modifies this
      ensures Sending(Snapshot(), processedApps', pending') ==
              SendStep(Sending(old(Snapshot()), processedApps, pending), app, systemArch, totalApps, false)
      ensures isScanning == old(isScanning)
    {
      var appInfo := FindApp(appSizes, app);
      if appInfo.None? {
        return processedApps + 1, pending;
      }
      var appState := new AppState();
      var appStateDict := appState.ToDictionary();
      requests := requests + [Request(app, systemArch, true, true, appStateDict)];
      return processedApps, pending + [Pending(app, appInfo.value.totalSize, appInfo.value.savableSize)];
    }

    /** The success branch of the reply handler. */
    method BookSaving(p: Pending, actualSavedSpace: nat)
      requires actualSavedSpace <= finalTotalSize
      modifies this
      ensures Snapshot() == Saved(old(Snapshot()), p, actualSavedSpace, format) && isScanning == old(isScanning)
    {
      BookSize(p.app, p.originalSize, actualSavedSpace);
      var remaining := RemoveRow(appSizes, p.app);
      logMessages := logMessages + ProcessedMessage(p.app, actualSavedSpace, p.expectedSavableSize, format);
      appSizes := remaining;
      selectedApps := selectedApps - {p.app};
    }

    /** The figures of the success branch: the row, the saving and both totals. */
    method BookSize(app: string, originalSize: nat, actualSavedSpace: nat)
      requires actualSavedSpace <= finalTotalSize
      modifies this
      ensures Snapshot() == old(Snapshot()).(
        processedAppSizes := old(processedAppSizes) + [AppSize(app, originalSize, actualSavedSpace)],
        savedSpaces := old(savedSpaces)[app := actualSavedSpace],
        totalSavedSpace := old(totalSavedSpace) + actualSavedSpace,
        finalTotalSize := old(finalTotalSize) - actualSavedSpace)
      ensures isScanning == old(isScanning)
    {
      processedAppSizes := processedAppSizes + [AppSize(app, originalSize, actualSavedSpace)];
      savedSpaces := savedSpaces[app := actualSavedSpace];
      totalSavedSpace := totalSavedSpace + actualSavedSpace;
      finalTotalSize := finalTotalSize - actualSavedSpace;
    }

    /** The reply handler for one request. */
    method HandleReply(p: Pending, o: Outcome, processedApps: nat, totalApps: nat) returns (processedApps': nat)
      modifies this
      ensures (Snapshot(), processedApps') == ReplyStep(old(Snapshot()), processedApps, p, o, totalApps, format)
      ensures isScanning == old(isScanning)
    {
      if crashed {
        return processedApps;
      }
      if o.success {
        if o.newSize > p.originalSize {
          crashed := true;
          return processedApps;
        }
        var actualSavedSpace := p.originalSize - o.newSize;
        if totalSavedSpace + actualSavedSpace > UInt64Max || finalTotalSize < actualSavedSpace {
          crashed := true;
          return processedApps;
        }
        BookSaving(p, actualSavedSpace);
      } else {
        logMessages := logMessages + FailedMessage(p.app, o.error);
      }
      processedApps' := processedApps + 1;
      if processedApps' == totalApps {
        isProcessing := false;
        completions := completions + 1;
      }
    }
  }

  /** The rows as `(path, savable size)` pairs. */
  function Savings(rows: seq<AppSize>): (r: seq<(string, nat)>)
    ensures |r| == |rows|
    ensures forall k :: 0 <= k < |rows| ==> r[k] == (rows[k].path, rows[k].savableSize)
  {
    if rows == [] then [] else Savings(rows[..|rows| - 1]) + [(rows[|rows| - 1].path, rows[|rows| - 1].savableSize)]
  }

  /** A running total never exceeds the full total. */
  lemma PrefixBelowTotal(order: seq<string>, i: nat, appSizes: seq<AppSize>)
    requires i <= |order|
    ensures SelectedTotal(order[..i], appSizes) <= SelectedTotal(order, appSizes)
  {
    assert order == order[..i] + order[i..];
    SumOfAppend(order[..i], order[i..], TotalTerm(appSizes));
  }
}

=== FILE: batch_processing_view.dfy ===
/** The batch screen's list (archify/BatchProcessingView.swift): the sort order the
    user picks and the rows shown for the current search text and order. The view
    layout itself is not modelled. */
module BatchProcessingView {
  import opened Text
  import opened Sorting
  import opened BatchProcessingModel

  /** `SortOrder`: by path or by savable size, each ascending or descending. */
  datatype SortOrder = Name(ascending: bool) | Size(ascending: bool)
  {
    /** `isAscending`: the stored direction, whichever the key. */
    function IsAscending(): (r: bool)
      ensures this == (if this.Name? then SortOrder.Name(r) else SortOrder.Size(r))
    {
      match this
      case Name(a) => a
      case Size(a) => a
    }

    /** `toggle()`: the same key, the other direction. */
    function Toggle(): (r: SortOrder)
      ensures r.Name? <==> this.Name?
      ensures r.IsAscending() == !IsAscending()
    {
      match this
      case Name(a) => Name(!a)
      case Size(a) => Size(!a)
    }
  }

  /** The order the screen starts with: by path, descending. */
  const InitialSortOrder: SortOrder := Name(false)

  /** Toggling twice gives the order back. */
  lemma ToggleTwice(order: SortOrder)
    ensures order.Toggle().Toggle() == order
  {
  }

  /** The search box keeps a row when it is empty, or when the lowercased path
      contains the lowercased search text. */
  predicate MatchesSearch(searchText: string, row: AppSize) {
    searchText == [] || Contains(Lower(row.path), Lower(searchText))
  }

  /** The comparison handed to `sorted(by:)`: paths with `<` or `>`, or the savable
      sizes (the third field of a row, not the total size) with `<` or `>`. */
  function Before(order: SortOrder): (AppSize, AppSize) -> bool {
    match order
    case Name(ascending) =>
      (a: AppSize, b: AppSize) => if ascending then LexLess(a.path, b.path) else LexLess(b.path, a.path)
    case Size(ascending) =>
      (a: AppSize, b: AppSize) => if ascending then a.savableSize < b.savableSize else a.savableSize > b.savableSize
  }

  /** Every comparison the screen can pick is a strict weak order, as `sorted(by:)`
      requires. */
  lemma BeforeIsStrict(order: SortOrder)
    ensures StrictWeakOrder(Before(order))
  {
    var lt := Before(order);
    forall a | true
      ensures !lt(a, a)
    {
      LexLessIrreflexive(a.path);
    }
    forall a, b, c | lt(a, b) && lt(b, c)
      ensures lt(a, c)
    {
      if order.Name? {
        if order.ascending {
          LexLessTransitive(a.path, b.path, c.path);
        } else {
          LexLessTransitive(c.path, b.path, a.path);
        }
      }
    }
    forall a, b, c
      ensures Splits(lt, a, b, c)
    {
      if order.Name? {
        if order.ascending {
          if lt(a, c) {
            LexLessSplits(a.path, b.path, c.path);
          }
        } else {
          if lt(a, c) {
            LexLessSplits(c.path, b.path, a.path);
          }
        }
      }
    }
  }

  /** The search as a filter over rows. */
  function Searched(searchText: string): AppSize -> bool {
    row => MatchesSearch(searchText, row)
  }

  /** `filteredAndSortedApps`: the rows the search keeps, each as often as in
      `appSizes`, ordered by the chosen comparison; rows tied under it keep the
      order they have in `appSizes`, since `sorted(by:)` is stable. */
  function FilteredAndSortedApps(appSizes: seq<AppSize>, searchText: string, order: SortOrder)
    : (r: seq<AppSize>)
    ensures forall row :: multiset(r)[row] == if MatchesSearch(searchText, row) then multiset(appSizes)[row] else 0
    ensures forall row :: row in r <==> row in appSizes && MatchesSearch(searchText, row)
    ensures SortedBy(r, Before(order))
    ensures forall e ::
              Filter(r, TiedWith(Before(order), e)) ==
              Filter(appSizes, Both(Searched(searchText), TiedWith(Before(order), e)))
  {
    var filtered := Filter(appSizes, Searched(searchText));
    BeforeIsStrict(order);
    SortBySorted(filtered, Before(order));
    FilterThenSortStable(appSizes, Searched(searchText), Before(order));
    var r := SortBy(filtered, Before(order));
    assert forall row :: row in r <==> row in multiset(r);
    assert forall row :: row in filtered <==> row in multiset(filtered);
    r
  }

  /** With the search box empty the list shows every row, only reordered. */
  lemma EmptySearchShowsEverything(appSizes: seq<AppSize>, order: SortOrder)
    ensures multiset(FilteredAndSortedApps(appSizes, "", order)) == multiset(appSizes)
  {
    var r := FilteredAndSortedApps(appSizes, "", order);
    assert forall row :: multiset(r)[row] == multiset(appSizes)[row];
  }

  /** Ordered by size, descending: the savable sizes never grow down the list. */
  lemma SizeDescendingRanks(appSizes: seq<AppSize>, searchText: string, i: nat, j: nat)
    requires i < j < |FilteredAndSortedApps(appSizes, searchText, Size(false))|
    ensures FilteredAndSortedApps(appSizes, searchText, Size(false))[i].savableSize >=
            FilteredAndSortedApps(appSizes, searchText, Size(false))[j].savableSize
  {
  }
}

=== FILE: common.dfy ===
/** The main application's shared helper `defaultMacOSApps` (archify/Common.swift):
    the bundles that ship with the system, which the scans leave alone. */
module Common {
  import opened Text
  import opened Host
  import opened UniversalAppsModel

  /** The two bundles excluded by name whatever the system directories hold. */
  const AlwaysExcluded: set<string> := {"Xcode.app", "Safari.app"}

  /** The `.app` entries listed directly in a directory; none when it cannot be read. */
  function BundlesIn(m: Machine, dir: string): (r: set<string>)
    ensures forall name :: name in r <==> name in ListedNames(m, dir) && HasSuffix(name, ".app")
  {
    match m.Contents(dir)
    case None => {}
    case Some(names) => set name | name in names && HasSuffix(name, ".app")
  }

  /** The set `defaultMacOSApps()` builds. */
  function DefaultAppSet(m: Machine): set<string> {
    BundlesIn(m, SystemAppsPaths[0]) + BundlesIn(m, SystemAppsPaths[1]) + AlwaysExcluded
  }

  /** `defaultMacOSApps()`: the `.app` entries of both system application
      directories, then Xcode and Safari. */
  method DefaultMacOSApps(m: Machine) returns (defaultApps: set<string>)
    ensures defaultApps == DefaultAppSet(m)
    ensures AlwaysExcluded <= defaultApps
    ensures forall name :: name in defaultApps <==>
      name in AlwaysExcluded ||
      (HasSuffix(name, ".app") && (name in ListedNames(m, SystemAppsPaths[0]) || name in ListedNames(m, SystemAppsPaths[1])))
  {
    defaultApps := {};
    var i := 0;
    while i < |SystemAppsPaths|
      invariant 0 <= i <= |SystemAppsPaths|
      invariant defaultApps == if i == 0 then {} else if i == 1 then BundlesIn(m, SystemAppsPaths[0])
        else BundlesIn(m, SystemAppsPaths[0]) + BundlesIn(m, SystemAppsPaths[1])
    {
      var apps := m.Contents(SystemAppsPaths[i]);
      if apps.Some? {
        defaultApps := defaultApps + set name | name in apps.value && HasSuffix(name, ".app");
      }
      i := i + 1;
    }
    defaultApps := defaultApps + {"Xcode.app"};
    defaultApps := defaultApps + {"Safari.app"};
  }

  /** Apart from Xcode and Safari, the main application's default set is the part
      of the helper's `fetchDefaultMacOSApps` set that ends in `.app`: the helper
      keeps every listed name, whatever its suffix. */
  lemma DefaultAppsWithinHelperSet(m: Machine, name: string)
    requires name !in AlwaysExcluded
    ensures name in BundlesIn(m, SystemAppsPaths[0]) + BundlesIn(m, SystemAppsPaths[1]) <==>
      HasSuffix(name, ".app") && name in ListedNames(m, "/System/Applications") + ListedNames(m, "/System/Applications/Utilities")
  {
  }
}

=== FILE: file_operations.dfy ===
/** FileOperations.swift, in the app and in the privileged helper: deciding which
    files of a bundle are universal Mach-O binaries, thinning each of them in place
    with `lipo`, optionally re-signing, and the bookkeeping once every entry has
    been processed; plus the copy of a bundle into the output directory.

    The two Swift classes differ only in the wording of three log lines, in what
    happens when the bundle cannot be enumerated, and in the helper's completion
    callback; `inHelper` selects the helper's behaviour. */
module FileOps {
  import opened Wrappers
  import opened Text
  import opened Paths
  import opened Host
  import opened Arch
  import opened AppStateModel
  import opened Signing
  import opened Sizes

  const MachMime := "application/x-mach-binary"
  const FileTool := "/usr/bin/file"

  /** `bundledLipoPath()` and `bundledRsyncPath()`. */
  function LipoPath(m: Machine): string {
    m.bundled("lipo").GetOr("/usr/bin/lipo")
  }

  function RsyncPath(m: Machine): string {
    m.bundled("rsync").GetOr("/usr/bin/rsync")
  }

  /** One thinning request: the slice to keep is written over the input. */
  function ThinArgs(bin: string, arch: string): seq<string> {
    [bin, "-thin", arch, "-output", bin]
  }

  function MimeInvocation(path: string): Invocation {
    Invocation(FileTool, ["--mime-type", path])
  }

  function InfoInvocation(m: Machine, path: string): Invocation {
    Invocation(LipoPath(m), ["-info", path])
  }

  /** What to run on a bundle, as the callers pass it. */
  datatype Job = Job(dir: string, targetArch: string, noSign: bool, noEntitlements: bool)

  // ---------------------------------------------------------------------------
  // Log lines that differ between the two copies

  function AttributesMessage(inHelper: bool, path: string, e: string): string {
    if inHelper then "Error getting file attributes for " + path + ": " + e
    else "Error getting file attributes: " + e
  }

  function FileTypeMessage(inHelper: bool, path: string, e: string): string {
    if inHelper then "Error determining file type for " + path + ": " + e
    else "Error determining file type: " + e
  }

  function UniversalMessage(inHelper: bool, path: string, e: string): string {
    if inHelper then "Error determining universal binary info for " + path + ": " + e
    else "Error determining universal binary info: " + e
  }

  function EnumeratorFailure(dir: string): string {
    "Failed to create enumerator for directory " + dir
  }

  // ---------------------------------------------------------------------------
  // Specifications of the steps

  /** `isMach(path:)`: unreadable files, symbolic links and alias-typed names are
      not Mach-O; otherwise `file --mime-type` decides. */
  function IsMachSpec(m: Machine, w: World, path: string, inHelper: bool): (bool, World) {
    if !(path in w.files && w.files[path].readable) then (false, w)
    else if !w.files[path].attributesReadable then
      (false, LogW(w, AttributesMessage(inHelper, path, m.failure(path))))
    else if w.files[path].kind == SymbolicLink || m.aliasExtension(PathExtension(path)) then (false, w)
    else
      var w1 := LaunchW(m, w, MimeInvocation(path));
      match m.run(MimeInvocation(path))
      case LaunchError(e) => (false, LogW(w1, FileTypeMessage(inHelper, path, e)))
      case Exited(_, out) => (Contains(out, MachMime), w1)
  }

  /** `isUniversal(path:targetArch:)`: `lipo -info`, then the slice chooser. */
  function IsUniversalSpec(m: Machine, w: World, path: string, target: string, inHelper: bool): (Option<string>, World) {
    var w1 := LaunchW(m, w, InfoInvocation(m, path));
    match m.run(InfoInvocation(m, path))
    case LaunchError(e) => (None, LogW(w1, UniversalMessage(inHelper, path, e)))
    case Exited(_, out) => (Resolve(ArchTokens(out), target), w1)
  }

  /** `cleanBin(bin:arch:)`: a launch failure is logged and goes no further. */
  function CleanBinSpec(m: Machine, w: World, bin: string, arch: string): World {
    var inv := Invocation(LipoPath(m), ThinArgs(bin, arch));
    var w1 := LaunchW(m, w, inv);
    match m.run(inv)
    case LaunchError(e) => LogW(w1, "Error cleaning binary " + bin + " for architecture " + arch + ": " + e)
    case Exited(_, _) => w1
  }

  /** Whether `processBinary` signs: only when signing is wanted, `useLDID` is set
      and an `ldid` can be found. */
  function SignsWith(m: Machine, files: map<string, FileInfo>, s: Settings, noSign: bool): Option<string> {
    if noSign || !s.useLDID then None else LdidLocation(s.ldidPath, m, files)
  }

  /** `processBinary(at:arch:noSign:noEntitlements:)`. */
  function ProcessBinarySpec(m: Machine, w: World, s: Settings, path: string, arch: string, noSign: bool, noEnt: bool): World {
    var w1 := CleanBinSpec(m, w, path, arch);
    match SignsWith(m, w1.files, s, noSign)
    case None => w1
    case Some(ldid) => SignBinSpec(m, w1, ldid, path, noEnt)
  }

  /** The task run for one enumerated entry. */
  function EntrySpec(m: Machine, w: World, s: Settings, job: Job, entry: string, inHelper: bool): World {
    var path := AppendPath(job.dir, entry);
    var (mach, w1) := IsMachSpec(m, w, path, inHelper);
    if !mach then w1
    else
      var (arch, w2) := IsUniversalSpec(m, w1, path, job.targetArch, inHelper);
      if arch.None? then w2
      else ProcessBinarySpec(m, w2, s, path, arch.value, job.noSign, job.noEntitlements)
  }

  /** The entries processed one after the other. */
  function EntriesSpec(m: Machine, w: World, s: Settings, job: Job, entries: seq<string>, inHelper: bool): World
    decreases |entries|
  {
    if entries == [] then w
    else EntrySpec(m, EntriesSpec(m, w, s, job, entries[..|entries| - 1], inHelper), s, job, entries[|entries| - 1], inHelper)
  }

  /** The notify block: one bundle-wide codesign when asked for, then the final
      size of the output directory, and the state updates. */
  function FinishSpec(m: Machine, w: World, s: Settings, job: Job): (Settings, World) {
    var w1 := LogW(w, "All binaries processed.");
    var w2 := if s.useCodesign then SignAppSpec(m, w1, job.dir, job.noEntitlements) else w1;
    var size := DirectorySize(m, w2.files, s.outputDir);
    (s.(finalAppSize := size, isProcessing := false, outputDir := DeletingLastPathComponent(s.outputDir)),
     LogW(w2, "Final App Size: " + NatToString(size) + " bytes"))
  }

  /** `extractAndSignBinaries`: settings, machine and log afterwards, and the
      arguments the helper passes to its completion. */
  function ExtractSpec(m: Machine, w: World, s: Settings, job: Job, inHelper: bool): (Settings, World, (bool, Option<string>)) {
    match m.Enumerate(job.dir)
    case None =>
      (if inHelper then s else s.(isProcessing := false),
       LogW(w, EnumeratorFailure(job.dir)),
       (false, Some(EnumeratorFailure(job.dir))))
    case Some(entries) =>
      var (s', w') := FinishSpec(m, EntriesSpec(m, w, s, job, entries, inHelper), s, job);
      (s', w', (true, None))
  }

  // ---------------------------------------------------------------------------
  // The copy of a bundle

  /** The log line echoed for one line of `rsync -v` output: directories (lines
      ending in a slash) at most five components deep, as the components joined
      by slashes followed by a slash and an asterisk. */
  function EchoLine(line: string): (r: Option<string>)
    ensures r.Some? ==> HasSuffix(line, "/") && HasSuffix(r.value, "/*")
  {
    if !HasSuffix(line, "/") then None
    else
      var components := Split(line, {'/'});
      if |components| <= 5 then Some(Join(components, "/") + "/*") else None
  }

  /** Every echoed line, in output order. */
  function RsyncEcho(lines: seq<string>): (r: seq<string>)
    ensures |r| <= |lines|
    ensures forall i :: 0 <= i < |r| ==> HasSuffix(r[i], "/*")
  {
    if lines == [] then []
    else
      var rest := RsyncEcho(lines[1..]);
      match EchoLine(lines[0])
      case None => rest
      case Some(l) => [l] + rest
  }

  /** `duplicateApp(appDir:outputDir:)`: the bundle's copy path, or the error thrown. */
  function DuplicateSpec(m: Machine, w: World, appDir: string, outputDir: string): (Result<string, string>, World) {
    var target := AppendPath(outputDir, LastPathComponent(appDir));
    if outputDir !in w.files then (Failure("Output directory does not exist"), w)
    else match MkdirOutcome(m, w.files, target)
      case Some(e) => (Failure(e), w)
      case None =>
        CopySpec(m, w.(files := if target in w.files then w.files else w.files[target := EmptyDirectory]), appDir, outputDir, target)
  }

  /** The rsync run of `duplicateApp`, once the copy's directory exists. */
  function CopySpec(m: Machine, w: World, appDir: string, outputDir: string, target: string): (Result<string, string>, World) {
    var inv := Invocation(RsyncPath(m), ["-r", "-v", "-aHz", appDir, outputDir]);
    var w1 := LaunchW(m, LogW(w, "Running " + RsyncPath(m) + " " + Join(inv.args, " ")), inv);
    match m.run(inv)
    case LaunchError(e) => (Failure(e), w1)
    case Exited(_, out) => (Success(target), w1.(log := w1.log + RsyncEcho(Split(out, {'\n'}))))
  }

  // ---------------------------------------------------------------------------
  // The object

  class FileOperations {
    const appState: AppState
    const inHelper: bool

    constructor (appState: AppState, inHelper: bool)
      ensures this.appState == appState && this.inHelper == inHelper
    {
      this.appState := appState;
      this.inHelper := inHelper;
    }

    /** `isMach(path:)`. */
    method IsMach(m: Machine, path: string) returns (b: bool)
      modifies m, appState
      ensures (b, m.At(appState.logBuffer)) == IsMachSpec(m, old(m.At(appState.logBuffer)), path, inHelper)
      ensures appState.Snapshot() == old(appState.Snapshot())
    {
      if !m.IsReadable(path) {
        return false;
      }
      var attributes := m.Attributes(path);
      if attributes.Failure? {
        appState.AppendLog(AttributesMessage(inHelper, path, attributes.error));
        return false;
      }
      if attributes.value.kind == SymbolicLink || m.aliasExtension(PathExtension(path)) {
        return false;
      }
      var r := m.Launch(MimeInvocation(path));
      match r
      case LaunchError(e) =>
        appState.AppendLog(FileTypeMessage(inHelper, path, e));
        b := false;
      case Exited(_, out) =>
        b := Contains(out, MachMime);
    }

    /** `isUniversal(path:targetArch:)`. */
    method IsUniversal(m: Machine, path: string, targetArch: string) returns (arch: Option<string>)
      modifies m, appState
      ensures (arch, m.At(appState.logBuffer)) == IsUniversalSpec(m, old(m.At(appState.logBuffer)), path, targetArch, inHelper)
      ensures appState.Snapshot() == old(appState.Snapshot())
    {
      var r := m.Launch(InfoInvocation(m, path));
      match r
      case LaunchError(e) =>
        appState.AppendLog(UniversalMessage(inHelper, path, e));
        arch := None;
      case Exited(_, out) =>
        arch := Resolve(ArchTokens(out), targetArch);
    }

    /** `getArchitectures(path:)` (app copy only): the token list, or nil when
        `lipo` cannot be launched or reports no colon-separated text. */
    method GetArchitectures(m: Machine, path: string) returns (archs: Option<seq<string>>)
      modifies m
      ensures var run := m.run(Invocation("/usr/bin/lipo", ["-info", path]));
        archs == (if run.LaunchError? then None else LipoArchitectures(run.stdout))
      ensures m.At([]) == LaunchW(m, old(m.At([])), Invocation("/usr/bin/lipo", ["-info", path]))
    {
      var r := m.Launch(Invocation("/usr/bin/lipo", ["-info", path]));
      if r.LaunchError? {
        return None;
      }
      archs := LipoArchitectures(r.stdout);
    }

    /** `cleanBin(bin:arch:)`. */
    method CleanBin(m: Machine, bin: string, arch: string)
      modifies m, appState
      ensures m.At(appState.logBuffer) == CleanBinSpec(m, old(m.At(appState.logBuffer)), bin, arch)
      ensures appState.Snapshot() == old(appState.Snapshot())
    {
      var r := m.Launch(Invocation(LipoPath(m), ThinArgs(bin, arch)));
      if r.LaunchError? {
        appState.AppendLog("Error cleaning binary " + bin + " for architecture " + arch + ": " + r.reason);
      }
    }

    /** `processBinary(at:arch:noSign:noEntitlements:)`. */
    method ProcessBinary(m: Machine, path: string, arch: string, noSign: bool, noEntitlements: bool)
      modifies m, appState
      ensures m.At(appState.logBuffer)
        == ProcessBinarySpec(m, old(m.At(appState.logBuffer)), old(appState.Snapshot()), path, arch, noSign, noEntitlements)
      ensures appState.Snapshot() == old(appState.Snapshot())
    {
      CleanBin(m, path, arch);
      if !noSign && appState.useLDID {
        var ldid := appState.FindLdid(m);
        if ldid.Some? {
          var signer := new Signer(appState, ldid.value);
          signer.SignBin(m, path, noEntitlements);
        }
      }
    }

    /** The task queued for one enumerated entry. */
    method ProcessEntry(m: Machine, job: Job, entry: string)
      modifies m, appState
      ensures m.At(appState.logBuffer) == EntrySpec(m, old(m.At(appState.logBuffer)), old(appState.Snapshot()), job, entry, inHelper)
      ensures appState.Snapshot() == old(appState.Snapshot())
    {
      var fullPath := AppendPath(job.dir, entry);
      var mach := IsMach(m, fullPath);
      if mach {
        var arch := IsUniversal(m, fullPath, job.targetArch);
        if arch.Some? {
          ProcessBinary(m, fullPath, arch.value, job.noSign, job.noEntitlements);
        }
      }
    }

    /** `codesignApp(at:noEntitlements:)`. */
    method CodesignApp(m: Machine, path: string, noEntitlements: bool)
      modifies m, appState
      ensures m.At(appState.logBuffer) == SignAppSpec(m, old(m.At(appState.logBuffer)), path, noEntitlements)
      ensures appState.Snapshot() == old(appState.Snapshot())
    {
      var signer := new Signer(appState, "");
      signer.SignApp(m, path, noEntitlements);
    }

    /** `extractAndSignBinaries(in:targetArch:noSign:noEntitlements:)`; the result is
        what the helper's copy passes to `completion`, which the app's copy lacks. */
    method ExtractAndSignBinaries(m: Machine, job: Job) returns (success: bool, error: Option<string>)
      modifies m, appState
      ensures (appState.Snapshot(), m.At(appState.logBuffer), (success, error))
        == ExtractSpec(m, old(m.At(appState.logBuffer)), old(appState.Snapshot()), job, inHelper)
    {
      var listing := m.Enumerate(job.dir);
      if listing.None? {
        appState.AppendLog(EnumeratorFailure(job.dir));
        if !inHelper {
          appState.isProcessing := false;
        }
        return false, Some(EnumeratorFailure(job.dir));
      }
      ProcessEntries(m, job, listing.value);
      Finish(m, job);
      return true, None;
    }

    /** The loop over the enumerated entries, one after the other. */
    method ProcessEntries(m: Machine, job: Job, entries: seq<string>)
      modifies m, appState
      ensures appState.Snapshot() == old(appState.Snapshot())
      ensures m.At(appState.logBuffer) ==
        EntriesSpec(m, old(m.At(appState.logBuffer)), old(appState.Snapshot()), job, entries, inHelper)
    {
      ghost var w0 := m.At(appState.logBuffer);
      ghost var s0 := appState.Snapshot();
      var i := 0;
      while i < |entries|
        invariant 0 <= i <= |entries|
        invariant appState.Snapshot() == s0
        invariant m.At(appState.logBuffer) == EntriesSpec(m, w0, s0, job, entries[..i], inHelper)
      {
        ProcessEntry(m, job, entries[i]);
        assert entries[..i + 1][..i] == entries[..i];
        i := i + 1;
      }
      assert entries[..i] == entries;
    }

    /** The notify block. */
    method Finish(m: Machine, job: Job)
      modifies m, appState
      ensures (appState.Snapshot(), m.At(appState.logBuffer))
        == FinishSpec(m, old(m.At(appState.logBuffer)), old(appState.Snapshot()), job)
    {
      appState.AppendLog("All binaries processed.");
      if appState.useCodesign {
        CodesignApp(m, job.dir, job.noEntitlements);
      }
      RecordFinalSize(m);
    }

    /** The end of the notify block: the size of the output directory is recorded
        and logged, processing ends, and `outputDir` moves up to its parent. */
    method RecordFinalSize(m: Machine)
      modifies appState
      ensures var size := DirectorySize(m, m.files, old(appState.outputDir));
        appState.Snapshot() == old(appState.Snapshot()).(finalAppSize := size, isProcessing := false,
          outputDir := DeletingLastPathComponent(old(appState.outputDir))) &&
        appState.logBuffer == old(appState.logBuffer) + ["Final App Size: " + NatToString(size) + " bytes"]
    {
      var size := CalculateDirectorySize(m, appState.outputDir);
      appState.finalAppSize := size;
      appState.AppendLog("Final App Size: " + NatToString(appState.finalAppSize) + " bytes");
      appState.isProcessing := false;
      appState.outputDir := DeletingLastPathComponent(appState.outputDir);
    }

    /** The readability handler of `duplicateApp`: the echo of each output line. */
    method EchoRsync(lines: seq<string>)
      modifies appState
      ensures appState.logBuffer == old(appState.logBuffer) + RsyncEcho(lines)
      ensures appState.Snapshot() == old(appState.Snapshot())
    {
      var i := 0;
      while i < |lines|
        invariant 0 <= i <= |lines|
        invariant appState.Snapshot() == old(appState.Snapshot())
        invariant appState.logBuffer + RsyncEcho(lines[i..]) == old(appState.logBuffer) + RsyncEcho(lines)
      {
        assert lines[i..][1..] == lines[i + 1..];
        var echoed := EchoLine(lines[i]);
        if echoed.Some? {
          appState.AppendLog(echoed.value);
        }
        i := i + 1;
      }
      assert lines[i..] == [];
    }

    /** `duplicateApp(appDir:outputDir:)`. */
    method DuplicateApp(m: Machine, appDir: string, outputDir: string) returns (r: Result<string, string>)
      modifies m, appState
      ensures (r, m.At(appState.logBuffer)) == DuplicateSpec(m, old(m.At(appState.logBuffer)), appDir, outputDir)
      ensures appState.Snapshot() == old(appState.Snapshot())
    {
      var outputAppDir := AppendPath(outputDir, LastPathComponent(appDir));
      if !m.Exists(outputDir) {
        return Failure("Output directory does not exist");
      }
      var err := m.CreateDirectory(outputAppDir);
      if err.Some? {
        return Failure(err.value);
      }
      var arguments := ["-r", "-v", "-aHz", appDir, outputDir];
      appState.AppendLog("Running " + RsyncPath(m) + " " + Join(arguments, " "));
      var run := m.Launch(Invocation(RsyncPath(m), arguments));
      if run.LaunchError? {
        return Failure(run.reason);
      }
      EchoRsync(Split(run.stdout, {'\n'}));
      return Success(outputAppDir);
    }
  }
}

=== FILE: file_operations_facts.dfy ===
/** What the thinning pipeline of FileOperations.swift guarantees: how an entry is
    classified, that thinning rewrites a binary in place, when `ldid` runs, what the
    helper reports, and the file table after a whole bundle: every chosen binary
    replaced by its thinned slice and nothing else changed, whatever the order in
    which the entries are visited. */
module FileOpsFacts {
  import opened Wrappers
  import opened Text
  import opened Paths
  import opened Host
  import opened Arch
  import opened AppStateModel
  import opened Signing
  import opened Sizes
  import opened Sorting
  import opened FileOps

  // ---------------------------------------------------------------------------
  // One entry

  /** The conditions under which `isMach` answers yes. */
  predicate MachByTool(m: Machine, files: map<string, FileInfo>, path: string) {
    path in files && files[path].readable && files[path].attributesReadable &&
    files[path].kind != SymbolicLink && !m.aliasExtension(PathExtension(path)) &&
    m.run(MimeInvocation(path)).Exited? && Contains(m.run(MimeInvocation(path)).stdout, MachMime)
  }

  /** `isMach` is false for unreadable paths, attribute errors, symbolic links and
      alias-typed names, and otherwise holds exactly when the reported MIME type
      contains `application/x-mach-binary`. It changes no file. */
  lemma IsMachIff(m: Machine, w: World, path: string, inHelper: bool)
    ensures IsMachSpec(m, w, path, inHelper).0 <==> MachByTool(m, w.files, path)
    ensures IsMachSpec(m, w, path, inHelper).1.files == w.files
  {
    NotThin(MimeInvocation(path));
  }

  /** The slice the pipeline keeps for a path, decided from the file table alone. */
  function Decision(m: Machine, files: map<string, FileInfo>, path: string, target: string): (r: Option<string>)
    ensures r.Some? ==> path in files
  {
    if !MachByTool(m, files, path) then None
    else match m.run(InfoInvocation(m, path))
      case LaunchError(_) => None
      case Exited(_, out) => Resolve(ArchTokens(out), target)
  }

  /** `isUniversal` changes no file, answers with one of the reported tokens, and the
      app's and the helper's copies give the same answer on every input. */
  lemma IsUniversalFacts(m: Machine, w: World, path: string, target: string, inHelper: bool)
    ensures var (r, w') := IsUniversalSpec(m, w, path, target, inHelper);
      var run := m.run(InfoInvocation(m, path));
      w'.files == w.files &&
      (r.Some? ==> run.Exited? && r.value in ArchTokens(run.stdout)) &&
      r == IsUniversalSpec(m, w, path, target, !inHelper).0
  {
    NotThin(InfoInvocation(m, path));
  }

  /** The `lipo` executable is recognised by its name. */
  predicate LipoNamed(m: Machine) {
    LastPathComponent(LipoPath(m)) == "lipo"
  }

  /** The default `/usr/bin/lipo` is. */
  lemma DefaultLipoNamed()
    ensures LastPathComponent("/usr/bin/lipo") == "lipo"
  {
    assert AppendPath("/usr/bin", "lipo") == "/usr/bin/lipo";
    AppendThenLast("/usr/bin", "lipo");
  }

  /** `cleanBin` runs `lipo bin -thin arch -output bin`: when it exits with 0 the
      binary's own path holds the thinned slice, otherwise nothing changes. */
  lemma CleanBinInPlace(m: Machine, w: World, bin: string, arch: string)
    requires LipoNamed(m)
    ensures var w' := CleanBinSpec(m, w, bin, arch);
      var run := m.run(Invocation(LipoPath(m), [bin, "-thin", arch, "-output", bin]));
      w'.launched == w.launched + [Invocation(LipoPath(m), [bin, "-thin", arch, "-output", bin])] &&
      w'.files == if run.Exited? && run.status == 0 then w.files[bin := m.thinned(bin, arch)] else w.files
  {
    assert ThinRequest(Invocation(LipoPath(m), ThinArgs(bin, arch))) == Some((bin, arch, bin));
  }

  /** Where `ldid` is found depends only on which paths exist. */
  lemma {:induction false} SearchPathKeys(dirs: seq<string>, f1: map<string, FileInfo>, f2: map<string, FileInfo>,
                                          fallback: Option<string>)
    requires f1.Keys == f2.Keys
    ensures SearchPath(dirs, f1, fallback) == SearchPath(dirs, f2, fallback)
  {
    if dirs != [] {
      assert AppendPath(dirs[0], "ldid") in f1 <==> AppendPath(dirs[0], "ldid") in f2;
      SearchPathKeys(dirs[1..], f1, f2, fallback);
    }
  }

  lemma SignsWithKeys(m: Machine, f1: map<string, FileInfo>, f2: map<string, FileInfo>, s: Settings, noSign: bool)
    requires f1.Keys == f2.Keys
    ensures SignsWith(m, f1, s, noSign) == SignsWith(m, f2, s, noSign)
  {
    SearchPathKeys(Split(m.pathEnv.GetOr(""), {':'}), f1, f2, m.bundled("ldid"));
  }

  /** `processBinary` always thins first, and runs anything more (the `ldid` runs)
      exactly when signing is wanted, `useLDID` is set and an `ldid` is found. */
  lemma ProcessBinaryLaunches(m: Machine, w: World, s: Settings, path: string, arch: string, noSign: bool, noEnt: bool)
    requires path in w.files
    ensures var w' := ProcessBinarySpec(m, w, s, path, arch, noSign, noEnt);
      |w'.launched| > |w.launched| &&
      w'.launched[|w.launched|] == Invocation(LipoPath(m), [path, "-thin", arch, "-output", path]) &&
      (|w'.launched| == |w.launched| + 1 <==> SignsWith(m, w.files, s, noSign).None?)
  {
    var w1 := CleanBinSpec(m, w, path, arch);
    assert w1.files.Keys == w.files.Keys;
    SignsWithKeys(m, w1.files, w.files, s, noSign);
    match SignsWith(m, w1.files, s, noSign)
    case None =>
    case Some(ldid) =>
      SignBinLaunches(m, w1, ldid, path, noEnt);
  }

  /** Signing cannot disturb the file table: either no binary is signed, or every
      temporary entitlements name is free and can be removed again. */
  ghost predicate TempsFree(m: Machine, files: map<string, FileInfo>) {
    forall n: nat :: TempPath(m, n) !in files && m.removeError(TempPath(m, n)) == None
  }

  ghost predicate SigningHarmless(m: Machine, files: map<string, FileInfo>, s: Settings, job: Job) {
    SignsWith(m, files, s, job.noSign).None? || TempsFree(m, files)
  }

  /** What thinning leaves at a path, if the pipeline thins it and `lipo` succeeds. */
  function ThinnedTo(m: Machine, files: map<string, FileInfo>, path: string, target: string): (r: Option<FileInfo>)
    ensures r.Some? ==> path in files
  {
    match Decision(m, files, path, target)
    case None => None
    case Some(arch) =>
      var run := m.run(Invocation(LipoPath(m), ThinArgs(path, arch)));
      if run.Exited? && run.status == 0 then Some(m.thinned(path, arch)) else None
  }

  /** The file table after one entry's task. */
  function AfterEntry(m: Machine, files: map<string, FileInfo>, path: string, target: string): map<string, FileInfo> {
    match ThinnedTo(m, files, path, target)
    case None => files
    case Some(f) => files[path := f]
  }

  /** An entry is rewritten only when it is a Mach-O file for which a slice is
      chosen, and then only at its own path; every other entry is left untouched. */
  lemma EntryFiles(m: Machine, w: World, s: Settings, job: Job, entry: string, inHelper: bool)
    requires LipoNamed(m) && SigningHarmless(m, w.files, s, job)
    ensures EntrySpec(m, w, s, job, entry, inHelper).files == AfterEntry(m, w.files, AppendPath(job.dir, entry), job.targetArch)
  {
    var path := AppendPath(job.dir, entry);
    IsMachIff(m, w, path, inHelper);
    var (mach, w1) := IsMachSpec(m, w, path, inHelper);
    if mach {
      IsUniversalFacts(m, w1, path, job.targetArch, inHelper);
      var (arch, w2) := IsUniversalSpec(m, w1, path, job.targetArch, inHelper);
      assert arch == Decision(m, w.files, path, job.targetArch);
      if arch.Some? {
        SignsWithKeys(m, w2.files, w.files, s, job.noSign);
        ProcessBinaryFiles(m, w2, s, path, arch.value, job.noSign, job.noEntitlements);
      }
    }
  }

  /** `processBinary` on an existing file: the thinned slice replaces it when `lipo`
      succeeds, and signing, when harmless, leaves the table as thinning left it. */
  lemma ProcessBinaryFiles(m: Machine, w: World, s: Settings, path: string, arch: string, noSign: bool, noEnt: bool)
    requires LipoNamed(m) && path in w.files
    requires SignsWith(m, w.files, s, noSign).None? || TempsFree(m, w.files)
    ensures var run := m.run(Invocation(LipoPath(m), ThinArgs(path, arch)));
      ProcessBinarySpec(m, w, s, path, arch, noSign, noEnt).files ==
        if run.Exited? && run.status == 0 then w.files[path := m.thinned(path, arch)] else w.files
  {
    CleanBinInPlace(m, w, path, arch);
    var w3 := CleanBinSpec(m, w, path, arch);
    assert w3.files.Keys == w.files.Keys;
    SignsWithKeys(m, w3.files, w.files, s, noSign);
    match SignsWith(m, w3.files, s, noSign)
    case None =>
    case Some(ldid) =>
      assert TempPath(m, w3.drawn) !in w3.files;
      SignBinLeavesNoTrace(m, w3, ldid, path, noEnt);
  }

  /** Appending different components to one directory gives different paths. */
  lemma AppendPathInjective(dir: string, a: string, b: string)
    requires AppendPath(dir, a) == AppendPath(dir, b)
    ensures a == b
  {
    var head := if dir == [] then [] else if dir[|dir| - 1] == '/' then dir else dir + "/";
    assert AppendPath(dir, a) == head + a && AppendPath(dir, b) == head + b;
    assert a == (head + a)[|head|..];
    assert b == (head + b)[|head|..];
  }


  /** The full paths of the entries. */
  function FullPaths(dir: string, entries: seq<string>): set<string> {
    set e | e in entries :: AppendPath(dir, e)
  }

  /** The file table after a whole bundle, in closed form: each entry's path holds
      its thinned slice when it was thinned, every other path is as it was. */
  function PipelineFiles(m: Machine, files: map<string, FileInfo>, dir: string, entries: seq<string>, target: string): map<string, FileInfo> {
    map p | p in files ::
      if p in FullPaths(dir, entries) && ThinnedTo(m, files, p, target).Some? then ThinnedTo(m, files, p, target).value
      else files[p]
  }

  /** Whether thinning a path happens depends only on what the table holds there. */
  lemma ThinnedToLocal(m: Machine, f1: map<string, FileInfo>, f2: map<string, FileInfo>, path: string, target: string)
    requires path in f1 <==> path in f2
    requires path in f1 ==> f1[path] == f2[path]
    ensures ThinnedTo(m, f1, path, target) == ThinnedTo(m, f2, path, target)
  {
    assert MachByTool(m, f1, path) == MachByTool(m, f2, path);
  }

  /** A path outside the entries already seen is still as it was. */
  lemma {:induction false} FreshEntry(dir: string, entries: seq<string>)
    requires entries != [] && Distinct(entries)
    ensures AppendPath(dir, entries[|entries| - 1]) !in FullPaths(dir, entries[..|entries| - 1])
    ensures FullPaths(dir, entries) == FullPaths(dir, entries[..|entries| - 1]) + {AppendPath(dir, entries[|entries| - 1])}
  {
    var n := |entries| - 1;
    var prefix := entries[..n];
    var e := entries[n];
    forall e' | e' in prefix
      ensures AppendPath(dir, e') != AppendPath(dir, e)
    {
      var i :| 0 <= i < n && prefix[i] == e';
      assert entries[i] != entries[n];
      if AppendPath(dir, e') == AppendPath(dir, e) {
        AppendPathInjective(dir, e', e);
      }
    }
    assert entries == prefix + [e];
  }

  /** One more entry, on top of the closed form of the ones before it. */
  lemma ClosedFormStep(m: Machine, files: map<string, FileInfo>, dir: string, prefix: seq<string>, e: string, target: string)
    requires AppendPath(dir, e) !in FullPaths(dir, prefix)
    requires FullPaths(dir, prefix + [e]) == FullPaths(dir, prefix) + {AppendPath(dir, e)}
    ensures AfterEntry(m, PipelineFiles(m, files, dir, prefix, target), AppendPath(dir, e), target)
      == PipelineFiles(m, files, dir, prefix + [e], target)
  {
    var p := AppendPath(dir, e);
    var prev := PipelineFiles(m, files, dir, prefix, target);
    ThinnedToLocal(m, prev, files, p, target);
    var result := AfterEntry(m, prev, p, target);
    var expected := PipelineFiles(m, files, dir, prefix + [e], target);
    assert result.Keys == expected.Keys;
    forall q | q in result
      ensures result[q] == expected[q]
    {
      if q != p {
        assert q in FullPaths(dir, prefix + [e]) <==> q in FullPaths(dir, prefix);
      }
    }
  }

  /** Processing the entries one task after another gives the closed form. */
  lemma {:induction false} PipelineFilesClosedForm(m: Machine, w: World, s: Settings, job: Job, entries: seq<string>, inHelper: bool)
    requires LipoNamed(m) && Distinct(entries) && SigningHarmless(m, w.files, s, job)
    ensures EntriesSpec(m, w, s, job, entries, inHelper).files == PipelineFiles(m, w.files, job.dir, entries, job.targetArch)
    decreases |entries|
  {
    if entries == [] {
      assert FullPaths(job.dir, entries) == {};
    } else {
      var n := |entries| - 1;
      var prefix := entries[..n];
      var e := entries[n];
      assert Distinct(prefix);
      PipelineFilesClosedForm(m, w, s, job, prefix, inHelper);
      PipelineFilesKeys(m, w.files, job.dir, prefix, job.targetArch);
      LastEntryStep(m, w, s, job, prefix, e, inHelper);
      FreshEntry(job.dir, entries);
      assert entries == prefix + [e];
      ClosedFormStep(m, w.files, job.dir, prefix, e, job.targetArch);
    }
  }

  /** The closed form keeps the set of paths. */
  lemma PipelineFilesKeys(m: Machine, files: map<string, FileInfo>, dir: string, entries: seq<string>, target: string)
    ensures PipelineFiles(m, files, dir, entries, target).Keys == files.Keys
  {
  }

  /** The task of the last entry, on top of the tasks before it. */
  lemma LastEntryStep(m: Machine, w: World, s: Settings, job: Job, prefix: seq<string>, e: string, inHelper: bool)
    requires LipoNamed(m) && SigningHarmless(m, w.files, s, job)
    requires EntriesSpec(m, w, s, job, prefix, inHelper).files.Keys == w.files.Keys
    ensures EntriesSpec(m, w, s, job, prefix + [e], inHelper).files ==
      AfterEntry(m, EntriesSpec(m, w, s, job, prefix, inHelper).files, AppendPath(job.dir, e), job.targetArch)
  {
    var prev := EntriesSpec(m, w, s, job, prefix, inHelper);
    assert (prefix + [e])[..|prefix|] == prefix;
    SignsWithKeys(m, prev.files, w.files, s, job.noSign);
    EntryFiles(m, prev, s, job, e, inHelper);
  }

  /** The visiting order of the concurrent tasks does not matter: any two orders of
      the same entries leave the same file table. */
  lemma PipelineOrderIndependent(m: Machine, w: World, s: Settings, job: Job, a: seq<string>, b: seq<string>, inHelper: bool)
    requires LipoNamed(m) && SigningHarmless(m, w.files, s, job)
    requires Distinct(a) && Distinct(b) && multiset(a) == multiset(b)
    ensures EntriesSpec(m, w, s, job, a, inHelper).files == EntriesSpec(m, w, s, job, b, inHelper).files
  {
    PipelineFilesClosedForm(m, w, s, job, a, inHelper);
    PipelineFilesClosedForm(m, w, s, job, b, inHelper);
    assert forall x :: x in a <==> x in multiset(a);
    assert forall x :: x in b <==> x in multiset(b);
    assert FullPaths(job.dir, a) == FullPaths(job.dir, b);
  }

  // ---------------------------------------------------------------------------
  // The bundle as a whole

  /** The helper's completion: `(false, message)` exactly when the bundle cannot be
      enumerated, and then no entry is processed; `(true, nil)` otherwise, whatever
      happened to the individual binaries, and processing has then ended. */
  lemma ExtractCompletion(m: Machine, w: World, s: Settings, job: Job, inHelper: bool)
    ensures var (s', w', result) := ExtractSpec(m, w, s, job, inHelper);
      (result.0 <==> m.Enumerate(job.dir).Some?) &&
      (result.0 ==> result.1.None? && !s'.isProcessing) &&
      (!result.0 ==> result.1 == Some("Failed to create enumerator for directory " + job.dir) &&
                      w'.files == w.files && w'.launched == w.launched &&
                      s'.isProcessing == (inHelper && s.isProcessing))
  {
  }

  /** The notify block runs the bundle-wide codesign once exactly when `useCodesign`
      is set (preceded by the entitlements extraction when those are wanted), records
      the size of `outputDir`, ends processing and moves `outputDir` to its parent. */
  lemma FinishFacts(m: Machine, w: World, s: Settings, job: Job)
    ensures var (s', w') := FinishSpec(m, w, s, job);
      (!s.useCodesign ==> w'.launched == w.launched && w'.files == w.files) &&
      (s.useCodesign && job.noEntitlements ==>
        w'.launched == w.launched + [Invocation(Codesign, ["--force", "--deep", "-s", "-", job.dir])]) &&
      (s.useCodesign && !job.noEntitlements ==>
        |w'.launched| > |w.launched| && w'.launched[|w.launched|] == CodesignExtractInvocation(job.dir)) &&
      s'.finalAppSize == DirectorySize(m, w'.files, s.outputDir) &&
      !s'.isProcessing && s'.outputDir == DeletingLastPathComponent(s.outputDir) &&
      s' == s.(finalAppSize := s'.finalAppSize, isProcessing := false, outputDir := s'.outputDir)
  {
    var w1 := LogW(w, "All binaries processed.");
    if s.useCodesign {
      SignAppLaunches(m, w1, job.dir, job.noEntitlements);
    }
  }

  // ---------------------------------------------------------------------------
  // The copy of a bundle

  /** A directory line of `rsync -v` made of one to five components is echoed as
      those components followed by a slash and an asterisk; a deeper one is not. */
  lemma {:induction false} EchoOfDirectory(components: seq<string>)
    requires components != []
    requires forall i :: 0 <= i < |components| ==> IsComponent(components[i])
    ensures EchoLine(Join(components, "/") + "/")
      == if |components| <= 5 then Some(Join(components, "/") + "/*") else None
  {
    var j := Join(components, "/");
    SplitJoinRoundTrip(components, '/', {'/'});
    assert Split(j, {'/'}) == components;
    SplitAtSeparator(j, '/', [], {'/'});
    assert j + "/" == j + ['/'] + [];
    assert Split(j + "/", {'/'}) == components;
    assert HasSuffix(j + "/", "/");
  }

  /** `duplicateApp` throws when the output directory is missing, and changes nothing. */
  lemma DuplicateWithoutOutput(m: Machine, w: World, appDir: string, outputDir: string)
    requires outputDir !in w.files
    ensures DuplicateSpec(m, w, appDir, outputDir) == (Failure("Output directory does not exist"), w)
  {
  }

  /** On success `duplicateApp` returns `outputDir` joined with the bundle's last
      path component, which then exists as a directory. */
  lemma DuplicateSuccess(m: Machine, w: World, appDir: string, outputDir: string)
    requires DuplicateSpec(m, w, appDir, outputDir).0.Success?
    ensures var d := DuplicateSpec(m, w, appDir, outputDir);
      d.0.value == AppendPath(outputDir, LastPathComponent(appDir)) && outputDir in w.files &&
      d.0.value in d.1.files && d.1.files[d.0.value].kind == Directory
  {
    var target := AppendPath(outputDir, LastPathComponent(appDir));
    CopyFacts(m, w.(files := if target in w.files then w.files else w.files[target := EmptyDirectory]), appDir, outputDir, target);
  }

  /** Once the output directory exists and the copy's directory could be made,
      the first message `duplicateApp` logs is the rsync command. */
  lemma DuplicateLogsCommand(m: Machine, w: World, appDir: string, outputDir: string)
    requires outputDir in w.files && MkdirOutcome(m, w.files, AppendPath(outputDir, LastPathComponent(appDir))).None?
    ensures var d := DuplicateSpec(m, w, appDir, outputDir);
      |d.1.log| > |w.log| &&
      d.1.log[|w.log|] == "Running " + RsyncPath(m) + " -r -v -aHz " + appDir + " " + outputDir
  {
    var target := AppendPath(outputDir, LastPathComponent(appDir));
    CopyLogsCommand(m, w.(files := if target in w.files then w.files else w.files[target := EmptyDirectory]), appDir, outputDir, target);
  }

  /** The rsync step keeps the file table and, when rsync could be launched,
      answers the copy's path. */
  lemma CopyFacts(m: Machine, w: World, appDir: string, outputDir: string, target: string)
    ensures var c := CopySpec(m, w, appDir, outputDir, target);
      (c.0.Success? ==> c.0.value == target) && c.1.files == w.files && |c.1.log| > |w.log|
  {
    NotThinRsync(Invocation(RsyncPath(m), ["-r", "-v", "-aHz", appDir, outputDir]));
  }

  /** The first message the rsync step logs is the command it runs. */
  lemma CopyLogsCommand(m: Machine, w: World, appDir: string, outputDir: string, target: string)
    ensures var c := CopySpec(m, w, appDir, outputDir, target);
      |c.1.log| > |w.log| &&
      c.1.log[|w.log|] == "Running " + RsyncPath(m) + " -r -v -aHz " + appDir + " " + outputDir
  {
    RsyncCommandText(appDir, outputDir);
  }

  /** The logged rsync command line. */
  lemma RsyncCommandText(appDir: string, outputDir: string)
    ensures Join(["-r", "-v", "-aHz", appDir, outputDir], " ") == "-r -v -aHz " + appDir + " " + outputDir
  {
    var args := ["-r", "-v", "-aHz", appDir, outputDir];
    var tail := appDir + " " + outputDir;
    assert args[4..] == [outputDir];
    assert args[3..] == [appDir, outputDir];
    assert Join(args[3..], " ") == tail;
    assert args[2..] == ["-aHz", appDir, outputDir];
    assert Join(args[2..], " ") == "-aHz " + tail;
    assert args[1..] == ["-v", "-aHz", appDir, outputDir];
    assert Join(args[1..], " ") == "-v " + ("-aHz " + tail);
    assert Join(args, " ") == "-r " + ("-v " + ("-aHz " + tail));
  }

  /** The rsync argument vector is never taken for a thinning request. */
  lemma NotThinRsync(inv: Invocation)
    requires |inv.args| == 5 && inv.args[0] == "-r" && inv.args[1] == "-v"
    ensures ThinRequest(inv).None?
  {
  }
}

=== FILE: helper_tool.dfy ===
/** The privileged helper's request handlers (archifyhelper/HelperTool.swift). The
    helper object holds nothing but its listener, so each handler is a method over
    the machine; the replies it sends are returned as a sequence, which makes "replies
    exactly once" and "never replies" statements about its length. */
module HelperToolModel {
  import opened Wrappers
  import opened Text
  import opened Paths
  import opened Host
  import opened AppStateModel
  import opened FileOps

  /** A `(Bool, String?)` reply. */
  type Reply = (bool, Option<string>)

  /** The reply a handler sends for the outcome of one file-manager call: `(true,
      nil)` when it did not throw, `(false, description)` when it did. */
  function ReplyOf(err: Option<string>): (r: Reply)
    ensures r.0 <==> err.None?
    ensures r.0 ==> r.1.None?
    ensures !r.0 ==> r.1 == err
  {
    if err.None? then (true, None) else (false, err)
  }

  // ---------------------------------------------------------------------------
  // Incoming connections

  /** What the listener could learn about a caller. */
  datatype Connection = Connection(processIdentifier: int, signingIdentity: Option<string>)

  /** `listener(_:shouldAcceptNewConnection:)`: every caller is accepted, whoever
      it is; nothing about the connection is examined. */
  function ShouldAcceptNewConnection(c: Connection): (accepted: bool)
    ensures accepted
  {
    true
  }

  // ---------------------------------------------------------------------------
  // Full disk access

  /** The two probed files under the home directory, relative to it. */
  const SafariBookmarks: string := "Library/Safari/Bookmarks.plist"
  const SafariCloudTabs: string := "Library/Safari/CloudTabs.db"

  /** The two probed system files, relative to the root. */
  const TccDatabase: string := "Library/Application Support/com.apple.TCC/TCC.db"
  const TimeMachinePreferences: string := "Library/Preferences/com.apple.TimeMachine.plist"

  /** The four protected files the probe looks at, as written (before tilde
      expansion). */
  const ProbedPaths: seq<string> := [
    "~/" + SafariBookmarks,
    "~/" + SafariCloudTabs,
    "/" + TccDatabase,
    "/" + TimeMachinePreferences]

  /** A path written `~/rest` expands to `rest` under the home directory. */
  lemma TildeExpands(rest: string, home: string)
    ensures ExpandTilde("~/" + rest, home) == AppendPath(home, rest)
  {
    var p := "~/" + rest;
    assert p[..2] == "~/" && p[2..] == rest;
  }

  /** An absolute path is left alone. */
  lemma AbsoluteStays(rest: string, home: string)
    ensures ExpandTilde("/" + rest, home) == "/" + rest
  {
    var p := "/" + rest;
    assert p[..1] != "~";
  }

  /** The probed paths after `expandingTildeInPath`: the two Safari files move
      under the home directory, the two system files are used verbatim. */
  function Probes(home: string): (r: seq<string>)
    ensures |r| == |ProbedPaths| == 4
    ensures r[0] == AppendPath(home, SafariBookmarks) && r[1] == AppendPath(home, SafariCloudTabs)
    ensures r[2] == "/" + TccDatabase && r[3] == "/" + TimeMachinePreferences
  {
    TildeExpands(SafariBookmarks, home);
    TildeExpands(SafariCloudTabs, home);
    AbsoluteStays(TccDatabase, home);
    AbsoluteStays(TimeMachinePreferences, home);
    seq(4, i requires 0 <= i < 4 => ExpandTilde(ProbedPaths[i], home))
  }

  /** A path the helper can read: it exists and is readable. */
  predicate Accessible(files: map<string, FileInfo>, p: string) {
    p in files && files[p].readable
  }

  /** The index of the first path that is missing or unreadable, if any. */
  function FirstDenied(files: map<string, FileInfo>, paths: seq<string>): (r: Option<nat>)
    ensures r.None? ==> forall j :: 0 <= j < |paths| ==> Accessible(files, paths[j])
    ensures r.Some? ==> r.value < |paths| && !Accessible(files, paths[r.value]) &&
                        forall j :: 0 <= j < r.value ==> Accessible(files, paths[j])
  {
    if paths == [] then None
    else if !Accessible(files, paths[0]) then Some(0)
    else
      match FirstDenied(files, paths[1..])
      case None => None
      case Some(k) => Some(k + 1)
  }

  /** The message logged for the path that ended the probe. */
  function DeniedMessage(files: map<string, FileInfo>, p: string): string {
    if p in files then "Cannot read file at path: " + p else "File does not exist at path: " + p
  }

  /** The system-log lines of one probe: the opening line, one line for the first
      path that failed (none when all passed), and the verdict. */
  function ProbeLog(files: map<string, FileInfo>, paths: seq<string>): seq<string> {
    ["Checking for full disk access."] +
    (match FirstDenied(files, paths)
     case None => []
     case Some(k) => [DeniedMessage(files, paths[k])]) +
    [if FirstDenied(files, paths).None? then "Full disk access granted." else "Full disk access not granted."]
  }

  /** `checkFullDiskAccess(withReply:)`: replies once, with true exactly when all
      four expanded paths exist and are readable; the loop stops at the first path
      that fails, so at most one failure is logged. */
  method CheckFullDiskAccess(m: Machine) returns (replies: seq<bool>, log: seq<string>)
    ensures replies == [forall j :: 0 <= j < 4 ==> Accessible(m.files, Probes(m.home)[j])]
    ensures log == ProbeLog(m.files, Probes(m.home))
  {
    log := ["Checking for full disk access."];
    var paths := ProbedPaths;
    ghost var expanded := Probes(m.home);
    var hasAccess := true;
    var i := 0;
    while i < |paths|
      invariant 0 <= i <= |paths|
      invariant hasAccess && log == ["Checking for full disk access."]
      invariant forall j :: 0 <= j < i ==> Accessible(m.files, expanded[j])
    {
      var expandedPath := ExpandTilde(paths[i], m.home);
      assert expandedPath == expanded[i];
      if m.Exists(expandedPath) {
        if !m.IsReadable(expandedPath) {
          hasAccess := false;
          log := log + ["Cannot read file at path: " + expandedPath];
          break;
        }
      } else {
        log := log + ["File does not exist at path: " + expandedPath];
        hasAccess := false;
        break;
      }
      i := i + 1;
    }
    replies := [hasAccess];
    if hasAccess {
      log := log + ["Full disk access granted."];
    } else {
      log := log + ["Full disk access not granted."];
    }
  }

  // ---------------------------------------------------------------------------
  // File requests

  /** `removeFile(atPath:withReply:)`: any path at all is removed if the file
      manager can, a directory with everything below it; exactly one reply
      reports the outcome. */
  method RemoveFile(m: Machine, path: string) returns (replies: seq<Reply>)
    modifies m
    ensures var err := RemoveOutcome(m, old(m.files), path);
      replies == [ReplyOf(err)] &&
      (err.None? ==> path in old(m.files) && m.files == RemovedTree(old(m.files), path)) &&
      (err.Some? ==> m.files == old(m.files))
    ensures m.launched == old(m.launched) && m.drawn == old(m.drawn)
  {
    var err := m.RemoveItem(path);
    if err.None? {
      replies := [(true, None)];
    } else {
      replies := [(false, err)];
    }
  }

  /** Removing a `.lproj` folder takes the files inside it too, and leaves its
      sibling alone. */
  lemma RemovedFolderTakesContents()
    ensures var dir := "/A.app/fr.lproj";
      var inside := dir + "/Localizable.strings";
      var sibling := "/A.app/fr.lproj2";
      var files := map[dir := EmptyDirectory, inside := TextFile("x"), sibling := EmptyDirectory];
      RemovedTree(files, dir) == map[sibling := EmptyDirectory]
  {
    var dir := "/A.app/fr.lproj";
    var inside := dir + "/Localizable.strings";
    var sibling := "/A.app/fr.lproj2";
    var files := map[dir := EmptyDirectory, inside := TextFile("x"), sibling := EmptyDirectory];
    assert Below(inside, dir) by {
      assert inside[..|dir + "/"|] == dir + "/";
    }
    assert !Below(sibling, dir) by {
      assert sibling[|dir|] != '/';
    }
    assert RemovedTree(files, dir).Keys == {sibling};
  }

  /** `setFilePermissions(atPath:permissions:withReply:)`: any path, any mode;
      exactly one reply, failing for a missing file and otherwise as the file
      manager decides. */
  method SetFilePermissions(m: Machine, path: string, permissions: int) returns (replies: seq<Reply>)
    ensures |replies| == 1
    ensures replies[0] == ReplyOf(if path !in m.files then Some(m.failure(path)) else m.chmodError(path, permissions))
    ensures path !in m.files ==> !replies[0].0
  {
    var err := m.SetPermissions(path, permissions);
    if err.None? {
      replies := [(true, None)];
    } else {
      replies := [(false, err)];
    }
  }

  /** `extractAndSignBinaries(in:targetArch:noSign:noEntitlements:appStateDict:withReply:)`:
      a new settings object is decoded from the dictionary, the helper's pipeline
      runs on it, and its completion is forwarded as the one reply. */
  method ExtractAndSignBinaries(m: Machine, dir: string, targetArch: string, noSign: bool,
                                noEntitlements: bool, appStateDict: Dictionary)
    returns (replies: seq<Reply>)
    modifies m
    ensures var (_, w, result) := ExtractSpec(m, old(m.At([])), Decode(appStateDict),
                                              Job(dir, targetArch, noSign, noEntitlements), true);
      replies == [if result.0 then (true, None) else (false, result.1)] &&
      m.files == w.files && m.launched == w.launched && m.drawn == w.drawn
  {
    var appState := new AppState.FromDictionary(appStateDict);
    var fileOperations := new FileOperations(appState, true);
    var success, error := fileOperations.ExtractAndSignBinaries(m, Job(dir, targetArch, noSign, noEntitlements));
    if success {
      replies := [(true, None)];
    } else {
      replies := [(false, error)];
    }
  }

  /** `duplicateApp(appDir:outputDir:withReply:)` has an empty body: it does
      nothing and the caller never hears back. */
  method DuplicateApp(m: Machine, appDir: string, outputDir: string) returns (replies: seq<(Option<string>, Option<string>)>)
    ensures replies == []
  {
    replies := [];
  }
}

=== FILE: host.dfy ===
/** The machine the tools run on: a table of files, the directory listings the
    enumerators return, and the external programs (`lipo`, `file`, `codesign`,
    `ldid`, `rsync`), which are oracles. Every launch is recorded in a trace, in
    order. The only effect of a program on the files that is modelled is the one
    `lipo -thin` has when it exits with status 0: its output path then holds the
    thinned slice, given by the oracle `thinned(input, arch)`. */
module Host {
  import opened Wrappers
  import opened Text
  import opened Paths

  datatype FileKind = Regular | Directory | SymbolicLink

  /** What the file system reports about one path. `readable` is
      `isReadableFile(atPath:)`, `executable` is Python's `os.access(p, os.X_OK)`,
      `attributesReadable` says whether `attributesOfItem(atPath:)` succeeds. */
  datatype FileInfo = FileInfo(
    kind: FileKind,
    size: nat,
    readable: bool,
    executable: bool,
    attributesReadable: bool,
    text: string)

  /** A program launch: executable path and argument vector. */
  datatype Invocation = Invocation(tool: string, args: seq<string>)

  /** What a launch gives back: it could not start, or it ran to an exit status
      with this standard output. */
  datatype ToolRun = LaunchError(reason: string) | Exited(status: int, stdout: string)

  /** A snapshot of everything the operations change: the files, the launch trace,
      the number of UUIDs drawn so far and the log lines written. */
  datatype World = World(
    files: map<string, FileInfo>,
    launched: seq<Invocation>,
    drawn: nat,
    log: seq<string>)

  /** The (input, arch, output) of a `lipo -thin` request, in either of the two
      argument orders `lipo` accepts and the two front ends use. */
  function ThinRequest(inv: Invocation): (r: Option<(string, string, string)>)
    ensures r.Some? ==> LastPathComponent(inv.tool) == "lipo" && |inv.args| == 5
  {
    var a := inv.args;
    if LastPathComponent(inv.tool) != "lipo" || |a| != 5 || a[3] != "-output" then None
    else if a[1] == "-thin" then Some((a[0], a[2], a[4]))
    else if a[0] == "-thin" then Some((a[2], a[1], a[4]))
    else None
  }

  /** A regular, readable file holding `text`, as `String.write(toFile:)` leaves it. */
  function TextFile(text: string): FileInfo {
    FileInfo(Regular, |text|, true, false, true, text)
  }

  const EmptyDirectory: FileInfo := FileInfo(Directory, 0, true, true, true, "")

  /** The entries of a recursive listing that sit directly in the directory. */
  function TopLevel(entries: seq<string>): (r: seq<string>)
    ensures forall e :: e in r <==> e in entries && NoneIn(e, {'/'})
  {
    if entries == [] then []
    else (if NoneIn(entries[0], {'/'}) then [entries[0]] else []) + TopLevel(entries[1..])
  }

  class Machine {
    var files: map<string, FileInfo>
    var launched: seq<Invocation>
    var drawn: nat

    /** `enumerator(atPath:)`: the relative paths below each enumerable directory. */
    const listings: map<string, seq<string>>
    /** The external programs. */
    const run: Invocation -> ToolRun
    /** The file `lipo -thin arch input` writes. */
    const thinned: (string, string) -> FileInfo
    /** The n-th `UUID().uuidString` drawn by this process. */
    const uuid: nat -> string
    const tempDir: string
    const home: string
    /** The `PATH` environment variable, if set. */
    const pathEnv: Option<string>
    /** `Bundle.main.path(forResource:ofType: nil)` for a resource name. */
    const bundled: string -> Option<string>
    /** Whether the uniform type for a file-name extension conforms to `kUTTypeAliasFile`. */
    const aliasExtension: string -> bool
    /** `localizedDescription` of the error Foundation reports for a path. */
    const failure: string -> string
    /** Failures of writes, removals, permission changes and directory creation that
        do not come from a missing path (permissions, read-only volumes). */
    const writeError: string -> Option<string>
    const removeError: string -> Option<string>
    const chmodError: (string, int) -> Option<string>
    const mkdirError: string -> Option<string>

    constructor (
      files: map<string, FileInfo>, listings: map<string, seq<string>>,
      run: Invocation -> ToolRun, thinned: (string, string) -> FileInfo,
      uuid: nat -> string, tempDir: string, home: string, pathEnv: Option<string>,
      bundled: string -> Option<string>, aliasExtension: string -> bool,
      failure: string -> string, writeError: string -> Option<string>,
      removeError: string -> Option<string>, chmodError: (string, int) -> Option<string>,
      mkdirError: string -> Option<string>)
      ensures this.files == files && this.launched == [] && this.drawn == 0
      ensures this.listings == listings && this.run == run && this.thinned == thinned
      ensures this.uuid == uuid && this.tempDir == tempDir && this.home == home
      ensures this.pathEnv == pathEnv && this.bundled == bundled
      ensures this.aliasExtension == aliasExtension && this.failure == failure
      ensures this.writeError == writeError && this.removeError == removeError
      ensures this.chmodError == chmodError && this.mkdirError == mkdirError
    {
      this.files := files;
      this.launched := [];
      this.drawn := 0;
      this.listings := listings;
      this.run := run;
      this.thinned := thinned;
      this.uuid := uuid;
      this.tempDir := tempDir;
      this.home := home;
      this.pathEnv := pathEnv;
      this.bundled := bundled;
      this.aliasExtension := aliasExtension;
      this.failure := failure;
      this.writeError := writeError;
      this.removeError := removeError;
      this.chmodError := chmodError;
      this.mkdirError := mkdirError;
    }

    /** The machine's state together with a log. */
    function At(log: seq<string>): World
      reads this
    {
      World(files, launched, drawn, log)
    }

    /** `fileExists(atPath:)` / `os.path.exists`. */
    predicate Exists(p: string)
      reads this
    {
      p in files
    }

    predicate IsReadable(p: string)
      reads this
    {
      p in files && files[p].readable
    }

    predicate IsDirectory(p: string)
      reads this
    {
      p in files && files[p].kind == Directory
    }

    /** `attributesOfItem(atPath:)`. */
    function Attributes(p: string): (r: Result<FileInfo, string>)
      reads this
      ensures r.Success? <==> p in files && files[p].attributesReadable
    {
      if p in files && files[p].attributesReadable then Success(files[p])
      else Failure(failure(p))
    }

    /** `enumerator(atPath:)`: nil for a path that cannot be enumerated. */
    function Enumerate(p: string): Option<seq<string>> {
      if p in listings then Some(listings[p]) else None
    }

    /** `contentsOfDirectory(atPath:)`: the entries directly in the directory. */
    function Contents(p: string): Option<seq<string>> {
      if p in listings then Some(TopLevel(listings[p])) else None
    }

    /** `Process.run()` and `waitUntilExit()`: the launch is recorded and, for a
        successful `lipo -thin`, the output path receives the thinned slice. */
    method Launch(inv: Invocation) returns (r: ToolRun)
      modifies this
      ensures r == run(inv)
      ensures launched == old(launched) + [inv]
      ensures files == AfterRun(this, old(files), inv)
      ensures drawn == old(drawn)
    {
      r := run(inv);
      launched := launched + [inv];
      files := AfterRun(this, files, inv);
    }

    /** `UUID().uuidString`. */
    method DrawUuid() returns (u: string)
      modifies this
      ensures u == uuid(old(drawn)) && drawn == old(drawn) + 1
      ensures files == old(files) && launched == old(launched)
    {
      u := uuid(drawn);
      drawn := drawn + 1;
    }

    /** `String.write(toFile:atomically:encoding:)`. */
    method WriteText(p: string, text: string) returns (err: Option<string>)
      modifies this
      ensures err == writeError(p)
      ensures files == (if err.None? then old(files)[p := TextFile(text)] else old(files))
      ensures launched == old(launched) && drawn == old(drawn)
    {
      err := writeError(p);
      if err.None? {
        files := files[p := TextFile(text)];
      }
    }

    /** `removeItem(atPath:)`: fails for a missing path or a refused removal; a
        directory goes together with everything below it. */
    method RemoveItem(p: string) returns (err: Option<string>)
      modifies this
      ensures err == RemoveOutcome(this, old(files), p)
      ensures err.None? ==> p in old(files) && files == RemovedTree(old(files), p)
      ensures err.Some? ==> files == old(files)
      ensures launched == old(launched) && drawn == old(drawn)
    {
      err := RemoveOutcome(this, files, p);
      if err.None? {
        files := RemovedTree(files, p);
      }
    }

    /** Python's `os.remove(p)`: removes one file or link; a missing path or a
        directory is an error. */
    method Unlink(p: string) returns (err: Option<string>)
      modifies this
      ensures err == UnlinkOutcome(this, old(files), p)
      ensures files == (if err.None? then old(files) - {p} else old(files))
      ensures launched == old(launched) && drawn == old(drawn)
    {
      err := UnlinkOutcome(this, files, p);
      if err.None? {
        files := files - {p};
      }
    }

    /** Python's `os.rename(src, dst)`: the entry moves to `dst`, replacing what was
        there; a missing source is an error. */
    method Rename(src: string, dst: string) returns (err: Option<string>)
      modifies this
      ensures err == RenameOutcome(this, old(files), src)
      ensures files == (if err.None? then (old(files) - {src})[dst := old(files)[src]] else old(files))
      ensures launched == old(launched) && drawn == old(drawn)
    {
      err := RenameOutcome(this, files, src);
      if err.None? {
        files := (files - {src})[dst := files[src]];
      }
    }

    /** `setAttributes([.posixPermissions: n], ofItemAtPath:)`. Permission bits are
        not part of the file table, so only the outcome is modelled. */
    method SetPermissions(p: string, permissions: int) returns (err: Option<string>)
      ensures err == (if p !in files then Some(failure(p)) else chmodError(p, permissions))
    {
      err := if p !in files then Some(failure(p)) else chmodError(p, permissions);
    }

    /** `createDirectory(atPath:withIntermediateDirectories: true)`: succeeds at once
        for an existing directory and fails for an existing file. */
    method CreateDirectory(p: string) returns (err: Option<string>)
      modifies this
      ensures err == MkdirOutcome(this, old(files), p)
      ensures files == (if err.None? && p !in old(files) then old(files)[p := EmptyDirectory] else old(files))
      ensures launched == old(launched) && drawn == old(drawn)
    {
      err := MkdirOutcome(this, files, p);
      if err.None? && p !in files {
        files := files[p := EmptyDirectory];
      }
    }
  }

  /** The file table after a launch. */
  function AfterRun(m: Machine, files: map<string, FileInfo>, inv: Invocation): map<string, FileInfo> {
    match ThinRequest(inv)
    case Some((input, arch, output)) =>
      if m.run(inv).Exited? && m.run(inv).status == 0 then files[output := m.thinned(input, arch)]
      else files
    case None => files
  }

  function RemoveOutcome(m: Machine, files: map<string, FileInfo>, p: string): (r: Option<string>)
    ensures r.None? ==> p in files
  {
    if p !in files then Some(m.failure(p)) else m.removeError(p)
  }

  /** `path` lies inside the directory `dir`. */
  predicate Below(path: string, dir: string) {
    HasPrefix(path, dir + "/")
  }

  /** The file table once `p` is removed: a file or link goes alone, a directory
      with every path below it. */
  function RemovedTree(files: map<string, FileInfo>, p: string): (r: map<string, FileInfo>)
    requires p in files
    ensures forall q :: q in r <==> q in files && q != p && !(files[p].kind == Directory && Below(q, p))
    ensures forall q :: q in r ==> r[q] == files[q]
  {
    if files[p].kind == Directory then map q | q in files && q != p && !Below(q, p) :: files[q]
    else files - {p}
  }

  function UnlinkOutcome(m: Machine, files: map<string, FileInfo>, p: string): Option<string> {
    if p !in files || files[p].kind == Directory then Some(m.failure(p)) else m.removeError(p)
  }

  function RenameOutcome(m: Machine, files: map<string, FileInfo>, src: string): Option<string> {
    if src !in files then Some(m.failure(src)) else None
  }

  function MkdirOutcome(m: Machine, files: map<string, FileInfo>, p: string): Option<string> {
    if p in files then (if files[p].kind == Directory then None else Some(m.failure(p)))
    else m.mkdirError(p)
  }

  // ---------------------------------------------------------------------------
  // The same steps on snapshots, for the specifications of the operations

  function LaunchW(m: Machine, w: World, inv: Invocation): World {
    w.(files := AfterRun(m, w.files, inv), launched := w.launched + [inv])
  }

  function LogW(w: World, msg: string): World {
    w.(log := w.log + [msg])
  }

  function RemoveW(m: Machine, w: World, p: string): World {
    if RemoveOutcome(m, w.files, p).None? then w.(files := RemovedTree(w.files, p)) else w
  }

  function UnlinkW(m: Machine, w: World, p: string): World {
    if UnlinkOutcome(m, w.files, p).None? then w.(files := w.files - {p}) else w
  }

  function RenameW(m: Machine, w: World, src: string, dst: string): World {
    if RenameOutcome(m, w.files, src).None? then w.(files := (w.files - {src})[dst := w.files[src]]) else w
  }

  function WriteW(m: Machine, w: World, p: string, text: string): World {
    if m.writeError(p).None? then w.(files := w.files[p := TextFile(text)]) else w
  }

  /** Only a successful `lipo -thin` changes files, and only its output path. */
  lemma AfterRunOnlyOutput(m: Machine, files: map<string, FileInfo>, inv: Invocation, p: string)
    requires ThinRequest(inv).None? || ThinRequest(inv).value.2 != p
    ensures p in AfterRun(m, files, inv) <==> p in files
    ensures p in files ==> AfterRun(m, files, inv)[p] == files[p]
  {
  }
}

=== FILE: language_cleaner.dfy ===
/** The language cleaner (archify/LanguageCleaner.swift): it finds the `.lproj`
    folders of the apps in /Applications, keeps a selection of languages per app and
    one across all apps, and asks the helper to remove the folders of the selected
    languages. "Base" is never offered for removal. The background queues are run
    one step after the other; progress figures and the "currently scanning" and
    "currently removing" captions are left out. */
module LanguageCleanerModel {
  import opened Wrappers
  import opened Text
  import opened Paths
  import opened Host
  import opened Sorting
  import Common
  import HelperToolModel

  /** `AppLanguage`: an app found by the scan, its languages, the folders found for
      each language, and the languages chosen in that app. */
  datatype AppLanguage = AppLanguage(
    id: string,
    appName: string,
    languages: seq<string>,
    languagePaths: map<string, seq<string>>,
    selectedLanguages: set<string>)

  /** The published state of a `LanguageCleaner`. */
  datatype Cleaner = Cleaner(
    apps: seq<AppLanguage>,
    uniqueLanguages: seq<string>,
    selectedApps: set<string>,
    selectedLanguages: set<string>,
    expandedApps: map<string, bool>,
    isScanning: bool,
    isRemoving: bool,
    searchText: string,
    removedFilesLog: string)

  // ---------------------------------------------------------------------------
  // Sets and lists

  /** A subset as large as its superset is the whole superset. */
  lemma {:induction false} SubsetCard(a: set<string>, b: set<string>)
    requires a <= b && |a| == |b|
    ensures a == b
    decreases |b|
  {
    if b != {} {
      var x :| x in b;
      if x in a {
        SubsetCard(a - {x}, b - {x});
        assert a == (a - {x}) + {x} && b == (b - {x}) + {x};
      } else {
        assert a <= b - {x};
        SubsetBound(a, b - {x});
      }
    }
  }

  /** A subset is no larger than its superset. */
  lemma {:induction false} SubsetBound(a: set<string>, b: set<string>)
    requires a <= b
    ensures |a| <= |b|
    decreases |b|
  {
    if b != {} {
      var x :| x in b;
      SubsetBound(a - {x}, b - {x});
    } else {
      assert a == {};
    }
  }

  /** `set.insert(x)` when absent, `set.remove(x)` when present. */
  function Flip(s: set<string>, x: string): (r: set<string>)
    ensures x in r <==> x !in s
    ensures forall y :: y != x ==> (y in r <==> y in s)
  {
    if x in s then s - {x} else s + {x}
  }

  /** `removeAll(where: { $0 == x })`. */
  function Without(s: seq<string>, x: string): (r: seq<string>)
    ensures forall y :: y in r <==> y in s && y != x
    ensures |r| <= |s|
  {
    if s == [] then []
    else (if s[0] == x then [] else [s[0]]) + Without(s[1..], x)
  }

  // ---------------------------------------------------------------------------
  // Queries

  /** `shouldGrayOutLanguage`: only "Base" is held back. */
  predicate ShouldGrayOutLanguage(language: string) {
    language == "Base"
  }

  /** `languages.filter { !shouldGrayOutLanguage($0) }`. */
  function Selectable(languages: seq<string>): (r: seq<string>)
    ensures forall l :: l in r <==> l in languages && !ShouldGrayOutLanguage(l)
    ensures |r| <= |languages|
    ensures Distinct(languages) ==> Distinct(r)
  {
    if languages == [] then []
    else (if ShouldGrayOutLanguage(languages[0]) then [] else [languages[0]]) + Selectable(languages[1..])
  }

  /** Graying out holds back exactly one entry, "Base", of a list without
      repetitions: this is the count `isAllLanguagesSelected` compares against. */
  lemma {:induction false} GrayedOutCount(languages: seq<string>)
    requires Distinct(languages)
    ensures |Selectable(languages)| == |languages| - (if "Base" in languages then 1 else 0)
    ensures ShouldGrayOutLanguage("Base") && "Base" !in Selectable(languages)
  {
    if languages != [] {
      var rest := languages[1..];
      assert forall i :: 0 <= i < |rest| ==> rest[i] == languages[i + 1];
      assert Distinct(rest);
      GrayedOutCount(rest);
      assert languages == [languages[0]] + rest;
      if languages[0] == "Base" {
        assert "Base" !in rest;
      }
    }
  }

  /** `isAllLanguagesSelected`: the number of chosen languages equals the number of
      languages other than "Base". With nothing chosen it holds exactly when
      nothing but "Base" is offered. */
  function IsAllLanguagesSelected(c: Cleaner): (r: bool)
    ensures c.selectedLanguages == {} ==>
      (r <==> forall l :: l in c.uniqueLanguages ==> ShouldGrayOutLanguage(l))
    ensures r ==> |c.selectedLanguages| <= |c.uniqueLanguages|
  {
    var offered := Selectable(c.uniqueLanguages);
    assert offered != [] ==> offered[0] in offered;
    |c.selectedLanguages| == |offered|
  }

  /** `isAllLanguagesSelected(in:)`, the same count comparison for one app. */
  function IsAllLanguagesSelectedIn(app: AppLanguage): (r: bool)
    ensures app.selectedLanguages == {} ==>
      (r <==> forall l :: l in app.languages ==> ShouldGrayOutLanguage(l))
    ensures r ==> |app.selectedLanguages| <= |app.languages|
  {
    var offered := Selectable(app.languages);
    assert offered != [] ==> offered[0] in offered;
    |app.selectedLanguages| == |offered|
  }

  /** `isLanguageSelectedInApp`: chosen in the app or across all apps, the test the
      removal collection applies (`Chosen` with the cleaner's global choice). */
  function IsLanguageSelectedInApp(c: Cleaner, language: string, app: AppLanguage): (r: bool)
    ensures language in c.selectedLanguages ==> r
    ensures c.selectedLanguages == {} ==> (r <==> language in app.selectedLanguages)
  {
    Chosen(app, language, c.selectedLanguages)
  }

  /** `isRemoveButtonEnabled`: some language is chosen, globally or in some app. A
      disabled button means no language counts as chosen in any app. */
  function IsRemoveButtonEnabled(c: Cleaner): (r: bool)
    ensures c.selectedLanguages != {} ==> r
    ensures !r ==> forall i, l :: 0 <= i < |c.apps| ==> !IsLanguageSelectedInApp(c, l, c.apps[i])
  {
    c.selectedLanguages != {} || exists i :: 0 <= i < |c.apps| && c.apps[i].selectedLanguages != {}
  }

  /** The count comparison is exact for a selection drawn from the offered
      languages when the list has no repetitions (as the scan leaves it). */
  lemma AllSelectedMeansEverySelectable(c: Cleaner)
    requires Distinct(c.uniqueLanguages)
    requires c.selectedLanguages <= SetOf(Selectable(c.uniqueLanguages))
    ensures IsAllLanguagesSelected(c) <==> c.selectedLanguages == SetOf(Selectable(c.uniqueLanguages))
  {
    DistinctCard(Selectable(c.uniqueLanguages));
    if IsAllLanguagesSelected(c) {
      SubsetCard(c.selectedLanguages, SetOf(Selectable(c.uniqueLanguages)));
    }
  }

  /** Only the counts are compared: with "de" and "en" on offer and "de" and "fr"
      chosen, every language counts as selected although "en" is not. */
  lemma AllSelectedComparesCountsOnly()
    ensures var c := Cleaner([], ["de", "en"], {}, {"de", "fr"}, map[], false, false, "", "");
      IsAllLanguagesSelected(c) && "en" !in c.selectedLanguages
  {
    var c := Cleaner([], ["de", "en"], {}, {"de", "fr"}, map[], false, false, "", "");
    assert Selectable(["en"]) == ["en"];
    assert Selectable(c.uniqueLanguages) == ["de", "en"];
    assert {"de", "fr"} == {"de"} + {"fr"};
  }

  /** The apps whose lower-cased name contains the lower-cased `text`, in order. */
  function AppsMatching(apps: seq<AppLanguage>, text: string): (r: seq<AppLanguage>)
    ensures forall a :: a in r <==> a in apps && Contains(Lower(a.appName), Lower(text))
    ensures |r| <= |apps|
  {
    if apps == [] then []
    else (if Contains(Lower(apps[0].appName), Lower(text)) then [apps[0]] else []) + AppsMatching(apps[1..], text)
  }

  /** `filteredApps`: every app for an empty search, otherwise the apps whose name
      contains the search text, ignoring case. */
  function FilteredApps(c: Cleaner): (r: seq<AppLanguage>)
    ensures c.searchText == [] ==> r == c.apps
    ensures c.searchText != [] ==>
      forall a :: a in r <==> a in c.apps && Contains(Lower(a.appName), Lower(c.searchText))
  {
    if c.searchText == [] then c.apps else AppsMatching(c.apps, c.searchText)
  }

  /** `apps.firstIndex(where: { $0.id == id })`. */
  function IndexOfId(apps: seq<AppLanguage>, id: string): (r: Option<nat>)
    ensures r.Some? ==> r.value < |apps| && apps[r.value].id == id &&
                        forall j :: 0 <= j < r.value ==> apps[j].id != id
    ensures r.None? ==> forall j :: 0 <= j < |apps| ==> apps[j].id != id
  {
    if apps == [] then None
    else if apps[0].id == id then Some(0)
    else
      match IndexOfId(apps[1..], id)
      case None => None
      case Some(k) => Some(k + 1)
  }

  // ---------------------------------------------------------------------------
  // Selection changes

  /** `toggleApp`. */
  function ToggleAppSpec(c: Cleaner, appId: string): (r: Cleaner)
    ensures appId in r.selectedApps <==> appId !in c.selectedApps
    ensures r == c.(selectedApps := r.selectedApps)
  {
    c.(selectedApps := Flip(c.selectedApps, appId))
  }

  /** Toggling an app twice restores the selection. */
  lemma ToggleAppTwice(c: Cleaner, appId: string)
    ensures ToggleAppSpec(ToggleAppSpec(c, appId), appId) == c
  {
  }

  /** `toggleLanguageInApp`: the language flips in the first app with the id, and
      nothing changes when no app has it. */
  function ToggleLanguageInAppSpec(c: Cleaner, language: string, appId: string): (r: Cleaner)
    ensures IndexOfId(c.apps, appId).None? ==> r == c
    ensures |r.apps| == |c.apps| && r == c.(apps := r.apps)
    ensures forall i :: 0 <= i < |c.apps| && Some(i) != IndexOfId(c.apps, appId) ==> r.apps[i] == c.apps[i]
    ensures forall i :: 0 <= i < |c.apps| && Some(i) == IndexOfId(c.apps, appId) ==>
      r.apps[i] == c.apps[i].(selectedLanguages := r.apps[i].selectedLanguages) &&
      (language in r.apps[i].selectedLanguages <==> language !in c.apps[i].selectedLanguages) &&
      forall l :: l != language ==> (l in r.apps[i].selectedLanguages <==> l in c.apps[i].selectedLanguages)
  {
    match IndexOfId(c.apps, appId)
    case None => c
    case Some(k) =>
      c.(apps := c.apps[k := c.apps[k].(selectedLanguages := Flip(c.apps[k].selectedLanguages, language))])
  }

  /** Every app with `language` added (`on`) or removed. */
  function SetInEvery(apps: seq<AppLanguage>, language: string, on: bool): (r: seq<AppLanguage>)
    ensures |r| == |apps|
    ensures forall i :: 0 <= i < |apps| ==>
      r[i] == apps[i].(selectedLanguages := if on then apps[i].selectedLanguages + {language}
                                            else apps[i].selectedLanguages - {language})
  {
    seq(|apps|, i requires 0 <= i < |apps| =>
      apps[i].(selectedLanguages := if on then apps[i].selectedLanguages + {language}
                                    else apps[i].selectedLanguages - {language}))
  }

  /** `toggleGlobalLanguage`. */
  function ToggleGlobalLanguageSpec(c: Cleaner, language: string): Cleaner {
    if ShouldGrayOutLanguage(language) then c
    else
      var selected := Flip(c.selectedLanguages, language);
      c.(selectedLanguages := selected, apps := SetInEvery(c.apps, language, language in selected))
  }

  /** "Base" cannot be toggled. Any other language flips in the global set, every
      app then agrees with the global set on it, and no other choice changes. */
  lemma ToggleGlobalLanguageEffect(c: Cleaner, language: string)
    ensures var r := ToggleGlobalLanguageSpec(c, language);
      (language == "Base" ==> r == c) &&
      (language != "Base" ==>
        (language in r.selectedLanguages <==> language !in c.selectedLanguages) &&
        (forall l :: l != language ==> (l in r.selectedLanguages <==> l in c.selectedLanguages)) &&
        |r.apps| == |c.apps| &&
        (forall i :: 0 <= i < |c.apps| ==>
          (language in r.apps[i].selectedLanguages <==> language in r.selectedLanguages) &&
          r.apps[i] == c.apps[i].(selectedLanguages := r.apps[i].selectedLanguages) &&
          forall l :: l != language ==> (l in r.apps[i].selectedLanguages <==> l in c.apps[i].selectedLanguages)) &&
        r == c.(selectedLanguages := r.selectedLanguages, apps := r.apps))
  {
  }

  /** Every app's choice set to all its languages but "Base" (`on`), or cleared. */
  function SelectAllIn(apps: seq<AppLanguage>, on: bool): (r: seq<AppLanguage>)
    ensures |r| == |apps|
    ensures forall i :: 0 <= i < |apps| ==>
      r[i] == apps[i].(selectedLanguages := if on then SetOf(Selectable(apps[i].languages)) else {})
  {
    seq(|apps|, i requires 0 <= i < |apps| =>
      apps[i].(selectedLanguages := if on then SetOf(Selectable(apps[i].languages)) else {}))
  }

  /** `toggleSelectAllLanguages()`: the global choice is cleared when everything
      counts as selected and otherwise set to every language but "Base"; each app
      then follows the count test taken after that change. */
  function ToggleSelectAllLanguagesSpec(c: Cleaner): Cleaner {
    var c1 := c.(selectedLanguages := if IsAllLanguagesSelected(c) then {}
                                       else SetOf(Selectable(c.uniqueLanguages)));
    c1.(apps := SelectAllIn(c.apps, IsAllLanguagesSelected(c1)))
  }

  /** From a partial choice over a list without repetitions, select-all chooses
      every language but "Base", globally and in every app. */
  lemma SelectAllFromPartial(c: Cleaner)
    requires Distinct(c.uniqueLanguages) && !IsAllLanguagesSelected(c)
    ensures var r := ToggleSelectAllLanguagesSpec(c);
      r.selectedLanguages == SetOf(Selectable(c.uniqueLanguages)) && IsAllLanguagesSelected(r) &&
      |r.apps| == |c.apps| &&
      forall i :: 0 <= i < |c.apps| ==> r.apps[i].selectedLanguages == SetOf(Selectable(c.apps[i].languages))
  {
    DistinctCard(Selectable(c.uniqueLanguages));
  }

  /** From a full choice with some language on offer, select-all clears the global
      choice and every app's. */
  lemma SelectAllFromFull(c: Cleaner)
    requires IsAllLanguagesSelected(c) && Selectable(c.uniqueLanguages) != []
    ensures var r := ToggleSelectAllLanguagesSpec(c);
      r.selectedLanguages == {} && !IsAllLanguagesSelected(r) && |r.apps| == |c.apps| &&
      forall i :: 0 <= i < |c.apps| ==> r.apps[i].selectedLanguages == {}
  {
  }

  /** `toggleSelectAllLanguages(in:)`: the first app with the id is cleared when its
      count test holds and otherwise gets all its languages but "Base". */
  function ToggleSelectAllLanguagesInSpec(c: Cleaner, appId: string): Cleaner {
    match IndexOfId(c.apps, appId)
    case None => c
    case Some(k) =>
      var app := c.apps[k];
      c.(apps := c.apps[k := app.(selectedLanguages := if IsAllLanguagesSelectedIn(app) then {}
                                                       else SetOf(Selectable(app.languages)))])
  }

  /** Within one app whose languages do not repeat, the per-app select-all flips the
      count test (unless the app has no language but "Base"), and touches no other app. */
  lemma ToggleSelectAllLanguagesInEffect(c: Cleaner, appId: string)
    requires forall i :: 0 <= i < |c.apps| ==> Distinct(c.apps[i].languages)
    ensures var r := ToggleSelectAllLanguagesInSpec(c, appId);
      |r.apps| == |c.apps| && r == c.(apps := r.apps) &&
      forall i :: 0 <= i < |c.apps| ==>
        if Some(i) == IndexOfId(c.apps, appId) then
          r.apps[i] == c.apps[i].(selectedLanguages := r.apps[i].selectedLanguages) &&
          (IsAllLanguagesSelectedIn(r.apps[i]) <==>
             !IsAllLanguagesSelectedIn(c.apps[i]) || Selectable(c.apps[i].languages) == [])
        else r.apps[i] == c.apps[i]
  {
    match IndexOfId(c.apps, appId)
    case None =>
    case Some(k) =>
      DistinctCard(Selectable(c.apps[k].languages));
  }

  // ---------------------------------------------------------------------------
  // Removal

  /** One `(appIndex, language, path)` entry of `pathsToRemove`. */
  datatype Removal = Removal(appIndex: nat, language: string, path: string)

  /** A language of app `i` is removed when it is chosen in the app or globally. */
  predicate Chosen(app: AppLanguage, language: string, global: set<string>) {
    language in app.selectedLanguages || language in global
  }

  /** The entries for one language of app `i`: one per folder, when it is chosen and
      has folders. */
  function LanguageRemovals(i: nat, app: AppLanguage, language: string, global: set<string>): (r: seq<Removal>)
    ensures forall e :: e in r <==> e.appIndex == i && e.language == language && Chosen(app, language, global) &&
                                     language in app.languagePaths && e.path in app.languagePaths[language]
  {
    if Chosen(app, language, global) && language in app.languagePaths then
      var paths := app.languagePaths[language];
      var r := seq(|paths|, k requires 0 <= k < |paths| => Removal(i, language, paths[k]));
      assert forall e :: e in r ==> e.path in paths;
      assert forall k :: 0 <= k < |paths| ==> r[k] == Removal(i, language, paths[k]);
      r
    else []
  }

  /** The inner loop of the collection, over the first languages of app `i`. */
  function AppRemovals(i: nat, app: AppLanguage, languages: seq<string>, global: set<string>): seq<Removal>
    decreases |languages|
  {
    if languages == [] then []
    else
      var n := |languages| - 1;
      AppRemovals(i, app, languages[..n], global) + LanguageRemovals(i, app, languages[n], global)
  }

  /** The outer loop of the collection, over the first apps. */
  function Removals(apps: seq<AppLanguage>, global: set<string>): seq<Removal>
    decreases |apps|
  {
    if apps == [] then []
    else
      var n := |apps| - 1;
      Removals(apps[..n], global) + AppRemovals(n, apps[n], apps[n].languages, global)
  }

  lemma AppRemovalsStep(i: nat, app: AppLanguage, languages: seq<string>, k: nat, global: set<string>)
    requires k < |languages|
    ensures AppRemovals(i, app, languages[..k + 1], global) ==
      AppRemovals(i, app, languages[..k], global) + LanguageRemovals(i, app, languages[k], global)
  {
    assert languages[..k + 1][..k] == languages[..k];
  }

  lemma {:induction false} AppRemovalsIff(i: nat, app: AppLanguage, languages: seq<string>, global: set<string>, e: Removal)
    ensures e in AppRemovals(i, app, languages, global) <==>
      e.appIndex == i && e.language in languages && Chosen(app, e.language, global) &&
      e.language in app.languagePaths && e.path in app.languagePaths[e.language]
    decreases |languages|
  {
    if languages != [] {
      var n := |languages| - 1;
      AppRemovalsIff(i, app, languages[..n], global, e);
      assert languages == languages[..n] + [languages[n]];
    }
  }

  /** `pathsToRemove` holds exactly the folders of the languages chosen in their
      app or globally, among the languages each app lists. */
  lemma {:induction false} RemovalsIff(apps: seq<AppLanguage>, global: set<string>, e: Removal)
    ensures e in Removals(apps, global) <==>
      e.appIndex < |apps| && e.language in apps[e.appIndex].languages &&
      Chosen(apps[e.appIndex], e.language, global) &&
      e.language in apps[e.appIndex].languagePaths && e.path in apps[e.appIndex].languagePaths[e.language]
    decreases |apps|
  {
    if apps != [] {
      var n := |apps| - 1;
      RemovalsIff(apps[..n], global, e);
      AppRemovalsIff(n, apps[n], apps[n].languages, global, e);
    }
  }

  /** A folder is collected for removal exactly when `isLanguageSelectedInApp`
      holds for its language in its app, the app lists the language, and the
      folder is one of that language's folders. */
  lemma RemovalsIffSelectedInApp(c: Cleaner, e: Removal)
    ensures e in Removals(c.apps, c.selectedLanguages) <==>
      e.appIndex < |c.apps| && e.language in c.apps[e.appIndex].languages &&
      IsLanguageSelectedInApp(c, e.language, c.apps[e.appIndex]) &&
      e.language in c.apps[e.appIndex].languagePaths && e.path in c.apps[e.appIndex].languagePaths[e.language]
  {
    RemovalsIff(c.apps, c.selectedLanguages, e);
  }

  /** There is something to remove only while the remove button is enabled. */
  lemma SomethingToRemoveNeedsChoice(c: Cleaner)
    ensures Removals(c.apps, c.selectedLanguages) != [] ==> IsRemoveButtonEnabled(c)
  {
    if Removals(c.apps, c.selectedLanguages) != [] {
      var e := Removals(c.apps, c.selectedLanguages)[0];
      RemovalsIff(c.apps, c.selectedLanguages, e);
      assert c.apps[e.appIndex].selectedLanguages != {} || c.selectedLanguages != {};
    }
  }

  /** Every language an app lists is on offer globally. */
  ghost predicate Covered(c: Cleaner) {
    forall i, l :: 0 <= i < |c.apps| && l in c.apps[i].languages ==> l in c.uniqueLanguages
  }

  /** Some app still lists `language`. */
  predicate StillListed(apps: seq<AppLanguage>, language: string) {
    exists i :: 0 <= i < |apps| && language in apps[i].languages
  }

  /** The bookkeeping after the helper removed one folder: the folder leaves its
      language's list; an emptied list takes the language out of the app, and out
      of `uniqueLanguages`. As written (`keepShared` false) the language leaves
      `uniqueLanguages` even when other apps still list it; `keepShared` keeps it
      in that case. */
  function BookRemoval(c: Cleaner, e: Removal, keepShared: bool): (r: Cleaner)
    ensures |r.apps| == |c.apps|
    ensures r == c.(apps := r.apps, uniqueLanguages := r.uniqueLanguages)
  {
    if e.appIndex >= |c.apps| || e.language !in c.apps[e.appIndex].languagePaths then c
    else
      var app := c.apps[e.appIndex];
      var left := Without(app.languagePaths[e.language], e.path);
      if left != [] then
        c.(apps := c.apps[e.appIndex := app.(languagePaths := app.languagePaths[e.language := left])])
      else
        var apps := c.apps[e.appIndex := app.(languagePaths := app.languagePaths - {e.language},
                                              languages := Without(app.languages, e.language))];
        c.(apps := apps,
           uniqueLanguages := if keepShared && StillListed(apps, e.language) then c.uniqueLanguages
                              else Without(c.uniqueLanguages, e.language))
  }

  /** The effect on the app: the folder is gone from its language's list, the
      language goes when its list empties, and nothing else in any app changes. */
  lemma BookRemovalEffect(c: Cleaner, e: Removal, keepShared: bool)
    requires e.appIndex < |c.apps| && e.language in c.apps[e.appIndex].languagePaths
    ensures var r := BookRemoval(c, e, keepShared); var app := r.apps[e.appIndex];
      (forall i :: 0 <= i < |c.apps| && i != e.appIndex ==> r.apps[i] == c.apps[i]) &&
      app.id == c.apps[e.appIndex].id && app.selectedLanguages == c.apps[e.appIndex].selectedLanguages &&
      (e.language in app.languagePaths ==>
         app.languagePaths[e.language] != [] && e.path !in app.languagePaths[e.language] &&
         app.languages == c.apps[e.appIndex].languages && r.uniqueLanguages == c.uniqueLanguages) &&
      (e.language !in app.languagePaths ==>
         e.language !in app.languages &&
         (!keepShared ==> e.language !in r.uniqueLanguages)) &&
      (forall l :: l != e.language ==> (l in app.languagePaths <==> l in c.apps[e.appIndex].languagePaths) &&
                                       (l in app.languagePaths ==> app.languagePaths[l] == c.apps[e.appIndex].languagePaths[l]))
  {
  }

  /** With `keepShared`, the bookkeeping keeps every listed language on offer. */
  lemma BookRemovalKeepsCovered(c: Cleaner, e: Removal)
    requires Covered(c)
    ensures Covered(BookRemoval(c, e, true))
  {
    var r := BookRemoval(c, e, true);
    forall i, l | 0 <= i < |r.apps| && l in r.apps[i].languages
      ensures l in r.uniqueLanguages
    {
      if e.appIndex < |c.apps| && e.language in c.apps[e.appIndex].languagePaths {
        var app := c.apps[e.appIndex];
        if i == e.appIndex {
          assert l in app.languages;
        } else {
          assert r.apps[i] == c.apps[i];
        }
        if l == e.language && r.uniqueLanguages != c.uniqueLanguages {
          assert StillListed(r.apps, l);
        }
      }
    }
  }

  /** As written, removing the one "fr" folder of one app takes "fr" off the global
      list although a second app still lists it. */
  lemma BookRemovalDropsSharedLanguage()
    ensures var a := AppLanguage("a", "A.app", ["fr"], map["fr" := ["/Applications/A.app/fr.lproj"]], {"fr"});
      var b := AppLanguage("b", "B.app", ["fr"], map["fr" := ["/Applications/B.app/fr.lproj"]], {});
      var c := Cleaner([a, b], ["fr"], {}, {}, map[], false, false, "", "");
      var r := BookRemoval(c, Removal(0, "fr", "/Applications/A.app/fr.lproj"), false);
      Covered(c) && "fr" in r.apps[1].languages && "fr" !in r.uniqueLanguages && !Covered(r)
  {
    var a := AppLanguage("a", "A.app", ["fr"], map["fr" := ["/Applications/A.app/fr.lproj"]], {"fr"});
    var b := AppLanguage("b", "B.app", ["fr"], map["fr" := ["/Applications/B.app/fr.lproj"]], {});
    var c := Cleaner([a, b], ["fr"], {}, {}, map[], false, false, "", "");
    var r := BookRemoval(c, Removal(0, "fr", "/Applications/A.app/fr.lproj"), false);
    assert Without(["/Applications/A.app/fr.lproj"], "/Applications/A.app/fr.lproj") == [];
    assert r.apps[1] == b;
    assert "fr" !in r.uniqueLanguages;
  }

  /** The state a removal run threads through its replies: the cleaner, the files
      and the paths removed so far. */
  datatype Removing = Removing(c: Cleaner, files: map<string, FileInfo>, removed: seq<string>)

  /** One reply of the helper: on success the bookkeeping runs and the path is
      recorded; a failure is only logged. */
  function RemovalStep(m: Machine, st: Removing, e: Removal, keepShared: bool): Removing {
    if RemoveOutcome(m, st.files, e.path).None? then
      Removing(BookRemoval(st.c, e, keepShared), RemovedTree(st.files, e.path), st.removed + [e.path])
    else st
  }

  /** The replies to the first entries. */
  function RemovalRun(m: Machine, st: Removing, es: seq<Removal>, keepShared: bool): Removing
    decreases |es|
  {
    if es == [] then st
    else RemovalStep(m, RemovalRun(m, st, es[..|es| - 1], keepShared), es[|es| - 1], keepShared)
  }

  /** `removeSelected()` for a helper that is installed (`helperReady`) or not. */
  function RemoveSelectedSpec(m: Machine, c: Cleaner, files: map<string, FileInfo>, helperReady: bool, keepShared: bool)
    : Removing
  {
    if !helperReady then Removing(c, files, [])
    else
      var st := RemovalRun(m, Removing(c.(isRemoving := true), files, []),
                           Removals(c.apps, c.selectedLanguages), keepShared);
      st.(c := st.c.(isRemoving := false, removedFilesLog := Join(st.removed, "\n")))
  }

  /** Only listed folders go: every file that disappears was one of the entries or
      lay inside one, every recorded path is gone, the selection is not touched and
      no app is added or dropped. */
  lemma {:induction false} RemovalRunOnlyEntries(m: Machine, st: Removing, es: seq<Removal>, keepShared: bool)
    ensures var r := RemovalRun(m, st, es, keepShared);
      r.files.Keys <= st.files.Keys &&
      (forall p :: p in st.files && p !in r.files ==> exists k :: 0 <= k < |es| && (es[k].path == p || Below(p, es[k].path))) &&
      (forall p :: p in r.files ==> r.files[p] == st.files[p]) &&
      |r.removed| >= |st.removed| && r.removed[..|st.removed|] == st.removed &&
      (forall k :: |st.removed| <= k < |r.removed| ==> r.removed[k] !in r.files) &&
      |r.c.apps| == |st.c.apps| &&
      r.c == st.c.(apps := r.c.apps, uniqueLanguages := r.c.uniqueLanguages)
    decreases |es|
  {
    if es != [] {
      var n := |es| - 1;
      RemovalRunOnlyEntries(m, st, es[..n], keepShared);
      var prev := RemovalRun(m, st, es[..n], keepShared);
      forall p | p in st.files && p !in RemovalRun(m, st, es, keepShared).files
        ensures exists k :: 0 <= k < |es| && (es[k].path == p || Below(p, es[k].path))
      {
        if p in prev.files {
          assert es[n].path == p || Below(p, es[n].path);
        } else {
          var k :| 0 <= k < n && (es[..n][k].path == p || Below(p, es[..n][k].path));
          assert es[k] == es[..n][k];
        }
      }
    }
  }

  /** With `keepShared`, a removal run keeps every listed language on offer. */
  lemma {:induction false} RemovalRunKeepsCovered(m: Machine, st: Removing, es: seq<Removal>)
    requires Covered(st.c)
    ensures Covered(RemovalRun(m, st, es, true).c)
    decreases |es|
  {
    if es != [] {
      var n := |es| - 1;
      RemovalRunKeepsCovered(m, st, es[..n]);
      BookRemovalKeepsCovered(RemovalRun(m, st, es[..n], true).c, es[n]);
    }
  }

  // ---------------------------------------------------------------------------
  // Scanning

  /** The folder the scan looks in. */
  const ApplicationsFolder: string := "/Applications"

  /** The language a `.lproj` folder stands for: its last component without `.lproj`. */
  function LanguageOf(path: string): string {
    ReplaceAll(LastPathComponent(path), ".lproj", "")
  }

  predicate IsLproj(path: string) {
    HasSuffix(path, ".lproj")
  }

  /** The languages of the `.lproj` folders among `entries`. */
  function LanguagesIn(entries: seq<string>): set<string> {
    set p | p in entries && IsLproj(p) :: LanguageOf(p)
  }

  /** The inner scan loop over the first `entries` of the app at `fullPath`: each
      `.lproj` folder is appended, as a full path, to its language's list. */
  function AddLproj(found: map<string, seq<string>>, fullPath: string, entries: seq<string>): map<string, seq<string>>
    decreases |entries|
  {
    if entries == [] then found
    else
      var n := |entries| - 1;
      var prev := AddLproj(found, fullPath, entries[..n]);
      AddOne(prev, fullPath, entries[n])
  }

  /** One pass of the inner scan loop. */
  function AddOne(found: map<string, seq<string>>, fullPath: string, p: string): map<string, seq<string>> {
    if IsLproj(p) then
      var l := LanguageOf(p);
      found[l := (if l in found then found[l] else []) + [AppendPath(fullPath, p)]]
    else found
  }

  lemma ScanFolderStep(found: map<string, seq<string>>, fullPath: string, entries: seq<string>, k: nat)
    requires k < |entries|
    ensures AddLproj(found, fullPath, entries[..k + 1]) == AddOne(AddLproj(found, fullPath, entries[..k]), fullPath, entries[k])
    ensures LanguagesIn(entries[..k + 1]) ==
      LanguagesIn(entries[..k]) + (if IsLproj(entries[k]) then {LanguageOf(entries[k])} else {})
  {
    assert entries[..k + 1][..k] == entries[..k];
    assert entries[..k + 1] == entries[..k] + [entries[k]];
  }

  /** A language has a list after the loop exactly when it had one before or one
      of the entries is a `.lproj` folder for it. */
  lemma {:induction false} AddLprojKeys(found: map<string, seq<string>>, fullPath: string, entries: seq<string>)
    ensures AddLproj(found, fullPath, entries).Keys == found.Keys + LanguagesIn(entries)
    decreases |entries|
  {
    if entries != [] {
      var n := |entries| - 1;
      AddLprojKeys(found, fullPath, entries[..n]);
      ScanFolderStep(found, fullPath, entries, n);
      assert entries[..n + 1] == entries;
    } else {
      assert LanguagesIn(entries) == {};
    }
  }

  /** One of the `entries` is a `.lproj` folder for `l` whose full path is `q`. */
  ghost predicate FolderFor(entries: seq<string>, fullPath: string, l: string, q: string) {
    exists p :: p in entries && IsLproj(p) && LanguageOf(p) == l && q == AppendPath(fullPath, p)
  }

  /** A full path is in a language's list after the loop exactly when it was
      before or is one of the entries' folders for that language. */
  lemma {:induction false} AddLprojPaths(found: map<string, seq<string>>, fullPath: string, entries: seq<string>,
                                         l: string, q: string)
    requires l in AddLproj(found, fullPath, entries)
    ensures q in AddLproj(found, fullPath, entries)[l] <==>
      (l in found && q in found[l]) || FolderFor(entries, fullPath, l, q)
    decreases |entries|
  {
    if entries != [] {
      var n := |entries| - 1;
      var p := entries[n];
      var prev := AddLproj(found, fullPath, entries[..n]);
      assert entries == entries[..n] + [p];
      var here := IsLproj(p) && LanguageOf(p) == l && q == AppendPath(fullPath, p);
      if here {
        assert FolderFor(entries, fullPath, l, q);
      }
      if l in prev {
        AddLprojPaths(found, fullPath, entries[..n], l, q);
      } else {
        AddLprojKeys(found, fullPath, entries[..n]);
        assert !FolderFor(entries[..n], fullPath, l, q);
      }
      if FolderFor(entries, fullPath, l, q) {
        var w :| w in entries && IsLproj(w) && LanguageOf(w) == l && q == AppendPath(fullPath, w);
        if w != p {
          assert w in entries[..n];
          assert FolderFor(entries[..n], fullPath, l, q);
        }
      }
      if FolderFor(entries[..n], fullPath, l, q) {
        var w :| w in entries[..n] && IsLproj(w) && LanguageOf(w) == l && q == AppendPath(fullPath, w);
        assert w in entries;
      }
    } else {
      assert !FolderFor(entries, fullPath, l, q);
    }
  }

  /** What the first pass of the scan builds: the folders per language per app
      name, the app names in the order first seen, and every language seen. */
  datatype Scan = Scan(appLanguages: map<string, map<string, seq<string>>>, names: seq<string>, allLanguages: set<string>)

  /** `fileExists(atPath:isDirectory:)` with `isDir` true. */
  predicate IsDirectoryIn(files: map<string, FileInfo>, p: string) {
    p in files && files[p].kind == Directory
  }

  /** An entry of /Applications the scan looks into: a folder that is not a
      default app. */
  predicate Scanned(files: map<string, FileInfo>, defaults: set<string>, item: string) {
    IsDirectoryIn(files, AppendPath(ApplicationsFolder, item)) && item !in defaults
  }

  /** One pass of the outer scan loop. An app gets an entry, possibly empty, even
      when it has no `.lproj` folder or cannot be enumerated. */
  function ScanItem(m: Machine, files: map<string, FileInfo>, defaults: set<string>, st: Scan, item: string): Scan {
    if !Scanned(files, defaults, item) then st
    else
      var fullPath := AppendPath(ApplicationsFolder, item);
      var known := item in st.appLanguages;
      var base := if known then st.appLanguages[item] else map[];
      var names := if known then st.names else st.names + [item];
      match m.Enumerate(fullPath)
      case None => Scan(st.appLanguages[item := base], names, st.allLanguages)
      case Some(es) => Scan(st.appLanguages[item := AddLproj(base, fullPath, es)], names, st.allLanguages + LanguagesIn(es))
  }

  /** The outer scan loop over the first `items`. */
  function ScanItems(m: Machine, files: map<string, FileInfo>, defaults: set<string>, items: seq<string>): Scan
    decreases |items|
  {
    if items == [] then Scan(map[], [], {})
    else ScanItem(m, files, defaults, ScanItems(m, files, defaults, items[..|items| - 1]), items[|items| - 1])
  }

  /** The first pass over /Applications; nothing is found when it cannot be listed. */
  function ScanOf(m: Machine, files: map<string, FileInfo>, defaults: set<string>): Scan {
    match m.Contents(ApplicationsFolder)
    case None => Scan(map[], [], {})
    case Some(items) => ScanItems(m, files, defaults, items)
  }

  /** The first pass names each scanned folder once, and nothing else; every
      language seen belongs to some app, and every app's languages were seen. */
  ghost predicate WellFormedScan(st: Scan) {
    NamesMatchKeys(st) && LanguagesMatch(st)
  }

  /** The names part of `WellFormedScan`. */
  ghost predicate NamesMatchKeys(st: Scan) {
    SetOf(st.names) == st.appLanguages.Keys && Distinct(st.names)
  }

  /** The languages part of `WellFormedScan`. */
  ghost predicate LanguagesMatch(st: Scan) {
    (forall n, l :: n in st.appLanguages && l in st.appLanguages[n] ==> l in st.allLanguages) &&
    (forall l :: l in st.allLanguages ==> exists n :: n in st.appLanguages && l in st.appLanguages[n])
  }

  lemma ScanItemNames(m: Machine, files: map<string, FileInfo>, defaults: set<string>, st: Scan, item: string)
    requires NamesMatchKeys(st)
    ensures var r := ScanItem(m, files, defaults, st, item);
      NamesMatchKeys(r) &&
      forall name :: name in r.names <==> name in st.names || (name == item && Scanned(files, defaults, item))
  {
    if Scanned(files, defaults, item) {
      var r := ScanItem(m, files, defaults, st, item);
      if item !in st.appLanguages {
        assert item !in SetOf(st.names);
      }
      assert SetOf(r.names) == SetOf(st.names) + {item};
    }
  }

  lemma ScanItemLanguages(m: Machine, files: map<string, FileInfo>, defaults: set<string>, st: Scan, item: string)
    requires LanguagesMatch(st)
    ensures LanguagesMatch(ScanItem(m, files, defaults, st, item))
  {
    if Scanned(files, defaults, item) {
      var fullPath := AppendPath(ApplicationsFolder, item);
      var base := if item in st.appLanguages then st.appLanguages[item] else map[];
      var r := ScanItem(m, files, defaults, st, item);
      match m.Enumerate(fullPath)
      case None =>
        assert forall n :: n in r.appLanguages && n != item ==> r.appLanguages[n] == st.appLanguages[n];
        forall l | l in r.allLanguages
          ensures exists n :: n in r.appLanguages && l in r.appLanguages[n]
        {
          var n :| n in st.appLanguages && l in st.appLanguages[n];
          assert n in r.appLanguages && l in r.appLanguages[n];
        }
      case Some(es) =>
        AddLprojKeys(base, fullPath, es);
        forall l | l in r.allLanguages
          ensures exists n :: n in r.appLanguages && l in r.appLanguages[n]
        {
          if l !in st.allLanguages {
            assert l in r.appLanguages[item];
          } else {
            var n :| n in st.appLanguages && l in st.appLanguages[n];
            if n == item {
              assert l in r.appLanguages[item];
            } else {
              assert r.appLanguages[n] == st.appLanguages[n];
            }
          }
        }
    }
  }

  lemma ScanItemFacts(m: Machine, files: map<string, FileInfo>, defaults: set<string>, st: Scan, item: string)
    requires WellFormedScan(st)
    ensures var r := ScanItem(m, files, defaults, st, item);
      WellFormedScan(r) &&
      forall name :: name in r.names <==> name in st.names || (name == item && Scanned(files, defaults, item))
  {
    ScanItemNames(m, files, defaults, st, item);
    ScanItemLanguages(m, files, defaults, st, item);
  }

  /** After the first pass, the app names are exactly the scanned folders, each
      once, and the languages seen are exactly those of the apps. */
  lemma {:induction false} ScanItemsFacts(m: Machine, files: map<string, FileInfo>, defaults: set<string>, items: seq<string>)
    ensures var st := ScanItems(m, files, defaults, items);
      WellFormedScan(st) &&
      forall name :: name in st.names <==> name in items && Scanned(files, defaults, name)
    decreases |items|
  {
    if items != [] {
      var n := |items| - 1;
      ScanItemsFacts(m, files, defaults, items[..n]);
      ScanItemFacts(m, files, defaults, ScanItems(m, files, defaults, items[..n]), items[n]);
      assert items == items[..n] + [items[n]];
    } else {
      assert SetOf([]) == {};
    }
  }

  /** The apps of the second pass: each name of the first pass with a fresh UUID,
      its sorted languages and its folders, and nothing chosen. */
  ghost predicate BuiltFrom(m: Machine, drawn: nat, st: Scan, apps: seq<AppLanguage>) {
    |apps| == |st.names| &&
    forall i :: 0 <= i < |apps| ==>
      st.names[i] in st.appLanguages &&
      apps[i].id == m.uuid(drawn + i) && apps[i].appName == st.names[i] &&
      apps[i].languagePaths == st.appLanguages[st.names[i]] && apps[i].selectedLanguages == {} &&
      SortedBy(apps[i].languages, LexLess) && Distinct(apps[i].languages) &&
      SetOf(apps[i].languages) == apps[i].languagePaths.Keys
  }

  /** A scan result offers every language of every app. */
  lemma ScanCovers(m: Machine, drawn: nat, st: Scan, c: Cleaner)
    requires WellFormedScan(st) && BuiltFrom(m, drawn, st, c.apps)
    requires SetOf(c.uniqueLanguages) == st.allLanguages
    ensures Covered(c)
  {
    forall i, l | 0 <= i < |c.apps| && l in c.apps[i].languages
      ensures l in c.uniqueLanguages
    {
      assert l in SetOf(c.apps[i].languages);
      assert l in st.appLanguages[st.names[i]];
      assert l in SetOf(c.uniqueLanguages);
    }
  }

  /** The inner collection loop of `removeSelected()`, over the languages of app
      `appIndex`. */
  method AppRemovalsOf(appIndex: nat, app: AppLanguage, global: set<string>) returns (entries: seq<Removal>)
    ensures entries == AppRemovals(appIndex, app, app.languages, global)
  {
    entries := [];
    var k := 0;
    while k < |app.languages|
      invariant 0 <= k <= |app.languages|
      invariant entries == AppRemovals(appIndex, app, app.languages[..k], global)
    {
      var language := app.languages[k];
      AppRemovalsStep(appIndex, app, app.languages, k, global);
      if language in app.selectedLanguages || language in global {
        if language in app.languagePaths {
          var paths := app.languagePaths[language];
          entries := entries + seq(|paths|, j requires 0 <= j < |paths| => Removal(appIndex, language, paths[j]));
        }
      }
      k := k + 1;
    }
    assert app.languages[..k] == app.languages;
  }

  /** The ids of the apps. */
  function Ids(apps: seq<AppLanguage>): set<string> {
    set a | a in apps :: a.id
  }

  /** The inner scan loop: the `.lproj` folders among an app's entries. */
  method ScanFolder(fullPath: string, found: map<string, seq<string>>, allLanguages: set<string>, entries: seq<string>)
    returns (languages: map<string, seq<string>>, seen: set<string>)
    ensures languages == AddLproj(found, fullPath, entries)
    ensures seen == allLanguages + LanguagesIn(entries)
  {
    languages, seen := found, allLanguages;
    var k := 0;
    while k < |entries|
      invariant 0 <= k <= |entries|
      invariant languages == AddLproj(found, fullPath, entries[..k])
      invariant seen == allLanguages + LanguagesIn(entries[..k])
    {
      ScanFolderStep(found, fullPath, entries, k);
      languages, seen := ScanEntry(fullPath, languages, seen, entries[k]);
      k := k + 1;
    }
    assert entries[..k] == entries;
  }

  /** The body of the inner scan loop for one entry. */
  method ScanEntry(fullPath: string, found: map<string, seq<string>>, allLanguages: set<string>, path: string)
    returns (languages: map<string, seq<string>>, seen: set<string>)
    ensures languages == AddOne(found, fullPath, path)
    ensures seen == allLanguages + (if IsLproj(path) then {LanguageOf(path)} else {})
  {
    languages, seen := found, allLanguages;
    if IsLproj(path) {
      var language := LanguageOf(path);
      var folders := if language in found then found[language] else [];
      languages := found[language := folders + [AppendPath(fullPath, path)]];
      seen := seen + {language};
    }
  }

  /** The outer scan loop over /Applications; an unreadable folder ends the scan
      with nothing found. */
  method FirstPass(m: Machine, defaults: set<string>) returns (st: Scan)
    ensures st == ScanOf(m, m.files, defaults) && WellFormedScan(st)
  {
    var contents := m.Contents(ApplicationsFolder);
    if contents.None? {
      assert SetOf([]) == {};
      return Scan(map[], [], {});
    }
    var items := contents.value;
    var appLanguages: map<string, map<string, seq<string>>> := map[];
    var names: seq<string> := [];
    var allLanguages: set<string> := {};
    var i := 0;
    while i < |items|
      invariant 0 <= i <= |items|
      invariant Scan(appLanguages, names, allLanguages) == ScanItems(m, m.files, defaults, items[..i])
    {
      var item := items[i];
      assert items[..i + 1][..i] == items[..i];
      var fullPath := AppendPath(ApplicationsFolder, item);
      if m.IsDirectory(fullPath) && item !in defaults {
        if item !in appLanguages {
          appLanguages := appLanguages[item := map[]];
          names := names + [item];
        }
        var enumerator := m.Enumerate(fullPath);
        if enumerator.Some? {
          var found, seen := ScanFolder(fullPath, appLanguages[item], allLanguages, enumerator.value);
          appLanguages := appLanguages[item := found];
          allLanguages := seen;
        }
      }
      i := i + 1;
    }
    assert items[..i] == items;
    st := Scan(appLanguages, names, allLanguages);
    ScanItemsFacts(m, m.files, defaults, items);
  }

  /** Building the app for the next name keeps the built prefix in step with the names. */
  lemma BuiltFromStep(m: Machine, drawn: nat, st: Scan, apps: seq<AppLanguage>, app: AppLanguage, n: nat)
    requires n < |st.names| && st.names[n] in st.appLanguages
    requires BuiltFrom(m, drawn, st.(names := st.names[..n]), apps)
    requires app.id == m.uuid(drawn + n) && app.appName == st.names[n]
    requires app.languagePaths == st.appLanguages[st.names[n]] && app.selectedLanguages == {}
    requires SortedBy(app.languages, LexLess) && Distinct(app.languages) && SetOf(app.languages) == app.languagePaths.Keys
    ensures BuiltFrom(m, drawn, st.(names := st.names[..n + 1]), apps + [app])
  {
    assert st.names[..n + 1] == st.names[..n] + [st.names[n]];
  }

  /** One app of the second pass. */
  method BuildApp(m: Machine, appName: string, languages: map<string, seq<string>>) returns (app: AppLanguage)
    modifies m
    ensures app.id == m.uuid(old(m.drawn)) && app.appName == appName
    ensures app.languagePaths == languages && app.selectedLanguages == {}
    ensures SortedBy(app.languages, LexLess) && Distinct(app.languages) && SetOf(app.languages) == languages.Keys
    ensures m.files == old(m.files) && m.launched == old(m.launched) && m.drawn == old(m.drawn) + 1
  {
    var id := m.DrawUuid();
    var sorted := SortedList(languages.Keys);
    app := AppLanguage(id, appName, sorted, languages, {});
  }

  /** The second pass: one app per name found, with a fresh UUID and its
      languages sorted. */
  method BuildApps(m: Machine, st: Scan) returns (tempApps: seq<AppLanguage>)
    requires WellFormedScan(st)
    modifies m
    ensures BuiltFrom(m, old(m.drawn), st, tempApps)
    ensures m.files == old(m.files) && m.launched == old(m.launched) && m.drawn == old(m.drawn) + |tempApps|
  {
    tempApps := [];
    var i := 0;
    while i < |st.names|
      invariant 0 <= i <= |st.names| && |tempApps| == i
      invariant BuiltFrom(m, old(m.drawn), st.(names := st.names[..i]), tempApps)
      invariant m.files == old(m.files) && m.launched == old(m.launched) && m.drawn == old(m.drawn) + i
    {
      var appName := st.names[i];
      assert appName in SetOf(st.names);
      var app := BuildApp(m, appName, st.appLanguages[appName]);
      BuiltFromStep(m, old(m.drawn), st, tempApps, app, i);
      tempApps := tempApps + [app];
      i := i + 1;
    }
    assert st.names[..i] == st.names;
  }

  class LanguageCleaner {
    var apps: seq<AppLanguage>
    var uniqueLanguages: seq<string>
    var selectedApps: set<string>
    var selectedLanguages: set<string>
    var expandedApps: map<string, bool>
    var isScanning: bool
    var isRemoving: bool
    var searchText: string
    var removedFilesLog: string

    constructor ()
      ensures Snapshot() == Cleaner([], [], {}, {}, map[], false, false, "", "")
    {
      apps := [];
      uniqueLanguages := [];
      selectedApps := {};
      selectedLanguages := {};
      expandedApps := map[];
      isScanning := false;
      isRemoving := false;
      searchText := "";
      removedFilesLog := "";
    }

    function Snapshot(): Cleaner
      reads this
    {
      Cleaner(apps, uniqueLanguages, selectedApps, selectedLanguages, expandedApps,
              isScanning, isRemoving, searchText, removedFilesLog)
    }

    /** `toggleApp(_:)`. */
    method ToggleApp(appId: string)
      modifies this
      ensures Snapshot() == ToggleAppSpec(old(Snapshot()), appId)
    {
      if appId in selectedApps {
        selectedApps := selectedApps - {appId};
      } else {
        selectedApps := selectedApps + {appId};
      }
    }

    /** `toggleLanguageInApp(_:app:)`. */
    method ToggleLanguageInApp(language: string, app: AppLanguage)
      modifies this
      ensures Snapshot() == ToggleLanguageInAppSpec(old(Snapshot()), language, app.id)
    {
      var appIndex := IndexOfId(apps, app.id);
      if appIndex.Some? {
        var k := appIndex.value;
        if language in apps[k].selectedLanguages {
          apps := apps[k := apps[k].(selectedLanguages := apps[k].selectedLanguages - {language})];
        } else {
          apps := apps[k := apps[k].(selectedLanguages := apps[k].selectedLanguages + {language})];
        }
      }
    }

    /** `toggleGlobalLanguage(_:)`. */
    method ToggleGlobalLanguage(language: string)
      modifies this
      ensures Snapshot() == ToggleGlobalLanguageSpec(old(Snapshot()), language)
    {
      if ShouldGrayOutLanguage(language) {
        return;
      }
      if language in selectedLanguages {
        selectedLanguages := selectedLanguages - {language};
      } else {
        selectedLanguages := selectedLanguages + {language};
      }
      ghost var mid := Snapshot();
      var index := 0;
      while index < |apps|
        invariant 0 <= index <= |apps| == |mid.apps|
        invariant Snapshot() == mid.(apps := apps)
        invariant forall j :: 0 <= j < index ==> apps[j] == SetInEvery(mid.apps, language, language in selectedLanguages)[j]
        invariant forall j :: index <= j < |apps| ==> apps[j] == mid.apps[j]
      {
        if language in selectedLanguages {
          apps := apps[index := apps[index].(selectedLanguages := apps[index].selectedLanguages + {language})];
        } else {
          apps := apps[index := apps[index].(selectedLanguages := apps[index].selectedLanguages - {language})];
        }
        index := index + 1;
      }
      assert apps == SetInEvery(mid.apps, language, language in selectedLanguages);
    }

    /** `toggleSelectAllLanguages()`; the count test is taken again for every app. */
    method ToggleSelectAllLanguages()
      modifies this
      ensures Snapshot() == ToggleSelectAllLanguagesSpec(old(Snapshot()))
    {
      if IsAllLanguagesSelected(Snapshot()) {
        selectedLanguages := {};
      } else {
        selectedLanguages := SetOf(Selectable(uniqueLanguages));
      }
      FollowSelectAll();
    }

    /** The app loop of `toggleSelectAllLanguages()`. */
    method FollowSelectAll()
      modifies this
      ensures Snapshot() == old(Snapshot()).(apps := SelectAllIn(old(apps), IsAllLanguagesSelected(old(Snapshot()))))
    {
      ghost var mid := Snapshot();
      var index := 0;
      while index < |apps|
        invariant 0 <= index <= |apps| == |mid.apps|
        invariant Snapshot() == mid.(apps := apps)
        invariant forall j :: 0 <= j < index ==> apps[j] == SelectAllIn(mid.apps, IsAllLanguagesSelected(mid))[j]
        invariant forall j :: index <= j < |apps| ==> apps[j] == mid.apps[j]
      {
        if IsAllLanguagesSelected(Snapshot()) {
          apps := apps[index := apps[index].(selectedLanguages := SetOf(Selectable(apps[index].languages)))];
        } else {
          apps := apps[index := apps[index].(selectedLanguages := {})];
        }
        index := index + 1;
      }
      assert apps == SelectAllIn(mid.apps, IsAllLanguagesSelected(mid));
    }

    /** `toggleSelectAllLanguages(in:)`. */
    method ToggleSelectAllLanguagesIn(app: AppLanguage)
      modifies this
      ensures Snapshot() == ToggleSelectAllLanguagesInSpec(old(Snapshot()), app.id)
    {
      var appIndex := IndexOfId(apps, app.id);
      if appIndex.Some? {
        var k := appIndex.value;
        if IsAllLanguagesSelectedIn(apps[k]) {
          apps := apps[k := apps[k].(selectedLanguages := {})];
        } else {
          apps := apps[k := apps[k].(selectedLanguages := SetOf(Selectable(apps[k].languages)))];
        }
      }
    }

    /** The collection loops of `removeSelected()`. */
    method CollectRemovals() returns (pathsToRemove: seq<Removal>)
      ensures pathsToRemove == Removals(apps, selectedLanguages)
    {
      pathsToRemove := [];
      var appIndex := 0;
      while appIndex < |apps|
        invariant 0 <= appIndex <= |apps|
        invariant pathsToRemove == Removals(apps[..appIndex], selectedLanguages)
      {
        var app := apps[appIndex];
        var entries := AppRemovalsOf(appIndex, app, selectedLanguages);
        pathsToRemove := pathsToRemove + entries;
        assert apps[..appIndex + 1][..appIndex] == apps[..appIndex];
        appIndex := appIndex + 1;
      }
      assert apps[..appIndex] == apps;
    }

    /** The bookkeeping of one successful reply, as written. */
    method Book(e: Removal)
      requires e.appIndex < |apps|
      modifies this
      ensures Snapshot() == BookRemoval(old(Snapshot()), e, false)
    {
      var app := apps[e.appIndex];
      if e.language in app.languagePaths {
        var left := Without(app.languagePaths[e.language], e.path);
        if left != [] {
          apps := apps[e.appIndex := app.(languagePaths := app.languagePaths[e.language := left])];
        } else {
          apps, uniqueLanguages :=
            apps[e.appIndex := app.(languagePaths := app.languagePaths - {e.language},
                                    languages := Without(app.languages, e.language))],
            Without(uniqueLanguages, e.language);
        }
      }
    }

    /** The removal loop: one helper request per entry, the bookkeeping after
        each success. */
    method RemoveEach(m: Machine, pathsToRemove: seq<Removal>) returns (removedFiles: seq<string>)
      requires forall e :: e in pathsToRemove ==> e.appIndex < |apps|
      modifies this, m
      ensures Removing(Snapshot(), m.files, removedFiles) ==
        RemovalRun(m, Removing(old(Snapshot()), old(m.files), []), pathsToRemove, false)
      ensures m.launched == old(m.launched) && m.drawn == old(m.drawn)
    {
      ghost var start := Removing(Snapshot(), m.files, []);
      removedFiles := [];
      var k := 0;
      while k < |pathsToRemove|
        invariant 0 <= k <= |pathsToRemove|
        invariant Removing(Snapshot(), m.files, removedFiles) == RemovalRun(m, start, pathsToRemove[..k], false)
        invariant |apps| == |start.c.apps|
        invariant m.launched == old(m.launched) && m.drawn == old(m.drawn)
      {
        var e := pathsToRemove[k];
        assert pathsToRemove[..k + 1][..k] == pathsToRemove[..k];
        var removed := RemoveOne(m, e);
        if removed {
          removedFiles := removedFiles + [e.path];
        }
        k := k + 1;
      }
      assert pathsToRemove[..k] == pathsToRemove;
    }

    /** One request and its reply; `removed` is the helper's success flag. */
    method RemoveOne(m: Machine, e: Removal) returns (removed: bool)
      requires e.appIndex < |apps|
      modifies this, m
      ensures removed <==> RemoveOutcome(m, old(m.files), e.path).None?
      ensures Snapshot() == (if removed then BookRemoval(old(Snapshot()), e, false) else old(Snapshot()))
      ensures m.files == (if removed then RemovedTree(old(m.files), e.path) else old(m.files))
      ensures m.launched == old(m.launched) && m.drawn == old(m.drawn)
    {
      var replies := HelperToolModel.RemoveFile(m, e.path);
      removed := replies[0].0;
      if removed {
        Book(e);
      }
    }

    /** `removeSelected()`. `helperReady` is whether the helper is installed or
        could be installed; each folder is removed through the helper's
        `removeFile`, one after the other. */
    method RemoveSelected(m: Machine, helperReady: bool)
      modifies this, m
      ensures var r := RemoveSelectedSpec(m, old(Snapshot()), old(m.files), helperReady, false);
        Snapshot() == r.c && m.files == r.files
      ensures m.launched == old(m.launched) && m.drawn == old(m.drawn)
    {
      var pathsToRemove := CollectRemovals();
      if !helperReady {
        return;
      }
      forall e | e in pathsToRemove
        ensures e.appIndex < |apps|
      {
        RemovalsIff(apps, selectedLanguages, e);
      }
      isRemoving := true;
      var removedFiles := RemoveEach(m, pathsToRemove);
      isRemoving := false;
      removedFilesLog := Join(removedFiles, "\n");
    }

    /** `scanForAppsAndLanguages()`: the non-default folders of /Applications
        become the apps, each with its sorted languages; the languages seen become
        `uniqueLanguages`, sorted; no app is expanded; earlier choices are kept. */
    method ScanForAppsAndLanguages(m: Machine)
      modifies this, m
      ensures var st := ScanOf(m, old(m.files), Common.DefaultAppSet(m));
        WellFormedScan(st) && BuiltFrom(m, old(m.drawn), st, apps) &&
        SortedBy(uniqueLanguages, LexLess) && Distinct(uniqueLanguages) && SetOf(uniqueLanguages) == st.allLanguages
      ensures expandedApps == map id | id in Ids(apps) :: false
      ensures Covered(Snapshot())
      ensures Snapshot() == old(Snapshot()).(apps := apps, uniqueLanguages := uniqueLanguages,
                                              expandedApps := expandedApps, isScanning := false)
      ensures m.files == old(m.files) && m.launched == old(m.launched) && m.drawn == old(m.drawn) + |apps|
    {
      isScanning := true;
      var defaults := Common.DefaultMacOSApps(m);
      ScanSkipping(m, defaults);
    }

    /** The scan proper, skipping the apps in `defaults`. */
    method ScanSkipping(m: Machine, defaults: set<string>)
      modifies this, m
      ensures var st := ScanOf(m, old(m.files), defaults);
        WellFormedScan(st) && BuiltFrom(m, old(m.drawn), st, apps) &&
        SortedBy(uniqueLanguages, LexLess) && Distinct(uniqueLanguages) && SetOf(uniqueLanguages) == st.allLanguages
      ensures expandedApps == map id | id in Ids(apps) :: false
      ensures Covered(Snapshot())
      ensures Snapshot() == old(Snapshot()).(apps := apps, uniqueLanguages := uniqueLanguages,
                                              expandedApps := expandedApps, isScanning := false)
      ensures m.files == old(m.files) && m.launched == old(m.launched) && m.drawn == old(m.drawn) + |apps|
    {
      var st := FirstPass(m, defaults);
      var tempApps := BuildApps(m, st);
      var all := SortedList(st.allLanguages);
      apps := tempApps;
      uniqueLanguages := all;
      expandedApps := map id | id in Ids(tempApps) :: false;
      isScanning := false;
      ScanCovers(m, old(m.drawn), st, Snapshot());
    }
  }
}

=== FILE: paths.dfy ===
/** Path arithmetic as Foundation's `NSString` path methods and Python's `os.path`
    perform it on plain strings: appending a component, the last component, the
    parent, the extension and tilde expansion. */
module Paths {
  import opened Text

  /** Index of the last occurrence of `c` in `s`, or -1. */
  function LastIndexOf(s: string, c: char): (k: int)
    ensures -1 <= k < |s|
    ensures k >= 0 ==> s[k] == c
    ensures forall i :: k < i < |s| ==> s[i] != c
  {
    if s == [] then -1
    else if s[|s| - 1] == c then |s| - 1
    else LastIndexOf(s[..|s| - 1], c)
  }

  /** The last `c` of `a + [c] + b` is the one between `a` and `b` when `b` has none. */
  lemma {:induction false} LastIndexOfJoint(a: string, c: char, b: string)
    requires NoneIn(b, {c})
    ensures LastIndexOf(a + [c] + b, c) == |a|
  {
    var s := a + [c] + b;
    if b != [] {
      var b' := b[..|b| - 1];
      assert s[|s| - 1] == b[|b| - 1];
      assert s[..|s| - 1] == a + [c] + b';
      LastIndexOfJoint(a, c, b');
    }
  }

  /** The text after the last `c` of `s`: all of `s` when it has none, "" when it
      ends in one. */
  function AfterLast(s: string, c: char): (r: string)
    ensures NoneIn(r, {c}) && |r| <= |s|
  {
    if s == [] || s[|s| - 1] == c then [] else AfterLast(s[..|s| - 1], c) + [s[|s| - 1]]
  }

  /** The text after the last `c` of `a + [c] + b` is `b` when `b` has none. */
  lemma {:induction false} AfterLastJoint(a: string, c: char, b: string)
    requires NoneIn(b, {c})
    ensures AfterLast(a + [c] + b, c) == b
  {
    var s := a + [c] + b;
    if b != [] {
      var b' := b[..|b| - 1];
      assert s[|s| - 1] == b[|b| - 1];
      assert s[..|s| - 1] == a + [c] + b';
      AfterLastJoint(a, c, b');
      assert b' + [b[|b| - 1]] == b;
    }
  }

  /** A string without `c` is its own text after the last `c`. */
  lemma {:induction false} AfterLastNone(s: string, c: char)
    requires NoneIn(s, {c})
    ensures AfterLast(s, c) == s
  {
    if s != [] {
      AfterLastNone(s[..|s| - 1], c);
      assert s[..|s| - 1] + [s[|s| - 1]] == s;
    }
  }

  /** `s` without its trailing slashes. */
  function DropTrailingSlashes(s: string): (r: string)
    ensures |r| <= |s| && r == s[..|r|]
    ensures r == [] || r[|r| - 1] != '/'
    ensures forall i :: |r| <= i < |s| ==> s[i] == '/'
  {
    if s != [] && s[|s| - 1] == '/' then DropTrailingSlashes(s[..|s| - 1]) else s
  }

  /** `(dir as NSString).appendingPathComponent(comp)`: exactly one slash between the
      two parts, none when `dir` is empty. */
  function AppendPath(dir: string, comp: string): (r: string)
    ensures dir == [] ==> r == comp
    ensures dir != [] ==> HasPrefix(r, dir) && HasSuffix(r, comp)
  {
    if dir == [] then comp
    else if dir[|dir| - 1] == '/' then dir + comp
    else dir + "/" + comp
  }

  /** `lastPathComponent`: the text after the last slash once trailing slashes are
      gone; "/" for a path made only of slashes, "" for "". */
  function LastPathComponent(p: string): (r: string)
    ensures p != [] ==> r != []
  {
    var t := DropTrailingSlashes(p);
    if p != [] && t == [] then "/"
    else AfterLast(t, '/')
  }

  /** `deletingLastPathComponent`: everything before the last component, without
      trailing slashes; "/" when only the root is left, "" for a relative name. */
  function DeletingLastPathComponent(p: string): (r: string)
  {
    var t := DropTrailingSlashes(p);
    if p != [] && t == [] then "/"
    else
      var k := LastIndexOf(t, '/');
      if k < 0 then ""
      else
        var h := DropTrailingSlashes(t[..k]);
        if h == [] then "/" else h
  }

  /** `pathExtension`: the text after the last dot of the last component, or "". */
  function PathExtension(p: string): (r: string)
  {
    var c := LastPathComponent(p);
    if LastIndexOf(c, '.') < 0 then "" else AfterLast(c, '.')
  }

  /** `expandingTildeInPath` for the current user: a leading `~` (alone or followed
      by a slash) stands for the home directory; other paths are unchanged. */
  function ExpandTilde(p: string, home: string): (r: string)
    ensures !HasPrefix(p, "~") ==> r == p
  {
    if p == "~" then home
    else if HasPrefix(p, "~/") then AppendPath(home, p[2..])
    else p
  }

  /** A single path component: non-empty and slash-free. */
  predicate IsComponent(c: string) {
    c != [] && NoneIn(c, {'/'})
  }

  /** Appending a component and asking for the last component gives it back. */
  lemma AppendThenLast(dir: string, comp: string)
    requires IsComponent(comp)
    ensures LastPathComponent(AppendPath(dir, comp)) == comp
  {
    var r := AppendPath(dir, comp);
    assert DropTrailingSlashes(r) == r;
    if dir == [] {
      AfterLastNone(comp, '/');
    } else {
      var head := if dir[|dir| - 1] == '/' then dir[..|dir| - 1] else dir;
      assert r == head + ['/'] + comp;
      AfterLastJoint(head, '/', comp);
    }
  }

  /** Appending a component and then deleting the last one gives back a directory
      that is already in standard form (non-empty, no trailing slash unless it is
      the root). */
  lemma AppendThenDelete(dir: string, comp: string)
    requires IsComponent(comp)
    requires dir != [] && (dir == "/" || dir[|dir| - 1] != '/')
    ensures DeletingLastPathComponent(AppendPath(dir, comp)) == dir
  {
    var r := AppendPath(dir, comp);
    assert DropTrailingSlashes(r) == r;
    var k := LastIndexOf(r, '/');
    if dir == "/" {
      assert r == [] + ['/'] + comp;
      LastIndexOfJoint([], '/', comp);
      assert DropTrailingSlashes(r[..k]) == [];
    } else {
      assert r == dir + ['/'] + comp;
      LastIndexOfJoint(dir, '/', comp);
      assert r[..k] == dir;
      assert DropTrailingSlashes(dir) == dir;
    }
  }

  // ---------------------------------------------------------------------------
  // Python's os.path

  /** `os.path.join(a, b)`: an absolute `b` replaces `a`; otherwise one slash is
      inserted unless `a` is empty or already ends in one. */
  function PyJoin(a: string, b: string): (r: string)
    ensures HasSuffix(r, b)
  {
    if HasPrefix(b, "/") then b
    else if a == [] || a[|a| - 1] == '/' then a + b
    else a + "/" + b
  }

  /** `os.path.split(p)[-1]`: the text after the last slash, "" when `p` ends in one. */
  function PyTail(p: string): (r: string)
    ensures NoneIn(r, {'/'})
  {
    AfterLast(p, '/')
  }

  /** Unlike `lastPathComponent`, Python's tail of a directory written with a
      trailing slash is empty. */
  lemma PyTailOfSlashed(p: string)
    requires p != [] && p[|p| - 1] == '/'
    ensures PyTail(p) == ""
  {
  }
}

=== FILE: py_archify.dfy ===
/** The command-line script archify.py: it copies each app named on the command
    line into an output directory, walks the copy, thins every universal Mach-O
    binary to the target architecture with `lipo`, and re-signs it with `ldid`.

    The module-level variable `LDID` and the lines the script prints are the state
    of a `Script` object; the file system and the external programs are a `Host`
    machine. An exception that nothing catches ends the script; the model returns
    it as `Raised` and runs nothing after it. */
module PyArchify {
  import opened Wrappers
  import opened Text
  import opened Paths
  import opened Host
  import opened Sorting
  import Arch

  const Lipo := "/usr/bin/lipo"
  const FileTool := "/usr/bin/file"
  /** The `ldid` the script uses when that path exists. */
  const DefaultLdid := "/usr/local/bin/ldid"
  const MachMime := "application/x-mach-binary"

  const CalledProcessError := "CalledProcessError"
  const IndexError := "IndexError"
  const TypeError := "TypeError"

  /** How a Python call ends: it returns a value, or raises an exception that
      nothing catches. */
  datatype Call<T> = Returned(value: T) | Raised(reason: string)

  // ---------------------------------------------------------------------------
  // is_universal

  /** `output.decode().split(":")[-1].strip().split()`: the text after the last
      colon (all of it when there is none, nothing when it ends in one), stripped,
      split on runs of blanks. */
  function PyArchTokens(out: string): (r: seq<string>)
    ensures forall i :: 0 <= i < |r| ==> r[i] != [] && NoneIn(r[i], Whitespace)
  {
    Split(Trim(AfterLast(out, ':')), Whitespace)
  }

  /** The decision chain of `is_universal`, with `None` for Python's `False`. */
  function IsUniversalChoice(archs: seq<string>, target: string): (r: Option<string>)
    ensures r.Some? ==> r.value in archs
    ensures |archs| == 1 ==> r == None
    ensures |archs| != 1 && target in archs ==> r == Some(target)
  {
    if |archs| == 1 then None
    else if target in archs then Some(target)
    else if target == "arm64" && "arm64e" in archs then Some("arm64e")
    else if target == "arm64e" && "arm64" in archs then Some("arm64")
    else if target != "i386" && "i386" in archs then
      if target == "x86_64" && "x86_64" in archs then Some("x86_64")
      else if target == "arm64e" || target == "arm64" then
        if "x86_64" in archs then Some("x86_64")
        else if "arm64e" in archs then Some("arm64e")
        else if "arm64" in archs then Some("arm64")
        else None
      else None
    else None
  }

  /** The script and the Swift app keep the same slice for every token list and
      target. */
  lemma SameChoiceAsSwift(archs: seq<string>, target: string)
    ensures IsUniversalChoice(archs, target) == Arch.Resolve(archs, target)
  {
  }

  /** The last two tests of the arm64 block never succeed: when the chain gets
      there, neither arm64 flavour is in the list, or it would have been returned
      earlier. */
  lemma LateFallbacksNeverDecide(archs: seq<string>, target: string)
    ensures |archs| != 1 && target !in archs && (target == "arm64" || target == "arm64e") &&
            !(target == "arm64" && "arm64e" in archs) && !(target == "arm64e" && "arm64" in archs)
            ==> "arm64e" !in archs && "arm64" !in archs
  {
  }

  /** On a `lipo -info` summary line whose architecture names hold no blanks, the
      script reads the same names as the app. */
  lemma {:induction false} PyTokensOfSummary(head: string, archs: seq<string>)
    requires forall i :: 0 <= i < |archs| ==> Arch.ArchWord(archs[i]) && NoneIn(archs[i], Whitespace)
    ensures PyArchTokens(head + ": " + Join(archs, " ") + "\n") == archs
  {
    var j := Join(archs, " ");
    var tail := " " + j + "\n";
    assert head + ": " + j + "\n" == head + [':'] + tail;
    Arch.SummaryTailHasNoColon(archs);
    AfterLastJoint(head, ':', tail);
    Arch.TrimSummaryTail(archs);
    SplitJoinRoundTrip(archs, ' ', Whitespace);
  }

  /** Hence on such a summary the script thins exactly when, and to what, the app
      would. */
  lemma SummaryChoiceAsSwift(head: string, archs: seq<string>, target: string)
    requires forall i :: 0 <= i < |archs| ==> Arch.ArchWord(archs[i]) && NoneIn(archs[i], Whitespace)
    ensures IsUniversalChoice(PyArchTokens(head + ": " + Join(archs, " ") + "\n"), target)
         == Arch.Resolve(Arch.ArchTokens(head + ": " + Join(archs, " ") + "\n"), target)
  {
    var s := head + ": " + Join(archs, " ") + "\n";
    PyTokensOfSummary(head, archs);
    Arch.TokensOfSummary(head, archs);
    assert PyArchTokens(s) == archs && Arch.ArchTokens(s) == archs;
    SameChoiceAsSwift(archs, target);
  }

  /** Output ending in a colon leaves the script no tokens at all, where the app's
      parse skips the empty last piece. */
  lemma TrailingColonGivesNoTokens(out: string)
    ensures PyArchTokens(out + ":") == []
  {
    assert AfterLast(out + ":", ':') == [];
  }

  // ---------------------------------------------------------------------------
  // Invocations

  function MimeInvocation(path: string): Invocation {
    Invocation(FileTool, ["--mime-type", path])
  }

  function InfoInvocation(path: string): Invocation {
    Invocation(Lipo, ["-info", path])
  }

  /** Where `clean_bin` has `lipo` write the thinned slice. */
  function ThinnedPath(bin: string, arch: string): string {
    bin + "." + arch
  }

  function ThinInvocation(bin: string, arch: string): Invocation {
    Invocation(Lipo, ["-thin", arch, bin, "-output", ThinnedPath(bin, arch)])
  }

  function ExtractInvocation(ldid: string, bin: string): Invocation {
    Invocation(ldid, ["-e", bin])
  }

  /** `[LDID, "-S", bin]`, or `[LDID, "-S<tmp>", bin]` with an entitlements file. */
  function SignInvocation(ldid: string, bin: string, entitlements: Option<string>): Invocation {
    match entitlements
    case None => Invocation(ldid, ["-S", bin])
    case Some(p) => Invocation(ldid, ["-S" + p, bin])
  }

  function RsyncInvocation(appDir: string, outputDir: string): Invocation {
    Invocation("rsync", ["-r", "-v", "-aHz", appDir, outputDir])
  }

  /** The n-th name `tempfile.mkstemp()` draws. */
  function MkstempPath(m: Machine, n: nat): string {
    AppendPath(m.tempDir, "tmp" + m.uuid(n))
  }

  /** Only a `lipo -thin` request changes files, and a run with fewer than five
      arguments is never one (`rsync` has five, but is not `lipo`). */
  lemma ShortRunKeepsFiles(m: Machine, files: map<string, FileInfo>, inv: Invocation)
    requires |inv.args| < 5
    ensures AfterRun(m, files, inv) == files
  {
  }

  // ---------------------------------------------------------------------------
  // is_mach, is_universal, clean_bin

  /** `is_mach(path)`: False for a symbolic link or a file that is not executable,
      without running anything; otherwise whether the last blank-separated word of
      `file --mime-type` is the Mach-O type. */
  function IsMachSpec(m: Machine, w: World, path: string): (Call<bool>, World) {
    if path in w.files && w.files[path].kind == SymbolicLink then (Returned(false), w)
    else if !(path in w.files && w.files[path].executable) then (Returned(false), w)
    else
      var inv := MimeInvocation(path);
      var w1 := LaunchW(m, w, inv);
      match m.run(inv)
      case LaunchError(e) => (Raised(e), w1)
      case Exited(status, out) =>
        if status != 0 then (Raised(CalledProcessError), w1)
        else
          var words := Split(out, Whitespace);
          if words == [] then (Raised(IndexError), w1)
          else (Returned(words[|words| - 1] == MachMime), w1)
  }

  /** `is_mach` answers True exactly for an executable regular entry whose `file`
      output ends in the Mach-O type, and it runs `file` only for executables that
      are not links. */
  lemma IsMachIff(m: Machine, w: World, path: string)
    ensures IsMachSpec(m, w, path).0 == Returned(true) <==>
      path in w.files && w.files[path].kind != SymbolicLink && w.files[path].executable &&
      m.run(MimeInvocation(path)).Exited? && m.run(MimeInvocation(path)).status == 0 &&
      Split(m.run(MimeInvocation(path)).stdout, Whitespace) != [] &&
      Last(Split(m.run(MimeInvocation(path)).stdout, Whitespace)) == MachMime
    ensures !(path in w.files && w.files[path].kind != SymbolicLink && w.files[path].executable) ==>
      IsMachSpec(m, w, path) == (Returned(false), w)
  {
  }

  function Last(words: seq<string>): string
    requires words != []
  {
    words[|words| - 1]
  }

  /** `is_universal(path, target_arch)`. */
  function IsUniversalSpec(m: Machine, w: World, path: string, target: string): (Call<Option<string>>, World) {
    var inv := InfoInvocation(path);
    var w1 := LaunchW(m, w, inv);
    match m.run(inv)
    case LaunchError(e) => (Raised(e), w1)
    case Exited(status, out) =>
      if status != 0 then (Raised(CalledProcessError), w1)
      else (Returned(IsUniversalChoice(PyArchTokens(out), target)), w1)
  }

  /** `clean_bin(bin, arch)`: thin into `bin.<arch>`, remove `bin`, rename the thin
      file to `bin`. */
  function CleanBinSpec(m: Machine, w: World, bin: string, arch: string): (Call<()>, World) {
    var inv := ThinInvocation(bin, arch);
    var w1 := LaunchW(m, w, inv);
    match m.run(inv)
    case LaunchError(e) => (Raised(e), w1)
    case Exited(status, _) =>
      if status != 0 then (Raised(CalledProcessError), w1)
      else match UnlinkOutcome(m, w1.files, bin)
        case Some(e) => (Raised(e), w1)
        case None =>
          var w2 := UnlinkW(m, w1, bin);
          match RenameOutcome(m, w2.files, ThinnedPath(bin, arch))
          case Some(e) => (Raised(e), w2)
          case None => (Returned(()), RenameW(m, w2, ThinnedPath(bin, arch), bin))
  }

  lemma LipoIsLipo()
    ensures LastPathComponent(Lipo) == "lipo"
  {
    assert Lipo == "/usr/bin" + ['/'] + "lipo";
    assert DropTrailingSlashes(Lipo) == Lipo;
    AfterLastJoint("/usr/bin", '/', "lipo");
  }

  /** A `clean_bin` that returns leaves one file at the original path, holding the
      thinned slice, and no `bin.<arch>` file; every other path is as before. */
  lemma CleanBinLeavesOneFile(m: Machine, w: World, bin: string, arch: string)
    requires arch != "-thin"
    ensures CleanBinSpec(m, w, bin, arch).0.Returned? ==>
      CleanBinSpec(m, w, bin, arch).1.files == (w.files - {ThinnedPath(bin, arch)})[bin := m.thinned(bin, arch)]
    ensures CleanBinSpec(m, w, bin, arch).1.launched == w.launched + [ThinInvocation(bin, arch)]
  {
    var inv := ThinInvocation(bin, arch);
    var out := ThinnedPath(bin, arch);
    LipoIsLipo();
    assert ThinRequest(inv) == Some((bin, arch, out));
    assert out != bin by {
      assert |out| > |bin|;
    }
    var r := CleanBinSpec(m, w, bin, arch);
    if r.0.Returned? {
      var f1 := w.files[out := m.thinned(bin, arch)];
      var f2 := f1 - {bin};
      assert r.1.files == (f2 - {out})[bin := f2[out]];
      assert (f2 - {out})[bin := f2[out]] == (w.files - {out})[bin := m.thinned(bin, arch)];
    }
  }

  /** `clean_bin` runs `lipo` once and nothing else. */
  lemma CleanBinRuns(m: Machine, w: World, bin: string, arch: string)
    ensures CleanBinSpec(m, w, bin, arch).1.launched == w.launched + [ThinInvocation(bin, arch)]
  {
  }

  // ---------------------------------------------------------------------------
  // sign_bin

  /** What `ldid -e bin` gives `sign_bin`: its stripped output, or "" when it fails. */
  function EntitlementsText(m: Machine, ldid: string, bin: string): string {
    match m.run(ExtractInvocation(ldid, bin))
    case LaunchError(_) => ""
    case Exited(status, out) => if status == 0 then Trim(out) else ""
  }

  /** The message printed after a failed signing run. */
  function ReportSign(w: World, status: int, bin: string): World {
    if status != 0 then LogW(w, "Failed to sign " + bin) else w
  }

  /** `sign_bin(bin, no_ent)`. */
  function SignBinSpec(m: Machine, w: World, ldid: string, bin: string, noEnt: bool): (Call<()>, World) {
    var inv := ExtractInvocation(ldid, bin);
    var w1 := LaunchW(m, w, inv);
    match m.run(inv)
    case LaunchError(e) => (Raised(e), w1)
    case Exited(_, _) =>
      var text := EntitlementsText(m, ldid, bin);
      if text == "" || noEnt then PlainSignSpec(m, w1, ldid, bin)
      else EntitledSignSpec(m, w1, ldid, bin, text)
  }

  /** `ldid -S bin`. */
  function PlainSignSpec(m: Machine, w: World, ldid: string, bin: string): (Call<()>, World) {
    var inv := SignInvocation(ldid, bin, None);
    var w1 := LaunchW(m, w, inv);
    match m.run(inv)
    case LaunchError(e) => (Raised(e), w1)
    case Exited(status, _) => (Returned(()), ReportSign(w1, status, bin))
  }

  /** Entitlements through a temporary file: write, `ldid -S<tmp> bin`, remove. */
  function EntitledSignSpec(m: Machine, w: World, ldid: string, bin: string, text: string): (Call<()>, World) {
    var tmp := MkstempPath(m, w.drawn);
    var w1 := w.(drawn := w.drawn + 1);
    match m.writeError(tmp)
    case Some(e) => (Raised(e), w1)
    case None =>
      var inv := SignInvocation(ldid, bin, Some(tmp));
      var w2 := LaunchW(m, WriteW(m, w1, tmp, text), inv);
      match m.run(inv)
      case LaunchError(e) => (Raised(e), w2)
      case Exited(status, _) =>
        match UnlinkOutcome(m, w2.files, tmp)
        case Some(e) => (Raised(e), w2)
        case None => (Returned(()), ReportSign(UnlinkW(m, w2, tmp), status, bin))
  }

  /** A `sign_bin` that returns ran `ldid -e` and then exactly one signing run:
      `-S` alone when the entitlements are empty or not wanted, `-S<tmp>` otherwise;
      and the temporary file is gone again, so only that path can differ. */
  lemma {:induction false} SignBinEffect(m: Machine, w: World, ldid: string, bin: string, noEnt: bool)
    ensures var plain := EntitlementsText(m, ldid, bin) == "" || noEnt;
      var tmp := MkstempPath(m, w.drawn);
      SignBinSpec(m, w, ldid, bin, noEnt).0.Returned? ==>
        SignBinSpec(m, w, ldid, bin, noEnt).1.launched ==
          w.launched + [ExtractInvocation(ldid, bin), SignInvocation(ldid, bin, if plain then None else Some(tmp))] &&
        SignBinSpec(m, w, ldid, bin, noEnt).1.files == (if plain then w.files else w.files - {tmp})
  {
    var inv := ExtractInvocation(ldid, bin);
    ShortRunKeepsFiles(m, w.files, inv);
    var w1 := LaunchW(m, w, inv);
    assert w1.files == w.files && w1.drawn == w.drawn && w1.launched == w.launched + [inv];
    if m.run(inv).Exited? {
      var text := EntitlementsText(m, ldid, bin);
      if text == "" || noEnt {
        assert SignBinSpec(m, w, ldid, bin, noEnt) == PlainSignSpec(m, w1, ldid, bin);
        PlainSignEffect(m, w1, ldid, bin);
      } else {
        assert SignBinSpec(m, w, ldid, bin, noEnt) == EntitledSignSpec(m, w1, ldid, bin, text);
        EntitledSignEffect(m, w1, ldid, bin, text);
      }
    }
  }

  lemma PlainSignEffect(m: Machine, w: World, ldid: string, bin: string)
    ensures PlainSignSpec(m, w, ldid, bin).0.Returned? ==>
      PlainSignSpec(m, w, ldid, bin).1.launched == w.launched + [SignInvocation(ldid, bin, None)] &&
      PlainSignSpec(m, w, ldid, bin).1.files == w.files
  {
    ShortRunKeepsFiles(m, w.files, SignInvocation(ldid, bin, None));
  }

  lemma EntitledSignEffect(m: Machine, w: World, ldid: string, bin: string, text: string)
    ensures var tmp := MkstempPath(m, w.drawn);
      EntitledSignSpec(m, w, ldid, bin, text).0.Returned? ==>
      EntitledSignSpec(m, w, ldid, bin, text).1.launched == w.launched + [SignInvocation(ldid, bin, Some(tmp))] &&
      EntitledSignSpec(m, w, ldid, bin, text).1.files == w.files - {tmp}
  {
    var tmp := MkstempPath(m, w.drawn);
    if m.writeError(tmp).None? {
      var written := w.files[tmp := TextFile(text)];
      ShortRunKeepsFiles(m, written, SignInvocation(ldid, bin, Some(tmp)));
      assert written - {tmp} == w.files - {tmp};
    }
  }

  // ---------------------------------------------------------------------------
  // duplicate_app

  /** The copy's path `duplicate_app` returns: the output directory joined with
      the text after the last slash of the app path. */
  function CopyPath(appDir: string, outputDir: string): string {
    PyJoin(outputDir, PyTail(appDir))
  }

  /** `duplicate_app(app_dir, output_dir)`: `None` after a message when the output
      directory is missing; otherwise create the copy's directory, start `rsync`
      and return the copy's path. The `rsync` exit status is not looked at.
      `os.path.exists` is read as "the path is in the file table", so a dangling
      symbolic link counts as existing. */
  function DuplicateSpec(m: Machine, w: World, appDir: string, outputDir: string): (Call<Option<string>>, World) {
    if outputDir !in w.files then (Returned(None), LogW(w, "Output dir does not exist: " + outputDir))
    else
      var target := CopyPath(appDir, outputDir);
      match MkdirOutcome(m, w.files, target)
      case Some(e) => (Raised(e), w)
      case None =>
        var w1 := w.(files := if target in w.files then w.files else w.files[target := EmptyDirectory]);
        var inv := RsyncInvocation(appDir, outputDir);
        match m.run(inv)
        case LaunchError(e) => (Raised(e), LaunchW(m, w1, inv))
        case Exited(_, _) => (Returned(Some(target)), LaunchW(m, w1, inv))
  }

  /** For an app path that does not end in a slash and an output directory written
      without one, the copy is `<output>/<app name>`, and a successful call returns
      exactly that. */
  lemma CopyInsideOutput(m: Machine, w: World, appDir: string, outputDir: string)
    requires appDir != [] && appDir[|appDir| - 1] != '/'
    requires outputDir != [] && outputDir[|outputDir| - 1] != '/'
    ensures CopyPath(appDir, outputDir) == outputDir + "/" + PyTail(appDir)
    ensures DuplicateSpec(m, w, appDir, outputDir).0 == Returned(Some(outputDir + "/" + PyTail(appDir))) ==>
      outputDir in w.files
  {
    var tail := PyTail(appDir);
    assert tail != [] && tail[|tail| - 1] == appDir[|appDir| - 1];
    assert !HasPrefix(tail, "/") by {
      assert tail[0] != '/';
    }
  }

  /** An app path ending in a slash has an empty tail, so the "copy" the script
      walks is the whole output directory, whatever else it holds. */
  lemma TrailingSlashWalksOutputDir(appDir: string, outputDir: string)
    requires appDir != [] && appDir[|appDir| - 1] == '/'
    requires outputDir != [] && outputDir[|outputDir| - 1] != '/'
    ensures CopyPath(appDir, outputDir) == outputDir + "/"
  {
    PyTailOfSlashed(appDir);
  }

  // ---------------------------------------------------------------------------
  // main

  /** The parsed command line. `appDirs` has at least one entry (argparse demands
      one); `ldid` is `--ldid` when it was given. */
  datatype Args = Args(appDirs: seq<string>, outputDir: string, arch: string, ldid: Option<string>,
                       noSign: bool, noEntitlements: bool)

  datatype Status = Running | Stopped | Crashed(reason: string)

  /** The script's state between steps: the machine's snapshot with the printed
      lines as its log, the global `LDID`, and whether the run goes on. */
  datatype Run = Run(w: World, ldid: string, status: Status)

  /** The first occurrence of each element, in order. */
  function Dedup(s: seq<string>): (r: seq<string>)
    ensures Distinct(r) && SetOf(r) == SetOf(s)
  {
    if s == [] then []
    else
      var n := |s| - 1;
      var r := Dedup(s[..n]);
      assert SetOf(s) == SetOf(s[..n]) + {s[n]} by {
        assert s == s[..n] + [s[n]];
      }
      if s[n] in r then r else r + [s[n]]
  }

  /** `sorted(list(set(args.app_dir)))`. */
  function AppDirOrder(appDirs: seq<string>): (r: seq<string>)
    ensures SortedBy(r, LexLess) && Distinct(r) && SetOf(r) == SetOf(appDirs)
  {
    var d := Dedup(appDirs);
    LexLessIsStrict();
    SortBySorted(d, LexLess);
    var r := SortBy(d, LexLess);
    DistinctPermutation(d, r);
    assert forall x :: x in r <==> x in multiset(r);
    assert forall x :: x in d <==> x in multiset(d);
    r
  }

  /** Two ordered lists without repetitions that hold the same elements are equal:
      the order of the directories does not depend on how they were listed. */
  lemma {:induction false} SortedDistinctUnique(a: seq<string>, b: seq<string>)
    requires SortedBy(a, LexLess) && SortedBy(b, LexLess) && Distinct(a) && Distinct(b)
    requires SetOf(a) == SetOf(b)
    ensures a == b
    decreases |a|
  {
    DistinctCard(a);
    DistinctCard(b);
    if a != [] {
      assert a[0] in SetOf(b) && b[0] in SetOf(a);
      var i :| 0 <= i < |b| && b[i] == a[0];
      var j :| 0 <= j < |a| && a[j] == b[0];
      if a[0] != b[0] {
        assert i > 0 && j > 0;
        assert !LexLess(b[i], b[0]) && !LexLess(a[j], a[0]);
        LexLessTotal(a[0], b[0]);
      }
      assert SetOf(a[1..]) == SetOf(a) - {a[0]} by {
        assert a == [a[0]] + a[1..];
        assert a[0] !in a[1..];
      }
      assert SetOf(b[1..]) == SetOf(b) - {b[0]} by {
        assert b == [b[0]] + b[1..];
        assert b[0] !in b[1..];
      }
      SortedDistinctUnique(a[1..], b[1..]);
      assert a == [a[0]] + a[1..] && b == [b[0]] + b[1..];
    }
  }

  /** The run visits the same directories in the same order however the command
      line repeats or orders them. */
  lemma AppDirOrderIgnoresListing(x: seq<string>, y: seq<string>)
    requires SetOf(x) == SetOf(y)
    ensures AppDirOrder(x) == AppDirOrder(y)
  {
    SortedDistinctUnique(AppDirOrder(x), AppDirOrder(y));
  }

  /** The `LDID` selection at the top of each iteration, with the messages it
      prints: `/usr/local/bin/ldid` when it exists, then `--ldid` when it is
      non-empty and exists. */
  function LdidSpec(w: World, ldid: string, requested: Option<string>): (r: (string, World))
    ensures r.0 == ldid || r.0 in w.files
    ensures requested.Some? && requested.value != "" && requested.value in w.files ==> r.0 == requested.value
    ensures r.0 == ldid || r.0 == DefaultLdid || (requested.Some? && r.0 == requested.value)
    ensures r.1.files == w.files && r.1.launched == w.launched && r.1.drawn == w.drawn
  {
    var found := if DefaultLdid in w.files then DefaultLdid else ldid;
    match requested
    case None => (found, w)
    case Some(p) =>
      if p == "" then (found, w)
      else if p in w.files then (p, w)
      else
        var w1 := LogW(w, "Specified ldid not found");
        (found, LogW(w1, if found != "" then "Using: " + found + " \n" else "No ldid found\n"))
  }

  /** One file the walk yields: test, thin, then sign when `LDID` is set and
      `--no_sign` is absent. */
  function FileSpec(m: Machine, r: Run, a: Args, path: string): Run {
    var (mach, w1) := IsMachSpec(m, r.w, path);
    match mach
    case Raised(e) => Run(w1, r.ldid, Crashed(e))
    case Returned(isMach) =>
      if !isMach then r.(w := w1)
      else
        var (arch, w2) := IsUniversalSpec(m, w1, path, a.arch);
        match arch
        case Raised(e) => Run(w2, r.ldid, Crashed(e))
        case Returned(choice) =>
          if choice.None? || choice.value == "" then r.(w := w2)
          else CleanAndSignSpec(m, r.(w := w2), a, path, choice.value)
  }

  /** The thinning and signing of one universal binary. */
  function CleanAndSignSpec(m: Machine, r: Run, a: Args, path: string, arch: string): Run {
    var (c, w3) := CleanBinSpec(m, LogW(r.w, "Cleaning " + path), path, arch);
    if c.Raised? then Run(w3, r.ldid, Crashed(c.reason))
    else if r.ldid != "" && !a.noSign then
      var (s, w4) := SignBinSpec(m, LogW(w3, "Signing " + path), r.ldid, path, a.noEntitlements);
      Run(w4, r.ldid, if s.Raised? then Crashed(s.reason) else Running)
    else r.(w := w3)
  }

  /** `after` is `before` followed by runs of the given tools only. */
  ghost predicate RunsOnly(before: seq<Invocation>, after: seq<Invocation>, tools: set<string>) {
    |before| <= |after| && after[..|before|] == before &&
    forall k :: |before| <= k < |after| ==> after[k].tool in tools
  }

  lemma RunsOnlyTrans(a: seq<Invocation>, b: seq<Invocation>, c: seq<Invocation>, tools: set<string>)
    requires RunsOnly(a, b, tools) && RunsOnly(b, c, tools)
    ensures RunsOnly(a, c, tools)
  {
    assert c[..|a|] == c[..|b|][..|a|];
  }

  lemma LaunchRunsOnly(m: Machine, w: World, inv: Invocation, tools: set<string>)
    requires inv.tool in tools
    ensures RunsOnly(w.launched, LaunchW(m, w, inv).launched, tools)
  {
    assert (w.launched + [inv])[..|w.launched|] == w.launched;
  }

  lemma IsMachRuns(m: Machine, w: World, path: string, tools: set<string>)
    requires FileTool in tools
    ensures RunsOnly(w.launched, IsMachSpec(m, w, path).1.launched, tools)
  {
    if IsMachSpec(m, w, path).1 == w {
      assert w.launched[..|w.launched|] == w.launched;
    } else {
      LaunchRunsOnly(m, w, MimeInvocation(path), tools);
    }
  }

  lemma CleanAndSignUnsigned(m: Machine, r: Run, a: Args, path: string, arch: string)
    requires r.ldid == "" || a.noSign
    ensures RunsOnly(r.w.launched, CleanAndSignSpec(m, r, a, path, arch).w.launched, {FileTool, Lipo})
  {
    var w := LogW(r.w, "Cleaning " + path);
    CleanBinRuns(m, w, path, arch);
    LaunchRunsOnly(m, w, ThinInvocation(path, arch), {FileTool, Lipo});
  }

  /** Without `LDID`, or with `--no_sign`, a file costs at most `file` and `lipo`
      runs: nothing is signed. */
  lemma UnsignedWithoutLdid(m: Machine, r: Run, a: Args, path: string)
    requires r.ldid == "" || a.noSign
    ensures RunsOnly(r.w.launched, FileSpec(m, r, a, path).w.launched, {FileTool, Lipo})
  {
    var tools := {FileTool, Lipo};
    var (mach, w1) := IsMachSpec(m, r.w, path);
    IsMachRuns(m, r.w, path, tools);
    if mach == Returned(true) {
      var (arch, w2) := IsUniversalSpec(m, w1, path, a.arch);
      LaunchRunsOnly(m, w1, InfoInvocation(path), tools);
      RunsOnlyTrans(r.w.launched, w1.launched, w2.launched, tools);
      if arch.Returned? && arch.value.Some? && arch.value.value != "" {
        CleanAndSignUnsigned(m, r.(w := w2), a, path, arch.value.value);
        RunsOnlyTrans(r.w.launched, w2.launched, FileSpec(m, r, a, path).w.launched, tools);
      }
    }
  }

  /** The files `os.walk` yields under the copy, in listing order. */
  function WalkEntries(m: Machine, copy: string): seq<string> {
    match m.Enumerate(copy)
    case None => []
    case Some(entries) => entries
  }

  /** The walk over the copy, up to the first exception. Directories are skipped. */
  function WalkSpec(m: Machine, r: Run, a: Args, copy: string, entries: seq<string>): Run
    decreases |entries|
  {
    if entries == [] then r
    else
      var n := |entries| - 1;
      var r1 := WalkSpec(m, r, a, copy, entries[..n]);
      WalkStep(m, r1, a, copy, entries[n])
  }

  function WalkStep(m: Machine, r: Run, a: Args, copy: string, entry: string): Run {
    var p := PyJoin(copy, entry);
    if r.status != Running then r
    else if p in r.w.files && r.w.files[p].kind == Directory then r
    else FileSpec(m, r, a, p)
  }

  /** One iteration of `main`'s loop over the app directories. As in
      `DuplicateSpec`, a dangling symbolic link counts as an existing directory. */
  function DirSpec(m: Machine, r: Run, a: Args, dir: string): Run {
    if dir !in r.w.files then Run(LogW(r.w, "App dir does not exist: " + dir), r.ldid, Stopped)
    else
      var (ldid, w1) := LdidSpec(r.w, r.ldid, a.ldid);
      var w2 := LogW(w1, "\nCreating a copy at " + a.outputDir + " (" + PyTail(dir) + ")");
      var (copy, w3) := DuplicateSpec(m, w2, dir, a.outputDir);
      match copy
      case Raised(e) => Run(w3, ldid, Crashed(e))
      case Returned(c) =>
        var w4 := LogW(w3, "\nExtracting the target binaries");
        if c.None? then Run(w4, ldid, Crashed(TypeError))
        else WalkSpec(m, Run(w4, ldid, Running), a, c.value, WalkEntries(m, c.value))
  }

  /** `main`'s loop, stopping at a missing directory or an exception. */
  function MainRun(m: Machine, r: Run, a: Args, dirs: seq<string>): Run
    decreases |dirs|
  {
    if dirs == [] then r
    else
      var n := |dirs| - 1;
      var r1 := MainRun(m, r, a, dirs[..n]);
      if r1.status != Running then r1 else DirSpec(m, r1, a, dirs[n])
  }

  /** A missing app directory ends the run after one message, changing nothing. */
  lemma MissingDirStops(m: Machine, r: Run, a: Args, dir: string)
    requires dir !in r.w.files
    ensures DirSpec(m, r, a, dir) == Run(LogW(r.w, "App dir does not exist: " + dir), r.ldid, Stopped)
  {
  }

  /** Once the run has stopped or raised, later directories change nothing. */
  lemma {:induction false} StopIsFinal(m: Machine, r: Run, a: Args, dirs: seq<string>, k: nat)
    requires k <= |dirs| && MainRun(m, r, a, dirs[..k]).status != Running
    ensures MainRun(m, r, a, dirs) == MainRun(m, r, a, dirs[..k])
    decreases |dirs| - k
  {
    if k < |dirs| {
      var n := |dirs| - 1;
      assert dirs[..n][..k] == dirs[..k];
      StopIsFinal(m, r, a, dirs[..n], k);
    } else {
      assert dirs[..k] == dirs;
    }
  }

  // ---------------------------------------------------------------------------
  // The script

  /** The script's globals: `LDID`, and what it has printed. */
  class Script {
    var ldid: string
    var printed: seq<string>

    constructor ()
      ensures ldid == "" && printed == []
    {
      ldid := "";
      printed := [];
    }

    method IsMach(m: Machine, path: string) returns (r: Call<bool>)
      modifies m
      ensures (r, m.At(printed)) == IsMachSpec(m, old(m.At(printed)), path)
    {
      if path in m.files && m.files[path].kind == SymbolicLink {
        return Returned(false);
      }
      if !(path in m.files && m.files[path].executable) {
        return Returned(false);
      }
      var run := m.Launch(MimeInvocation(path));
      if run.LaunchError? {
        return Raised(run.reason);
      }
      if run.status != 0 {
        return Raised(CalledProcessError);
      }
      var words := Split(run.stdout, Whitespace);
      if words == [] {
        return Raised(IndexError);
      }
      r := Returned(words[|words| - 1] == MachMime);
    }

    method IsUniversal(m: Machine, path: string, target: string) returns (r: Call<Option<string>>)
      modifies m
      ensures (r, m.At(printed)) == IsUniversalSpec(m, old(m.At(printed)), path, target)
    {
      var run := m.Launch(InfoInvocation(path));
      if run.LaunchError? {
        return Raised(run.reason);
      }
      if run.status != 0 {
        return Raised(CalledProcessError);
      }
      var archs := PyArchTokens(run.stdout);
      r := Returned(IsUniversalChoice(archs, target));
    }

    method CleanBin(m: Machine, bin: string, arch: string) returns (r: Call<()>)
      modifies m
      ensures (r, m.At(printed)) == CleanBinSpec(m, old(m.At(printed)), bin, arch)
    {
      var run := m.Launch(ThinInvocation(bin, arch));
      if run.LaunchError? {
        return Raised(run.reason);
      }
      if run.status != 0 {
        return Raised(CalledProcessError);
      }
      var err := m.Unlink(bin);
      if err.Some? {
        return Raised(err.value);
      }
      err := m.Rename(ThinnedPath(bin, arch), bin);
      if err.Some? {
        return Raised(err.value);
      }
      r := Returned(());
    }

    method SignBin(m: Machine, bin: string, noEnt: bool) returns (r: Call<()>)
      modifies m, this`printed
      ensures (r, m.At(printed)) == SignBinSpec(m, old(m.At(printed)), ldid, bin, noEnt)
    {
      var entitlements := "";
      var run := m.Launch(ExtractInvocation(ldid, bin));
      if run.LaunchError? {
        return Raised(run.reason);
      }
      if run.status == 0 {
        entitlements := Trim(run.stdout);
      }
      if entitlements == "" || noEnt {
        r := SignPlain(m, bin);
        return;
      }
      r := SignEntitled(m, bin, entitlements);
    }

    method SignPlain(m: Machine, bin: string) returns (r: Call<()>)
      modifies m, this`printed
      ensures (r, m.At(printed)) == PlainSignSpec(m, old(m.At(printed)), ldid, bin)
    {
      var run := m.Launch(SignInvocation(ldid, bin, None));
      if run.LaunchError? {
        return Raised(run.reason);
      }
      if run.status != 0 {
        printed := printed + ["Failed to sign " + bin];
      }
      r := Returned(());
    }

    method SignEntitled(m: Machine, bin: string, entitlements: string) returns (r: Call<()>)
      modifies m, this`printed
      ensures (r, m.At(printed)) == EntitledSignSpec(m, old(m.At(printed)), ldid, bin, entitlements)
    {
      var u := m.DrawUuid();
      var tmp := AppendPath(m.tempDir, "tmp" + u);
      var err := m.WriteText(tmp, entitlements);
      if err.Some? {
        return Raised(err.value);
      }
      var run := m.Launch(SignInvocation(ldid, bin, Some(tmp)));
      if run.LaunchError? {
        return Raised(run.reason);
      }
      err := m.Unlink(tmp);
      if err.Some? {
        return Raised(err.value);
      }
      if run.status != 0 {
        printed := printed + ["Failed to sign " + bin];
      }
      r := Returned(());
    }

    method DuplicateApp(m: Machine, appDir: string, outputDir: string) returns (r: Call<Option<string>>)
      modifies m, this`printed
      ensures (r, m.At(printed)) == DuplicateSpec(m, old(m.At(printed)), appDir, outputDir)
    {
      if !m.Exists(outputDir) {
        printed := printed + ["Output dir does not exist: " + outputDir];
        return Returned(None);
      }
      var target := PyJoin(outputDir, PyTail(appDir));
      var err := m.CreateDirectory(target);
      if err.Some? {
        return Raised(err.value);
      }
      var rsync := m.Launch(RsyncInvocation(appDir, outputDir));
      if rsync.LaunchError? {
        return Raised(rsync.reason);
      }
      r := Returned(Some(target));
    }

    /** The body of the walk's inner loop for one file. */
    method ProcessFile(m: Machine, a: Args, path: string) returns (status: Status)
      modifies m, this`printed
      ensures Run(m.At(printed), ldid, status) == FileSpec(m, Run(old(m.At(printed)), ldid, Running), a, path)
    {
      var mach := IsMach(m, path);
      if mach.Raised? {
        return Crashed(mach.reason);
      }
      if !mach.value {
        return Running;
      }
      var arch := IsUniversal(m, path, a.arch);
      if arch.Raised? {
        return Crashed(arch.reason);
      }
      if arch.value.None? || arch.value.value == "" {
        return Running;
      }
      status := CleanAndSign(m, a, path, arch.value.value);
    }

    method CleanAndSign(m: Machine, a: Args, path: string, arch: string) returns (status: Status)
      modifies m, this`printed
      ensures Run(m.At(printed), ldid, status) == CleanAndSignSpec(m, Run(old(m.At(printed)), ldid, Running), a, path, arch)
    {
      printed := printed + ["Cleaning " + path];
      var cleaned := CleanBin(m, path, arch);
      if cleaned.Raised? {
        return Crashed(cleaned.reason);
      }
      if ldid != "" && !a.noSign {
        printed := printed + ["Signing " + path];
        var signed := SignBin(m, path, a.noEntitlements);
        if signed.Raised? {
          return Crashed(signed.reason);
        }
      }
      status := Running;
    }

    /** `for root, dirs, files in os.walk(dir)`, over the copy. */
    method Walk(m: Machine, a: Args, copy: string) returns (status: Status)
      modifies m, this`printed
      ensures Run(m.At(printed), ldid, status) == WalkSpec(m, Run(old(m.At(printed)), ldid, Running), a, copy, WalkEntries(m, copy))
    {
      var entries := WalkEntries(m, copy);
      ghost var r0 := Run(m.At(printed), ldid, Running);
      status := Running;
      var i := 0;
      while i < |entries|
        invariant 0 <= i <= |entries|
        invariant Run(m.At(printed), ldid, status) == WalkSpec(m, r0, a, copy, entries[..i])
      {
        assert entries[..i + 1][..i] == entries[..i];
        var p := PyJoin(copy, entries[i]);
        if status == Running && !(p in m.files && m.files[p].kind == Directory) {
          status := ProcessFile(m, a, p);
        }
        i := i + 1;
      }
      assert entries[..i] == entries;
    }

    /** One iteration of `main`'s loop. */
    method ProcessDir(m: Machine, a: Args, dir: string) returns (status: Status)
      modifies m, this
      ensures Run(m.At(printed), ldid, status) == DirSpec(m, Run(old(m.At(printed)), old(ldid), Running), a, dir)
    {
      if !m.Exists(dir) {
        printed := printed + ["App dir does not exist: " + dir];
        return Stopped;
      }
      ChooseLdid(m, a.ldid);
      printed := printed + ["\nCreating a copy at " + a.outputDir + " (" + PyTail(dir) + ")"];
      var copy := DuplicateApp(m, dir, a.outputDir);
      if copy.Raised? {
        return Crashed(copy.reason);
      }
      printed := printed + ["\nExtracting the target binaries"];
      if copy.value.None? {
        return Crashed(TypeError);
      }
      status := Walk(m, a, copy.value.value);
    }

    method ChooseLdid(m: Machine, requested: Option<string>)
      modifies this
      ensures (ldid, m.At(printed)) == LdidSpec(old(m.At(printed)), old(ldid), requested)
    {
      if m.Exists(DefaultLdid) {
        ldid := DefaultLdid;
      }
      if requested.Some? && requested.value != "" {
        if m.Exists(requested.value) {
          ldid := requested.value;
        } else {
          printed := printed + ["Specified ldid not found"];
          if ldid != "" {
            printed := printed + ["Using: " + ldid + " \n"];
          } else {
            printed := printed + ["No ldid found\n"];
          }
        }
      }
    }

    /** `main()`, once the arguments are parsed. */
    method RunScript(m: Machine, a: Args) returns (status: Status)
      modifies m, this
      ensures Run(m.At(printed), ldid, status) == MainRun(m, Run(old(m.At(printed)), old(ldid), Running), a, AppDirOrder(a.appDirs))
    {
      var dirs := SortedList(SetOf(a.appDirs));
      SortedDistinctUnique(dirs, AppDirOrder(a.appDirs));
      ghost var r0 := Run(m.At(printed), ldid, Running);
      status := Running;
      var i := 0;
      while i < |dirs|
        invariant 0 <= i <= |dirs| && status == Running
        invariant Run(m.At(printed), ldid, status) == MainRun(m, r0, a, dirs[..i])
      {
        assert dirs[..i + 1][..i] == dirs[..i];
        status := ProcessDir(m, a, dirs[i]);
        i := i + 1;
        if status != Running {
          StopIsFinal(m, r0, a, dirs, i);
          return;
        }
      }
      assert dirs[..i] == dirs;
    }
  }
}

=== FILE: signer.dfy ===
/** Signer.swift: re-signing one binary with `ldid` and a whole bundle with
    `codesign`, optionally with the entitlements read from it, which travel through
    a temporary file that is removed once the signing attempt is over. */
module Signing {
  import opened Wrappers
  import opened Text
  import opened Paths
  import opened Host
  import opened AppStateModel

  const Codesign := "/usr/bin/codesign"

  /** Where the n-th UUID puts an entitlements file. */
  function TempPath(m: Machine, n: nat): (p: string)
    ensures HasPrefix(p, m.tempDir) && HasSuffix(p, ".xml")
  {
    var base := AppendPath(m.tempDir, m.uuid(n));
    assert HasPrefix(base + ".xml", base);
    assert (base + ".xml")[..|m.tempDir|] == base[..|m.tempDir|];
    base + ".xml"
  }

  /** argv of the `ldid` signing run. */
  function SignBinArgs(bin: string, entitlements: Option<string>): seq<string> {
    match entitlements
    case None => ["-S", bin]
    case Some(p) => ["-S" + p, bin]
  }

  /** argv of the `codesign` bundle signing run. */
  function SignAppArgs(appPath: string, entitlements: Option<string>): seq<string> {
    ["--force", "--deep", "-s", "-"]
      + (match entitlements case None => [] case Some(p) => ["--entitlements", p])
      + [appPath]
  }

  function LdidExtractInvocation(ldidPath: string, bin: string): Invocation {
    Invocation(ldidPath, ["-e", bin])
  }

  function CodesignExtractInvocation(path: string): Invocation {
    Invocation(Codesign, ["-d", "--entitlements", "-", "--xml", path])
  }

  /** Saving extracted entitlements: draw a UUID and write the trimmed text to
      `<tmp>/<uuid>.xml`. */
  function SaveSpec(m: Machine, w: World, text: string): (Option<string>, World) {
    var p := TempPath(m, w.drawn);
    var w1 := w.(drawn := w.drawn + 1);
    match m.writeError(p)
    case Some(e) => (None, LogW(w1, "Error writing entitlements to file: " + e))
    case None => (Some(p), WriteW(m, w1, p, text))
  }

  /** `extractEntitlementsWithLdid(bin:)`. */
  function ExtractLdidSpec(m: Machine, w: World, ldidPath: string, bin: string): (Option<string>, World) {
    var inv := LdidExtractInvocation(ldidPath, bin);
    var w1 := LaunchW(m, w, inv);
    match m.run(inv)
    case LaunchError(e) => (None, LogW(w1, "Error running ldid to extract entitlements: " + e))
    case Exited(status, out) =>
      if status != 0 then (None, LogW(w1, "ldid failed to extract entitlements"))
      else if Trim(out) == [] then (None, LogW(w1, "No entitlements found in " + bin))
      else SaveSpec(m, w1, Trim(out))
  }

  /** `extractEntitlementsWithCodesign(at:)`. */
  function ExtractCodesignSpec(m: Machine, w: World, path: string): (Option<string>, World) {
    var inv := CodesignExtractInvocation(path);
    var w1 := LaunchW(m, w, inv);
    match m.run(inv)
    case LaunchError(e) => (None, LogW(w1, "Error extracting entitlements with codesign: " + e))
    case Exited(status, out) =>
      if status != 0 then (None, LogW(w1, "codesign failed to extract entitlements"))
      else if Trim(out) == [] then (None, LogW(w1, "No entitlements found in " + path))
      else SaveSpec(m, w1, Trim(out))
  }

  /** Remove the entitlements file, if one was made; a failure is ignored. */
  function CleanupSpec(m: Machine, w: World, entitlements: Option<string>): World {
    match entitlements
    case None => w
    case Some(p) => RemoveW(m, w, p)
  }

  function LdidMessage(run: ToolRun, bin: string): string {
    match run
    case LaunchError(e) => "Error signing binary " + bin + ": " + e
    case Exited(status, _) =>
      if status == 0 then "Successfully signed " + bin + " with ldid"
      else "Failed to sign " + bin + " with ldid"
  }

  function CodesignMessage(run: ToolRun, appPath: string): string {
    match run
    case LaunchError(e) => "Error signing app " + appPath + ": " + e
    case Exited(status, _) =>
      if status == 0 then "Successfully ad-hoc signed " + appPath + " with codesign"
      else "Failed to ad-hoc sign " + appPath + " with codesign"
  }

  /** The signing run itself: launch, log the outcome, remove the entitlements file. */
  function SignStep(m: Machine, w: World, inv: Invocation, message: string, entitlements: Option<string>): World {
    CleanupSpec(m, LogW(LaunchW(m, w, inv), message), entitlements)
  }

  /** `signBin(bin:noEnt:)`. */
  function SignBinSpec(m: Machine, w: World, ldidPath: string, bin: string, noEnt: bool): World {
    var (ent, w1) := if noEnt then (None, w) else ExtractLdidSpec(m, w, ldidPath, bin);
    if !noEnt && ent.None? then LogW(w1, "Failed to extract entitlements for " + bin)
    else
      var inv := Invocation(ldidPath, SignBinArgs(bin, ent));
      SignStep(m, w1, inv, LdidMessage(m.run(inv), bin), ent)
  }

  /** `signApp(appPath:noEnt:)`. */
  function SignAppSpec(m: Machine, w: World, appPath: string, noEnt: bool): World {
    var (ent, w1) := if noEnt then (None, w) else ExtractCodesignSpec(m, w, appPath);
    if !noEnt && ent.None? then LogW(w1, "Failed to extract entitlements for " + appPath)
    else
      var inv := Invocation(Codesign, SignAppArgs(appPath, ent));
      SignStep(m, w1, inv, CodesignMessage(m.run(inv), appPath), ent)
  }

  // ---------------------------------------------------------------------------
  // Properties

  /** None of the signer's runs is a `lipo -thin` request. */
  lemma NotThin(inv: Invocation)
    requires |inv.args| != 5 || inv.args[3] != "-output"
    ensures ThinRequest(inv).None?
  {
  }

  /** What an extraction does to the files: nothing, or it adds the entitlements
      file at the next temporary path. */
  lemma SaveFiles(m: Machine, w: World, text: string)
    ensures var (ent, w') := SaveSpec(m, w, text);
      (ent.None? ==> w'.files == w.files) &&
      (ent.Some? ==> ent.value == TempPath(m, w.drawn) && w'.files == w.files[ent.value := TextFile(text)])
  {
  }

  lemma ExtractLdidFiles(m: Machine, w: World, ldidPath: string, bin: string)
    ensures var (ent, w') := ExtractLdidSpec(m, w, ldidPath, bin);
      (ent.None? ==> w'.files == w.files) &&
      (ent.Some? ==> (ent.value == TempPath(m, w.drawn) && ent.value in w'.files &&
                      w'.files == w.files[ent.value := w'.files[ent.value]]))
  {
    var inv := LdidExtractInvocation(ldidPath, bin);
    NotThin(inv);
    var w1 := LaunchW(m, w, inv);
    assert w1.files == w.files && w1.drawn == w.drawn;
    if m.run(inv).Exited? && m.run(inv).status == 0 && Trim(m.run(inv).stdout) != [] {
      SaveFiles(m, w1, Trim(m.run(inv).stdout));
    }
  }

  lemma ExtractCodesignFiles(m: Machine, w: World, path: string)
    ensures var (ent, w') := ExtractCodesignSpec(m, w, path);
      (ent.None? ==> w'.files == w.files) &&
      (ent.Some? ==> (ent.value == TempPath(m, w.drawn) && ent.value in w'.files &&
                      w'.files == w.files[ent.value := w'.files[ent.value]]))
  {
    var inv := CodesignExtractInvocation(path);
    NotThin(inv);
    var w1 := LaunchW(m, w, inv);
    assert w1.files == w.files && w1.drawn == w.drawn;
    if m.run(inv).Exited? && m.run(inv).status == 0 && Trim(m.run(inv).stdout) != [] {
      SaveFiles(m, w1, Trim(m.run(inv).stdout));
    }
  }

  /** Extraction launches exactly its one tool run. */
  lemma ExtractLdidLaunches(m: Machine, w: World, ldidPath: string, bin: string)
    ensures ExtractLdidSpec(m, w, ldidPath, bin).1.launched == w.launched + [LdidExtractInvocation(ldidPath, bin)]
  {
  }

  lemma ExtractCodesignLaunches(m: Machine, w: World, path: string)
    ensures ExtractCodesignSpec(m, w, path).1.launched == w.launched + [CodesignExtractInvocation(path)]
  {
  }

  /** The signing step restores the files it started from when the entitlements file
      it removes was the only addition. */
  lemma {:induction false} SignStepRestores(m: Machine, base: map<string, FileInfo>, w: World, inv: Invocation,
                                            message: string, entitlements: Option<string>)
    requires ThinRequest(inv).None?
    requires entitlements.None? ==> w.files == base
    requires entitlements.Some? ==>
      entitlements.value !in base && entitlements.value in w.files &&
      w.files[entitlements.value].kind != Directory &&
      w.files == base[entitlements.value := w.files[entitlements.value]] &&
      m.removeError(entitlements.value) == None
    ensures SignStep(m, w, inv, message, entitlements).files == base
  {
    var w2 := LogW(LaunchW(m, w, inv), message);
    assert w2.files == w.files;
    if entitlements.Some? {
      assert w2.files - {entitlements.value} == base;
    }
  }

  lemma SignStepLaunches(m: Machine, w: World, inv: Invocation, message: string, entitlements: Option<string>)
    ensures SignStep(m, w, inv, message, entitlements).launched == w.launched + [inv]
  {
  }

  /** The launches `signBin` makes: without entitlements only `ldid -S bin`; with
      them `ldid -e bin` first, then `ldid -S<file> bin` only if extraction produced
      a file. The binary is always the last argument. */
  lemma {:induction false} SignBinLaunches(m: Machine, w: World, ldidPath: string, bin: string, noEnt: bool)
    ensures noEnt ==> (SignBinSpec(m, w, ldidPath, bin, noEnt).launched
      == w.launched + [Invocation(ldidPath, ["-S", bin])])
    ensures !noEnt ==>
      var (ent, _) := ExtractLdidSpec(m, w, ldidPath, bin);
      SignBinSpec(m, w, ldidPath, bin, noEnt).launched
        == w.launched + [LdidExtractInvocation(ldidPath, bin)]
          + (if ent.None? then [] else [Invocation(ldidPath, ["-S" + ent.value, bin])])
  {
    if !noEnt {
      ExtractLdidLaunches(m, w, ldidPath, bin);
    }
  }

  /** The launches `signApp` makes: the bundle path is the last argument of the
      codesign run, which is skipped when wanted entitlements are unavailable. */
  lemma {:induction false} SignAppLaunches(m: Machine, w: World, appPath: string, noEnt: bool)
    ensures noEnt ==> (SignAppSpec(m, w, appPath, noEnt).launched
      == w.launched + [Invocation(Codesign, ["--force", "--deep", "-s", "-", appPath])])
    ensures !noEnt ==>
      var (ent, _) := ExtractCodesignSpec(m, w, appPath);
      SignAppSpec(m, w, appPath, noEnt).launched
        == w.launched + [CodesignExtractInvocation(appPath)]
          + (if ent.None? then []
             else [Invocation(Codesign, ["--force", "--deep", "-s", "-", "--entitlements", ent.value, appPath])])
  {
    var (ent, w1) := if noEnt then (None, w) else ExtractCodesignSpec(m, w, appPath);
    if !noEnt {
      ExtractCodesignLaunches(m, w, appPath);
    }
    if noEnt || ent.Some? {
      var inv := Invocation(Codesign, SignAppArgs(appPath, ent));
      SignStepLaunches(m, w1, inv, CodesignMessage(m.run(inv), appPath), ent);
      if noEnt {
        assert SignAppArgs(appPath, None) == ["--force", "--deep", "-s", "-", appPath];
      } else {
        assert SignAppArgs(appPath, ent) == ["--force", "--deep", "-s", "-", "--entitlements", ent.value, appPath];
      }
    }
  }

  /** An extracted entitlements file lies in the temporary directory, ends in
      `.xml`, and holds the trimmed, non-empty output of a run that exited with 0. */
  lemma ExtractedFile(m: Machine, w: World, ldidPath: string, bin: string)
    ensures var (ent, w') := ExtractLdidSpec(m, w, ldidPath, bin);
      var run := m.run(LdidExtractInvocation(ldidPath, bin));
      ent.Some? ==>
        ent.value == TempPath(m, w.drawn) && HasPrefix(ent.value, m.tempDir) && HasSuffix(ent.value, ".xml") &&
        run.Exited? && run.status == 0 && Trim(run.stdout) != [] &&
        ent.value in w'.files && w'.files[ent.value].text == Trim(run.stdout)
  {
  }

  /** The temporary entitlements file does not outlive the signing: when its name
      was free and removing it succeeds, `signBin` leaves the files as it found them
      (the signature `ldid` writes into the binary is not part of the model). */
  lemma {:induction false} SignBinLeavesNoTrace(m: Machine, w: World, ldidPath: string, bin: string, noEnt: bool)
    requires TempPath(m, w.drawn) !in w.files
    requires m.removeError(TempPath(m, w.drawn)) == None
    ensures SignBinSpec(m, w, ldidPath, bin, noEnt).files == w.files
  {
    var (ent, w1) := if noEnt then (None, w) else ExtractLdidSpec(m, w, ldidPath, bin);
    if !noEnt {
      ExtractLdidFiles(m, w, ldidPath, bin);
    }
    if noEnt || ent.Some? {
      var inv := Invocation(ldidPath, SignBinArgs(bin, ent));
      NotThin(inv);
      SignStepRestores(m, w.files, w1, inv, LdidMessage(m.run(inv), bin), ent);
    }
  }

  /** The same for `signApp`. */
  lemma {:induction false} SignAppLeavesNoTrace(m: Machine, w: World, appPath: string, noEnt: bool)
    requires TempPath(m, w.drawn) !in w.files
    requires m.removeError(TempPath(m, w.drawn)) == None
    ensures SignAppSpec(m, w, appPath, noEnt).files == w.files
  {
    var (ent, w1) := if noEnt then (None, w) else ExtractCodesignSpec(m, w, appPath);
    if !noEnt {
      ExtractCodesignFiles(m, w, appPath);
    }
    if noEnt || ent.Some? {
      var inv := Invocation(Codesign, SignAppArgs(appPath, ent));
      NotThin(inv);
      SignStepRestores(m, w.files, w1, inv, CodesignMessage(m.run(inv), appPath), ent);
    }
  }

  /** The success line is written exactly when the signing run exits with 0. */
  lemma LdidSuccessMessage(run: ToolRun, bin: string)
    ensures LdidMessage(run, bin) == "Successfully signed " + bin + " with ldid"
      <==> run.Exited? && run.status == 0
  {
    var ok := "Successfully signed " + bin + " with ldid";
    if run.LaunchError? {
      assert LdidMessage(run, bin)[0] == 'E' != ok[0];
    } else if run.status != 0 {
      assert LdidMessage(run, bin)[0] == 'F' != ok[0];
    }
  }

  lemma CodesignSuccessMessage(run: ToolRun, appPath: string)
    ensures CodesignMessage(run, appPath) == "Successfully ad-hoc signed " + appPath + " with codesign"
      <==> run.Exited? && run.status == 0
  {
    var ok := "Successfully ad-hoc signed " + appPath + " with codesign";
    if run.LaunchError? {
      assert CodesignMessage(run, appPath)[0] == 'E' != ok[0];
    } else if run.status != 0 {
      assert CodesignMessage(run, appPath)[0] == 'F' != ok[0];
    }
  }

  // ---------------------------------------------------------------------------
  // The signer object

  class Signer {
    const appState: AppState
    const ldidPath: string

    constructor (appState: AppState, ldidPath: string)
      ensures this.appState == appState && this.ldidPath == ldidPath
    {
      this.appState := appState;
      this.ldidPath := ldidPath;
    }

    method Save(m: Machine, text: string) returns (p: Option<string>)
      modifies m, appState
      ensures (p, m.At(appState.logBuffer)) == SaveSpec(m, old(m.At(appState.logBuffer)), text)
      ensures appState.Snapshot() == old(appState.Snapshot())
    {
      var u := m.DrawUuid();
      var path := AppendPath(m.tempDir, u) + ".xml";
      var err := m.WriteText(path, text);
      if err.Some? {
        appState.AppendLog("Error writing entitlements to file: " + err.value);
        return None;
      }
      return Some(path);
    }

    method ExtractEntitlementsWithLdid(m: Machine, bin: string) returns (p: Option<string>)
      modifies m, appState
      ensures (p, m.At(appState.logBuffer)) == ExtractLdidSpec(m, old(m.At(appState.logBuffer)), ldidPath, bin)
      ensures appState.Snapshot() == old(appState.Snapshot())
    {
      var r := m.Launch(LdidExtractInvocation(ldidPath, bin));
      match r
      case LaunchError(e) =>
        appState.AppendLog("Error running ldid to extract entitlements: " + e);
        p := None;
      case Exited(status, out) =>
        if status != 0 {
          appState.AppendLog("ldid failed to extract entitlements");
          return None;
        }
        var entitlements := Trim(out);
        if entitlements == [] {
          appState.AppendLog("No entitlements found in " + bin);
          return None;
        }
        p := Save(m, entitlements);
    }

    method ExtractEntitlementsWithCodesign(m: Machine, path: string) returns (p: Option<string>)
      modifies m, appState
      ensures (p, m.At(appState.logBuffer)) == ExtractCodesignSpec(m, old(m.At(appState.logBuffer)), path)
      ensures appState.Snapshot() == old(appState.Snapshot())
    {
      var r := m.Launch(CodesignExtractInvocation(path));
      match r
      case LaunchError(e) =>
        appState.AppendLog("Error extracting entitlements with codesign: " + e);
        p := None;
      case Exited(status, out) =>
        if status != 0 {
          appState.AppendLog("codesign failed to extract entitlements");
          return None;
        }
        var entitlements := Trim(out);
        if entitlements == [] {
          appState.AppendLog("No entitlements found in " + path);
          return None;
        }
        p := Save(m, entitlements);
    }

    /** `signBin(bin:noEnt:)`. */
    method SignBin(m: Machine, bin: string, noEnt: bool)
      modifies m, appState
      ensures m.At(appState.logBuffer) == SignBinSpec(m, old(m.At(appState.logBuffer)), ldidPath, bin, noEnt)
      ensures appState.Snapshot() == old(appState.Snapshot())
    {
      var entitlementsPath: Option<string> := None;
      if !noEnt {
        entitlementsPath := ExtractEntitlementsWithLdid(m, bin);
        if entitlementsPath == None {
          appState.AppendLog("Failed to extract entitlements for " + bin);
          return;
        }
      }
      var r := m.Launch(Invocation(ldidPath, SignBinArgs(bin, entitlementsPath)));
      appState.AppendLog(LdidMessage(r, bin));
      if entitlementsPath.Some? {
        var _ := m.RemoveItem(entitlementsPath.value);
      }
    }

    /** `signApp(appPath:noEnt:)`. */
    method SignApp(m: Machine, appPath: string, noEnt: bool)
      modifies m, appState
      ensures m.At(appState.logBuffer) == SignAppSpec(m, old(m.At(appState.logBuffer)), appPath, noEnt)
      ensures appState.Snapshot() == old(appState.Snapshot())
    {
      var entitlementsPath: Option<string> := None;
      if !noEnt {
        entitlementsPath := ExtractEntitlementsWithCodesign(m, appPath);
        if entitlementsPath == None {
          appState.AppendLog("Failed to extract entitlements for " + appPath);
          return;
        }
      }
      var r := m.Launch(Invocation(Codesign, SignAppArgs(appPath, entitlementsPath)));
      appState.AppendLog(CodesignMessage(r, appPath));
      if entitlementsPath.Some? {
        var _ := m.RemoveItem(entitlementsPath.value);
      }
    }
  }
}

=== FILE: size_calculation.dfy ===
/** The size-calculation screen's model object (archify/SizeCalculation.swift): the
    estimate of unneeded architecture slices for each chosen app, ranked by size.
    The per-app tasks run one after the other here; the progress fraction and the
    name of the current app are left out. */
module SizeCalculationModel {
  import opened Host
  import opened Sorting
  import opened UniversalAppsModel

  /** Each path of `paths` paired with its `size`, in the order given. */
  function Tagged(paths: seq<string>, size: string -> nat): (r: seq<(string, nat)>)
    ensures |r| == |paths|
    ensures forall i :: 0 <= i < |paths| ==> r[i] == (paths[i], size(paths[i]))
  {
    if paths == [] then []
    else Tagged(paths[..|paths| - 1], size) + [(paths[|paths| - 1], size(paths[|paths| - 1]))]
  }

  lemma TaggedStep(paths: seq<string>, size: string -> nat, k: nat)
    requires k < |paths|
    ensures Tagged(paths[..k + 1], size) == Tagged(paths[..k], size) + [(paths[k], size(paths[k]))]
  {
    assert paths[..k + 1][..k] == paths[..k];
  }

  /** The estimate of each bundle. */
  ghost function UnneededOf(m: Machine, files: map<string, FileInfo>, systemArch: string): string -> nat {
    path => AppUnneeded(m, files, path, systemArch)
  }

  /** One `(appPath, size)` row per chosen app, in the order given. */
  ghost function Estimates(m: Machine, files: map<string, FileInfo>, paths: seq<string>, systemArch: string)
    : seq<(string, nat)>
  {
    Tagged(paths, UnneededOf(m, files, systemArch))
  }

  /** The rows of a ranking that holds the estimates in some order: a row is there
      exactly when it pairs a chosen path with that path's estimate, and each chosen
      path appears as often as it was chosen. */
  lemma RankedRows(m: Machine, files: map<string, FileInfo>, paths: seq<string>, systemArch: string,
                   ranked: seq<(string, nat)>, row: (string, nat))
    requires multiset(ranked) == multiset(Estimates(m, files, paths, systemArch))
    ensures row in ranked <==> row.0 in paths && row.1 == AppUnneeded(m, files, row.0, systemArch)
    ensures |ranked| == |paths|
  {
    var est := Estimates(m, files, paths, systemArch);
    assert row in ranked <==> row in multiset(ranked);
    assert row in est <==> row in multiset(est);
    if row.0 in paths && row.1 == AppUnneeded(m, files, row.0, systemArch) {
      var i :| 0 <= i < |paths| && paths[i] == row.0;
      assert est[i] == row;
    }
    assert |ranked| == |multiset(ranked)| == |multiset(est)| == |est|;
  }

  class SizeCalculation {
    var selectedAppPaths: seq<string>
    var unneededArchSizes: seq<(string, nat)>
    var showCalculationResult: bool
    var isCalculating: bool
    /** The machine's own architecture, fixed when the object is made. */
    const systemArch: string

    constructor (systemArch: string)
      ensures this.systemArch == systemArch
      ensures selectedAppPaths == [] && unneededArchSizes == []
      ensures !showCalculationResult && !isCalculating
    {
      this.systemArch := systemArch;
      selectedAppPaths := [];
      unneededArchSizes := [];
      showCalculationResult := false;
      isCalculating := false;
    }

    /** `calculateUnneededArchSizes()`: one row per chosen app with its estimate,
        then, once every task is done, the rows ranked by size, largest first.
        `processedFiles` is the count of finished apps. */
    method CalculateUnneededArchSizes(m: Machine) returns (processedFiles: nat)
      modifies this, m
      ensures processedFiles == |selectedAppPaths|
      ensures !isCalculating && showCalculationResult
      ensures multiset(unneededArchSizes) == multiset(Estimates(m, old(m.files), selectedAppPaths, systemArch))
      ensures SortedBy(unneededArchSizes, BiggerFirst)
      ensures selectedAppPaths == old(selectedAppPaths) && m.files == old(m.files)
    {
      isCalculating := true;
      unneededArchSizes := [];
      var rows;
      rows, processedFiles := CollectEstimates(m);
      isCalculating := false;
      showCalculationResult := true;
      BiggerFirstIsStrict();
      SortBySorted(rows, BiggerFirst);
      unneededArchSizes := SortBy(rows, BiggerFirst);
    }

    /** The task loop: each app's estimate is appended as its task finishes. */
    method CollectEstimates(m: Machine) returns (rows: seq<(string, nat)>, processedFiles: nat)
      modifies m
      ensures rows == Estimates(m, old(m.files), selectedAppPaths, systemArch)
      ensures processedFiles == |selectedAppPaths| && m.files == old(m.files)
    {
      rows := [];
      processedFiles := 0;
      var finder := new UniversalApps(false);
      ghost var files := m.files;
      while processedFiles < |selectedAppPaths|
        invariant processedFiles <= |selectedAppPaths| && m.files == files
        invariant rows == Estimates(m, files, selectedAppPaths[..processedFiles], systemArch)
      {
        var appPath := selectedAppPaths[processedFiles];
        var size := EstimateOne(m, finder, appPath);
        TaggedStep(selectedAppPaths, UnneededOf(m, files, systemArch), processedFiles);
        rows := rows + [(appPath, size)];
        processedFiles := processedFiles + 1;
      }
      assert selectedAppPaths[..processedFiles] == selectedAppPaths;
    }

    /** One task: the estimate of one bundle. */
    method EstimateOne(m: Machine, finder: UniversalApps, appPath: string) returns (size: nat)
      modifies m, finder.fileOperations.appState
      ensures size == UnneededOf(m, old(m.files), systemArch)(appPath) && m.files == old(m.files)
    {
      var progress;
      size, progress := finder.CalculateUnneededArchSize(m, appPath, systemArch);
    }
  }
}

=== FILE: sizes.dfy ===
/** `calculateDirectorySize`, which both UniversalApps.swift copies and
    BatchProcessing.swift define alike: the sum of the sizes of the enumerated
    entries whose attributes can be read. */
module Sizes {
  import opened Wrappers
  import opened Paths
  import opened Host
  import opened Sorting

  /** What one entry contributes: its size, or 0 when its attributes cannot be read. */
  function EntrySize(files: map<string, FileInfo>, p: string): (n: nat)
    ensures n > 0 ==> p in files && files[p].attributesReadable && n == files[p].size
  {
    if p in files && files[p].attributesReadable then files[p].size else 0
  }

  /** The term an entry of the listing of `dir` adds. */
  function SizeTerm(files: map<string, FileInfo>, dir: string): string -> nat {
    e => EntrySize(files, AppendPath(dir, e))
  }

  /** The directory total; a directory that cannot be enumerated counts as 0. */
  function DirectorySize(m: Machine, files: map<string, FileInfo>, dir: string): nat {
    match m.Enumerate(dir)
    case None => 0
    case Some(entries) => SumOf(entries, SizeTerm(files, dir))
  }

  /** The total does not depend on the order in which the entries are visited. */
  lemma DirectorySizeAnyOrder(m: Machine, files: map<string, FileInfo>, dir: string, order: seq<string>)
    requires m.Enumerate(dir).Some? && multiset(order) == multiset(m.Enumerate(dir).value)
    ensures DirectorySize(m, files, dir) == SumOf(order, SizeTerm(files, dir))
  {
    SumOfPermutation(m.Enumerate(dir).value, order, SizeTerm(files, dir));
  }

  /** Every readable entry is counted in full: the total is at least its size. */
  lemma {:induction false} EntryCounted(entries: seq<string>, f: string -> nat, k: nat)
    requires k < |entries|
    ensures f(entries[k]) <= SumOf(entries, f)
  {
    SumOfRemoveAt(entries, k, f);
  }

  /** Entries whose attributes cannot be read add nothing: a directory in which none
      can be read totals 0. */
  lemma {:induction false} UnreadableAddNothing(files: map<string, FileInfo>, dir: string, entries: seq<string>)
    requires forall e :: e in entries ==> EntrySize(files, AppendPath(dir, e)) == 0
    ensures SumOf(entries, SizeTerm(files, dir)) == 0
  {
    if entries != [] {
      assert entries[0] in entries;
      UnreadableAddNothing(files, dir, entries[1..]);
    }
  }

  /** `term` gives the size of every entry of `dir`. */
  ghost predicate SizesEntries(files: map<string, FileInfo>, dir: string, term: string -> nat) {
    forall e {:trigger EntrySize(files, AppendPath(dir, e))} :: term(e) == EntrySize(files, AppendPath(dir, e))
  }

  /** `calculateDirectorySize(path:)`. */
  method CalculateDirectorySize(m: Machine, path: string) returns (total: nat)
    ensures total == DirectorySize(m, m.files, path)
  {
    total := 0;
    var listing := m.Enumerate(path);
    if listing.Some? {
      total := SumEntrySizes(m, path, listing.value, SizeTerm(m.files, path));
    }
  }

  /** The enumeration loop of `calculateDirectorySize(path:)`, for a `term` that
      gives each entry's size. */
  method SumEntrySizes(m: Machine, path: string, entries: seq<string>, ghost term: string -> nat) returns (total: nat)
    requires SizesEntries(m.files, path, term)
    ensures total == SumOf(entries, term)
  {
    total := 0;
    var i := 0;
    while i < |entries|
      invariant 0 <= i <= |entries|
      invariant total + SumOf(entries[i..], term) == SumOf(entries, term)
    {
      var size := EntrySizeOf(m, path, entries[i], term);
      assert entries[i..][1..] == entries[i + 1..];
      total := total + size;
      i := i + 1;
    }
  }

  /** The size one enumerated entry adds: 0 when its attributes cannot be read. */
  method EntrySizeOf(m: Machine, path: string, entry: string, ghost term: string -> nat) returns (size: nat)
    requires SizesEntries(m.files, path, term)
    ensures size == term(entry)
  {
    var attributes := m.Attributes(AppendPath(path, entry));
    size := if attributes.Success? then attributes.value.size else 0;
    assert size == EntrySize(m.files, AppendPath(path, entry));
  }
}

=== FILE: sorting.dfy ===
/** `filter`, `sorted(by:)` and the additive folds (`reduce(0, +)`, running totals) that the
    size estimation and the list views use. */
module Sorting {
  import opened Text

  /** `lt` is a strict weak order, what `sorted(by:)` asks of its predicate:
      irreflexive, transitive, and whenever `a` comes before `c`, any `b` comes
      after `a` or before `c` (so ties are transitive). */
  ghost predicate StrictWeakOrder<T(!new)>(lt: (T, T) -> bool) {
    (forall a :: !lt(a, a)) &&
    (forall a, b, c :: lt(a, b) && lt(b, c) ==> lt(a, c)) &&
    (forall a, b, c :: Splits(lt, a, b, c))
  }

  /** If `a` comes before `c`, then `b` comes after `a` or before `c`. */
  predicate Splits<T>(lt: (T, T) -> bool, a: T, b: T, c: T) {
    lt(a, c) ==> lt(a, b) || lt(b, c)
  }

  /** Something between two strings in the order is after the first or before the
      second, because the order is total. */
  lemma LexLessSplits(a: string, b: string, c: string)
    requires LexLess(a, c)
    ensures LexLess(a, b) || LexLess(b, c)
  {
    LexLessTotal(a, b);
    LexLessTotal(b, c);
    if LexLess(b, a) && LexLess(c, b) {
      LexLessTransitive(c, b, a);
      LexLessTransitive(a, c, a);
      LexLessIrreflexive(a);
    }
  }

  /** String `<` is a strict weak order, so `sorted()` on strings orders them. */
  lemma LexLessIsStrict()
    ensures StrictWeakOrder(LexLess)
  {
    forall a | true
      ensures !LexLess(a, a)
    {
      LexLessIrreflexive(a);
    }
    forall a, b, c | LexLess(a, b) && LexLess(b, c)
      ensures LexLess(a, c)
    {
      LexLessTransitive(a, b, c);
    }
    forall a, b, c
      ensures Splits(LexLess, a, b, c)
    {
      if LexLess(a, c) {
        LexLessSplits(a, b, c);
      }
    }
  }

  /** Swift's postcondition of `sorted(by: lt)`: no element is ordered before one
      that precedes it. */
  ghost predicate SortedBy<T>(s: seq<T>, lt: (T, T) -> bool) {
    forall i, j :: 0 <= i < j < |s| ==> !lt(s[j], s[i])
  }

  /** Inserts `x` in front of the first element that does not come before it, so
      `x` stays ahead of the elements tied with it. */
  function Insert<T>(x: T, s: seq<T>, lt: (T, T) -> bool): (r: seq<T>)
    ensures multiset(r) == multiset(s) + multiset{x}
    ensures |r| == |s| + 1
  {
    if s == [] then [x]
    else if lt(s[0], x) then
      assert s == [s[0]] + s[1..];
      [s[0]] + Insert(x, s[1..], lt)
    else [x] + s
  }

  /** Insertion sort from the back; the result is a permutation of `s`, ordered by
      `lt` and keeping tied elements in input order whenever `lt` is a strict weak
      order. */
  function SortBy<T>(s: seq<T>, lt: (T, T) -> bool): (r: seq<T>)
    ensures multiset(r) == multiset(s)
    ensures |r| == |s|
  {
    if s == [] then []
    else
      assert s == [s[0]] + s[1..];
      Insert(s[0], SortBy(s[1..], lt), lt)
  }

  /** Every element of an insertion is the inserted one or an element of `s`. */
  lemma InsertedFrom<T>(x: T, s: seq<T>, lt: (T, T) -> bool, y: T)
    requires y in Insert(x, s, lt)
    ensures y == x || y in s
  {
    assert y in multiset(Insert(x, s, lt));
  }

  /** No element of an ordered sequence's tail comes before its head. */
  lemma HeadPrecedesTail<T>(s: seq<T>, lt: (T, T) -> bool, y: T)
    requires s != [] && SortedBy(s, lt) && y in s[1..]
    ensures !lt(y, s[0])
  {
    var k :| 0 <= k < |s| - 1 && s[1..][k] == y;
    assert s[k + 1] == y;
  }

  /** Inserting behind a head that comes before `x` keeps the order once the
      insertion into the tail does. */
  lemma InsertBehindHead<T(!new)>(x: T, s: seq<T>, lt: (T, T) -> bool)
    requires StrictWeakOrder(lt)
    requires s != [] && lt(s[0], x) && SortedBy(s, lt)
    requires SortedBy(Insert(x, s[1..], lt), lt)
    ensures SortedBy(Insert(x, s, lt), lt)
  {
    var r := Insert(x, s, lt);
    var rt := Insert(x, s[1..], lt);
    assert r == [s[0]] + rt;
    forall y | y in rt
      ensures !lt(y, s[0])
    {
      InsertedFrom(x, s[1..], lt, y);
      if y != x {
        HeadPrecedesTail(s, lt, y);
      }
    }
    forall i, j | 0 <= i < j < |r|
      ensures !lt(r[j], r[i])
    {
      assert r[j] == rt[j - 1];
      if i == 0 {
        assert rt[j - 1] in rt;
      } else {
        assert r[i] == rt[i - 1];
      }
    }
  }

  /** Not coming before is transitive in a strict weak order. */
  lemma NotBefore<T(!new)>(lt: (T, T) -> bool, a: T, b: T, c: T)
    requires StrictWeakOrder(lt)
    requires !lt(a, b) && !lt(b, c)
    ensures !lt(a, c)
  {
    assert Splits(lt, a, b, c);
  }

  /** Inserting in front of a head that does not come before `x` keeps the order. */
  lemma InsertAtHead<T(!new)>(x: T, s: seq<T>, lt: (T, T) -> bool)
    requires StrictWeakOrder(lt)
    requires s != [] && !lt(s[0], x) && SortedBy(s, lt)
    ensures SortedBy(Insert(x, s, lt), lt)
  {
    var r := Insert(x, s, lt);
    assert r == [x] + s;
    forall i, j | 0 <= i < j < |r|
      ensures !lt(r[j], r[i])
    {
      if i == 0 {
        assert r[j] == s[j - 1];
        assert !lt(s[j - 1], s[0]);
        NotBefore(lt, s[j - 1], s[0], x);
      } else {
        assert r[i] == s[i - 1] && r[j] == s[j - 1];
      }
    }
  }

  lemma {:induction false} InsertSorted<T(!new)>(x: T, s: seq<T>, lt: (T, T) -> bool)
    requires StrictWeakOrder(lt)
    requires SortedBy(s, lt)
    ensures SortedBy(Insert(x, s, lt), lt)
  {
    if s != [] && lt(s[0], x) {
      InsertSorted(x, s[1..], lt);
      InsertBehindHead(x, s, lt);
    } else if s != [] {
      InsertAtHead(x, s, lt);
    }
  }

  /** The sort's result is ordered. */
  lemma {:induction false} SortBySorted<T(!new)>(s: seq<T>, lt: (T, T) -> bool)
    requires StrictWeakOrder(lt)
    ensures SortedBy(SortBy(s, lt), lt)
  {
    if s != [] {
      SortBySorted(s[1..], lt);
      InsertSorted(s[0], SortBy(s[1..], lt), lt);
    }
  }

  /** Elements are kept with their multiplicity, so the sorted list holds exactly the
      input's elements. */
  lemma SortByMembers<T>(s: seq<T>, lt: (T, T) -> bool, x: T)
    ensures x in SortBy(s, lt) <==> x in s
  {
    assert x in multiset(SortBy(s, lt)) <==> x in multiset(s);
  }

  /** `filter(keep)`: the elements that pass, in their original order. */
  function Filter<T(!new)>(s: seq<T>, keep: T -> bool): (r: seq<T>)
    ensures |r| <= |s|
    ensures forall x :: x in r <==> x in s && keep(x)
    ensures forall x :: multiset(r)[x] == if keep(x) then multiset(s)[x] else 0
  {
    if s == [] then []
    else
      assert s == [s[0]] + s[1..];
      (if keep(s[0]) then [s[0]] else []) + Filter(s[1..], keep)
  }

  /** A filter that every element passes gives the list back unchanged. */
  lemma {:induction false} FilterKeepsAll<T(!new)>(s: seq<T>, keep: T -> bool)
    requires forall x :: x in s ==> keep(x)
    ensures Filter(s, keep) == s
  {
    if s != [] {
      FilterKeepsAll(s[1..], keep);
      assert s == [s[0]] + s[1..];
    }
  }

  lemma EmptyLeft<T>(a: seq<T>)
    ensures [] + a == a
  {
  }

  lemma ConcatAssoc<T>(a: seq<T>, b: seq<T>, c: seq<T>)
    ensures a + (b + c) == (a + b) + c
  {
  }

  /** Filtering a list with a head: the head if it passes, then the filtered tail. */
  lemma FilterCons<T(!new)>(y: T, t: seq<T>, keep: T -> bool)
    ensures Filter([y] + t, keep) == (if keep(y) then [y] else []) + Filter(t, keep)
  {
    assert ([y] + t)[1..] == t;
  }

  /** Filtering distributes over concatenation. */
  lemma {:induction false} FilterAppend<T(!new)>(s: seq<T>, t: seq<T>, keep: T -> bool)
    ensures Filter(s + t, keep) == Filter(s, keep) + Filter(t, keep)
  {
    if s == [] {
      assert s + t == t;
    } else {
      var head := if keep(s[0]) then [s[0]] else [];
      assert Filter(s + t, keep) == head + Filter(s[1..] + t, keep) by {
        assert (s + t)[0] == s[0];
        assert (s + t)[1..] == s[1..] + t;
      }
      FilterAppend(s[1..], t, keep);
      ConcatAssoc(head, Filter(s[1..], keep), Filter(t, keep));
    }
  }

  /** The elements `p` and `q` both keep. */
  function Both<T>(p: T -> bool, q: T -> bool): T -> bool {
    x => p(x) && q(x)
  }

  /** Filtering twice keeps what both filters keep, in the original order. */
  lemma {:induction false} FilterFilter<T(!new)>(s: seq<T>, p: T -> bool, q: T -> bool)
    ensures Filter(Filter(s, p), q) == Filter(s, Both(p, q))
  {
    if s != [] {
      var head := if p(s[0]) then [s[0]] else [];
      assert Filter(head, q) == if p(s[0]) && q(s[0]) then [s[0]] else [] by {
        if p(s[0]) {
          FilterCons(s[0], [], q);
          assert [s[0]] + [] == [s[0]];
        }
      }
      FilterAppend(head, Filter(s[1..], p), q);
      FilterFilter(s[1..], p, q);
    }
  }

  /** Neither element comes before the other. */
  predicate Tied<T>(lt: (T, T) -> bool, a: T, b: T) {
    !lt(a, b) && !lt(b, a)
  }

  /** The elements tied with `e`. */
  function TiedWith<T>(lt: (T, T) -> bool, e: T): T -> bool {
    x => Tied(lt, x, e)
  }

  /** An element that comes before one tied with `e` is not itself tied with `e`. */
  lemma BeforeTiedIsNotTied<T(!new)>(lt: (T, T) -> bool, y: T, x: T, e: T)
    requires StrictWeakOrder(lt)
    requires lt(y, x) && Tied(lt, x, e)
    ensures !Tied(lt, y, e)
  {
    assert Splits(lt, y, e, x);
  }

  /** An inserted element lands in front of everything tied with it, and what is
      tied with `e` keeps its order. */
  lemma {:induction false} InsertKeepsTies<T(!new)>(x: T, s: seq<T>, lt: (T, T) -> bool, e: T)
    requires StrictWeakOrder(lt)
    ensures Filter(Insert(x, s, lt), TiedWith(lt, e)) ==
      (if Tied(lt, x, e) then [x] else []) + Filter(s, TiedWith(lt, e))
  {
    var keep := TiedWith(lt, e);
    if s == [] || !lt(s[0], x) {
      assert Insert(x, s, lt) == [x] + s;
      FilterCons(x, s, keep);
    } else {
      var rest := Insert(x, s[1..], lt);
      assert Filter(Insert(x, s, lt), keep) == (if keep(s[0]) then [s[0]] else []) + Filter(rest, keep) by {
        assert Insert(x, s, lt) == [s[0]] + rest;
        FilterCons(s[0], rest, keep);
      }
      InsertKeepsTies(x, s[1..], lt, e);
      var tail := Filter(s[1..], keep);
      if Tied(lt, x, e) {
        BeforeTiedIsNotTied(lt, s[0], x, e);
        EmptyLeft([x] + tail);
        EmptyLeft(tail);
      } else {
        EmptyLeft(tail);
        EmptyLeft(Filter(s, keep));
      }
    }
  }

  /** `sorted(by:)` is stable: the elements tied with any `e` come out in the order
      they had in the input. */
  lemma {:induction false} SortByStable<T(!new)>(s: seq<T>, lt: (T, T) -> bool, e: T)
    requires StrictWeakOrder(lt)
    ensures Filter(SortBy(s, lt), TiedWith(lt, e)) == Filter(s, TiedWith(lt, e))
  {
    if s != [] {
      SortByStable(s[1..], lt, e);
      InsertKeepsTies(s[0], SortBy(s[1..], lt), lt, e);
    }
  }

  /** Filtering and then sorting stably: the kept elements tied with any `e` come
      out in the order they have in `s`. */
  lemma FilterThenSortStable<T(!new)>(s: seq<T>, keep: T -> bool, lt: (T, T) -> bool)
    requires StrictWeakOrder(lt)
    ensures forall e :: Filter(SortBy(Filter(s, keep), lt), TiedWith(lt, e)) == Filter(s, Both(keep, TiedWith(lt, e)))
  {
    forall e
      ensures Filter(SortBy(Filter(s, keep), lt), TiedWith(lt, e)) == Filter(s, Both(keep, TiedWith(lt, e)))
    {
      SortByStable(Filter(s, keep), lt, e);
      FilterFilter(s, keep, TiedWith(lt, e));
    }
  }

  // ---------------------------------------------------------------------------
  // Lists without repetitions

  /** The elements of a list, as `Set(...)` makes them. */
  function SetOf(s: seq<string>): set<string> {
    set x | x in s
  }

  /** No element of the list occurs twice. */
  predicate Distinct(s: seq<string>) {
    forall i, j :: 0 <= i < j < |s| ==> s[i] != s[j]
  }

  /** A list without repetitions has as many elements as its set. */
  lemma {:induction false} DistinctCard(s: seq<string>)
    requires Distinct(s)
    ensures |SetOf(s)| == |s|
  {
    if s != [] {
      var n := |s| - 1;
      assert Distinct(s[..n]);
      DistinctCard(s[..n]);
      assert SetOf(s) == SetOf(s[..n]) + {s[n]};
      assert s[n] !in SetOf(s[..n]);
    } else {
      assert SetOf(s) == {};
    }
  }

  /** Reordering a list without repetitions introduces none. */
  lemma {:induction false} DistinctPermutation(a: seq<string>, b: seq<string>)
    requires Distinct(a) && multiset(a) == multiset(b)
    ensures Distinct(b)
  {
    forall i, j | 0 <= i < j < |b|
      ensures b[i] != b[j]
    {
      if b[i] == b[j] {
        assert b == b[..j] + [b[j]] + b[j + 1..];
        assert b[i] in b[..j];
        assert multiset(b)[b[i]] >= 2;
        DistinctCount(a, b[i]);
      }
    }
  }

  lemma {:induction false} DistinctCount(s: seq<string>, x: string)
    requires Distinct(s)
    ensures multiset(s)[x] <= 1
  {
    if s != [] {
      var n := |s| - 1;
      assert s == s[..n] + [s[n]];
      assert Distinct(s[..n]);
      DistinctCount(s[..n], x);
      if x == s[n] {
        assert x !in s[..n];
      }
    }
  }

  /** `Array(set)`: the elements of the set, each once, in some order. */
  method ListOf(s: set<string>) returns (r: seq<string>)
    ensures SetOf(r) == s && Distinct(r)
  {
    r := [];
    var rest := s;
    while rest != {}
      invariant SetOf(r) + rest == s && SetOf(r) !! rest && Distinct(r)
      decreases rest
    {
      var x :| x in rest;
      r := r + [x];
      rest := rest - {x};
    }
  }

  /** `Array(set).sorted()`: ordered, without repetitions, holding the set. */
  method SortedList(s: set<string>) returns (r: seq<string>)
    ensures SetOf(r) == s && Distinct(r) && SortedBy(r, LexLess)
  {
    var elements := ListOf(s);
    LexLessIsStrict();
    SortBySorted(elements, LexLess);
    r := SortBy(elements, LexLess);
    DistinctPermutation(elements, r);
    forall x
      ensures x in r <==> x in elements
    {
      SortByMembers(elements, LexLess, x);
    }
  }

  // ---------------------------------------------------------------------------
  // Sums

  /** The total of `f` over the elements of `s`. */
  function SumOf<T>(s: seq<T>, f: T -> nat): nat {
    if s == [] then 0 else f(s[0]) + SumOf(s[1..], f)
  }

  lemma {:induction false} SumOfAppend<T>(a: seq<T>, b: seq<T>, f: T -> nat)
    ensures SumOf(a + b, f) == SumOf(a, f) + SumOf(b, f)
  {
    if a != [] {
      assert (a + b)[1..] == a[1..] + b;
      SumOfAppend(a[1..], b, f);
    } else {
      assert a + b == b;
    }
  }

  /** The running total of a loop that visits `s` from the front. */
  lemma SumOfPrefix<T>(s: seq<T>, i: nat, f: T -> nat)
    requires i < |s|
    ensures SumOf(s[..i + 1], f) == SumOf(s[..i], f) + f(s[i])
  {
    assert s[..i + 1] == s[..i] + [s[i]];
    SumOfAppend(s[..i], [s[i]], f);
  }

  lemma {:induction false} SumOfRemoveAt<T>(s: seq<T>, k: nat, f: T -> nat)
    requires k < |s|
    ensures SumOf(s, f) == f(s[k]) + SumOf(s[..k] + s[k + 1..], f)
  {
    assert s == s[..k] + [s[k]] + s[k + 1..];
    SumOfAppend(s[..k] + [s[k]], s[k + 1..], f);
    SumOfAppend(s[..k], [s[k]], f);
    SumOfAppend(s[..k], s[k + 1..], f);
    assert SumOf([s[k]], f) == f(s[k]) + SumOf([], f);
  }

  lemma MultisetRemoveAt<T>(s: seq<T>, k: nat)
    requires k < |s|
    ensures multiset(s[..k] + s[k + 1..]) == multiset(s) - multiset{s[k]}
  {
    assert s == s[..k] + [s[k]] + s[k + 1..];
    assert multiset(s) == multiset(s[..k]) + multiset{s[k]} + multiset(s[k + 1..]);
  }

  /** A total does not depend on the order in which the terms arrive. */
  lemma {:induction false} SumOfPermutation<T>(a: seq<T>, b: seq<T>, f: T -> nat)
    requires multiset(a) == multiset(b)
    ensures SumOf(a, f) == SumOf(b, f)
    decreases |a|
  {
    if a != [] {
      assert a[0] in multiset(b);
      var k :| 0 <= k < |b| && b[k] == a[0];
      var rest := b[..k] + b[k + 1..];
      MultisetRemoveAt(b, k);
      assert a == [a[0]] + a[1..];
      assert multiset(a[1..]) == multiset(rest);
      SumOfPermutation(a[1..], rest, f);
      SumOfRemoveAt(b, k, f);
    } else {
      assert |b| == |multiset(b)| == 0;
    }
  }

  /** Sum of the values a map holds under the keys in `keys`. */
  ghost function MapSum<K(!new)>(m: map<K, nat>, keys: set<K>): nat
    requires keys <= m.Keys
    decreases keys
  {
    if keys == {} then 0
    else
      var k :| k in keys;
      m[k] + MapSum(m, keys - {k})
  }

  /** Whichever key the sum takes first, the total is the same. */
  lemma {:induction false} MapSumRemove<K(!new)>(m: map<K, nat>, keys: set<K>, x: K)
    requires keys <= m.Keys && x in keys
    ensures MapSum(m, keys) == m[x] + MapSum(m, keys - {x})
    decreases keys
  {
    var k :| k in keys && MapSum(m, keys) == m[k] + MapSum(m, keys - {k});
    if k != x {
      MapSumRemove(m, keys - {k}, x);
      MapSumRemove(m, keys - {x}, k);
      assert keys - {k} - {x} == keys - {x} - {k};
    }
  }
}

=== FILE: text.dfy ===
/** String operations the Swift and Python code relies on: `split` (with empty pieces
    dropped), `trimmingCharacters(in: .whitespacesAndNewlines)` / `strip()`, `contains`,
    `hasPrefix`/`hasSuffix`, `joined(separator:)`, `lowercased()`, string `<`,
    `UInt64(String)`, decimal rendering and `replacingOccurrences(of:with:)`.
    Strings are sequences of characters; case folding and whitespace cover ASCII only. */
module Text {
  import opened Wrappers

  /** The blanks that trimming and whitespace splitting remove (ASCII part of
      Foundation's `.whitespacesAndNewlines` and of Python's `str.isspace`). */
  const Whitespace: set<char> := {' ', '\t', '\n', '\r', '\U{0B}', '\U{0C}'}

  // ---------------------------------------------------------------------------
  // Splitting and joining

  /** Index of the first character of `s` that is a separator, or |s|. */
  function FirstIn(s: string, seps: set<char>): (k: nat)
    ensures k <= |s|
    ensures forall i :: 0 <= i < k ==> s[i] !in seps
    ensures k < |s| ==> s[k] in seps
  {
    if s == [] || s[0] in seps then 0 else 1 + FirstIn(s[1..], seps)
  }

  /** Swift's `s.split(separator:)` (default `omittingEmptySubsequences: true`) and
      Python's argument-less `str.split()` when `seps` is `Whitespace`: the maximal
      runs of non-separator characters, in order. */
  function Split(s: string, seps: set<char>): (r: seq<string>)
    ensures forall i :: 0 <= i < |r| ==> |r[i]| > 0
    ensures forall i, k :: 0 <= i < |r| && 0 <= k < |r[i]| ==> r[i][k] !in seps
    decreases |s|
  {
    if s == [] then []
    else if s[0] in seps then Split(s[1..], seps)
    else
      var k := FirstIn(s, seps);
      [s[..k]] + Split(s[k..], seps)
  }

  /** All pieces glued back together, with nothing between them. */
  function Concat(parts: seq<string>): string {
    if parts == [] then [] else parts[0] + Concat(parts[1..])
  }

  /** `s` with every separator character deleted. */
  function Strip(s: string, seps: set<char>): (r: string)
    ensures |r| <= |s|
  {
    if s == [] then []
    else if s[0] in seps then Strip(s[1..], seps)
    else [s[0]] + Strip(s[1..], seps)
  }

  /** `parts.joined(separator: sep)` / Python's `sep.join(parts)`. */
  function Join(parts: seq<string>, sep: string): string {
    if parts == [] then []
    else if |parts| == 1 then parts[0]
    else parts[0] + sep + Join(parts[1..], sep)
  }

  predicate NoneIn(s: string, seps: set<char>) {
    forall k :: 0 <= k < |s| ==> s[k] !in seps
  }

  lemma {:induction false} StripOfAppend(a: string, b: string, seps: set<char>)
    ensures Strip(a + b, seps) == Strip(a, seps) + Strip(b, seps)
  {
    if a == [] {
      assert a + b == b;
    } else {
      assert (a + b)[1..] == a[1..] + b;
      StripOfAppend(a[1..], b, seps);
    }
  }

  lemma {:induction false} StripNoneIn(s: string, seps: set<char>)
    requires NoneIn(s, seps)
    ensures Strip(s, seps) == s
  {
    if s != [] {
      StripNoneIn(s[1..], seps);
    }
  }

  /** Splitting loses exactly the separators: gluing the pieces gives the input with
      every separator character removed. */
  lemma {:induction false} SplitKeepsEverythingElse(s: string, seps: set<char>)
    ensures Concat(Split(s, seps)) == Strip(s, seps)
    decreases |s|
  {
    if s == [] {
    } else if s[0] in seps {
      SplitKeepsEverythingElse(s[1..], seps);
    } else {
      var k := FirstIn(s, seps);
      assert s == s[..k] + s[k..];
      SplitKeepsEverythingElse(s[k..], seps);
      StripOfAppend(s[..k], s[k..], seps);
      StripNoneIn(s[..k], seps);
      assert Concat(Split(s, seps)) == s[..k] + Concat(Split(s[k..], seps));
    }
  }

  lemma {:induction false} FirstInOfPiece(p: string, rest: string, seps: set<char>)
    requires NoneIn(p, seps)
    requires rest == [] || rest[0] in seps
    ensures FirstIn(p + rest, seps) == |p|
  {
    if p != [] {
      assert (p + rest)[1..] == p[1..] + rest;
      FirstInOfPiece(p[1..], rest, seps);
    } else {
      assert p + rest == rest;
    }
  }

  /** Joining non-empty, separator-free pieces with a one-character separator from
      `seps` and splitting again on `seps` gives the pieces back. */
  lemma {:induction false} SplitJoinRoundTrip(parts: seq<string>, c: char, seps: set<char>)
    requires c in seps
    requires forall i :: 0 <= i < |parts| ==> |parts[i]| > 0 && NoneIn(parts[i], seps)
    ensures Split(Join(parts, [c]), seps) == parts
  {
    if parts == [] {
    } else if |parts| == 1 {
      var p := parts[0];
      FirstInOfPiece(p, [], seps);
      assert p + [] == p;
      assert p[..|p|] == p;
      assert p[|p|..] == [];
    } else {
      var p := parts[0];
      var rest := [c] + Join(parts[1..], [c]);
      var s := Join(parts, [c]);
      assert s == p + rest;
      FirstInOfPiece(p, rest, seps);
      assert s[0] == p[0];
      assert s[..|p|] == p;
      assert s[|p|..] == rest;
      assert rest[1..] == Join(parts[1..], [c]);
      SplitJoinRoundTrip(parts[1..], c, seps);
    }
  }

  // ---------------------------------------------------------------------------
  // Trimming

  function TrimStart(s: string): (r: string)
    ensures |r| <= |s| && r == s[|s| - |r|..]
    ensures forall k :: 0 <= k < |s| - |r| ==> s[k] in Whitespace
    ensures r == [] || r[0] !in Whitespace
  {
    if s != [] && s[0] in Whitespace then TrimStart(s[1..]) else s
  }

  function TrimEnd(s: string): (r: string)
    ensures |r| <= |s| && r == s[..|r|]
    ensures forall k :: |r| <= k < |s| ==> s[k] in Whitespace
    ensures r == [] || r[|r| - 1] !in Whitespace
  {
    if s != [] && s[|s| - 1] in Whitespace then TrimEnd(s[..|s| - 1]) else s
  }

  /** `trimmingCharacters(in: .whitespacesAndNewlines)` / Python's `strip()`: the
      result is a slice of `s` that neither starts nor ends with a blank, and only
      blanks were cut off on either side. */
  function Trim(s: string): (r: string)
    ensures r == [] || (r[0] !in Whitespace && r[|r| - 1] !in Whitespace)
  {
    TrimEnd(TrimStart(s))
  }

  // ---------------------------------------------------------------------------
  // Searching

  /** `s.contains(sub)` for strings: `sub` occurs somewhere in `s`. */
  predicate Contains(s: string, sub: string)
    decreases |s|
  {
    |sub| <= |s| && (s[..|sub|] == sub || Contains(s[1..], sub))
  }

  /** `sub` sits in `s` starting at index `i`. */
  predicate OccursAt(s: string, sub: string, i: int) {
    0 <= i && i + |sub| <= |s| && s[i..i + |sub|] == sub
  }

  lemma {:induction false} ContainsIffOccurs(s: string, sub: string)
    ensures Contains(s, sub) <==> exists i :: OccursAt(s, sub, i)
    decreases |s|
  {
    if |sub| <= |s| && s[..|sub|] != sub {
      ContainsIffOccurs(s[1..], sub);
      if exists i :: OccursAt(s, sub, i) {
        var i :| OccursAt(s, sub, i);
        assert i > 0;
        assert s[1..][i - 1..i - 1 + |sub|] == s[i..i + |sub|];
        assert OccursAt(s[1..], sub, i - 1);
      }
      if Contains(s[1..], sub) {
        var i :| OccursAt(s[1..], sub, i);
        assert s[1..][i..i + |sub|] == s[i + 1..i + 1 + |sub|];
        assert OccursAt(s, sub, i + 1);
      }
    } else if |sub| <= |s| {
      assert OccursAt(s, sub, 0);
    } else {
      assert forall i :: !OccursAt(s, sub, i);
    }
  }

  /** Every string contains itself and the empty string. */
  lemma ContainsTrivial(s: string)
    ensures Contains(s, s) && Contains(s, "")
  {
    assert s[..|s|] == s;
  }

  predicate HasPrefix(s: string, p: string) {
    |p| <= |s| && s[..|p|] == p
  }

  predicate HasSuffix(s: string, p: string) {
    |p| <= |s| && s[|s| - |p|..] == p
  }

  // ---------------------------------------------------------------------------
  // Case folding and ordering

  function LowerChar(c: char): char {
    if 'A' <= c <= 'Z' then (c as int - 'A' as int + 'a' as int) as char else c
  }

  /** `lowercased()`, ASCII letters only. */
  function Lower(s: string): (r: string)
    ensures |r| == |s| && forall i :: 0 <= i < |s| ==> r[i] == LowerChar(s[i])
  {
    seq(|s|, i requires 0 <= i < |s| => LowerChar(s[i]))
  }

  lemma LowerIdempotent(s: string)
    ensures Lower(Lower(s)) == Lower(s)
  {
  }

  /** String `<`: lexicographic order on characters. */
  predicate LexLess(a: string, b: string)
    decreases |a|
  {
    if a == [] then b != []
    else if b == [] then false
    else if a[0] != b[0] then a[0] < b[0]
    else LexLess(a[1..], b[1..])
  }

  lemma {:induction false} LexLessIrreflexive(a: string)
    ensures !LexLess(a, a)
  {
    if a != [] {
      LexLessIrreflexive(a[1..]);
    }
  }

  lemma {:induction false} LexLessTransitive(a: string, b: string, c: string)
    requires LexLess(a, b) && LexLess(b, c)
    ensures LexLess(a, c)
    decreases |a|
  {
    if a != [] && b != [] && c != [] && a[0] == b[0] && b[0] == c[0] {
      LexLessTransitive(a[1..], b[1..], c[1..]);
    }
  }

  lemma {:induction false} LexLessTotal(a: string, b: string)
    ensures a == b || LexLess(a, b) || LexLess(b, a)
    decreases |a|
  {
    if a != [] && b != [] && a[0] == b[0] {
      LexLessTotal(a[1..], b[1..]);
      if a[1..] == b[1..] {
        assert a == [a[0]] + a[1..] && b == [b[0]] + b[1..];
      }
    }
  }

  // ---------------------------------------------------------------------------
  // Numbers

  const UInt64Max: nat := 0xFFFF_FFFF_FFFF_FFFF

  predicate IsDigit(c: char) {
    '0' <= c <= '9'
  }

  predicate AllDigits(s: string) {
    forall i :: 0 <= i < |s| ==> IsDigit(s[i])
  }

  function DigitsValue(s: string): nat
    requires AllDigits(s)
  {
    if s == [] then 0 else DigitsValue(s[..|s| - 1]) * 10 + (s[|s| - 1] as int - '0' as int)
  }

  /** `UInt64(text)`: an optional sign, then one or more ASCII digits; the value
      must fit in 64 bits, and after a `-` it must be zero. Anything else is nil. */
  function ParseUInt64(s: string): (r: Option<nat>)
    ensures r.Some? ==> r.value <= UInt64Max
    ensures s == [] ==> r == None
  {
    var negative := |s| > 0 && s[0] == '-';
    var digits := if |s| > 0 && (s[0] == '+' || s[0] == '-') then s[1..] else s;
    if |digits| > 0 && AllDigits(digits) && DigitsValue(digits) <= UInt64Max && (!negative || DigitsValue(digits) == 0)
    then Some(DigitsValue(digits))
    else None
  }

  function DigitChar(d: nat): char
    requires d < 10
  {
    ('0' as int + d) as char
  }

  /** Decimal rendering of a number, as string interpolation prints it. */
  function NatToString(n: nat): (r: string)
    ensures |r| > 0 && AllDigits(r)
  {
    if n < 10 then [DigitChar(n)] else NatToString(n / 10) + [DigitChar(n % 10)]
  }

  lemma {:induction false} DigitsOfNatToString(n: nat)
    ensures DigitsValue(NatToString(n)) == n
  {
    var r := NatToString(n);
    if n >= 10 {
      DigitsOfNatToString(n / 10);
      assert r[..|r| - 1] == NatToString(n / 10);
    }
  }

  /** Parsing a rendered 64-bit number gives the number back. */
  lemma ParseRendered(n: nat)
    requires n <= UInt64Max
    ensures ParseUInt64(NatToString(n)) == Some(n)
  {
    DigitsOfNatToString(n);
  }

  // ---------------------------------------------------------------------------
  // Replacement

  /** `s.replacingOccurrences(of: pat, with: rep)`: every non-overlapping occurrence,
      scanning left to right, is replaced. */
  function ReplaceAll(s: string, pat: string, rep: string): string
    decreases |s|
  {
    if pat == [] || s == [] then s
    else if HasPrefix(s, pat) then rep + ReplaceAll(s[|pat|..], pat, rep)
    else [s[0]] + ReplaceAll(s[1..], pat, rep)
  }

  /** Removing a suffix that starts with a character absent from the stem leaves the stem. */
  lemma {:induction false} ReplaceRemovesSuffix(stem: string, pat: string)
    requires |pat| > 0 && NoneIn(stem, {pat[0]})
    ensures ReplaceAll(stem + pat, pat, "") == stem
  {
    var s := stem + pat;
    if stem == [] {
      assert s == pat && HasPrefix(s, pat);
      assert s[|pat|..] == [];
    } else {
      assert s[0] == stem[0] != pat[0];
      assert !HasPrefix(s, pat);
      assert s[1..] == stem[1..] + pat;
      ReplaceRemovesSuffix(stem[1..], pat);
    }
  }

  // ---------------------------------------------------------------------------
  // Facts about splitting, joining and trimming used by the parsers

  /** Splitting at a separator splits the two sides independently. */
  lemma {:induction false} SplitAtSeparator(x: string, d: char, y: string, seps: set<char>)
    requires d in seps
    ensures Split(x + [d] + y, seps) == Split(x, seps) + Split(y, seps)
    decreases |x|
  {
    var s := x + [d] + y;
    if x == [] {
      assert s[1..] == y;
    } else if x[0] in seps {
      assert s[1..] == x[1..] + [d] + y;
      SplitAtSeparator(x[1..], d, y, seps);
    } else {
      var k := FirstIn(x, seps);
      SplitFirstPiece(x, d, y, seps);
      SplitAtSeparator(x[k..], d, y, seps);
      assert [x[..k]] + (Split(x[k..], seps) + Split(y, seps)) == [x[..k]] + Split(x[k..], seps) + Split(y, seps);
    }
  }

  /** When `x` starts with a non-separator, `x` and `x + [d] + y` split off the same
      first piece, and what follows it in `x + [d] + y` is the rest of `x`, then `d`,
      then `y`. */
  lemma SplitFirstPiece(x: string, d: char, y: string, seps: set<char>)
    requires d in seps && x != [] && x[0] !in seps
    ensures var s := x + [d] + y; var k := FirstIn(x, seps);
      0 < k && s[k..] == x[k..] + [d] + y &&
      Split(s, seps) == [x[..k]] + Split(s[k..], seps) &&
      Split(x, seps) == [x[..k]] + Split(x[k..], seps)
  {
    FirstInOfJoint(x, d, y, seps);
    SplitUnfold(x + [d] + y, seps);
    SplitUnfold(x, seps);
    JointSlices(x, d, y, FirstIn(x, seps));
  }

  lemma JointSlices(x: string, d: char, y: string, k: nat)
    requires k <= |x|
    ensures (x + [d] + y)[..k] == x[..k] && (x + [d] + y)[k..] == x[k..] + [d] + y
  {
  }

  /** The first separator of `x + [d] + y` is that of `x`, or `d` when `x` has none. */
  lemma FirstInOfJoint(x: string, d: char, y: string, seps: set<char>)
    requires d in seps
    ensures FirstIn(x + [d] + y, seps) == FirstIn(x, seps)
  {
    var s := x + [d] + y;
    var k := FirstIn(x, seps);
    if k < |x| {
      assert s[k] == x[k];
    } else {
      assert s[k] == d;
    }
    FirstInPrefix(s, k, seps);
  }

  /** Splitting a string that starts with a non-separator takes off its first run. */
  lemma SplitUnfold(s: string, seps: set<char>)
    requires s != [] && s[0] !in seps
    ensures Split(s, seps) == [s[..FirstIn(s, seps)]] + Split(s[FirstIn(s, seps)..], seps)
  {
  }

  /** `FirstIn` is the first separator position. */
  lemma FirstInPrefix(s: string, k: nat, seps: set<char>)
    requires k < |s| && s[k] in seps
    requires forall i :: 0 <= i < k ==> s[i] !in seps
    ensures FirstIn(s, seps) == k
  {
    var j := FirstIn(s, seps);
    assert j <= k;
  }

  /** A non-empty separator-free string splits into itself. */
  lemma SplitOfPiece(p: string, seps: set<char>)
    requires p != [] && NoneIn(p, seps)
    ensures Split(p, seps) == [p]
  {
    FirstInOfPiece(p, [], seps);
    assert p + [] == p;
    assert p[..|p|] == p && p[|p|..] == [];
  }

  /** A join starts with its first part and ends with its last. */
  lemma {:induction false} JoinEnds(parts: seq<string>, sep: string)
    requires parts != []
    ensures HasPrefix(Join(parts, sep), parts[0])
    ensures HasSuffix(Join(parts, sep), parts[|parts| - 1])
  {
    if |parts| > 1 {
      JoinEnds(parts[1..], sep);
      var j := Join(parts, sep);
      assert j == parts[0] + (sep + Join(parts[1..], sep));
      assert j[..|parts[0]|] == parts[0];
      assert parts[1..][|parts[1..]| - 1] == parts[|parts| - 1];
    }
  }

  /** A join of non-empty parts starts with the first part's first character and
      ends with the last part's last character; so when neither is in `chars`, the
      join neither starts nor ends with one of `chars`. */
  lemma JoinEndChars(parts: seq<string>, sep: string, chars: set<char>)
    requires parts != [] && parts[0] != [] && parts[|parts| - 1] != []
    requires parts[0][0] !in chars && parts[|parts| - 1][|parts[|parts| - 1]| - 1] !in chars
    ensures var j := Join(parts, sep); j != [] && j[0] !in chars && j[|j| - 1] !in chars
  {
    var j := Join(parts, sep);
    var last := parts[|parts| - 1];
    JoinEnds(parts, sep);
    assert j[..|parts[0]|] == parts[0];
    assert j[|j| - |last|..] == last;
    assert j[|j| - 1] == j[|j| - |last|..][|last| - 1];
  }

  /** A join of separator-free parts with a separator-free glue is separator-free. */
  lemma {:induction false} JoinNoneIn(parts: seq<string>, sep: string, seps: set<char>)
    requires NoneIn(sep, seps)
    requires forall i :: 0 <= i < |parts| ==> NoneIn(parts[i], seps)
    ensures NoneIn(Join(parts, sep), seps)
  {
    if |parts| > 1 {
      JoinNoneIn(parts[1..], sep, seps);
      var j := Join(parts, sep);
      var a := parts[0];
      var b := Join(parts[1..], sep);
      assert j == a + sep + b;
      forall k | 0 <= k < |j|
        ensures j[k] !in seps
      {
        if k < |a| {
          assert j[k] == a[k];
        } else if k < |a| + |sep| {
          assert j[k] == sep[k - |a|];
        } else {
          assert j[k] == b[k - |a| - |sep|];
        }
      }
    }
  }

  /** Trimming removes padding made of blanks around a text that neither starts nor
      ends with a blank. */
  lemma TrimPadded(pre: string, t: string, post: string)
    requires forall i :: 0 <= i < |pre| ==> pre[i] in Whitespace
    requires forall i :: 0 <= i < |post| ==> post[i] in Whitespace
    requires t == [] || (t[0] !in Whitespace && t[|t| - 1] !in Whitespace)
    ensures Trim(pre + t + post) == t
  {
    if t == [] {
      var blank := pre + post;
      assert pre + t + post == blank + [];
      TrimStartPadded(blank, []);
    } else {
      assert pre + t + post == pre + (t + post);
      TrimStartPadded(pre, t + post);
      TrimEndPadded(t, post);
    }
  }

  lemma {:induction false} TrimStartPadded(pre: string, rest: string)
    requires forall i :: 0 <= i < |pre| ==> pre[i] in Whitespace
    requires rest == [] || rest[0] !in Whitespace
    ensures TrimStart(pre + rest) == rest
  {
    if pre != [] {
      assert (pre + rest)[1..] == pre[1..] + rest;
      TrimStartPadded(pre[1..], rest);
    } else {
      assert pre + rest == rest;
    }
  }

  lemma {:induction false} TrimEndPadded(t: string, post: string)
    requires forall i :: 0 <= i < |post| ==> post[i] in Whitespace
    requires t == [] || t[|t| - 1] !in Whitespace
    ensures TrimEnd(t + post) == t
  {
    if post != [] {
      var p' := post[..|post| - 1];
      assert (t + post)[..|t + post| - 1] == t + p';
      TrimEndPadded(t, p');
    } else {
      assert t + post == t;
    }
  }

  /** Joining two non-empty lists is joining each and putting the glue between. */
  lemma {:induction false} JoinAppend(a: seq<string>, b: seq<string>, sep: string)
    requires a != [] && b != []
    ensures Join(a + b, sep) == Join(a, sep) + sep + Join(b, sep)
  {
    if |a| == 1 {
      assert (a + b)[1..] == b;
    } else {
      assert (a + b)[1..] == a[1..] + b;
      JoinAppend(a[1..], b, sep);
    }
  }
}

=== FILE: universal_apps.dfy ===
/** UniversalApps.swift, in the app and in the helper: the estimate of how many bytes
    thinning would free (the `lipo -detailed_info` parser, the per-binary and
    per-bundle sums, the ranked list of apps) and the searches for universal apps.

    Both classes estimate alike; they differ in how they look for universal apps and
    in the progress reports of `produceSortedList`. Each owns a `FileOperations`
    object built over a fresh `AppState`, so what `isMach` and `isUniversal` log
    there is never shown. */
module UniversalAppsModel {
  import opened Wrappers
  import opened Text
  import opened Paths
  import opened Host
  import opened Arch
  import opened AppStateModel
  import opened Sorting
  import opened Signing
  import opened FileOps
  import opened FileOpsFacts

  // ---------------------------------------------------------------------------
  // The `lipo -detailed_info` parser

  /** What the parser has seen so far: the architecture of the section it is in,
      and the size recorded for each architecture. */
  datatype ParseState = ParseState(current: Option<string>, sizes: map<string, nat>)

  /** `firstIndex(of:)`. */
  function IndexOf(s: seq<string>, x: string): (r: Option<nat>)
    ensures r.Some? ==> r.value < |s| && s[r.value] == x && forall j :: 0 <= j < r.value ==> s[j] != x
    ensures r.None? ==> x !in s
  {
    if s == [] then None
    else if s[0] == x then Some(0)
    else
      assert s == [s[0]] + s[1..];
      match IndexOf(s[1..], x)
      case None => None
      case Some(k) => Some(k + 1)
  }

  /** The architecture a line opens a section for: a trimmed line starting with
      `architecture` and holding at least two words separated by spaces names its
      second word. */
  function ArchOfLine(line: string): Option<string> {
    var t := Trim(line);
    var words := Split(t, {' '});
    if HasPrefix(t, "architecture") && |words| >= 2 then Some(words[1]) else None
  }

  /** The size a line gives: it does not start with `architecture`, contains
      `size`, and the word after the first word `size` is a number. */
  function SizeOfLine(line: string): Option<nat> {
    var t := Trim(line);
    if HasPrefix(t, "architecture") || !Contains(t, "size") then None
    else SizeAfterKeyword(Split(t, {' '}))
  }

  /** The number in the word after the first word `size`, if there is one. */
  function SizeAfterKeyword(words: seq<string>): Option<nat> {
    match IndexOf(words, "size")
    case None => None
    case Some(k) => if k + 1 < |words| then ParseUInt64(words[k + 1]) else None
  }

  /** What one pass of the loop over the output lines does: a line naming an
      architecture makes it current, a line giving a size records it for the
      current architecture, if there is one. */
  function ParseLine(st: ParseState, line: string): ParseState {
    ParseState(
      if ArchOfLine(line).Some? then ArchOfLine(line) else st.current,
      if st.current.Some? && SizeOfLine(line).Some? then st.sizes[st.current.value := SizeOfLine(line).value]
      else st.sizes)
  }

  /** The lines parsed in order, from no architecture and no sizes. */
  function ParseLines(lines: seq<string>): ParseState
    decreases |lines|
  {
    if lines == [] then ParseState(None, map[])
    else ParseLine(ParseLines(lines[..|lines| - 1]), lines[|lines| - 1])
  }

  /** The loop of `calculateUnneededArchSizeForBinary`: the output split into its
      non-empty lines, each one handled in turn. */
  method ParseDetailedInfo(output: string) returns (sizes: map<string, nat>)
    ensures sizes == ParseLines(Split(output, {'\n'})).sizes
  {
    var lines := Split(output, {'\n'});
    var currentArch: Option<string> := None;
    sizes := map[];
    var i := 0;
    while i < |lines|
      invariant 0 <= i <= |lines|
      invariant ParseState(currentArch, sizes) == ParseLines(lines[..i])
    {
      currentArch, sizes := HandleLine(currentArch, sizes, lines[i]);
      assert lines[..i + 1][..i] == lines[..i];
      i := i + 1;
    }
    assert lines[..|lines|] == lines;
  }

  /** The body of that loop, for one line. */
  method HandleLine(currentArch: Option<string>, sizes: map<string, nat>, line: string)
    returns (currentArch': Option<string>, sizes': map<string, nat>)
    ensures ParseState(currentArch', sizes') == ParseLine(ParseState(currentArch, sizes), line)
  {
    currentArch', sizes' := currentArch, sizes;
    var trimmedLine := Trim(line);
    if HasPrefix(trimmedLine, "architecture") {
      ArchLineRules(line);
    } else {
      OtherLineRules(line);
    }
    if HasPrefix(trimmedLine, "architecture") {
      var components := Split(trimmedLine, {' '});
      if |components| >= 2 {
        currentArch' := Some(components[1]);
      }
    } else if Contains(trimmedLine, "size") && currentArch.Some? {
      var components := Split(trimmedLine, {' '});
      var sizeIndex := IndexOf(components, "size");
      if sizeIndex.Some? && sizeIndex.value + 1 < |components| {
        var size := ParseUInt64(components[sizeIndex.value + 1]);
        if size.Some? {
          sizes' := sizes[currentArch.value := size.value];
        }
      }
    }
  }

  /** A line starting with `architecture` gives no size; it names its second word
      when it has one. */
  lemma ArchLineRules(line: string)
    requires HasPrefix(Trim(line), "architecture")
    ensures SizeOfLine(line) == None
    ensures var words := Split(Trim(line), {' '});
      ArchOfLine(line) == if |words| >= 2 then Some(words[1]) else None
  {
  }

  /** Any other line names no architecture, and gives the size after the word
      `size` when it contains `size`. */
  lemma OtherLineRules(line: string)
    requires !HasPrefix(Trim(line), "architecture")
    ensures ArchOfLine(line) == None
    ensures SizeOfLine(line) == if Contains(Trim(line), "size") then SizeAfterKeyword(Split(Trim(line), {' '})) else None
  {
  }

  /** The architecture named by the last line that names one. */
  function LastArch(lines: seq<string>): Option<string>
    decreases |lines|
  {
    if lines == [] then None
    else if ArchOfLine(lines[|lines| - 1]).Some? then ArchOfLine(lines[|lines| - 1])
    else LastArch(lines[..|lines| - 1])
  }

  /** A line that opens a section gives no size. */
  lemma ArchLineHasNoSize(line: string)
    requires ArchOfLine(line).Some?
    ensures SizeOfLine(line) == None
  {
  }

  /** After any prefix of the output, the current architecture is the last one
      named so far. */
  lemma {:induction false} ParsedCurrent(lines: seq<string>)
    ensures ParseLines(lines).current == LastArch(lines)
    decreases |lines|
  {
    if lines != [] {
      ParsedCurrent(lines[..|lines| - 1]);
    }
  }

  /** The size recorded for `a`: the one given by the last line that gives a size
      while `a` is the current architecture (a later size overwrites an earlier
      one); sizes given before any architecture line are not recorded. */
  function RecordedSize(lines: seq<string>, a: string): Option<nat>
    decreases |lines|
  {
    if lines == [] then None
    else
      var n := |lines| - 1;
      if LastArch(lines[..n]) == Some(a) && SizeOfLine(lines[n]).Some? then SizeOfLine(lines[n])
      else RecordedSize(lines[..n], a)
  }

  /** The parser records for each architecture exactly the size the line-by-line
      rules give it. */
  lemma {:induction false} ParsedSizes(lines: seq<string>, a: string)
    ensures var sizes := ParseLines(lines).sizes;
      (a in sizes <==> RecordedSize(lines, a).Some?) &&
      (a in sizes ==> RecordedSize(lines, a) == Some(sizes[a]))
    decreases |lines|
  {
    if lines != [] {
      var n := |lines| - 1;
      ParsedSizes(lines[..n], a);
      ParsedCurrent(lines[..n]);
    }
  }

  // ---------------------------------------------------------------------------
  // Sums

  /** The savable bytes of one binary: the recorded sizes of every architecture
      other than the one kept, added up. */
  ghost function Unneeded(sizes: map<string, nat>, systemArch: string): nat {
    MapSum(sizes, sizes.Keys - {systemArch})
  }

  /** What is saved and what is kept add up to the whole recorded size. */
  lemma UnneededPlusKept(sizes: map<string, nat>, systemArch: string)
    ensures Unneeded(sizes, systemArch) + (if systemArch in sizes then sizes[systemArch] else 0)
      == MapSum(sizes, sizes.Keys)
  {
    if systemArch in sizes {
      MapSumRemove(sizes, sizes.Keys, systemArch);
    } else {
      assert sizes.Keys - {systemArch} == sizes.Keys;
    }
  }

  /** `architectureSizes.filter { $0.key != systemArch }.map { $0.value }.reduce(0, +)`,
      taking the entries in whatever order the dictionary yields them. */
  method SumUnneeded(sizes: map<string, nat>, systemArch: string) returns (total: nat)
    ensures total == Unneeded(sizes, systemArch)
  {
    total := 0;
    var rest := sizes.Keys - {systemArch};
    while rest != {}
      invariant rest <= sizes.Keys
      invariant total + MapSum(sizes, rest) == Unneeded(sizes, systemArch)
      decreases rest
    {
      var k :| k in rest;
      MapSumRemove(sizes, rest, k);
      total := total + sizes[k];
      rest := rest - {k};
    }
  }

  function DetailedInvocation(m: Machine, path: string): Invocation {
    Invocation(LipoPath(m), ["-detailed_info", path])
  }

  /** `calculateUnneededArchSizeForBinary`: nil when `lipo` cannot be launched,
      otherwise the savable bytes its report lists (whatever its exit status). */
  ghost function BinaryUnneeded(m: Machine, path: string, systemArch: string): Option<nat> {
    match m.run(DetailedInvocation(m, path))
    case LaunchError(_) => None
    case Exited(_, out) => Some(Unneeded(ParseLines(Split(out, {'\n'})).sizes, systemArch))
  }

  /** What one enumerated entry adds to the estimate of a bundle: the savable bytes
      of a Mach-O binary for which a slice would be chosen, when its report could be
      read; nothing for any other entry. */
  ghost function EntryEstimateOf(m: Machine, files: map<string, FileInfo>, path: string, systemArch: string): nat {
    if Decision(m, files, path, systemArch).Some? then BinaryUnneeded(m, path, systemArch).GetOr(0) else 0
  }

  /** The same, for the entries of `dir`. */
  ghost function EntryUnneeded(m: Machine, files: map<string, FileInfo>, dir: string, systemArch: string): string -> nat {
    e => EntryEstimateOf(m, files, AppendPath(dir, e), systemArch)
  }

  /** `term` gives the estimate of every entry of `dir`. */
  ghost predicate EstimatesEntries(m: Machine, files: map<string, FileInfo>, dir: string, systemArch: string, term: string -> nat) {
    forall e {:trigger EntryEstimateOf(m, files, AppendPath(dir, e), systemArch)} ::
      term(e) == EntryEstimateOf(m, files, AppendPath(dir, e), systemArch)
  }

  /** `calculateUnneededArchSize`: the sum over every enumerated entry. */
  ghost function AppUnneeded(m: Machine, files: map<string, FileInfo>, dir: string, systemArch: string): nat {
    match m.Enumerate(dir)
    case None => 0
    case Some(entries) => SumOf(entries, EntryUnneeded(m, files, dir, systemArch))
  }

  /** The counts 1, 2, ..., n. */
  function CountsUpTo(n: nat): (r: seq<nat>)
    ensures |r| == n && forall k :: 0 <= k < n ==> r[k] == k + 1
  {
    if n == 0 then [] else CountsUpTo(n - 1) + [n]
  }

  /** The number of entries the enumerator yields, 0 without one. */
  function FileCount(m: Machine, dir: string): nat {
    match m.Enumerate(dir)
    case None => 0
    case Some(entries) => |entries|
  }

  /** However the concurrent tasks interleave, the estimate is the same. */
  lemma AppUnneededAnyOrder(m: Machine, files: map<string, FileInfo>, dir: string, systemArch: string, order: seq<string>)
    requires m.Enumerate(dir).Some? && multiset(order) == multiset(m.Enumerate(dir).value)
    ensures AppUnneeded(m, files, dir, systemArch) == SumOf(order, EntryUnneeded(m, files, dir, systemArch))
  {
    SumOfPermutation(m.Enumerate(dir).value, order, EntryUnneeded(m, files, dir, systemArch));
  }

  /** Some enumerated entry of `dir` is a Mach-O binary for which `target` selects a
      slice: what `isAppUniversal` looks for. */
  ghost predicate HasUniversalEntry(m: Machine, files: map<string, FileInfo>, dir: string, target: string) {
    m.Enumerate(dir).Some? &&
    exists k :: 0 <= k < |m.Enumerate(dir).value| &&
      Decision(m, files, AppendPath(dir, m.Enumerate(dir).value[k]), target).Some?
  }

  /** The app's `isAppUniversal` asks for the target `""`, for which no slice is ever
      chosen: it never finds a universal app. */
  lemma NeverUniversalForEmptyTarget(m: Machine, files: map<string, FileInfo>, dir: string)
    ensures !HasUniversalEntry(m, files, dir, "")
  {
    if m.Enumerate(dir).Some? {
      var entries := m.Enumerate(dir).value;
      forall k | 0 <= k < |entries|
        ensures Decision(m, files, AppendPath(dir, entries[k]), "").None?
      {
        NoDecisionForEmptyTarget(m, files, AppendPath(dir, entries[k]));
      }
    }
  }

  /** No slice is chosen for the empty target, whatever the binary. */
  lemma NoDecisionForEmptyTarget(m: Machine, files: map<string, FileInfo>, path: string)
    ensures Decision(m, files, path, "").None?
  {
    var run := m.run(InfoInvocation(m, path));
    if run.Exited? {
      EmptyTargetNeverResolves(run.stdout);
    }
  }

  /** The slice `isUniversal` chooses for a path, whichever copy asks. */
  function ChosenSlice(m: Machine, path: string, target: string): Option<string> {
    match m.run(InfoInvocation(m, path))
    case LaunchError(_) => None
    case Exited(_, out) => Resolve(ArchTokens(out), target)
  }

  /** Some entry of the listing of `macOS` has a slice chosen for `hostArch`. */
  ghost predicate HasChosenExecutable(m: Machine, macOS: string, hostArch: string) {
    m.Contents(macOS).Some? &&
    exists k :: 0 <= k < |m.Contents(macOS).value| &&
      ChosenSlice(m, AppendPath(macOS, m.Contents(macOS).value[k]), hostArch).Some?
  }

  /** Whether a slice is chosen for an entry of `dir`. */
  ghost function ChosenIn(m: Machine, dir: string, hostArch: string): string -> bool {
    e => ChosenSlice(m, AppendPath(dir, e), hostArch).Some?
  }

  /** `picks` tells, for every entry of `dir`, whether a slice is chosen for it. */
  ghost predicate PicksChosen(m: Machine, dir: string, hostArch: string, picks: string -> bool) {
    forall e {:trigger ChosenSlice(m, AppendPath(dir, e), hostArch)} ::
      picks(e) == ChosenSlice(m, AppendPath(dir, e), hostArch).Some?
  }

  /** Looking for a chosen entry in the listing is what `HasChosenExecutable`
      describes. */
  lemma ChosenInListing(m: Machine, macOS: string, hostArch: string)
    requires m.Contents(macOS).Some?
    ensures HasChosenExecutable(m, macOS, hostArch) <==>
      exists k :: 0 <= k < |m.Contents(macOS).value| && ChosenIn(m, macOS, hostArch)(m.Contents(macOS).value[k])
  {
    var listing := m.Contents(macOS).value;
    if exists k :: 0 <= k < |listing| && ChosenIn(m, macOS, hostArch)(listing[k]) {
      var k :| 0 <= k < |listing| && ChosenIn(m, macOS, hostArch)(listing[k]);
      assert ChosenSlice(m, AppendPath(macOS, listing[k]), hostArch).Some?;
    }
  }

  /** The helper's search qualifies a top-level entry of `/Applications` when its
      path ends in `.app`, it is not a default app, and some entry of its
      `Contents/MacOS` directory has a slice chosen for the host. */
  ghost predicate Qualifies(m: Machine, app: string, defaults: set<string>, hostArch: string) {
    var appPath := AppendPath("/Applications", app);
    HasSuffix(appPath, ".app") && app !in defaults && HasChosenExecutable(m, AppendPath(appPath, "Contents/MacOS"), hostArch)
  }

  /** `q` tells, for every name, whether the search qualifies it. */
  ghost predicate QualifierOf(m: Machine, defaults: set<string>, hostArch: string, q: string -> bool) {
    forall app {:trigger Qualifies(m, app, defaults, hostArch)} :: q(app) == Qualifies(m, app, defaults, hostArch)
  }

  /** The names of `apps` that `q` accepts, in order. */
  function Accepted(apps: seq<string>, q: string -> bool): seq<string>
    decreases |apps|
  {
    if apps == [] then []
    else
      var n := |apps| - 1;
      Accepted(apps[..n], q) + (if q(apps[n]) then [apps[n]] else [])
  }

  /** `/Applications/<name>` for each name of `apps` that `q` accepts, in order. */
  function Selected(apps: seq<string>, q: string -> bool): seq<string>
    decreases |apps|
  {
    if apps == [] then []
    else
      var n := |apps| - 1;
      Selected(apps[..n], q) + (if q(apps[n]) then [AppendPath("/Applications", apps[n])] else [])
  }

  /** The names the helper's search qualifies. */
  ghost function QualifyingNames(m: Machine, apps: seq<string>, defaults: set<string>, hostArch: string): seq<string> {
    Accepted(apps, app => Qualifies(m, app, defaults, hostArch))
  }

  /** The helper's result: the qualifying apps, in listing order. */
  ghost function QualifyingApps(m: Machine, apps: seq<string>, defaults: set<string>, hostArch: string): seq<string> {
    Selected(apps, app => Qualifies(m, app, defaults, hostArch))
  }

  /** Each path reported is `/Applications/<name>` for a listed name that `q`
      accepts, in the order of the listing, and when no name is listed twice no
      path is reported twice. */
  lemma {:induction false} SelectedFacts(apps: seq<string>, q: string -> bool)
    ensures var names := Accepted(apps, q);
      var r := Selected(apps, q);
      |r| == |names| <= |apps| &&
      forall i :: 0 <= i < |r| ==> r[i] == AppendPath("/Applications", names[i]) && names[i] in apps && q(names[i])
    ensures Distinct(apps) ==> Distinct(Selected(apps, q))
    decreases |apps|
  {
    if apps != [] {
      var n := |apps| - 1;
      var p := apps[..n];
      SelectedFacts(p, q);
      assert forall x :: x in p ==> x in apps;
      if Distinct(apps) {
        assert Distinct(p);
        assert apps[n] !in p;
        if q(apps[n]) {
          var rp := Selected(p, q);
          forall i | 0 <= i < |rp|
            ensures rp[i] != AppendPath("/Applications", apps[n])
          {
            if rp[i] == AppendPath("/Applications", apps[n]) {
              AppendPathInjective("/Applications", Accepted(p, q)[i], apps[n]);
            }
          }
        }
      }
    }
  }

  /** Every app the helper reports is `/Applications/<name>` for a listed name that
      is not a default app, its path ends in `.app`, and no app is reported twice. */
  lemma QualifyingAppsFacts(m: Machine, apps: seq<string>, defaults: set<string>, hostArch: string)
    ensures var names := QualifyingNames(m, apps, defaults, hostArch);
      var r := QualifyingApps(m, apps, defaults, hostArch);
      |r| == |names| &&
      forall i :: 0 <= i < |r| ==>
        r[i] == AppendPath("/Applications", names[i]) && names[i] in apps && names[i] !in defaults &&
        HasSuffix(r[i], ".app")
    ensures Distinct(apps) ==> Distinct(QualifyingApps(m, apps, defaults, hostArch))
  {
    SelectedFacts(apps, app => Qualifies(m, app, defaults, hostArch));
  }

  /** The names listed in a directory, none when it cannot be read. */
  function ListedNames(m: Machine, dir: string): set<string> {
    match m.Contents(dir)
    case None => {}
    case Some(names) => set name | name in names
  }

  /** The two system application directories of `fetchDefaultMacOSApps`. */
  const SystemAppsPaths: seq<string> := ["/System/Applications", "/System/Applications/Utilities"]

  /** The helper's `fetchDefaultMacOSApps`: every name in either system directory,
      whatever its suffix; a directory that cannot be read adds nothing. */
  method FetchDefaultMacOSApps(m: Machine) returns (defaultApps: set<string>)
    ensures defaultApps == ListedNames(m, "/System/Applications") + ListedNames(m, "/System/Applications/Utilities")
  {
    defaultApps := {};
    var i := 0;
    while i < |SystemAppsPaths|
      invariant 0 <= i <= |SystemAppsPaths|
      invariant defaultApps == if i == 0 then {} else if i == 1 then ListedNames(m, SystemAppsPaths[0])
        else ListedNames(m, SystemAppsPaths[0]) + ListedNames(m, SystemAppsPaths[1])
    {
      var apps := m.Contents(SystemAppsPaths[i]);
      if apps.Some? {
        defaultApps := defaultApps + set name | name in apps.value;
      }
      i := i + 1;
    }
  }

  // ---------------------------------------------------------------------------
  // Ranking

  /** `$0.1 > $1.1`: the larger saving first. */
  predicate BiggerFirst(a: (string, nat), b: (string, nat)) {
    a.1 > b.1
  }

  lemma BiggerFirstIsStrict()
    ensures StrictWeakOrder(BiggerFirst)
  {
  }

  /** The apps whose estimate `est` gives as positive, with their estimates, in
      search order. */
  function KeptBy(apps: seq<string>, est: string -> nat): seq<(string, nat)>
    decreases |apps|
  {
    if apps == [] then []
    else
      var n := |apps| - 1;
      KeptBy(apps[..n], est) + (if est(apps[n]) > 0 then [(apps[n], est(apps[n]))] else [])
  }

  /** Only apps with a positive estimate are kept, and each of them is. */
  lemma {:induction false} KeptIff(apps: seq<string>, est: string -> nat, app: string, size: nat)
    ensures (app, size) in KeptBy(apps, est) <==> app in apps && size > 0 && size == est(app)
    decreases |apps|
  {
    if apps != [] {
      var n := |apps| - 1;
      KeptIff(apps[..n], est, app, size);
      assert apps == apps[..n] + [apps[n]];
    }
  }

  /** The estimate of each app. */
  ghost function AppEstimates(m: Machine, files: map<string, FileInfo>, systemArch: string): string -> nat {
    app => AppUnneeded(m, files, app, systemArch)
  }

  /** `est` gives the estimate of every app. */
  ghost predicate EstimatesApps(m: Machine, files: map<string, FileInfo>, systemArch: string, est: string -> nat) {
    forall app {:trigger AppUnneeded(m, files, app, systemArch)} :: est(app) == AppUnneeded(m, files, app, systemArch)
  }

  class UniversalApps {
    const fileOperations: FileOperations

    /** Each copy builds its `FileOperations` over a fresh `AppState`. */
    constructor (inHelper: bool)
      ensures fileOperations.inHelper == inHelper && fresh(fileOperations.appState)
    {
      var throwaway := new AppState();
      fileOperations := new FileOperations(throwaway, inHelper);
    }

    /** `countFilesInApp(appPath:)`. */
    method CountFilesInApp(m: Machine, appPath: string) returns (count: nat)
      ensures count == FileCount(m, appPath)
    {
      count := 0;
      var enumerator := m.Enumerate(appPath);
      if enumerator.Some? {
        var i := 0;
        while i < |enumerator.value|
          invariant 0 <= i <= |enumerator.value| && count == i
        {
          count := count + 1;
          i := i + 1;
        }
      }
    }

    /** `calculateUnneededArchSizeForBinary(binaryPath:systemArch:)`. */
    method UnneededForBinary(m: Machine, binaryPath: string, systemArch: string) returns (r: Option<nat>)
      modifies m
      ensures r == BinaryUnneeded(m, binaryPath, systemArch)
      ensures m.files == old(m.files) && m.launched == old(m.launched) + [DetailedInvocation(m, binaryPath)]
    {
      NotThin(DetailedInvocation(m, binaryPath));
      var run := m.Launch(DetailedInvocation(m, binaryPath));
      if run.LaunchError? {
        return None;
      }
      var architectureSizes := ParseDetailedInfo(run.stdout);
      var totalUnneededSize := SumUnneeded(architectureSizes, systemArch);
      return Some(totalUnneededSize);
    }

    /** The task for one entry of `calculateUnneededArchSize`: the report is read
        only for a Mach-O file for which a slice would be chosen. */
    method EntryEstimate(m: Machine, fullPath: string, systemArch: string) returns (size: Option<nat>)
      modifies m, fileOperations.appState
      ensures size.GetOr(0) == EntryEstimateOf(m, m.files, fullPath, systemArch)
      ensures m.files == old(m.files)
    {
      size := None;
      ghost var w := m.At(fileOperations.appState.logBuffer);
      var mach := fileOperations.IsMach(m, fullPath);
      IsMachIff(m, w, fullPath, fileOperations.inHelper);
      if mach {
        ghost var w1 := m.At(fileOperations.appState.logBuffer);
        var arch := fileOperations.IsUniversal(m, fullPath, systemArch);
        IsUniversalFacts(m, w1, fullPath, systemArch, fileOperations.inHelper);
        if arch.Some? {
          size := UnneededForBinary(m, fullPath, systemArch);
        }
      }
    }

    /** `calculateUnneededArchSize(appPath:systemArch:progressHandler:...)`, its
        tasks run one after the other. `progress` lists the counts handed to the
        progress handler: one more after every entry. */
    method CalculateUnneededArchSize(m: Machine, appPath: string, systemArch: string)
      returns (totalSize: nat, progress: seq<nat>)
      modifies m, fileOperations.appState
      ensures totalSize == AppUnneeded(m, m.files, appPath, systemArch)
      ensures progress == CountsUpTo(FileCount(m, appPath))
      ensures m.files == old(m.files)
    {
      totalSize := 0;
      progress := [];
      var enumerator := m.Enumerate(appPath);
      if enumerator.Some? {
        totalSize, progress := SumEstimates(m, appPath, systemArch, enumerator.value, EntryUnneeded(m, m.files, appPath, systemArch));
      }
    }

    /** The enumeration loop of `calculateUnneededArchSize`, for a `term` giving
        the estimate of each entry. */
    method SumEstimates(m: Machine, appPath: string, systemArch: string, entries: seq<string>, ghost term: string -> nat)
      returns (totalSize: nat, progress: seq<nat>)
      requires EstimatesEntries(m, m.files, appPath, systemArch, term)
      modifies m, fileOperations.appState
      ensures totalSize == SumOf(entries, term)
      ensures progress == CountsUpTo(|entries|)
      ensures m.files == old(m.files)
    {
      totalSize := 0;
      progress := [];
      var processedFiles: nat := 0;
      while processedFiles < |entries|
        invariant 0 <= processedFiles <= |entries| && m.files == old(m.files)
        invariant totalSize + SumOf(entries[processedFiles..], term) == SumOf(entries, term)
        invariant progress == CountsUpTo(processedFiles)
      {
        var unneededArchSize := EntryTerm(m, appPath, entries[processedFiles], systemArch, term);
        assert entries[processedFiles..][1..] == entries[processedFiles + 1..];
        if unneededArchSize.Some? {
          totalSize := totalSize + unneededArchSize.value;
        }
        processedFiles := processedFiles + 1;
        progress := progress + [processedFiles];
      }
    }

    /** One task of `calculateUnneededArchSize`, for the entry `entry` of `appPath`. */
    method EntryTerm(m: Machine, appPath: string, entry: string, systemArch: string, ghost term: string -> nat)
      returns (size: Option<nat>)
      requires EstimatesEntries(m, m.files, appPath, systemArch, term)
      modifies m, fileOperations.appState
      ensures size.GetOr(0) == term(entry)
      ensures m.files == old(m.files)
    {
      size := EntryEstimate(m, AppendPath(appPath, entry), systemArch);
    }

    /** The app's `isAppUniversal(appPath:)`: whether some entry is a Mach-O file for
        which the target `""` selects a slice (never, by
        `NeverUniversalForEmptyTarget`). */
    method IsAppUniversal(m: Machine, appPath: string) returns (b: bool)
      modifies m, fileOperations.appState
      ensures b == HasUniversalEntry(m, m.files, appPath, "")
      ensures m.files == old(m.files)
    {
      var enumerator := m.Enumerate(appPath);
      if enumerator.None? {
        return false;
      }
      var entries := enumerator.value;
      var i := 0;
      while i < |entries|
        invariant 0 <= i <= |entries| && m.files == old(m.files)
        invariant forall k :: 0 <= k < i ==> Decision(m, m.files, AppendPath(appPath, entries[k]), "").None?
      {
        var fullPath := AppendPath(appPath, entries[i]);
        var chosen := EntryChoice(m, fullPath, "");
        if chosen.Some? {
          return true;
        }
        i := i + 1;
      }
      return false;
    }

    /** `isMach(path:)` and then, for a Mach-O file, `isUniversal(path:targetArch:)`. */
    method EntryChoice(m: Machine, fullPath: string, target: string) returns (chosen: Option<string>)
      modifies m, fileOperations.appState
      ensures chosen == Decision(m, m.files, fullPath, target)
      ensures m.files == old(m.files)
    {
      chosen := None;
      ghost var w := m.At(fileOperations.appState.logBuffer);
      var mach := fileOperations.IsMach(m, fullPath);
      IsMachIff(m, w, fullPath, fileOperations.inHelper);
      if mach {
        ghost var w1 := m.At(fileOperations.appState.logBuffer);
        chosen := fileOperations.IsUniversal(m, fullPath, target);
        IsUniversalFacts(m, w1, fullPath, target, fileOperations.inHelper);
      }
    }

    /** The app's `findUniversalBinaryApps()`: every entry of the recursive listing of
        `/Applications` ending in `.app` is checked with `isAppUniversal`, so the
        list is always empty. */
    method FindUniversalBinaryApps(m: Machine) returns (universalBinaryApps: seq<string>)
      modifies m, fileOperations.appState
      ensures universalBinaryApps == []
      ensures m.files == old(m.files)
    {
      universalBinaryApps := [];
      var applicationsPath := "/Applications";
      var enumerator := m.Enumerate(applicationsPath);
      if enumerator.None? {
        return;
      }
      var paths := enumerator.value;
      var i := 0;
      while i < |paths|
        invariant 0 <= i <= |paths| && universalBinaryApps == [] && m.files == old(m.files)
      {
        var fullPath := AppendPath(applicationsPath, paths[i]);
        if HasSuffix(fullPath, ".app") {
          var universal := IsAppUniversal(m, fullPath);
          NeverUniversalForEmptyTarget(m, m.files, fullPath);
          if universal {
            universalBinaryApps := universalBinaryApps + [fullPath];
          }
        }
        i := i + 1;
      }
    }

    /** The app's `produceSortedList(systemArch:maxConcurrentProcesses:)`: the apps
        found, with a positive estimate, larger savings first. Since nothing is
        found, the list is empty. */
    method ProduceSortedList(m: Machine, systemArch: string) returns (sorted: seq<(string, nat)>)
      modifies m, fileOperations.appState
      ensures sorted == []
    {
      var universalBinaryApps := FindUniversalBinaryApps(m);
      var appSizes := SizeApps(m, systemArch, universalBinaryApps, AppEstimates(m, m.files, systemArch));
      sorted := SortBy(appSizes, BiggerFirst);
    }

    /** The tasks of the app's `produceSortedList`, run one after the other: each
        found app with a positive estimate, with it. */
    method SizeApps(m: Machine, systemArch: string, universalBinaryApps: seq<string>, ghost est: string -> nat)
      returns (appSizes: seq<(string, nat)>)
      requires EstimatesApps(m, m.files, systemArch, est)
      modifies m, fileOperations.appState
      ensures appSizes == KeptBy(universalBinaryApps, est)
      ensures m.files == old(m.files)
    {
      appSizes := [];
      var i := 0;
      while i < |universalBinaryApps|
        invariant 0 <= i <= |universalBinaryApps| && m.files == old(m.files)
        invariant appSizes == KeptBy(universalBinaryApps[..i], est)
      {
        var size := AppTerm(m, universalBinaryApps[i], systemArch, est);
        if size > 0 {
          appSizes := appSizes + [(universalBinaryApps[i], size)];
        }
        assert universalBinaryApps[..i + 1][..i] == universalBinaryApps[..i];
        i := i + 1;
      }
      assert universalBinaryApps[..i] == universalBinaryApps;
    }

    /** The helper's `findUniversalBinaryApps()`: the top level of `/Applications`,
        default apps excluded, an app reported on the first executable for which the
        host architecture selects a slice. */
    method FindUniversalTopLevelApps(m: Machine, hostArch: string) returns (universalBinaryApps: seq<string>)
      modifies m, fileOperations.appState
      ensures universalBinaryApps == QualifyingApps(m,
        m.Contents("/Applications").GetOr([]),
        ListedNames(m, "/System/Applications") + ListedNames(m, "/System/Applications/Utilities"),
        hostArch)
      ensures m.files == old(m.files)
    {
      var defaultMacOSApps := FetchDefaultMacOSApps(m);
      universalBinaryApps := SearchApplications(m, defaultMacOSApps, hostArch, app => Qualifies(m, app, defaultMacOSApps, hostArch));
    }

    /** The loop over the top level of `/Applications`, for a `q` that tells which
        names qualify. */
    method SearchApplications(m: Machine, defaultMacOSApps: set<string>, hostArch: string, ghost q: string -> bool)
      returns (universalBinaryApps: seq<string>)
      requires QualifierOf(m, defaultMacOSApps, hostArch, q)
      modifies m, fileOperations.appState
      ensures universalBinaryApps == Selected(m.Contents("/Applications").GetOr([]), q)
      ensures m.files == old(m.files)
    {
      universalBinaryApps := [];
      var applicationsPath := "/Applications";
      var listing := m.Contents(applicationsPath);
      var apps := listing.GetOr([]);
      var i := 0;
      while i < |apps|
        invariant 0 <= i <= |apps| && m.files == old(m.files)
        invariant universalBinaryApps == Selected(apps[..i], q)
      {
        var appPath := AppendPath(applicationsPath, apps[i]);
        var found := AppQualifies(m, apps[i], defaultMacOSApps, hostArch, q);
        if found {
          universalBinaryApps := universalBinaryApps + [appPath];
        }
        assert apps[..i + 1][..i] == apps[..i];
        i := i + 1;
      }
      assert apps[..|apps|] == apps;
    }

    /** The body of the search for one name of `/Applications`. */
    method AppQualifies(m: Machine, app: string, defaultMacOSApps: set<string>, hostArch: string, ghost q: string -> bool)
      returns (found: bool)
      requires QualifierOf(m, defaultMacOSApps, hostArch, q)
      modifies m, fileOperations.appState
      ensures found == q(app)
      ensures m.files == old(m.files)
    {
      var appPath := AppendPath("/Applications", app);
      found := false;
      if HasSuffix(appPath, ".app") && app !in defaultMacOSApps {
        var macOSPath := AppendPath(appPath, "Contents/MacOS");
        found := HasUniversalExecutable(m, macOSPath, hostArch);
      }
      assert found == Qualifies(m, app, defaultMacOSApps, hostArch);
    }

    /** The inner loop of the helper's search, up to its `break`. */
    method HasUniversalExecutable(m: Machine, macOSPath: string, hostArch: string) returns (found: bool)
      modifies m, fileOperations.appState
      ensures found == HasChosenExecutable(m, macOSPath, hostArch)
      ensures m.files == old(m.files)
    {
      var listing := m.Contents(macOSPath);
      if listing.None? {
        return false;
      }
      found := FirstChosen(m, macOSPath, hostArch, listing.value, ChosenIn(m, macOSPath, hostArch));
      ChosenInListing(m, macOSPath, hostArch);
    }

    /** The loop over the executables, for a `picks` that tells for which of them a
        slice is chosen. */
    method FirstChosen(m: Machine, macOSPath: string, hostArch: string, executables: seq<string>, ghost picks: string -> bool)
      returns (found: bool)
      requires PicksChosen(m, macOSPath, hostArch, picks)
      modifies m, fileOperations.appState
      ensures found <==> exists k :: 0 <= k < |executables| && picks(executables[k])
      ensures m.files == old(m.files)
    {
      var i := 0;
      while i < |executables|
        invariant 0 <= i <= |executables| && m.files == old(m.files)
        invariant forall k :: 0 <= k < i ==> !picks(executables[k])
      {
        var chosen := IsChosen(m, macOSPath, hostArch, executables[i], picks);
        if chosen {
          return true;
        }
        i := i + 1;
      }
      return false;
    }

    /** One pass of that loop: `isUniversal` on one executable. */
    method IsChosen(m: Machine, macOSPath: string, hostArch: string, executable: string, ghost picks: string -> bool)
      returns (chosen: bool)
      requires PicksChosen(m, macOSPath, hostArch, picks)
      modifies m, fileOperations.appState
      ensures chosen == picks(executable)
      ensures m.files == old(m.files)
    {
      var executablePath := AppendPath(macOSPath, executable);
      ghost var w := m.At(fileOperations.appState.logBuffer);
      var arch := fileOperations.IsUniversal(m, executablePath, hostArch);
      IsUniversalFacts(m, w, executablePath, hostArch, fileOperations.inHelper);
      assert arch == ChosenSlice(m, executablePath, hostArch);
      chosen := arch.Some?;
    }

    /** The helper's `produceSortedList(systemArch:progressHandler:completion:)`.
        `progress` lists the handler's calls: before and after each app, with the
        count of apps done so far and the total. `sorted` is what `completion`
        receives: the apps with a positive estimate, larger savings first. */
    method ProduceSortedListWithProgress(m: Machine, systemArch: string, hostArch: string)
      returns (progress: seq<(string, nat, nat)>, sorted: seq<(string, nat)>)
      modifies m, fileOperations.appState
      ensures var apps := QualifyingApps(m,
          m.Contents("/Applications").GetOr([]),
          ListedNames(m, "/System/Applications") + ListedNames(m, "/System/Applications/Utilities"),
          hostArch);
        |progress| == 2 * |apps| &&
        (forall k :: 0 <= k < |apps| ==>
          progress[2 * k] == (apps[k], k, |apps|) && progress[2 * k + 1] == (apps[k], k + 1, |apps|)) &&
        SortedBy(sorted, BiggerFirst) &&
        multiset(sorted) == multiset(KeptBy(apps, AppEstimates(m, m.files, systemArch)))
      ensures m.files == old(m.files)
    {
      var universalBinaryApps := FindUniversalTopLevelApps(m, hostArch);
      var appSizes;
      progress, appSizes := RankApps(m, systemArch, universalBinaryApps, AppEstimates(m, m.files, systemArch));
      BiggerFirstIsStrict();
      SortBySorted(appSizes, BiggerFirst);
      sorted := SortBy(appSizes, BiggerFirst);
    }

    /** The loop of the helper's `produceSortedList`, for an `est` giving the
        estimate of each app. */
    method RankApps(m: Machine, systemArch: string, universalBinaryApps: seq<string>, ghost est: string -> nat)
      returns (progress: seq<(string, nat, nat)>, appSizes: seq<(string, nat)>)
      requires EstimatesApps(m, m.files, systemArch, est)
      modifies m, fileOperations.appState
      ensures |progress| == 2 * |universalBinaryApps|
      ensures forall k :: 0 <= k < |universalBinaryApps| ==>
        progress[2 * k] == (universalBinaryApps[k], k, |universalBinaryApps|) &&
        progress[2 * k + 1] == (universalBinaryApps[k], k + 1, |universalBinaryApps|)
      ensures appSizes == KeptBy(universalBinaryApps, est)
      ensures m.files == old(m.files)
    {
      appSizes := [];
      var totalApps := |universalBinaryApps|;
      var processedApps := 0;
      progress := [];
      while processedApps < totalApps
        invariant 0 <= processedApps <= totalApps && m.files == old(m.files)
        invariant appSizes == KeptBy(universalBinaryApps[..processedApps], est)
        invariant |progress| == 2 * processedApps
        invariant forall k :: 0 <= k < processedApps ==>
          progress[2 * k] == (universalBinaryApps[k], k, totalApps) &&
          progress[2 * k + 1] == (universalBinaryApps[k], k + 1, totalApps)
      {
        var app := universalBinaryApps[processedApps];
        progress := progress + [(app, processedApps, totalApps)];
        var size := AppTerm(m, app, systemArch, est);
        if size > 0 {
          appSizes := appSizes + [(app, size)];
        }
        assert universalBinaryApps[..processedApps + 1][..processedApps] == universalBinaryApps[..processedApps];
        processedApps := processedApps + 1;
        progress := progress + [(app, processedApps, totalApps)];
      }
      assert universalBinaryApps[..totalApps] == universalBinaryApps;
    }

    /** The estimate of one app, its progress reports dropped. */
    method AppTerm(m: Machine, app: string, systemArch: string, ghost est: string -> nat) returns (size: nat)
      requires EstimatesApps(m, m.files, systemArch, est)
      modifies m, fileOperations.appState
      ensures size == est(app)
      ensures m.files == old(m.files)
    {
      var totalSize, _ := CalculateUnneededArchSize(m, app, systemArch);
      size := totalSize;
    }
  }
}

=== FILE: universal_apps_view.dfy ===
/** The universal-apps screen (archify/UniversalAppsView.swift): its view model's
    loading state, the search / type filter and sort order, and the badge colour of
    an app's type. The list of apps found is an input here: the search that produces
    it is not part of this model. */
module UniversalAppsView {
  import opened Text
  import opened Sorting

  /** `AppInfo` without its generated `id` and its icon. */
  datatype AppInfo = AppInfo(name: string, path: string, appType: string, architectures: string)

  /** `UniversalAppsViewModel.SortOrder`. */
  datatype SortOrder = NameAscending | NameDescending | ByType

  /** `SortOrder.description`, the label of each order in the picker. */
  function Description(order: SortOrder): string {
    match order
    case NameAscending => "Name (A-Z)"
    case NameDescending => "Name (Z-A)"
    case ByType => "Type"
  }

  /** No two orders share a label. */
  lemma DescriptionsDistinct(a: SortOrder, b: SortOrder)
    ensures Description(a) == Description(b) ==> a == b
    ensures Description(NameAscending) == "Name (A-Z)" && Description(NameDescending) == "Name (Z-A)"
    ensures Description(ByType) == "Type"
  {
  }

  /** `UniversalAppsViewModel.AppType` and its raw values. */
  datatype AppType = All | Universal | Native | Other

  /** Every raw value is a non-empty lower-case word, and only `.all` has "all". */
  function RawValue(t: AppType): (r: string)
    ensures r != [] && Lower(r) == r
    ensures r == "all" <==> t == All
  {
    match t
    case All => "all"
    case Universal => "universal"
    case Native => "native"
    case Other => "other"
  }

  /** The search part of the filter: an empty search keeps every app, otherwise the
      lowercased name must contain the lowercased search text. */
  predicate MatchesSearch(searchText: string, app: AppInfo) {
    searchText == [] || Contains(Lower(app.name), Lower(searchText))
  }

  /** The type part of the filter: `.all` keeps every app, otherwise the lowercased
      type must equal the lowercased raw value. */
  predicate MatchesType(selectedType: AppType, app: AppInfo) {
    selectedType == All || Lower(app.appType) == Lower(RawValue(selectedType))
  }

  /** An app is listed when it passes both parts. */
  predicate Shown(searchText: string, selectedType: AppType, app: AppInfo) {
    MatchesSearch(searchText, app) && MatchesType(selectedType, app)
  }

  /** The comparison handed to `sorted`: names with `<` or `>`, or types with `<`. */
  function Before(order: SortOrder): (AppInfo, AppInfo) -> bool {
    match order
    case NameAscending => (a: AppInfo, b: AppInfo) => LexLess(a.name, b.name)
    case NameDescending => (a: AppInfo, b: AppInfo) => LexLess(b.name, a.name)
    case ByType => (a: AppInfo, b: AppInfo) => LexLess(a.appType, b.appType)
  }

  /** Each of the three comparisons is a strict weak order. */
  lemma BeforeIsStrict(order: SortOrder)
    ensures StrictWeakOrder(Before(order))
  {
    var lt := Before(order);
    forall a | true
      ensures !lt(a, a)
    {
      LexLessIrreflexive(a.name);
      LexLessIrreflexive(a.appType);
    }
    forall a, b, c | lt(a, b) && lt(b, c)
      ensures lt(a, c)
    {
      match order
      case NameAscending => LexLessTransitive(a.name, b.name, c.name);
      case NameDescending => LexLessTransitive(c.name, b.name, a.name);
      case ByType => LexLessTransitive(a.appType, b.appType, c.appType);
    }
    forall a, b, c
      ensures Splits(lt, a, b, c)
    {
      if lt(a, c) {
        match order
        case NameAscending => LexLessSplits(a.name, b.name, c.name);
        case NameDescending => LexLessSplits(c.name, b.name, a.name);
        case ByType => LexLessSplits(a.appType, b.appType, c.appType);
      }
    }
  }

  /** Both parts of the filter as a filter over apps. */
  function ShownBy(searchText: string, selectedType: AppType): AppInfo -> bool {
    app => Shown(searchText, selectedType, app)
  }

  /** `filteredAndSortedApps`: the apps that pass the search and the type filter,
      each as often as in `apps`, ordered by the chosen comparison; apps tied under
      it (the same type, for `ByType`) keep the order they have in `apps`, since
      `sorted` is stable. */
  function FilteredAndSortedApps(apps: seq<AppInfo>, searchText: string, selectedType: AppType, order: SortOrder)
    : (r: seq<AppInfo>)
    ensures forall app :: multiset(r)[app] == if Shown(searchText, selectedType, app) then multiset(apps)[app] else 0
    ensures forall app :: app in r <==> app in apps && Shown(searchText, selectedType, app)
    ensures SortedBy(r, Before(order))
    ensures forall e ::
              Filter(r, TiedWith(Before(order), e)) ==
              Filter(apps, Both(ShownBy(searchText, selectedType), TiedWith(Before(order), e)))
  {
    var filtered := Filter(apps, ShownBy(searchText, selectedType));
    BeforeIsStrict(order);
    SortBySorted(filtered, Before(order));
    FilterThenSortStable(apps, ShownBy(searchText, selectedType), Before(order));
    var r := SortBy(filtered, Before(order));
    assert forall app :: app in r <==> app in multiset(r);
    assert forall app :: app in filtered <==> app in multiset(filtered);
    r
  }

  /** The raw values are already lower case, so a type filter other than `.all`
      keeps exactly the apps whose type reads the same ignoring case. */
  lemma TypeFilterIgnoresCase(selectedType: AppType, app: AppInfo)
    requires selectedType != All
    ensures MatchesType(selectedType, app) <==> Lower(app.appType) == RawValue(selectedType)
  {
  }

  /** The colour of a type badge. */
  datatype Color = Green | Blue | Gray

  /** `backgroundColor(for:)`: green for "universal" and blue for "native", ignoring
      case; gray for anything else. */
  function BackgroundColor(appType: string): (c: Color)
    ensures c == Green <==> Lower(appType) == "universal"
    ensures c == Blue <==> Lower(appType) == "native"
  {
    var t := Lower(appType);
    if t == "universal" then Green
    else if t == "native" then Blue
    else Gray
  }

  /** The badge agrees with the type filter: an app is green exactly when the
      `.universal` filter shows it, and blue exactly when the `.native` one does. */
  lemma BadgeAgreesWithTypeFilter(app: AppInfo)
    ensures BackgroundColor(app.appType) == Green <==> MatchesType(Universal, app)
    ensures BackgroundColor(app.appType) == Blue <==> MatchesType(Native, app)
  {
    TypeFilterIgnoresCase(Universal, app);
    TypeFilterIgnoresCase(Native, app);
  }

  /** The view model's loading state: the apps shown, whether a search is running,
      whether a first load has finished, and how many searches were started. */
  datatype Loading = Loading(apps: seq<AppInfo>, isLoading: bool, hasLoaded: bool, searches: nat)

  /** `loadApps()`: nothing once a load has finished; otherwise a search starts. */
  function LoadAppsSpec(s: Loading): Loading {
    if s.hasLoaded then s else s.(isLoading := true, searches := s.searches + 1)
  }

  /** The completion of a search started by `loadApps()`. */
  function LoadFinishedSpec(s: Loading, found: seq<AppInfo>): Loading {
    s.(apps := found, isLoading := false, hasLoaded := true)
  }

  /** `reloadApps()`: a search starts whatever the state. */
  function ReloadAppsSpec(s: Loading): Loading {
    s.(isLoading := true, searches := s.searches + 1)
  }

  /** The completion of a search started by `reloadApps()`: `hasLoaded` is left alone. */
  function ReloadFinishedSpec(s: Loading, found: seq<AppInfo>): Loading {
    s.(apps := found, isLoading := false)
  }

  /** Once a load has finished, `loadApps()` starts no search and changes nothing. */
  lemma LoadOnlyOnce(s: Loading, found: seq<AppInfo>)
    ensures LoadAppsSpec(LoadFinishedSpec(s, found)) == LoadFinishedSpec(s, found)
    ensures LoadAppsSpec(s).searches == if s.hasLoaded then s.searches else s.searches + 1
  {
  }

  /** A reload always searches again, shows what it found, and never marks the
      model as loaded. */
  lemma ReloadAlwaysSearches(s: Loading, found: seq<AppInfo>)
    ensures ReloadAppsSpec(s).searches == s.searches + 1
    ensures ReloadFinishedSpec(ReloadAppsSpec(s), found).apps == found
    ensures ReloadFinishedSpec(ReloadAppsSpec(s), found).hasLoaded == s.hasLoaded
  {
  }

  class UniversalAppsViewModel {
    var apps: seq<AppInfo>
    var isLoading: bool
    var searchText: string
    var sortOrder: SortOrder
    var selectedType: AppType
    var hasLoaded: bool
    /** How many app searches this model has started. */
    var searches: nat

    constructor ()
      ensures apps == [] && isLoading && searchText == "" && sortOrder == NameAscending
      ensures selectedType == All && !hasLoaded && searches == 0
    {
      apps := [];
      isLoading := true;
      searchText := "";
      sortOrder := NameAscending;
      selectedType := All;
      hasLoaded := false;
      searches := 0;
    }

    function State(): Loading
      reads this
    {
      Loading(apps, isLoading, hasLoaded, searches)
    }

    /** `loadApps()`, up to the start of the search. */
    method LoadApps()
      modifies this
      ensures State() == LoadAppsSpec(old(State()))
      ensures searchText == old(searchText) && sortOrder == old(sortOrder) && selectedType == old(selectedType)
    {
      if hasLoaded {
        return;
      }
      isLoading := true;
      searches := searches + 1;
    }

    /** The main-queue block `loadApps()` schedules when the search returns. */
    method LoadFinished(found: seq<AppInfo>)
      modifies this
      ensures State() == LoadFinishedSpec(old(State()), found)
      ensures searchText == old(searchText) && sortOrder == old(sortOrder) && selectedType == old(selectedType)
    {
      apps := found;
      isLoading := false;
      hasLoaded := true;
    }

    /** `reloadApps()`, up to the start of the search. */
    method ReloadApps()
      modifies this
      ensures State() == ReloadAppsSpec(old(State()))
      ensures searchText == old(searchText) && sortOrder == old(sortOrder) && selectedType == old(selectedType)
    {
      isLoading := true;
      searches := searches + 1;
    }

    /** The main-queue block `reloadApps()` schedules when the search returns. */
    method ReloadFinished(found: seq<AppInfo>)
      modifies this
      ensures State() == ReloadFinishedSpec(old(State()), found)
      ensures searchText == old(searchText) && sortOrder == old(sortOrder) && selectedType == old(selectedType)
    {
      apps := found;
      isLoading := false;
    }
  }
}

=== FILE: wrappers.dfy ===
/** Optional values and fallible results, as the Swift code uses `String?`,
    `try`/`throw` and completion pairs `(Bool, String?)`. */
module Wrappers {

  datatype Option<+T> = None | Some(value: T) {
    /** Swift's `x ?? default`. */
    function GetOr(default: T): T {
      match this
      case Some(v) => v
      case None => default
    }
  }

  datatype Result<+R, +E> = Success(value: R) | Failure(error: E)
}
